=== FILE: README.md ===
# FinancialPlanning in Dafny

A model of the calculation core of FinancialPlanning, a Python projector of personal finances over a multi-year plan. The project covers the following parts.

- **Legacy projector.** It walks the plan years of a UK career (scenario A or B), a career abroad, or a UK career followed by a move abroad. Each year it updates one mutable scenario state (salary, RSU pool, home, mortgage, savings) and appends one data point.
- **Template engine.** It resolves scenario templates with `extends`/`overrides` inheritance and a template cache. It validates the resolved configuration, lays phases over the plan years, and computes a plan year of income, expenses, housing and investments from the phase templates. Year-keyed rates use lists, exact years, ranges `a-b` and open ranges `n+`.
- **Tax rules.**
  - UK: income tax with the personal-allowance taper, National Insurance, the Plan 2 student loan, and the ISA/LISA/SIPP/GIA allocation.
  - US: federal income tax, FICA, and the New York State and City taxes.
  - UAE: no personal income tax.
  - Tax lookup by location.
- **Data models.**
  - The legacy `FinancialDataPoint`/`FinancialScenario`.
  - The unified, currency-aware model, where every amount carries its GBP equivalent.
  - The converters between the two, and the builders of both from table rows.
- **Dashboard logic.** The pure computations behind the pages:
  - scenario filters and catalogue, headline metrics, the KPI panel and the performance ranking;
  - the income and expense breakdown metrics;
  - formatting and parsing of amounts, percentages and names, and input validation;
  - the performance monitors, the currency-conversion cache, the data access optimiser and the YAML name/tax-system mapping.

Money is modelled as `real`. Mutable objects are Dafny classes whose fields the methods update: the scenario state, scenarios with their data points, monitors, caches and the template engine's cache. Loops in the source are methods with loop invariants, proved against recursive specification functions. Python exceptions (`KeyError`, `ValueError`, `ZeroDivisionError`) are `Err` results. Clock readings, system metrics and file contents are parameters.

## Model

| member | source | states |
|---|---|---|
| Common.InflationMultiplier | utils/common.py:6-9 | Fails exactly when the inflation path has no "default" entry, which is looked up eagerly. Otherwise it is 1 plus the year's rate, or 1 plus the default rate for an unlisted year |
| Common.UsdToGbp | utils/common.py:11-13 | The GBP amount times the rate gives back the USD amount |
| Common.GbpToUsd | utils/common.py:15-17 | For a non-zero rate, the USD amount divided by the rate is the GBP amount |
| Common.CurrencyRoundTrip | utils/common.py:11-17 | Converting to GBP and back, or to USD and back, returns the original amount for any non-zero rate |
| Common.MortgagePayment | utils/common.py:19-28 | Fails exactly on a zero term (division by zero). With a non-positive rate the payments sum to the principal; with a positive rate it is the annuity at the monthly rate over 12 × term payments |
| Common.BalanceClosedForm | utils/common.py:19-28 | The balance after k monthly payments has the closed form b·(1+r)^k − p·((1+r)^k − 1)/r (stated multiplied through by r) |
| Common.ClosedFormStep | utils/common.py:19-28 | The closed form for k−1 months carries over to k months |
| Common.AnnuityEquation | utils/common.py:25 | For a positive rate and term, the annuity satisfies payment·((1+r)^n − 1) = principal·r·(1+r)^n, and (1+r)^n > 1 |
| Common.AnnuityPaysOffLoan | utils/common.py:19-28 | With a positive rate and term, paying the computed monthly payment for the whole term leaves a zero balance |
| Common.AnnuityExceedsInterest | utils/common.py:19-28 | With a positive rate, term and principal, the monthly payment exceeds the first month's interest, so the balance falls |
| Common.HouseEquity | utils/common.py:30-32 | Equity is never negative, is at least value minus balance, and equals 0 or value minus balance |
| Common.MissingKeys | utils/common.py:42 | Holds exactly the required keys absent from the configuration, and is no longer than the required list |
| Common.ValidateConfig | utils/common.py:34-46 | Returns true exactly when every required key is present. Otherwise its error lists exactly the missing required keys |
| Rates.ParseDigits | config/template_engine.py:704 | Yields a value exactly for a non-empty run of decimal digits, as `int()` accepts, and that value is the digits read left to right |
| Rates.ParseDigitsOfNatToString | config/template_engine.py:704 | Reading back the decimal text of a natural number gives that number |
| Rates.ParseIntOfNatToString | config/template_engine.py:710-716 | `int(str(n)) == n` for every natural number n |
| Rates.GetRate | config/template_engine.py:695-708 | List form: the entry at year−1 when the year is within the list, else the default. A result that exists is a value whenever the default is one |
| Rates.FirstRate | config/template_engine.py:700-708 | Scanning the dictionary never loses a value when a default is given |
| Rates.FirstMatchWins | config/template_engine.py:700-708 | The first dictionary entry whose key selects the year gives the rate, whatever entries follow it |
| Rates.NoMatchGivesDefault | config/template_engine.py:700-708 | When no key selects the year and none fails to parse, the default is returned |
| Rates.RangeKeyIsInclusive | config/template_engine.py:702-704 | A key "a-b" selects exactly the years a to b, both ends included |
| Rates.OpenKeyIsFrom | config/template_engine.py:705 | A key "n+" selects exactly the years from n on |
| Rates.IntKeyIsExact | config/template_engine.py:706 | An integer key selects only its own year |
| Rates.InRangeOpen | config/template_engine.py:710-712 | `_in_range` with "n+" holds exactly for years at or after n |
| Rates.InRangeInclusive | config/template_engine.py:710-715 | `_in_range` with "a-b" holds exactly for a ≤ year ≤ b |
| Rates.InRangeExact | config/template_engine.py:710-716 | `_in_range` with a bare number holds exactly for that year |
| Rates.YearInPhase | config/template_engine.py:814-834 | The first year specification present decides: an exact `year`, a closed `start_year`/`end_year` span, or an open `start_year`. With no specification every year is in the phase |
| Rates.YearsRangeIsInclusive | config/template_engine.py:824-828 | A `years` range "a-b" covers a to b inclusive |
| Goals.Personal | utils/uk_tax.py:101 | The plan year's personal-expense entry times inflation, or the `default` entry times inflation for an unlisted year |
| Goals.ParentalSupport | utils/uk_tax.py:104 | The after-house amount from the house-purchase year on, the before-house amount earlier, both inflated |
| Goals.UniversityPayment | utils/uk_tax.py:111-113 | The configured amount, un-inflated, in the configured year only. Zero in every other year |
| Goals.Marriage | utils/uk_tax.py:116-118 | Zero outside the marriage years. Inside the inclusive range, the cost times the number of years is the total budget |
| Goals.MarriageSumsToTotal | utils/uk_tax.py:116-118 | The yearly marriage costs over the whole range add up to the total budget |
| Goals.MarriagePartialSum | utils/uk_tax.py:116-118 | After the first k years of the range, the costs paid are k equal shares of the budget |
| Goals.Child | utils/uk_tax.py:120-124 | Zero before the start year, the un-inflated one-off cost in it, and the inflated ongoing cost after it |
| Phases.GetPhaseForYear | config/template_engine.py:468-473 | Fails exactly when no phase's span holds the year. Otherwise it returns the first phase in the list whose span holds the year |
| Phases.EveryYearHasAPhase | config/template_engine.py:150-190 | With phases laid end to end from year `from`, every year in [from, from + total duration) finds a phase |
| Phases.AppendLaidEndToEnd | config/template_engine.py:174-188 | A phase that starts at `current_year` and ends `duration − 1` years later extends a schedule laid end to end, and adds its duration to the total |
| Phases.TotalDurationFront | config/template_engine.py:150-190 | The total duration is the first phase's duration plus the total of the rest |
| Phases.PhaseForYearIsUnique | config/template_engine.py:468-473 | With positive durations, spans laid end to end do not overlap, so the lookup returns the one phase whose span holds the year |
| Phases.StartsIncrease | config/template_engine.py:150-190 | With positive durations, each phase ends before every later phase starts |
| UkTax.TaperedAllowance | utils/tax/uk_tax.py:22-24 | The allowance is unchanged up to the taper threshold. Above it, the allowance is reduced by half the excess and floored at zero. A non-negative allowance stays within [0, allowance] |
| UkTax.CascadeIsSlices | utils/tax/uk_tax.py:30-37 | The top-down cascade (additional, then higher, then basic) equals the sum of the three band slices |
| UkTax.ThresholdsOrdered | utils/tax/uk_tax.py:9-19 | With ordered configured bands and non-negative inflation, the allowance, basic limit and higher limit of every year are ordered and non-negative, inflated or frozen |
| UkTax.IncomeTaxIsSumOfBands | utils/tax/uk_tax.py:6-37 | Income tax is basic rate on taxable income up to (basic limit − allowance), higher rate up to (higher limit − allowance), and additional rate above. Same definition in utils/uk_tax.py:6-48 |
| UkTax.SumOfBandsWith | utils/tax/uk_tax.py:22-37 | The band-sum reading of income tax for any ordered thresholds |
| UkTax.TaxedSlices | utils/tax/uk_tax.py:26-37 | The band arithmetic once the allowance and the two limits are fixed |
| UkTax.NoIncomeTaxWithinAllowance | utils/tax/uk_tax.py:26-30 | No income tax while income is within the (tapered) allowance |
| UkTax.BasicRateBand | utils/tax/uk_tax.py:26-37 | Between the allowance and the basic-rate limit, tax is the basic rate on the excess over the allowance |
| UkTax.BasicBandWith | utils/tax/uk_tax.py:26-37 | The basic-band result for any ordered thresholds |
| UkTax.NationalInsurance | utils/tax/uk_tax.py:40-46 | With ordered NI bands: zero at or below the primary threshold, otherwise main rate × (min(income, UEL) − PT) + upper rate × max(0, income − UEL). It is non-negative for non-negative rates and does not depend on the year |
| UkTax.TaxAndNi | utils/tax/uk_tax.py:6-48 | The pair is (income tax, NI). Income tax is zero within the allowance. Same definition in utils/uk_tax.py:6-48 |
| UkTax.WorkedExample | utils/tax/uk_tax.py:6-37 | 45000 of income in 2025, before the freeze ends (allowance 12570, basic limit 50270, basic rate 20%), gives 6486 of income tax |
| UkTax.LoanRepayment | utils/tax/uk_tax.py:55-57 | Zero at or below the threshold, the repayment rate on the excess above it, and never negative for a non-negative rate |
| UkTax.LoanInterestRate | utils/tax/uk_tax.py:60-68 | RPI at or below the lower threshold, RPI plus the full premium at or above the upper one; in between the premium is the full premium scaled by how far income lies between the thresholds; always within [RPI, RPI + premium] |
| UkTax.LoanInterestRateMonotone | utils/tax/uk_tax.py:60-68 | More income never lowers the interest rate |
| UkTax.StudentLoan | utils/tax/uk_tax.py:50-73 | The repayment, and a new balance that rises by the interest and falls by the repayment, not floored at zero. Same definition in utils/uk_tax.py:50-73 |
| UkTax.InvestmentAllocation | utils/tax/uk_tax.py:75-97 | LISA, ISA, SIPP and GIA add up to max(0, savings). Each capped vehicle stays within its own allowance. A later vehicle gets money only once the earlier one is full. The LISA bonus is LISA × bonus rate |
| UkTax.Expenses | utils/tax/uk_tax.py:99-118 | Rent, healthcare and general expenses total (monthly sum) × 12 × inflation, each non-negative, with a zero retirement contribution. The US and UAE expense helpers are the same function (utils/tax/us_tax.py:87-106, utils/tax/uae_tax.py:11-30 and their copies under utils/) |
| UkTaxLegacy.InvestmentAllocation | utils/uk_tax.py:75-96 | The older allocation with a shared ISA/LISA allowance. The vehicles still add up to max(0, savings). The ISA is capped at the ISA allowance minus the LISA. The LISA bonus is LISA × bonus rate |
| UkTaxLegacy.SharedCapNeverExceedsSeparate | utils/uk_tax.py:75-96 | The shared cap gives the same LISA and never more ISA than the separate-allowance version in utils/tax/uk_tax.py:75-97 |
| UkTaxLegacy.Expenses | utils/uk_tax.py:98-134 | Each line of the older UK expenses: rent only from its start year, inflated travel, and the goal lines of `Goals` |
| UsTax.FederalTaxable | utils/tax/us_tax.py:15-16 | Taxable income is max(0, gross − 15000) |
| UsTax.FederalTaxByScan | utils/tax/us_tax.py:19-33 | The bracket scan (stop at the first bracket whose limit is not below the taxable income) computes the recursive federal-tax definition. Same in utils/us_tax.py:19-33 |
| UsTax.FederalTaxInBracket | utils/tax/us_tax.py:29-33 | Income above the previous limit and within bracket i's limit is taxed as base_i + (taxable − previous limit) × rate_i |
| UsTax.FederalTaxNonNegative | utils/tax/us_tax.py:19-33 | Federal tax is never negative for non-negative taxable income |
| UsTax.FederalTaxDropsAt394600 | utils/tax/us_tax.py:23-25 | The table's bases are not running totals: the tax is 106381.50 at 394600 and 104755.85 at 394601 |
| UsTax.Fica | utils/tax/us_tax.py:37-43 | Non-negative for non-negative wages. Up to 200000 it is 6.2% of wages up to 176100 plus 1.45% of all wages; above 200000 it is 6.2% of 176100, 1.45% of all wages and 0.9% of wages above 200000 |
| UsTax.NewYorkStateTaxIsBandSum | utils/tax/us_tax.py:54-68 | The state table is the band-by-band sum up to 80650. Above it, the rounded 4271 starting point adds 0.25 to the band sum |
| UsTax.NewYorkCityTaxIsBandSum | utils/tax/us_tax.py:72-81 | The city table equals the band-by-band sum, so it is continuous at 12000, 25000 and 50000 |
| UsTax.UsTax | utils/tax/us_tax.py:6-84 | Federal tax plus FICA, plus the state and city tables only for "us_federal_state_city". It does not depend on the year. Same in utils/us_tax.py:6-84 |
| UsTax.UsTaxNonNegative | utils/tax/us_tax.py:6-84 | The total is never negative for non-negative income |
| UsTax.RetirementContribution | utils/tax/us_tax.py:108-110 | Exactly the salary times the location's rate; non-negative, and no more than the salary for a rate of at most 1 |
| UsTax.InvestmentAllocation | utils/tax/us_tax.py:112-117 | The total investment is the savings unchanged. The UAE allocation (utils/tax/uae_tax.py:32-37) is the same |
| UaeTax.IncomeTax | utils/tax/uae_tax.py:6-9 | Zero for every income. Same in utils/uae_tax.py:6-9 |
| TaxUtils.TaxForLocation | utils/tax/tax_utils.py:18-72 | UK: the UK income tax and NI. Seattle and New York: the US total split into FICA (6.2% to 176100 plus 1.45%) and the rest. Dubai and unknown locations: no income tax or social security. Every total adds the Plan 2 repayment |
| TaxUtils.UsSplitSeparatesFica | utils/tax/tax_utils.py:49-61 | Up to 200000 the split's social-security part is exactly the US FICA, so Seattle's income-tax part is the federal tax alone |
| TaxUtils.DubaiPaysOnlyTheLoan | utils/tax/tax_utils.py:63-67 | In Dubai the total tax is the student-loan repayment alone, and zero at or below the threshold |
| TaxUtils.BreakdownCurrency | utils/tax/tax_utils.py:116-124 | USD at the configured rate (default 1.26) for Seattle, New York and Dubai, GBP at 1 for every other location |
| TaxUtils.BreakdownOf | utils/tax/tax_utils.py:113-131 | Fails exactly for a zero rate in a foreign currency. Otherwise the four lines carry the income tax, social security, zero property tax and the remainder, and their GBP equivalents add up to the total converted at the rate |
| TaxUtils.TaxBreakdownForLocation | utils/tax/tax_utils.py:75-131 | Fails exactly when a location abroad has a zero exchange rate. Otherwise the "other taxes" line is exactly the student-loan repayment |
| TaxUtils.TaxMultiplier | utils/tax/tax_utils.py:134-152 | 0 for Dubai, 1.2 for Seattle and New York, 1 for every other location |
| TaxUtils.CalculateUniversalGoals | utils/tax/tax_utils.py:205-251 | Each goal line follows the same rule as the legacy UK expenses: university, marriage, child, personal, parental support and travel |
| TaxUtils.UniversalGoalsPlusRentIsUkExpenses | utils/tax/tax_utils.py:205-251 | The legacy UK expenses total is the universal goals total plus rent |
| ScenarioHelpers.ScenarioState.constructor | utils/scenario_helpers.py:11-28 | Every amount starts at zero, except that the student-loan balance is the configured debt. There are no RSU grants, and the parental, UK and local homes are all empty |
| ScenarioHelpers.ScenarioState.HomeFor | utils/scenario_helpers.py:143-214 | "uk_home" tracks the UK home and "local_home" the local home. Any other strategy tracks no home |
| ScenarioHelpers.ScenarioState.International | financial_planner_pydantic.py:146 | The international run's two-entry state: zero investments and unvested equity, no grants, and no home entries (reading one is a missing key) |
| ScenarioHelpers.ScenarioState.VestScenarioA | utils/scenario_helpers.py:61-81 | Appends exactly one grant, of a fifth of the salary over four years, iff the plan year is at least 3. Vested is the multiplier times the tranches of grants already made, with no end-year filter. Unvested counts max(0, end − year + 1) remaining vests per grant. Every other state field is unchanged |
| ScenarioHelpers.ScenarioState.MortgageAndHouseEquity | utils/scenario_helpers.py:114-141 | Fails exactly when the payment is due on a zero term. The annual payment is 0 before target year + 1 and the level annuity after. In the purchase year the home is bought; later years revalue it and pay it down. Before target year + 1, the parental home is untouched; no other state field changes |
| ScenarioHelpers.ScenarioState.InternationalHousing | utils/scenario_helpers.py:143-214 | (0, 0) for other strategies or before the year after purchase, with no home record changed. From then on, the payment and equity of the chosen home's year (`OwnedHomeYear`), failing exactly as it does. Only the chosen home's record changes, and a recorded home stays recorded |
| ScenarioHelpers.ScenarioState.UkInvestmentGrowth | utils/scenario_helpers.py:231-252 | Returns the legacy allocation of the savings. The portfolio becomes max(0, previous × (1 + return) + all contributions + LISA bonus). Every other state field is unchanged |
| ScenarioHelpers.CompoundedScales | utils/scenario_helpers.py:30-35 | Compounding a price over a growth list is linear in the starting price |
| ScenarioHelpers.CompoundedNeverFalls | utils/scenario_helpers.py:30-35 | With no negative growth rate, a non-negative price never ends below where it started |
| ScenarioHelpers.ParentalHomePrice | utils/scenario_helpers.py:30-35 | The base price times (1 + g) for every g of `price_grows`, in order |
| ScenarioHelpers.RatesApplied | utils/scenario_helpers.py:154-156 | `years` after purchase, the first `years` rates of the list apply, or all of them when the list is shorter |
| ScenarioHelpers.GrownHomePrice | utils/scenario_helpers.py:153-156 | The home price is the listed price compounded over exactly the rates that apply |
| ScenarioHelpers.GrowthStopsAtListEnd | utils/scenario_helpers.py:154-156 | Once the years since purchase reach the list length, every later year sees the same fully compounded price |
| ScenarioHelpers.AnnualPayment | utils/scenario_helpers.py:119-123 | Fails exactly on a zero mortgage term |
| ScenarioHelpers.ParentalPayment | utils/scenario_helpers.py:116-123 | 0 before target year + 1. From then on it fails exactly on a zero term |
| ScenarioHelpers.ParentalPaymentIsLevel | utils/scenario_helpers.py:118-123 | Once due, the payment is the same in every year: 12 × the annuity on the borrowed part of the price |
| ScenarioHelpers.TwelveMonthlyPayments | utils/scenario_helpers.py:119-123 | The annual payment is 12 × the monthly mortgage payment on price × (1 − deposit) |
| ScenarioHelpers.HomeAfterYear | utils/scenario_helpers.py:126-139 | Purchase year: the value is the price, and balance plus equity is the price, with equity = price × deposit. Later years: the value grows by inflation. While a balance is owed it drops by the payment less a year's interest, floored at 0, and equity = value − balance. With nothing owed, balance and equity stay as they were |
| ScenarioHelpers.BalanceStaysWithinLoan | utils/scenario_helpers.py:135-139 | While the payment covers a year's interest on the whole loan, the balance stays between 0 and the amount borrowed |
| ScenarioHelpers.PaymentCoversInterest | utils/scenario_helpers.py:119-123 | At a positive rate, the annual payment exceeds a year's interest on the amount borrowed |
| ScenarioHelpers.PaidOffEquityIsFrozen | utils/scenario_helpers.py:132-139 | Once the balance is cleared, the recorded equity no longer changes, however the home is revalued |
| ScenarioHelpers.OwnedHomeYear | utils/scenario_helpers.py:151-177 | Fails exactly on a zero term, or in a later year with no recorded home. In the purchase year the price is the listed price grown by the first rate |
| ScenarioHelpers.UkSalary | utils/scenario_helpers.py:37-50 | Never negative, and 0 for an unknown scenario type. For B from year 3 on it is 98182 × 1.125^(year − 3) |
| ScenarioHelpers.SalaryBRisesByAnEighth | utils/scenario_helpers.py:44-49 | From year 3, scenario B's salary rises by exactly 12.5% each year |
| ScenarioHelpers.SalaryNeverFalls | utils/scenario_helpers.py:37-50 | Neither scripted salary ever falls from one year to a later one |
| ScenarioHelpers.UkBonus | utils/scenario_helpers.py:52-59 | A: 12.5% of salary. B: 12.5% through year 2 and 10% from year 3. Otherwise 0. Never more than an eighth of a non-negative salary |
| ScenarioHelpers.NewGrantsA | utils/scenario_helpers.py:64-69 | One grant iff the year is at least 3. It is granted this year and ends three years later |
| ScenarioHelpers.VestedSumAppend | utils/scenario_helpers.py:72-73 | A grant added at the end adds its tranche once it has been made. Its vesting end year plays no part |
| ScenarioHelpers.VestedSumNonNegative | utils/scenario_helpers.py:72-73 | With non-negative tranches the vested sum is never negative |
| ScenarioHelpers.NewGrantCountsFourVests | utils/scenario_helpers.py:64-79 | The grant made this year counts four remaining vests, although its first tranche also vests this year |
| ScenarioHelpers.ValuationMultiplier | utils/scenario_helpers.py:93-99 | The multiplier is 1, 2 or 5: it is 1 iff at most one year has passed since the grant, and 5 iff three or more have |
| ScenarioHelpers.QuartersVested | utils/scenario_helpers.py:103 | From the cliff on, between 1 and 4 quarters: year − cliff + 1, capped at 4 |
| ScenarioHelpers.RsuVestingB | utils/scenario_helpers.py:83-112 | Only the first grant counts, and with no grant both values are 0. Nothing vests before the cliff or from the end year on. In between, total/4 × quarters × multiplier vests. Unvested is total/4 × max(0, end − year) × 5 |
| ScenarioHelpers.VestedBAtMostFiveTimesGrant | utils/scenario_helpers.py:101-104 | What vests in a year lies between 0 and five times the grant's value |
| ScenarioHelpers.ScenarioBSchedule | financial_planner_pydantic.py:64-73 | The 30000 grant made in year 3 vests 0, 7500, 30000 and 112500 in years 3–6 and nothing in year 7. Unvested is 150000, 112500, 75000, 37500, then 0 |
| ScenarioHelpers.InternationalExpenses | utils/scenario_helpers.py:216-229 | Rent, healthcare and general costs are the inflated monthly costs × 12. Retirement is salary × the location's rate. The total is the location expenses plus that contribution |
| ScenarioHelpers.GrownPortfolio | utils/scenario_helpers.py:242-244 | The grown portfolio is max(0, previous × (1 + return) + contributions) |
| ScenarioHelpers.PortfolioNeverShrinks | utils/scenario_helpers.py:242-244 | With a non-negative return and contributions, a non-negative portfolio never shrinks |
| ScenarioHelpers.UkContributionsAreFlooredSavings | utils/scenario_helpers.py:234-243 | The contributions added are max(0, savings) plus the LISA bonus: a year of negative savings takes nothing away |
| ScenarioHelpers.ConvertToGbp | utils/scenario_helpers.py:254-263 | Each of the six GBP figures converts back to its USD figure at the rate |
| LegacyPlanner.IpoMultiplier | financial_planner_pydantic.py:59 | The IPO multiplier is 2 exactly in plan year 4 and 1 in every other year |
| LegacyPlanner.GrantsA | financial_planner_pydantic.py:58-62 | After a plan year, scenario A holds one annual grant per year from year 3: max(0, year − 2) grants |
| LegacyPlanner.GrantsAInOrder | utils/scenario_helpers.py:64-69 | Scenario A's k-th grant is made in plan year k + 3 and its vesting ends in year k + 6 |
| LegacyPlanner.GrantsB | financial_planner_pydantic.py:63-70 | Scenario B holds either no grant or the single 30000 cliff grant made in year 3 |
| LegacyPlanner.UkRsu | financial_planner_pydantic.py:58-73 | A: the vested tranches of its grants times the IPO multiplier, and their unvested value. B: the cliff grant's vesting |
| LegacyPlanner.UkPointDropsUniversityAndMortgage | models/scenario_builder.py:48-55 | The expense map keys the university line "university_payment" while the point reads "university_repayment", and the mortgage payment is never put in the map. So both of these lines are 0 on every UK point, while personal expenses come through |
| LegacyPlanner.UkYearFailsLater | financial_planner_pydantic.py:49-129 | Once a UK year raises (a missing inflation default, or a due mortgage on a zero term), every later UK year of the plan raises too |
| LegacyPlanner.VestYear | financial_planner_pydantic.py:58-73 | Fails exactly for a scenario type other than A or B (the vested value is then unbound). Otherwise it vests that year's equity, records the unvested value, and leaves the grants of that year. Investments, loan and homes are untouched |
| LegacyPlanner.UkFiguresMeetYear | financial_planner_pydantic.py:75-127 | The figures one UK year computes (income, tax, the student-loan repayment, expenses with the parental mortgage, savings, net worth) make up the point `UkYearPoint` describes |
| LegacyPlanner.UkFiguresStep | financial_planner_pydantic.py:79-120 | The same figures move the state on as `UkStateStep` says: the loan balance is the student-loan update of the old one, the portfolio is max(0, old × (1 + return) + the year's contribution), the point records that portfolio and the parental home's equity, and the home is unchanged before the year after purchase and one `HomeAfterYear` step from then on |
| LegacyPlanner.RecordUkYear | financial_planner_pydantic.py:95-127 | Given a UK year's income, tax, loan step and parental mortgage, invests the savings and builds the point: the point is the described UK point and the portfolio, loan and home form the year's `UkStateStep`; grants, unvested equity and the other homes are unchanged |
| LegacyPlanner.UkYear | financial_planner_pydantic.py:49-129 | One UK year fails exactly when `UkYearFails`. Otherwise its point is the described one, and `UkStateStep` ties the new student-loan balance, portfolio and parental home to their old values; the grants and unvested equity move on one year |
| LegacyPlanner.RunScenario | financial_planner_pydantic.py:35-131 | Raises exactly when the last plan year raises. Otherwise it returns "UK_Scenario_" + type with one point per plan year, in order, each the described UK year. Each point's portfolio is max(0, the previous point's (0 before the first) × (1 + return) + that year's contribution). Each point's house equity is that of the parental home after its year, bought in target year + 1 and revalued and paid down every year after (`ParentalHomeAt`), so its net worth is fixed too |
| LegacyPlanner.AppendUkYear | financial_planner_pydantic.py:49-129 | Appends one UK year, failing exactly when `UkYearFails`. The portfolio recurrence and the parental-home equities are kept over the longer list; the state's portfolio is the last point's, and its parental home is `ParentalHomeAt` the next year |
| LegacyPlanner.UkStepGrows | financial_planner_pydantic.py:102-104 | A UK step's point carries max(0, old portfolio × (1 + return) + the year's contribution) |
| LegacyPlanner.NoParentalHomeBeforeTarget | utils/scenario_helpers.py:114-141 | Before target year + 1 the parental home is still the empty one |
| LegacyPlanner.UkStepFollowsHome | financial_planner_pydantic.py:90-93 | A UK step from `ParentalHomeAt(i)` ends at `ParentalHomeAt(i + 1)`, and its point carries that home's equity |
| LegacyPlanner.ParentalEquitiesAppend | financial_planner_pydantic.py:106-120 | The parental-home equities of a list of points extend by a point that carries the next home's equity |
| LegacyPlanner.PortfolioChainAppend | financial_planner_pydantic.py:199-201 | The portfolio recurrence over a list of points extends by a point that grows from the last one |
| LegacyPlanner.ChainNeverFalls | financial_planner_pydantic.py:199-201 | With a non-negative return and non-negative contributions, the portfolio is never negative and never falls from one point to a later one |
| LegacyPlanner.BaseSalary | financial_planner_pydantic.py:156 | The year-10 entry is evaluated first, so a missing year 10 raises. Otherwise it is the year's entry, or year 10's for an unlisted year |
| LegacyPlanner.IntlTax | financial_planner_pydantic.py:167-170 | No tax under "tax_free", the US rules for any other system |
| LegacyPlanner.RelocationExpense | financial_planner_pydantic.py:186-189 | A positive GBP cost is converted to USD at the location's rate; a non-positive one is used as it is |
| LegacyPlanner.OwnedOption | utils/scenario_helpers.py:148-184 | A strategy buys a home exactly when it is "uk_home" or "local_home" |
| LegacyPlanner.GbpMap | models/scenario_builder.py:127-136 | The comparison map carries no "exchange_rate", so the house equity's GBP value always uses the 1.26 fallback |
| LegacyPlanner.HousingYear | financial_planner_pydantic.py:181-184 | Fails exactly when the strategy's home year fails or reads a missing home. Otherwise (`OwnedHousing`): for an owned strategy from the year after purchase, the payment and equity of `OwnedHomeYear` on the recorded home, which becomes the recorded home; otherwise (0, 0) and the home is unchanged. The other home, the loan and the other state fields do not change |
| LegacyPlanner.IntlFiguresMeetYear | financial_planner_pydantic.py:155-239 | The amounts one international year computes make up the point `IntlYearPoint` describes |
| LegacyPlanner.IntlPoint | financial_planner_pydantic.py:155-239 | The arithmetic of an international year gives the described point. Its portfolio is max(0, previous × (1 + return) + savings), and its mortgage payment and house equity are the housing figures it is given |
| LegacyPlanner.IntlYear | financial_planner_pydantic.py:151-241 | One international year fails exactly when `IntlYearFails`. Otherwise its point is the described one and `IntlStateStep` ties the new portfolio (max(0, old × (1 + return) + savings)) and the strategy's home (`OwnedHousing`) to their old values; the other home and the unvested equity are unchanged |
| LegacyPlanner.IntlStepGrows | financial_planner_pydantic.py:199-201 | An international step's point carries max(0, old portfolio × (1 + return) + the year's savings) |
| LegacyPlanner.IntlStepFollowsHome | financial_planner_pydantic.py:181-184 | An international step from `OwnedHomeAt(i)` ends at `OwnedHomeAt(i + 1)`, and its point carries that year's housing step |
| LegacyPlanner.OwnedHousingsAppend | financial_planner_pydantic.py:219-234 | The housing figures of a list of points extend by a point that carries the next year's housing step |
| LegacyPlanner.RelocationDue | financial_planner_pydantic.py:149 | The relocation cost is charged for Seattle, New York and Dubai only, 0 elsewhere |
| LegacyPlanner.RunInternationalScenario | financial_planner_pydantic.py:134-243 | Raises exactly for an unknown location or when the plan reaches a failing year. Otherwise it returns Title(location) + "_International" with one point per plan year, in order: that year's salary, equity from year 3, relocation in year 1 only, no unvested equity, and the portfolio recurrence from 0. Each point's mortgage payment and house equity are its year's housing step from the bought home so far (`OwnedHousings`) |
| LegacyPlanner.AppendIntlYear | financial_planner_pydantic.py:151-241 | Appends one international year, failing exactly when `IntlYearFails`. The portfolio recurrence and the housing figures are kept over the longer list, and the home the strategy tracks is `OwnedHomeAt` the next year |
| LegacyPlanner.DelayedYear | financial_planner_pydantic.py:273-438 | One year fails exactly when `DelayedYearFails`. A UK year runs as scenario B with its `UkStateStep` and leaves the UK and local home records unchanged. A later year runs abroad with the carried unvested equity and its `IntlStateStep`, leaving the loan and parental home unchanged |
| LegacyPlanner.RunDelayedRelocationScenario | financial_planner_pydantic.py:246-440 | Raises exactly when the plan name or its location is missing, or some year raises. Otherwise: one point per plan year in order, the UK years as scenario B, then the international years with the salary multiplier and relocation in the first of them, with the portfolio recurrence across the phase change. In the UK years each point's house equity is the parental home's after its year; in the years abroad each point's mortgage payment and house equity are its year's step of the home bought after the move |
| LegacyPlanner.DelayedYears | financial_planner_pydantic.py:271-438 | Once the plan and its location are found: raises exactly when some plan year raises; otherwise the points and their portfolio, parental-home and bought-home figures are as `RunDelayedRelocationScenario` states |
| LegacyPlanner.RunDelayedYears | financial_planner_pydantic.py:271-438 | The year loop raises exactly when some plan year raises, and otherwise leaves `DelayedRunState` for the whole plan |
| LegacyPlanner.DelayedRunStart | utils/scenario_helpers.py:11-28 | No points and the initial state (nothing invested, no grants, empty homes) satisfy `DelayedRunValues` for year 0 |
| LegacyPlanner.DelayedRunStep | financial_planner_pydantic.py:289-436 | A delayed year's point and state step, UK or international, take `DelayedRunValues` from year i to year i + 1 |
| LegacyPlanner.AppendDelayedYear | financial_planner_pydantic.py:273-438 | Appends one year of the delayed plan, failing exactly when `DelayedYearFails`, and keeps `DelayedRunState`: the points are the described ones with the portfolio recurrence, the parental-home equities of the UK years and the housing figures of the years abroad, and the state holds the portfolio, grants, parental home, unvested equity and bought home those points lead to |
| LegacyPlanner.PortfolioCarriedUnconverted | financial_planner_pydantic.py:396-398 | The first international year grows the last UK year's pound portfolio as if it were dollars: no currency conversion at relocation |
| UnifiedData.FromGbp | models/unified_financial_data.py:70-78 | A GBP amount is its own GBP equivalent, with currency GBP and rate 1 |
| UnifiedData.FromUsd | models/unified_financial_data.py:80-89 | A USD amount keeps its value and rate; its GBP equivalent times the rate gives the dollar amount back |
| UnifiedData.FromEur | models/unified_financial_data.py:91-100 | A EUR amount keeps its value and rate; its GBP equivalent times the rate gives the euro amount back |
| UnifiedData.IncomeNetGbp | models/unified_financial_data.py:233-246 | Net income is, as written, the gross total: salary, bonus, vested RSUs and other income in GBP |
| UnifiedData.NetWorthTotalGbp | models/unified_financial_data.py:391-395 | Net worth plus liabilities equals liquid plus illiquid assets, all in GBP |
| UnifiedData.AnnualSavingsGbp | models/unified_financial_data.py:432-436 | A point's savings plus its total expenses equal its total income |
| UnifiedData.UnifiedFinancialScenario.constructor | models/unified_financial_data.py:481-487 | A new scenario holds the given name, description, phase and metadata and no points |
| UnifiedData.UnifiedFinancialScenario.AddDataPoint | models/unified_financial_data.py:489-491 | The point is appended at the end; earlier points and every other field are unchanged |
| UnifiedData.FinalNetWorthGbp | models/unified_financial_data.py:493-497 | 0 with no points, otherwise the last point's net worth |
| UnifiedData.AverageAnnualSavingsGbp | models/unified_financial_data.py:499-504 | 0 with no points, otherwise the mean: the result times the count is the sum of the yearly savings |
| UnifiedData.TotalTaxBurdenGbp | models/unified_financial_data.py:506-510 | 0 with no points, otherwise the sum of the yearly tax totals; never negative when no year's tax total is negative |
| UnifiedData.TotalTaxBurdenAppend | models/unified_financial_data.py:506-510 | Each further year adds exactly its own tax total to the burden |
| UnifiedData.FinalAnnualSavingsGbp | models/unified_financial_data.py:512-516 | 0 with no points, otherwise the last point's savings |
| UnifiedData.FinalLiquidSavingsGbp | models/unified_financial_data.py:518-522 | 0 with no points, otherwise the last point's liquid assets in GBP |
| UnifiedData.NetWorthGrowthRate | models/unified_financial_data.py:524-535 | 0 with fewer than two points or a zero first net worth, else the percentage change from the first to the last net worth |
| UnifiedHelpers.CreateUnifiedCurrencyValue | models/unified_helpers.py:218-228 | USD and EUR convert at the rate (an error, for the division by zero, when it is 0); every other code, GBP included, is a GBP value |
| UnifiedHelpers.CreateIncomeBreakdown | models/unified_helpers.py:231-243 | The four amounts are stored unchanged as GBP values, and the income total is their sum |
| UnifiedHelpers.CreateExpenseBreakdown | models/unified_helpers.py:246-287 | Each group's input is split over its lines with the fixed fractions; lines without a fraction are zero |
| UnifiedHelpers.ExpenseSplitPreservesTotals | models/unified_helpers.py:246-287 | Each group's fractions add up to one, so every group total equals its input and the whole equals their sum |
| UnifiedHelpers.CreateTaxBreakdown | models/unified_helpers.py:290-300 | The three amounts are stored unchanged as GBP values, and the tax total is their sum |
| UnifiedHelpers.CreateInvestmentBreakdown | models/unified_helpers.py:303-327 | Retirement, taxable and housing inputs are split over their lines with the fixed fractions |
| UnifiedHelpers.InvestmentSplitPreservesTotals | models/unified_helpers.py:303-327 | Each investment group totals its input, and the breakdown totals their sum |
| UnifiedHelpers.CreateNetWorthBreakdown | models/unified_helpers.py:330-340 | The three amounts are stored as GBP values, and net worth is assets less liabilities |
| UnifiedHelpers.JurisdictionFromName | models/unified_helpers.py:160-180 | The first marker the name contains decides: "UK_Scenario" gives UK, "Seattle" or "New_York" US, "Dubai" UAE, none UK; never EU |
| UnifiedHelpers.RelocationTimingFromName | models/unified_helpers.py:190-195 | "Year4" gives 4, otherwise "Year5" gives 5, otherwise no relocation year |
| UnifiedHelpers.MetadataFromName | models/unified_helpers.py:157-215 | The jurisdiction, tax system, housing strategy, relocation year and description all follow from the name's markers |
| UnifiedHelpers.ConvertOldDataPoint | models/unified_helpers.py:17-132 | Year and age are kept; a UK point becomes UK-only in the UK, any other point international in the US; all amounts become GBP values at rate 1 |
| UnifiedHelpers.ConvertedTotals | models/unified_helpers.py:17-132 | Converted net worth is portfolio plus house equity, income the three equivalent pay lines, tax income tax plus NI, and expenses count travel twice |
| UnifiedHelpers.ConvertOldScenario | models/unified_helpers.py:135-154 | A new scenario with the same name, metadata from the name, a cross-border phase iff the name has a relocation year, and the points converted one by one in order |
| FinancialData.EmptyPoint | models/financial_data.py:17-101 | A point with only year, age and phase set has every amount at its default of 0 |
| FinancialData.FirstPositive | models/financial_data.py:121-128 | The fallback chain: GBP equivalent if positive, else GBP if positive, else USD at 1.26 if positive, else 0; never negative, and positive iff some field is |
| FinancialData.TaxBurdenNonNegative | models/financial_data.py:146-159 | The summed tax burden is never negative |
| FinancialData.CountedIncomeIsPositive | models/financial_data.py:170-192 | The counted income is never negative, and positive exactly when some year was counted |
| FinancialData.YearWithoutIncomeIsIgnored | models/financial_data.py:189-192 | A year without positive income changes neither the totals nor the year count |
| FinancialData.SavingsRateOfCountedYears | models/financial_data.py:194-197 | With a counted year, the rate times the counted income is 100 times the counted savings |
| FinancialData.FinancialScenario.constructor | models/financial_data.py:103-107 | A new scenario has the given name and no points |
| FinancialData.FinancialScenario.AddDataPoint | models/financial_data.py:109-111 | The point is appended at the end and the name is unchanged |
| FinancialData.FinancialScenario.GetFinalNetWorth | models/financial_data.py:113-128 | 0 with no points, otherwise the fallback chain on the last point's net worth fields; never negative |
| FinancialData.FinancialScenario.GetFinalAnnualSavings | models/financial_data.py:130-144 | 0 with no points, otherwise the fallback chain on the last point's savings fields; never negative |
| FinancialData.FinancialScenario.GetTotalTaxBurden | models/financial_data.py:146-159 | The loop's total is the sum of each point's tax by the fallback chain, and never negative |
| FinancialData.FinancialScenario.GetAverageSavingsRate | models/financial_data.py:161-197 | The loop's rate is the savings rate over the years with positive income, and 0 when there are none |
| FinancialData.FinancialScenario.Copy | models/financial_data.py:199-277 | A new scenario with the same name and the same points, field for field, in order |
| ScenarioBuilder.UkDataPoint | models/scenario_builder.py:11-77 | A UK point holds the given figures and expense lines, 0 for an absent key; every GBP equivalent equals its GBP figure and every USD field is 0 |
| ScenarioBuilder.IntlDataPoint | models/scenario_builder.py:80-137 | An international point holds the USD figures; salary, bonus and RSU equivalents are 80/10/10 of the GBP gross; house equity is converted at the rate when positive; GBP fields are 0 |
| ScenarioBuilder.FirstMissing | models/scenario_builder.py:144-171 | None iff every required column is present; otherwise a required column the row lacks |
| ScenarioBuilder.UkPointOfRow | models/scenario_builder.py:144-180 | A UK point iff the row has every required column; otherwise the error names a missing one |
| ScenarioBuilder.UkExpenseLines | models/scenario_builder.py:159-168 | The university repayment and mortgage payment lines come from their own columns |
| ScenarioBuilder.UkRowColumnsCarriedOver | models/scenario_builder.py:146-168 | A complete UK row's point reports the row's net worth, university repayment and mortgage payment |
| ScenarioBuilder.IntlPointOfRow | models/scenario_builder.py:189-224 | An international point iff the row has every required column; otherwise the error names a missing one |
| ScenarioBuilder.IntlRowEquityAtDefaultRate | models/scenario_builder.py:203-220 | A complete international row's positive house equity is converted at the default rate 1.26 |
| ScenarioBuilder.DelayedPointOfRow | models/scenario_builder.py:233-306 | A row whose phase is "UK" gives a UK point, any other row an international point |
| ScenarioBuilder.BuildRows | models/scenario_builder.py:140-182 | Succeeds iff every row gives a point; then a new scenario with the name and those points in row order |
| ScenarioBuilder.BuildUkScenario | models/scenario_builder.py:140-182 | Succeeds iff every row is complete; then one UK point per row, in order |
| ScenarioBuilder.BuildInternationalScenario | models/scenario_builder.py:185-226 | Succeeds iff every row is complete; then one international point per row, in order |
| ScenarioBuilder.BuildDelayedRelocationScenario | models/scenario_builder.py:229-308 | Succeeds iff every row gives a point; UK points exactly for rows marked "UK" |
| PerfOpt.CurrencyConversionCache.constructor | models/performance_optimizations.py:46-51 | A new cache has the given strategy and an empty memory cache |
| PerfOpt.CurrencyConversionCache.Get | models/performance_optimizations.py:112-122 | A present, unexpired key gives its value and its access count rises by one; an expired key is deleted and gives nothing; an absent key gives nothing and changes nothing |
| PerfOpt.CurrencyConversionCache.Set | models/performance_optimizations.py:124-131 | The key now holds the value stamped now, with the given lifetime or 24 hours, and a zero access count; every other entry is unchanged |
| PerfOpt.CurrencyConversionCache.ClearExpired | models/performance_optimizations.py:137-146 | Exactly the expired entries are removed, the others keep their entries, and the count of removed entries is returned |
| PerfOpt.CurrencyConversionCache.GetStats | models/performance_optimizations.py:148-161 | Total entries, expired entries, active = total − expired (the unexpired ones), the sum of access counts, and the strategy |
| PerfOpt.HitAddsOneAccess | models/performance_optimizations.py:38-40 | Recording one access on an entry raises the cache's total access count by exactly one |
| PerfOpt.ConvertCurrency | models/performance_optimizations.py:190-210 | The same currency on both sides gives a GBP value; a GBP source keeps its amount as GBP value; otherwise the GBP value times the rate is the amount, and a zero rate raises |
| PerfOpt.CachedCurrencyConversion | models/performance_optimizations.py:168-187 | Cached or not, the answer is the conversion of the arguments, and the cache still holds only correct conversions |
| PerfOpt.Paginate | models/performance_optimizations.py:234-252 | A zero page size raises; otherwise the page, its size, the item count, and has-next iff before the last page, has-previous iff after the first |
| PerfOpt.PageCountIsCeiling | models/performance_optimizations.py:237-238 | For a positive size the page count is the ceiling of items over size, 0 for no items |
| PerfOpt.PageContents | models/performance_optimizations.py:239-243 | Page p ≥ 1 holds items (p−1)·size up to p·size, clipped to the list, and nothing past the end |
| PerfOpt.PagesUpToIsPrefix | models/performance_optimizations.py:239-243 | The first k pages together are the first k·size items |
| PerfOpt.PagesCoverData | models/performance_optimizations.py:237-248 | Reading pages 1 to the page count in turn gives back the whole list, in order |
| PerfOpt.DataAccessOptimizer.constructor | models/performance_optimizations.py:216-218 | A new optimiser has the given chunk size and no access counts |
| PerfOpt.DataAccessOptimizer.TrackAccessPattern | models/performance_optimizations.py:265-267 | The pattern's count rises by one from 0 when absent; other counts are unchanged |
| PerfOpt.DataAccessOptimizer.GetAccessStats | models/performance_optimizations.py:269-271 | The returned counts equal the current counters, as a value later tracking cannot change |
| PerfOpt.TrackingCounts | models/performance_optimizations.py:265-267 | After one sighting a new pattern counts 1, a known one its old count plus 1, and every other pattern keeps its count |
| PerfOpt.PerformanceMonitor.constructor | models/performance_optimizations.py:277-279 | A new monitor has no durations and no running timers |
| PerfOpt.PerformanceMonitor.StartTimer | models/performance_optimizations.py:281-283 | The operation's start is set to now; durations are unchanged |
| PerfOpt.PerformanceMonitor.EndTimer | models/performance_optimizations.py:285-294 | A timer never started gives 0 and changes nothing; a running one gives now − start, appends it to its durations and stops running |
| PerfOpt.PerformanceMonitor.GetAverageTime | models/performance_optimizations.py:296-300 | 0 without durations, otherwise their mean |
| PerfOpt.OptimizeCurrencyValueCreation | models/performance_optimizations.py:337-346 | The result is the conversion into GBP, and the conversion timer is stopped with its duration recorded even when the conversion raises |
| PerfOpt.ClearAllCaches | models/performance_optimizations.py:361-372 | The cache, the access counts, the durations and the running timers are all empty afterwards |
| Performance.KeepLast | utils/performance.py:37-39 | The trimmed list has length min(n, len) and is the last entries of the list, in order |
| Performance.AppendThenKeepLast | utils/performance.py:29-51 | After appending, the new entry is last and the length stays within the bound; older entries are dropped only once the bound is reached, oldest first |
| Performance.OperationsOfRecorded | utils/performance.py:81-92 | An operation is grouped iff it was recorded, then it has at least one duration, and no operation is grouped twice |
| Performance.GroupByOperation | utils/performance.py:82-87 | The loop yields the distinct operations in order of first appearance and each one's durations in order |
| Performance.SummaryAverages | utils/performance.py:71-103 | Every recorded operation has a mean, no other has one, and each mean averages exactly that operation's durations |
| Performance.OperationAdviceThresholds | utils/performance.py:110-116 | An operation is called slow iff its mean exceeds 5 s and optimisable iff it lies in (2, 5]; load times give no other advice |
| Performance.NoAdviceWhenFast | utils/performance.py:110-116 | When every mean is at most 2 s the load times give no advice |
| Performance.Recommendations | utils/performance.py:105-133 | The list of recommendations is never empty |
| Performance.OptimalIffNothingFlagged | utils/performance.py:105-133 | "Performance is optimal" comes alone, and exactly when no load time, chart time, memory or CPU reading is over its threshold |
| Performance.OptimalCacheTtl | utils/performance.py:273-281 | The mapped lifetime for a known kind of operation, 60 s otherwise; always between 30 and 300 s |
| Performance.PerformanceMonitor.constructor | utils/performance.py:20-27 | A new monitor has empty histories and starts now |
| Performance.PerformanceMonitor.TrackLoadTime | utils/performance.py:29-39 | The record is appended and only the last 50 kept; the other histories are unchanged |
| Performance.PerformanceMonitor.TrackChartCreation | utils/performance.py:41-51 | The record is appended and only the last 100 kept; the other histories are unchanged |
| Performance.PerformanceMonitor.PerformanceSummary | utils/performance.py:71-103 | The one-pass summary equals the summary defined on the histories |
| Performance.PerformanceMonitor.PerformanceRecommendations | utils/performance.py:105-133 | The advice is that drawn from the current summary and the given system readings |
| DataUtils.InRangeKeeps | utils/data.py:141-144 | A point is kept iff it was in the scenario and its year lies in [lo, hi] |
| DataUtils.FilterSelectionKeeps | utils/data.py:136-155 | The result has distinct keys, exactly the selected names that exist; each kept scenario is the stored one with name, description, phase and metadata unchanged and only the years in range |
| DataUtils.FilterSelectionOrder | utils/data.py:136-155 | Without repeated names, the keys are the existing selected names in selection order, unknown names dropped |
| DataUtils.KeepInRange | utils/data.py:141-144 | The loop keeps exactly the points in the year range, in order |
| DataUtils.FilterScenarios | utils/data.py:118-155 | The loop's dictionary is the filtered selection |
| DataUtils.FilterByTypeKeeps | utils/data.py:178-206 | An entry is kept iff every active flag's condition holds; with no flag set the input comes back unchanged |
| DataUtils.UkAndInternationalExclusive | utils/data.py:184-191 | The UK-only and international-only flags together reject every scenario |
| DataUtils.FilterScenariosByType | utils/data.py:158-206 | The loop's dictionary is the type filter of the input |
| DataUtils.PeakNetWorthBounds | utils/data.py:227-239 | The running maximum is at least 0 and every point's net worth, and is 0 or some point's net worth |
| DataUtils.KeyMetricsMeaning | utils/data.py:209-255 | No scenarios give all zeros; the maximum bounds every point's net worth; the average is the mean savings over all points; the count is the number of scenarios |
| DataUtils.AccumulatePoints | utils/data.py:237-248 | The inner loop folds a scenario's points into the running maximum, sums and count |
| DataUtils.CalculateKeyMetrics | utils/data.py:209-255 | The loop's metrics are the key metrics of the scenarios |
| DataUtils.ScenarioCatalogue | utils/data.py:259-304 | The full list is the UK, international and delayed lists in that order: 20 names in 4 groups |
| DataUtils.TaxFreeScenariosListed | utils/data.py:281-303 | Every tax-free scenario is in the full list |
| DataUtils.PrepareComparisonData | utils/data.py:307-340 | Nothing when either name is absent; otherwise both names with their scenarios' final net worth and totals |
| DataUtils.ComparisonSwaps | utils/data.py:319-338 | Swapping the two names swaps the two sides of the comparison |
| Validation.SafeDivide | utils/validation.py:65-82 | The default for a zero denominator, otherwise the quotient: the result times the denominator is the numerator |
| Validation.NumericBounds | utils/validation.py:85-109 | Without bounds a value is valid iff numeric; with both bounds iff numeric and in the closed interval |
| Validation.UserInputIssue | utils/validation.py:169-187 | The checks run in order: the issue is "no scenario" iff none is selected, and "not two values" iff some is selected and the range does not hold exactly two |
| Validation.ValidUserInputsMeaning | utils/validation.py:158-192 | Inputs are accepted iff a scenario is selected and the range is two years with 1 ≤ start ≤ end |
| Validation.ErrorSummaryLines | utils/validation.py:217-224 | The header comes first, and the i-th error's line "i. error" follows the lines of the errors before it |
| Validation.CreateErrorSummary | utils/validation.py:207-224 | The loop builds the fixed message for no errors, else the header and one numbered line per error |
| Formatting.ParseWholeNumber | utils/formatting.py:127 | The text of a whole number, with or without a minus sign, parses back to that number |
| Formatting.RoundHalfEven | utils/formatting.py:26 | The rounded whole number lies within one half of the value, and a value exactly halfway between two whole numbers goes to the even one |
| Formatting.UngroupDigits | utils/formatting.py:111-129 | Removing the commas from grouped digits gives the digits back |
| Formatting.GroupedChars | utils/formatting.py:26 | A grouped number is made only of digits and commas |
| Formatting.StripFormatted | utils/formatting.py:126 | Removing £, $ and commas from a symbol, a sign and grouped digits leaves the sign and the digits |
| Formatting.CurrencyRoundTrip | utils/formatting.py:10-28 | Extracting a formatted amount gives the value rounded half to even, with its sign; a whole amount round-trips exactly |
| Formatting.StripSpaceIsMiddle | utils/formatting.py:127 | Stripping removes whitespace only, and only from the two ends, leaving a middle slice of the text |
| Formatting.SpaceAfterSymbolIgnored | utils/formatting.py:126-127 | A space between the currency symbol and the amount does not change the extracted value |
| Formatting.PercentageRoundTrip | utils/formatting.py:132-150 | A whole number followed by "%" extracts back to that number |
| Formatting.ConversionsInverse | utils/formatting.py:73-108 | USD→GBP and GBP→USD at 1.26 undo each other, and a missing value converts to 0 |
| Formatting.TitleIdempotent | utils/formatting.py:168 | Title-casing twice is the same as title-casing once |
| Formatting.FormatScenarioNameStable | utils/formatting.py:153-171 | A formatted non-empty name keeps its length, has no underscores, and formatting it again changes nothing |
| Formatting.YearRangeDefault | utils/formatting.py:174-191 | Anything but two values gives the text of the default range [1, 10] |
| ComponentUtils.PercentageChange | components/utils.py:106-119 | 0 from a zero start, otherwise the change relative to the start in percent: the result times the start is 100 times the change |
| ComponentUtils.PercentageChangeRecovers | components/utils.py:106-119 | Applying a nonzero start's percentage change to it gives the final value back |
| ComponentUtils.FormatLargeNumber | components/utils.py:141-158 | The suffix is B from a billion, M from a million, K from a thousand, none below, each band exclusive |
| ComponentUtils.LargeNumberScaling | components/utils.py:141-158 | The mantissa times its suffix's scale is the value, and a K or M mantissa lies in [1, 1000) |
| ComponentUtils.ScenarioCategory | components/utils.py:161-180 | One of five categories: UK iff "UK_Scenario" is in the name, Other iff none of the four markers is |
| ComponentUtils.ScenarioTaxStatus | components/utils.py:183-196 | Tax-Free iff the name contains "Dubai", Taxed otherwise |
| ComponentUtils.ScenarioHousingStrategy | components/utils.py:199-214 | UK Home iff "UK_Home", else Local Home iff "Local_Home", else N/A |
| ComponentUtils.ScenarioRelocationTiming | components/utils.py:217-232 | The Year 4 text iff "Year4", else the Year 5 text iff "Year5", else N/A |
| ComponentUtils.DubaiCategoryIsTaxFree | components/utils.py:161-196 | A scenario filed under Dubai is always reported tax-free |
| ComponentUtils.ValidSelectionSizes | components/utils.py:259-275 | A selection is valid iff it holds one to three scenarios, and every non-empty prefix of a valid selection is valid |
| ComponentUtils.ComparisonInsights | components/utils.py:278-315 | The loop's list is the net worth, savings rate and tax insights, in that order |
| ComponentUtils.InsightsGated | components/utils.py:289-315 | At most three insights, each present iff its gap passes its threshold (10000, 2, 5000), each naming the better scenario, and swapping the scenarios swaps the one named |
| ComponentUtils.FormatAmountAgrees | components/utils.py:10-33 | GBP and USD amounts format as the formatting utility does with £ and $; any other code gives the digits without a symbol |
| ComponentUtils.RankLines | components/utils.py:332-340 | One numbered line per entry, counting from 1 |
| ComponentUtils.FirstFive | components/utils.py:332-340 | The first min(5, n) entries of a ranking |
| ComponentUtils.RankingTableShape | components/utils.py:318-342 | A net worth heading, at most five numbered entries, a blank row, a savings rate heading and at most five numbered entries, best first |
| ComponentUtils.NumberRows | components/utils.py:332-340 | The numbering loop yields the numbered lines of its entries |
| ComponentUtils.CreatePerformanceRankingTable | components/utils.py:318-342 | The table is the rows of the two sections joined by newlines |
| ScenarioSelector.JurisdictionUkExcludesMulti | components/scenario_selector.py:252-265 | No scenario is both UK-only and multi-jurisdiction; UAE iff the lower-cased name contains "dubai"; an unknown filter admits all |
| ScenarioSelector.ValidationFiltersPartition | components/scenario_selector.py:268-279 | Each scenario passes exactly one of valid-only, invalid-only and unknown, and one with no status passes unknown |
| ScenarioSelector.SurvivorsOfAll | components/scenario_selector.py:219-249 | Running the four filters in turn, each skipped when "all", keeps exactly the scenarios that pass them all, in order |
| ScenarioSelector.ApplyTemplateFilters | components/scenario_selector.py:211-249 | The result is the scenarios that pass every active template filter, in their original order |
| ScenarioSelector.TemplateFiltersKeepOrder | components/scenario_selector.py:211-249 | The filters keep an order-preserving subsequence, and with every filter "all" they keep every scenario |
| ScenarioSelector.QuickFiltered | components/scenario_selector.py:462-486 | A scenario is in the extended list iff it exists and some active flag admits it, or no flag is set |
| ScenarioSelector.Admitted | components/scenario_selector.py:489 | The de-duplicated set holds exactly the admitted scenarios and is empty iff the list is |
| ScenarioSelector.Kept | components/scenario_selector.py:491 | The kept scenarios are those of the selection that are admitted, in selection order, with every copy of an admitted scenario kept |
| ScenarioSelector.ApplyQuickFilters | components/scenario_selector.py:485-497 | The selection keeps its admitted scenarios; when none remain and some scenario is admitted, exactly one admitted scenario is selected; otherwise none |
| ScenarioSelector.QuickSelectionAdmitted | components/scenario_selector.py:485-497 | The new selection holds only existing scenarios, is empty only when nothing is admitted, and with no flag set and some scenario it is never empty |
| YamlLoader.MapScenarioNameToYamlId | config/yaml_loader.py:62-84 | An id iff the name is one of the thirteen mapped names, and then its mapped id |
| YamlLoader.YamlIdIsLowerCasedName | config/yaml_loader.py:66-80 | Each YAML id is its legacy name in lower case |
| YamlLoader.TaxSystemForLocation | config/yaml_loader.py:86-96 | The mapped tax system of the lower-cased location, the UK system for an unknown one |
| YamlLoader.TaxSystemIgnoresCase | config/yaml_loader.py:86-96 | Any spelling of a location gives the system of its lower-case spelling |
| YamlLoader.CopySections | config/yaml_loader.py:140-146 | Succeeds iff every section is present, then copies exactly those sections; otherwise names a missing one |
| YamlLoader.ExtractLegacyTaxConfig | config/yaml_loader.py:137-148 | For "uk" in any case the five legacy UK sections, failing when one is missing; otherwise the simplified marker with the location |
| YamlLoader.GetScenarioConfig | config/yaml_loader.py:104-114 | The YAML document when the name maps to an id whose document loads to something truthy, otherwise the whole legacy configuration |
| YamlLoader.UnmappedNamesUseLegacy | config/yaml_loader.py:104-114 | A name without a YAML file always gets the legacy configuration |
| YamlLoader.GetTaxConfig | config/yaml_loader.py:116-124 | The YAML tax system when it loads to something truthy, otherwise the legacy extraction, failing exactly when it does |
| Breakdown.GrowthRateMeaning | pages/2_Income_Expense_Breakdown.py:1044-1053 | 0 without two values or a positive first value; otherwise the rate times the first value is 100 times the change to the last |
| Breakdown.ExpenseControlIsNegatedGrowth | pages/2_Income_Expense_Breakdown.py:1201-1210 | Expense control is the growth rate of the expenses, negated |
| Breakdown.MetricsOf | pages/2_Income_Expense_Breakdown.py:1040-1059 | For a non-empty series: its sum, its mean and its growth rate |
| Breakdown.AverageTimesYears | pages/2_Income_Expense_Breakdown.py:1040-1041 | The average times the number of years gives back the total |
| Breakdown.FlatSeriesMetrics | pages/2_Income_Expense_Breakdown.py:1040-1053 | A constant series totals n times the value, averages the value, and has no growth |
| Breakdown.SingleScenarioMetrics | pages/2_Income_Expense_Breakdown.py:1025-1113 | Zeros when the dictionary or its first scenario is empty; otherwise the metrics of the first scenario's income or expense series |
| Breakdown.RowsComplete | pages/2_Income_Expense_Breakdown.py:1127-1150 | Every scenario with points has its row |
| Breakdown.RowsSound | pages/2_Income_Expense_Breakdown.py:1127-1150 | Every row is the row of some scenario with points |
| Breakdown.RowsOfScenarios | pages/2_Income_Expense_Breakdown.py:1127-1150 | Exactly the scenarios with points get a row, so there are rows iff some scenario has points |
| Breakdown.RowMeaning | pages/2_Income_Expense_Breakdown.py:1128-1150 | A row holds the scenario's name, total, mean, and growth rate (income) or expense control (expenses) |
| Breakdown.MaxBy | pages/2_Income_Expense_Breakdown.py:1161-1163 | The chosen maximum bounds every row's key and is some row's key |
| Breakdown.MinBy | pages/2_Income_Expense_Breakdown.py:1182-1247 | The chosen minimum is at most every row's key and is some row's key |
| Breakdown.CollectRows | pages/2_Income_Expense_Breakdown.py:1127-1150 | The loop collects the rows of the scenarios with points, in order |
| Breakdown.CalculateMultiScenarioIncomeSummary | pages/2_Income_Expense_Breakdown.py:1115-1180 | The method's summary is the income summary of the scenarios |
| Breakdown.CalculateMultiScenarioExpenseSummary | pages/2_Income_Expense_Breakdown.py:1182-1247 | The method's summary is the expense summary of the scenarios |
| Breakdown.IncomeSummaryBest | pages/2_Income_Expense_Breakdown.py:1115-1180 | All zeros when no scenario has points; otherwise it counts every scenario, its best figures are at least each row's, and the best total is some row's |
| Breakdown.ExpenseSummaryLowest | pages/2_Income_Expense_Breakdown.py:1182-1247 | All zeros when no scenario has points; otherwise its lowest figures are at most each row's, the lowest total is some row's, and the control is the best |
| Charts.SavingsRateMeaning | utils/charts.py:198-220 | Savings, the savings rate and total savings are never negative, and the rate times max(1, mean income) is 100 times mean savings |
| Charts.ScoresComplete | utils/charts.py:189-223 | Every scenario with points is scored |
| Charts.ScoresSound | utils/charts.py:189-223 | Every score belongs to a scenario with points |
| Charts.InsertKeepsEntries | utils/charts.py:226-227 | Inserting an entry adds exactly that entry |
| Charts.SortDescendingCorrect | utils/charts.py:226-227 | The sort returns the same entries, best first |
| Charts.RankingMeaning | utils/charts.py:173-229 | Each list is sorted best first and holds exactly one entry per scenario with points, with its score |
| Charts.PointLists | utils/charts.py:198-216 | The inner loop builds the savings and income lists of the scenario's points |
| Charts.ScoreColumns | utils/charts.py:189-223 | The scoring loop builds one entry per scenario with points in each of the three lists |
| Charts.CreatePerformanceRanking | utils/charts.py:173-229 | The method's ranking is the specification ranking of the scenarios |
| AppKpis.FindScenarioId | streamlit_app.py:172-177 | An id iff some metadata entry's display name is the scenario name, and then the first such entry's id |
| AppKpis.AddCompositionCounts | streamlit_app.py:184-192 | A composition raises the counter of each of its counted (component, template) pairs by one and leaves the others |
| AppKpis.MaxNetWorthBounds | streamlit_app.py:163-197 | The best final net worth is never negative, at least that of every scenario with points, and 0 or one of them |
| AppKpis.ValidCountBounds | streamlit_app.py:179-181 | The valid count is at most the total, equals it iff no scenario is empty, and is 0 iff all are |
| AppKpis.CompositionCounts | streamlit_app.py:183-192 | Each counter is the number of scenarios whose resolved metadata uses that template for that component |
| AppKpis.LookupScenarioId | streamlit_app.py:172-177 | The search loop finds the first matching id |
| AppKpis.CountComposition | streamlit_app.py:186-192 | The counting loop adds one composition to the counters |
| AppKpis.CalculateTemplateAwareKpis | streamlit_app.py:144-204 | The method's figures are the maximum final net worth, the scenario count, the valid count and the composition counters of the scenarios |
| TemplateMerge.Combine | config/template_engine.py:301-304 | One key applied: two mappings merge recursively, and the key fails exactly when that merge fails; anything else replaces the current value |
| TemplateMerge.ApplyKeys | config/template_engine.py:300-304 | Applying some keys of a section fails exactly when one of those keys fails; otherwise it leaves exactly the base's keys plus those keys |
| TemplateMerge.ApplyOneMoreKey | config/template_engine.py:300-318 | Applying one more key is the previous result updated at that key with the combined value |
| TemplateMerge.ApplyKeysElsewhere | config/template_engine.py:300-318 | Keys not applied keep the base's value |
| TemplateMerge.ApplySection | config/template_engine.py:300-318 | The key loop yields the section's keys applied to the base |
| TemplateMerge.ApplyKey | config/template_engine.py:301-304 | One pass of the loop applies exactly one more key |
| TemplateMerge.MergeTemplates | config/template_engine.py:293-320 | The imperative merge computes the specification merge, failing where it fails |
| TemplateMerge.BaseOnlyKeyUnchanged | config/template_engine.py:293-320 | A key only the base has keeps its value |
| TemplateMerge.OverrideReplaces | config/template_engine.py:312-318 | A plain override key replaces what it meets unless both sides are mappings |
| TemplateMerge.MappingsMergeRecursively | config/template_engine.py:315-316 | When both sides are mappings the result is their recursive merge, and the merge fails when that inner merge fails |
| TemplateMerge.MergeKeys | config/template_engine.py:293-320 | The result's keys are the base's, the overrides section's and the override's plain keys, and no others |
| TemplateMerge.ExtendsNeverCopied | config/template_engine.py:313-314 | The override's own extends key is never copied |
| TemplateMerge.PlainKeyWinsOverSection | config/template_engine.py:298-318 | A plain key also set in the overrides section ends with the plain key's value when that is not a mapping |
| TemplateMerge.MergeWithEmptyIsIdentity | config/template_engine.py:293-320 | Merging an empty override changes nothing |
| TemplateMerge.WellFormedMerges | config/template_engine.py:293-320 | An override whose overrides sections are all mappings always merges, and merging well-formed templates gives a well-formed template, so results can be merged again |
| TemplateMerge.ScalarSectionFails | config/template_engine.py:298-300 | An overrides section that is not a mapping makes the merge fail |
| TemplateMerge.CopiedValueIsNotRead | config/template_engine.py:312-318 | A non-mapping overrides section nested inside a value that replaces the base's is copied unchanged and does not fail |
| TemplateLoading.ResolvedNameHasNoExtends | config/template_engine.py:228-236 | When no overrides section met on the way sets extends, a resolved named template has no extends key: the merge skips the template's own one |
| TemplateLoading.ResolvedSpecHasNoExtends | config/template_engine.py:201-245 | When no overrides section met on the way sets extends, a resolved spec, with its composition overrides applied, has no extends key |
| TemplateLoading.ResolveErrors | config/template_engine.py:204-227 | A mapping spec without template is refused, and a missing template file is reported as not found |
| TemplateLoading.ExtendsResolvesToMerge | config/template_engine.py:228-230 | A template that extends a parent resolves to the parent's resolution merged with the template |
| TemplateLoading.LoadTaxSystem | config/template_engine.py:247-253 | A tax system loads iff its document exists and is non-empty; otherwise it is not found |
| TemplateLoading.TaxSystemForLocation | config/template_engine.py:192-199 | US markets use the federal system, UAE markets the tax-free one, all others the UK's |
| TemplateLoading.StartYearFollowsEarlierDurations | config/template_engine.py:150-190 | Each loaded phase starts one year after the durations of all earlier phases |
| TemplateLoading.TotalDurationIsSumOfInputs | config/template_engine.py:150-190 | The loaded phases' total duration is the sum of the configured durations |
| TemplateLoading.LoadedStep | config/template_engine.py:155-188 | Appending the next loaded phase keeps the schedule laid end to end and each phase matched to its input |
| TemplateLoading.TemplateEngine.constructor | config/template_engine.py:73-77 | A new engine has the given files and an empty template cache |
| TemplateLoading.TemplateEngine.LoadTemplate | config/template_engine.py:201-245 | The answer is the spec's uncached resolution whether or not the cache was used (a cache hit is taken as it is); the cache only grows and stays consistent with the files |
| TemplateLoading.LoadAsWritten | config/template_engine.py:201-245 | The source's load: a success names a template that was cached or on file, and leaves it in the cache |
| TemplateLoading.AsWrittenResolvesWithoutCopiedExtends | config/template_engine.py:215-236 | When no overrides section copies in an extends key, the source's load gives the uncached resolution and leaves the cache consistent with the files |
| TemplateLoading.CacheHitResolvesAgain | config/template_engine.py:217-233 | A template whose overrides section sets extends loads to two different answers on its first and second load |
| TemplateLoading.ExampleIntended | config/template_engine.py:201-245 | For that same template the uncached resolution is the first load's answer |
| TemplateLoading.TemplateEngine.LoadPhase | config/template_engine.py:155-188 | Fails exactly when the progression, the fixed housing or investment template, or the market's tax system does not load; otherwise one phase built from its input, its templates resolved, starting at the given year |
| TemplateLoading.TemplateEngine.LoadPhasesFromYaml | config/template_engine.py:150-190 | Fails exactly when some input's phase does not load; otherwise one phase per input in order, laid end to end from year 1, with the inputs' total duration |
| TemplateLoading.TemplateEngine.LoadDocumentPhases | config/template_engine.py:87-95 | The phase list of a multi-phase composition, or exactly one phase, laid end to end from year 1 |
| TemplateLoading.TemplateEngine.ConvertSinglePhase | config/template_engine.py:126-148 | One phase named main_phase over the whole plan (10 years by default) with the resolved templates and the defaults uk and graduate; fails without a salary progression |
| TemplateLoading.TemplateEngine.LoadScenario | config/template_engine.py:79-124 | Missing scenarios fail; a loaded scenario keeps its metadata, has the normalised planning, passes validation, and every plan year finds its phase |
| TemplateLoading.PlanningDuration | config/template_engine.py:141 | The plan's duration in years, 10 when absent |
| TemplateValidation.ValidatePlanningSection | config/template_engine.py:346-356 | No errors iff the three required planning fields are present; each error names a missing one |
| TemplateValidation.StructureErrors | config/template_engine.py:396-407 | No errors iff the progression has the keys its type needs; a truthy progression that is not a mapping is reported as malformed, and only then |
| TemplateValidation.PresenceErrors | config/template_engine.py:384-394 | One error per missing salary progression, tax system id, housing strategy or expense profile, and only for those |
| TemplateValidation.ValidateSinglePhase | config/template_engine.py:379-409 | No errors iff the phase is complete; all errors concern the phase; a malformed progression is reported iff the salary template has a truthy non-mapping progression |
| TemplateValidation.Progression | config/template_engine.py:397-399 | A falsy or absent progression is skipped, and a truthy one is either a non-empty mapping or malformed |
| TemplateValidation.PhaseErrors | config/template_engine.py:372-375 | No errors iff every phase is complete |
| TemplateValidation.ValidatePhases | config/template_engine.py:358-377 | No phases gives exactly that error; otherwise a duration error iff durations do not add up to the plan, and no errors iff all checks pass |
| TemplateValidation.ValidateResolvedConfig | config/template_engine.py:322-344 | Fails, listing every problem, iff the configuration is not valid |
| TemplateValidation.NormalizePlanning | config/template_engine.py:97-110 | The three fields are always present, duration falls back to plan_duration_years when falsy, and every other key is kept |
| TemplateValidation.NormalizedPlanningAlwaysPasses | config/template_engine.py:97-110 | A normalised planning section always passes the planning check |
| TemplateValidation.ValidScheduleCoversWholePlan | config/template_engine.py:434-436 | In a valid configuration laid end to end from year 1, every plan year finds its phase |
| TemplateValidation.ValidScheduleCoversPlan | config/template_engine.py:468-473 | A single plan year of a valid configuration finds its phase |
| TemplateCalc.SalaryFor | config/template_engine.py:570-584 | A listed year's salary is the listed one; an empty list fails |
| TemplateCalc.GrowthNeverLowersSalary | config/template_engine.py:580-584 | With non-negative rates a grown salary never falls below its base |
| TemplateCalc.RateIsFromTable | config/template_engine.py:695-708 | A rate found in a table is one of its rates, the year's entry for a list |
| TemplateCalc.GrowthErrorPersists | config/template_engine.py:580-584 | Once a year's rate cannot be read, no later salary can be computed |
| TemplateCalc.ExplicitFallbackCompounds | config/template_engine.py:577-579 | Past the end of the list the salary compounds yearly at the fallback rate |
| TemplateCalc.PercentageComponent | config/template_engine.py:683-688 | Salary times the year's rate for a share of salary, 0 past the table or for other types |
| TemplateCalc.Boost | config/template_engine.py:591-594 | Only an IPO event of this year changes equity |
| TemplateCalc.NoEventNoChange | config/template_engine.py:591-594 | With no IPO event in the year equity is unchanged |
| TemplateCalc.BoostsNeverReduce | config/template_engine.py:591-594 | Multipliers of at least 1 never reduce non-negative equity |
| TemplateCalc.IncomeFor | config/template_engine.py:568-596 | The total is salary plus bonus plus equity, with salary and bonus from the progression and the bonus table, and equity its table's percentage of salary multiplied by this year's IPO events |
| TemplateCalc.IncomeForFails | config/template_engine.py:568-589 | A year's income fails exactly when the salary, the bonus or the equity lookup fails |
| TemplateCalc.GrowSalary | config/template_engine.py:580-584 | The growth loop computes the grown salary and fails exactly when it does |
| TemplateCalc.ApplyEquityEvents | config/template_engine.py:591-594 | The event loop computes the boosted equity |
| TemplateCalc.CalcIncome | config/template_engine.py:568-596 | The method's income is the specification income and fails exactly when it does |
| TemplateCalc.Adjusted | config/template_engine.py:624-626 | The larger of the lifestyle-scaled base and the income share |
| TemplateCalc.AdjustmentStep | config/template_engine.py:622-627 | An unreadable range fails, a matching one decides, any other passes on |
| TemplateCalc.FirstMatchingAdjustmentDecides | config/template_engine.py:622-627 | The first range holding the year decides the expenses |
| TemplateCalc.NoAdjustmentKeepsBase | config/template_engine.py:614-629 | With no matching range the expenses are twelve months plus the annual amounts |
| TemplateCalc.CalcExpenses | config/template_engine.py:614-629 | The loop with its break computes the specification expenses |
| TemplateCalc.MortgagePayment | config/template_engine.py:718-723 | At a zero rate the payment splits the principal evenly, failing for a zero term |
| TemplateCalc.MortgagePaymentAgreesWithAnnuity | config/template_engine.py:718-723 | For a positive rate and term it equals the shared annuity payment, which pays off the loan |
| TemplateCalc.RentalCost | config/template_engine.py:690-693 | Twelve months of rent, nothing bought |
| TemplateCalc.HousingFor | config/template_engine.py:631-658 | Rent when renting; deposit and fees in the purchase year if not owned; twelve mortgage payments later while a balance is owed; rent otherwise |
| TemplateCalc.StageOf | config/template_engine.py:725-727 | Early for years up to 5, mid up to 15, late after |
| TemplateCalc.InvestmentsFor | config/template_engine.py:660-680 | None invests nothing; otherwise the income share, clamped when both limits exist, split by career stage |
| TemplateCalc.ContributionWithinLimits | config/template_engine.py:671-673 | With ordered limits the contribution lies between twelve months of each |
| TemplateCalc.JurisdictionOf | config/template_engine.py:528-535 | US for us_ markets, UAE for uae_ markets, UK otherwise |
| TemplateCalc.CurrencyOf | config/template_engine.py:537-542 | Dollars for us_ and uae_ markets, pounds otherwise, never euros |
| TemplateCalc.OverallPhase | config/template_engine.py:544-560 | One phase is UK-only iff its market is not abroad; several are UK-to-international iff they start in uk and some phase is abroad |
| TemplateCalc.ExchangeRatesFor | config/template_engine.py:562-565 | The fixed rates 1.0, 1.26 and 1.15 |
| TemplateCalc.Principal | config/template_engine.py:861-863 | Never negative and at least the payment less 5% interest |
| TemplateCalc.PrincipalPinned | config/template_engine.py:861-863 | The principal is exactly the payment less 5% interest, or 0 when that would be negative |
| TemplateCalc.AfterUpdate | config/template_engine.py:847-865 | Investments grow 6.5% plus savings, liabilities are untouched, and ownership is recorded on a purchase |
| TemplateCalc.BalanceNeverGrows | config/template_engine.py:859-865 | Without a purchase the balance never grows and stays non-negative |
| TemplateCalc.PrincipalMovesIntoEquity | config/template_engine.py:859-865 | The principal paid moves from the balance into equity |
| TemplateCalc.PurchaseSplitsPrice | config/template_engine.py:853-857 | After a purchase equity plus mortgage is the price |
| TemplateCalc.PurchaseYearPaysDownMortgage | config/template_engine.py:853-865 | In the purchase year the deposit and fees also count as that year's mortgage payment |
| TemplateCalc.InvestmentsNeverShrink | config/template_engine.py:850 | Non-negative savings never shrink non-negative investments |
| TemplateCalc.ProjectionState.constructor | config/template_engine.py:836-845 | The initial state, with liabilities the mortgage plus the student loan |
| TemplateCalc.ProjectionState.UpdateState | config/template_engine.py:847-865 | The in-place update leaves the state the specification update gives |
| TemplateCalc.AnnualSavings | config/template_engine.py:523 | Never negative and at least net income less living and housing costs |
| TemplateCalc.AnnualSavingsPinned | config/template_engine.py:523 | The savings are exactly net income less living and housing costs, or 0 when that would be negative |
| TemplateCalc.YearRecord | config/template_engine.py:497-520 | Calendar year and age offset from the start, income total from the components, net worth from the state before the update |
| TemplateCalc.YearOutcome | config/template_engine.py:475-526 | An income failure fails the year; otherwise the record's income, dates, jurisdiction, currency and net worth, and investments that grow at least 6.5% |
| TemplateCalc.CalculateYearWithPhase | config/template_engine.py:475-526 | The method fails exactly when the year's outcome fails; otherwise it returns that outcome's record and leaves the state updated in place to the outcome's new state; a failed year leaves the state as it was |
| TemplateCalc.YearOutcomeOk | config/template_engine.py:475-526 | When income, taxes, expenses and housing all succeed, the year is their record and the state advanced by it |
| TemplateCalc.YearOutcomeErr | config/template_engine.py:475-526 | A failure of income, expenses or housing fails the year |
| TemplateCalc.Project | config/template_engine.py:434-440 | One record per year with consecutive years and ages; liabilities unchanged, and investments that start non-negative never fall below their start |
| TemplateCalc.ProjectErrorPersists | config/template_engine.py:434-440 | A projection that fails fails for every longer plan |
| TemplateCalc.ProjectYear | config/template_engine.py:435-440 | One turn of the loop extends the projection by one year |
| TemplateCalc.CalculateScenario | config/template_engine.py:426-442 | The scenario's points are the projection of years 1 to the plan's duration, with the shell's name, description and overall phase |

## Findings

| source | as written | input that shows it | evidently intended | confidence | as-written member | corrected member |
|---|---|---|---|---|---|---|
| config/template_engine.py:217-236 | A template taken from the cache is checked for `extends` again, so a cached resolution that carries an `extends` key (copied in by an `overrides` section) is merged over that parent a second time | Templates `p` = {a: 1}, `q` = {b: 2} and `c` = {extends: p, overrides: {extends: q}}: the first load of `c` gives {a: 1, extends: q}, the second gives {a: 1, b: 2} | A cache hit returns the cached resolution, so every load gives the first load's answer | not executed | TemplateLoading.CacheHitResolvesAgain | TemplateLoading.TemplateEngine.LoadTemplate |

## Left out

- File and YAML reading (`_load_yaml_file`, the file reads in `_load_template` and `_load_tax_system`, `try_load_scenario`, `try_load_tax_system`, `get_available_yaml_scenarios`, the module-level configuration load): template, tax-system and scenario files are maps given as parameters. A file that is absent or fails to parse is a missing key.
- The YAML tax-system lookup tries a main directory and then a `us_states` directory. The model joins them into one map keyed by tax-system id.
- `TemplateEngine._load_location_market` and `_load_life_events` are left out. No modelled operation calls them, and both only read files and merge templates.
- `GenericCalculationEngine._determine_phase`, `_determine_current_phase` and `_determine_jurisdiction` are left out. They read `location_market`, which a resolved configuration does not have, and no modelled operation calls them.
- `calculate_scenario_from_templates` and `load_scenario_from_templates` are thin wrappers that load and then calculate. They are not modelled separately.
- `_calc_taxes` imports a function that does not exist, so as written it always raises. The model takes the tax calculation as a function parameter, and the year's tax figures come from it.
- `calculate_us_expenses` (utils/tax/us_tax.py:87-106) and `calculate_uae_expenses` (utils/tax/uae_tax.py:11-30) compute exactly what `calculate_uk_expenses` does. `UkTax.Expenses` models all three, including the identical copies in `utils/us_tax.py` and `utils/uae_tax.py`.
- `calculate_uae_investment_allocation` is identical to the US allocation and is modelled by `UsTax.InvestmentAllocation`.
- Floating point: amounts are exact `real`s. IEEE rounding, `inf` and `nan` are not modelled.
- String formatting: `{:,.0f}` and `{:.1f}` are modelled only for the cases where Python's rounding is exact (whole numbers and half-to-even rounding of a real). `float()` parsing is modelled for plain decimals with surrounding ASCII whitespace; exponent notation, `inf`, `nan`, underscores and non-ASCII whitespace are not modelled and are rejected.
- `calculate_compound_growth_rate` is left out because it needs fractional powers.
- `utils/formatting.format_percentage`, `format_number`, `create_styled_dataframe` and `format_metric_card` are left out. They only print floats or build Streamlit and pandas objects.
- Streamlit, Plotly and pandas code are left out: every `render_*` and `create_*_chart` function, the chart and table builders in `pages/2_Income_Expense_Breakdown.py` and `utils/charts.py`, `create_metric_cards`, `create_hover_template`, `get_scenario_color`, `optimize_chart_rendering`, session state and the dashboard entry point. Insight and warning texts are modelled as datatypes, not formatted strings.
- `create_scenario_summary` is left out. It only packs the four classifiers (which are modelled) and four metric lookups into a dictionary.
- `utils/validation.validate_session_state`, `validate_scenario_data`, `validate_dataframe`, `handle_data_loading_error` and `log_validation_error` are left out. They check Python attributes and types, or only log and display.
- `utils/data.load_all_scenarios`, `export_scenario_data`, `get_performance_metrics` and `clear_cache` are left out. They use Streamlit's cache, build CSV or Excel exports, or call functions that `models/unified_helpers.py` does not define.
- `SimpleConfigFallback._convert_yaml_to_legacy_format`, `_generate_legacy_scenario_config`, `__getitem__` and `get` are left out. They return their input or the legacy configuration unchanged.
- `utils/tax/tax_utils.validate_tax_calculation` is left out. It compares floats against a tolerance and only reports.
- The persistent cache of `CurrencyConversionCache` (`_load_persistent_cache`, `_save_persistent_cache`, `_is_expired_entry`) is left out because it is file I/O. The thread lock is dropped and the cache is modelled sequentially.
- `DataAccessOptimizer.optimize_scenario_list` and `lazy_load_scenarios` are left out. Both only apply caller-supplied Python callables (a filter and a sort key, or a loader), so what they compute is decided by code outside this model.
- `PerformanceMonitor.get_performance_report` and the module-level `get_performance_summary` (models/performance_optimizations.py:302-335 and 352-358) are left out. They only format the timings the modelled monitor records.
- `utils/performance.get_system_metrics`, `monitor_memory_usage` and the `track_operation` decorator are left out. They read `psutil` and the clock; clock readings are parameters of the modelled monitor.
- Pages read scenarios and data points as values. Aliasing between the dashboard's shared scenario objects is not modelled.
- Charts.SortDescendingCorrect: states that the result is sorted and a permutation, not that ties keep their list order, though the insertion sort it checks does keep it.
- ScenarioSelector.ApplyQuickFilters: when it falls back to one admitted scenario, any admitted scenario satisfies the contract, because the source picks it from an unordered Python set.
- Common.MortgagePayment: the term is a natural number; a negative term in years is not modelled.
- TemplateCalc.MortgagePayment: the term is a natural number; a negative term in years is not modelled.
- Template inheritance assumes a well-founded `extends` relation (a rank that drops from child to parent). The source has no cycle check, and a cyclic chain would recurse until Python's stack overflows.
- TemplateLoading.TemplateEngine.ConvertSinglePhase: a `duration_years` that is not a whole number is refused with `NotAnInteger`, where Python stores it and fails only later in arithmetic; a `location_market` that is not a string is refused with `NotAString`, where Python stores it as it is. Phase entries of a multi-phase scenario are typed records, so the `KeyError` of an entry without `duration` or `location.market` (config/template_engine.py:157-158) is not modelled.
- TemplateLoading.PlanningDuration: gives no duration for a `duration_years` that is not a whole number, where Python passes any value on.
- TemplateValidation.StructureErrors: a truthy `progression` that is not a mapping makes `.get` raise `AttributeError` in the source (config/template_engine.py:398-400); the model collects it as the error `MalformedProgression` instead, so validation still fails but with the other problems listed too.
- Template files are mappings: a YAML file that parses to `null` or to something other than a mapping is not modelled.
- TemplateLoading.LoadAsWritten: `fuel` stands for Python's recursion limit; a chain of `extends` longer than the fuel fails with `RecursionLimit`, where Python's limit depends on the stack. The corrected resolution assumes a well-founded `extends` relation, as stated above.
- Base.Lower and Base.Title: only ASCII letters change case; Python's `lower()` and `title()` also map other Unicode letters.
- Imports that fail as written are taken as intended: `utils/data.py:27-31` imports `get_performance_metrics` and `clear_performance_caches`, which `models/unified_helpers.py` does not define; `components/scenario_selector.py:8-13` imports three names that `utils/data.py` does not define; `utils/tax/tax_utils.py:15` imports `optimize_currency_value_creation`, which only `models/performance_optimizations.py:337` defines. The model treats each name as the function the code evidently means.

=== FILE: app_kpis.dfy ===
/** The headline figures of the dashboard: best final net worth, scenario counts and how often each template is used. */
module AppKpis {
  import opened Base
  import opened UnifiedData

  /** The part of a scenario's enriched metadata the figures read: its display name and its template per component type. */
  datatype KpiMetadata = KpiMetadata(name: Option<string>, composition: seq<(string, string)>)

  type Scenario = (string, seq<UnifiedFinancialData>)

  /** How many scenarios use each template, per component type. */
  type Composition = map<string, map<string, nat>>

  datatype Kpis = Kpis(maxNetWorth: real, scenariosCount: nat, validScenariosCount: nat, templateComposition: Composition)

  /** The first metadata id whose display name (the id itself when there is none) is `name`. */
  function FindScenarioId(meta: seq<(string, KpiMetadata)>, name: string): (id: Option<string>)
    ensures id.Some? <==> exists k :: 0 <= k < |meta| && meta[k].1.name.GetOr(meta[k].0) == name
    ensures id.Some? ==> exists k :: (0 <= k < |meta| && meta[k].0 == id.value && meta[k].1.name.GetOr(meta[k].0) == name
      && forall i :: 0 <= i < k ==> meta[i].1.name.GetOr(meta[i].0) != name)
  {
    if meta == [] then None
    else if meta[0].1.name.GetOr(meta[0].0) == name then Some(meta[0].0)
    else
      var rest := FindScenarioId(meta[1..], name);
      assert forall k :: 0 < k < |meta| ==> meta[k] == meta[1..][k - 1];
      assert forall k :: 0 <= k < |meta| - 1 ==> meta[1..][k] == meta[k + 1];
      rest
  }

  /** The metadata stored under an id: the first entry with it. */
  function MetadataFor(meta: seq<(string, KpiMetadata)>, id: string): Option<KpiMetadata>
  {
    if meta == [] then None else if meta[0].0 == id then Some(meta[0].1) else MetadataFor(meta[1..], id)
  }

  /** Whether a template name is counted: it must be non-empty and not the placeholder "Unknown". */
  predicate Counted(template: string)
  {
    template != "" && template != "Unknown"
  }

  function Get(counts: Composition, component: string, template: string): nat
  {
    if component in counts && template in counts[component] then counts[component][template] else 0
  }

  function Bump(counts: Composition, component: string, template: string): (r: Composition)
    ensures Get(r, component, template) == Get(counts, component, template) + 1
    ensures forall c, t :: (c, t) != (component, template) ==> Get(r, c, t) == Get(counts, c, t)
  {
    var inner := if component in counts then counts[component] else map[];
    counts[component := inner[template := Get(counts, component, template) + 1]]
  }

  /** Adds one scenario's composition to the counters, pair by pair. */
  function AddComposition(counts: Composition, composition: seq<(string, string)>): Composition
  {
    if composition == [] then counts
    else
      var (c, t) := composition[|composition| - 1];
      var before := AddComposition(counts, composition[..|composition| - 1]);
      if Counted(t) then Bump(before, c, t) else before
  }

  /** A composition is a dictionary: each component type appears once. */
  predicate DistinctComponents(composition: seq<(string, string)>)
  {
    forall i, j :: 0 <= i < j < |composition| ==> composition[i].0 != composition[j].0
  }

  /** Adding a composition raises the counter of each counted (component, template) pair it holds by one and leaves the others. */
  lemma {:induction false} AddCompositionCounts(counts: Composition, composition: seq<(string, string)>, c: string, t: string)
    requires DistinctComponents(composition)
    ensures Get(AddComposition(counts, composition), c, t) ==
      Get(counts, c, t) + (if Counted(t) && (c, t) in composition then 1 else 0)
  {
    if composition != [] {
      var init := composition[..|composition| - 1];
      var last := composition[|composition| - 1];
      assert DistinctComponents(init);
      AddCompositionCounts(counts, init, c, t);
      assert composition == init + [last];
      if last == (c, t) {
        assert forall i :: 0 <= i < |init| ==> init[i].0 != composition[|composition| - 1].0;
      }
    }
  }

  /** The composition a scenario contributes: that of the metadata its name resolves to, or none when it does not resolve to a non-empty id. */
  function ScenarioComposition(meta: seq<(string, KpiMetadata)>, name: string): seq<(string, string)>
  {
    match FindScenarioId(meta, name)
    case None => []
    case Some(id) =>
      if id == "" then []
      else match MetadataFor(meta, id)
        case None => []
        case Some(m) => m.composition
  }

  /** The figures after the scenarios in `s` have been seen. */
  function MaxNetWorth(s: seq<Scenario>): real
  {
    if s == [] then 0.0
    else
      var last := s[|s| - 1];
      if last.1 != [] then Max(MaxNetWorth(s[..|s| - 1]), FinalNetWorthGbp(last.1)) else MaxNetWorth(s[..|s| - 1])
  }

  function ValidCount(s: seq<Scenario>): nat
  {
    if s == [] then 0 else ValidCount(s[..|s| - 1]) + (if s[|s| - 1].1 != [] then 1 else 0)
  }

  function CompositionOf(s: seq<Scenario>, meta: seq<(string, KpiMetadata)>): Composition
  {
    if s == [] then map[] else AddComposition(CompositionOf(s[..|s| - 1], meta), ScenarioComposition(meta, s[|s| - 1].0))
  }

  /** The number of scenarios whose resolved composition holds the pair, when the template is counted. */
  function Occurrences(s: seq<Scenario>, meta: seq<(string, KpiMetadata)>, c: string, t: string): nat
  {
    if s == [] then 0
    else Occurrences(s[..|s| - 1], meta, c, t) + (if Counted(t) && (c, t) in ScenarioComposition(meta, s[|s| - 1].0) then 1 else 0)
  }

  function KpisOf(s: seq<Scenario>, meta: seq<(string, KpiMetadata)>): Kpis
  {
    Kpis(MaxNetWorth(s), |s|, ValidCount(s), CompositionOf(s, meta))
  }

  /** The best final net worth is never negative, is at least that of every scenario with points, and is 0 or one of them. */
  lemma {:induction false} MaxNetWorthBounds(s: seq<Scenario>)
    ensures MaxNetWorth(s) >= 0.0
    ensures forall j :: 0 <= j < |s| && s[j].1 != [] ==> FinalNetWorthGbp(s[j].1) <= MaxNetWorth(s)
    ensures MaxNetWorth(s) == 0.0 || exists j :: 0 <= j < |s| && s[j].1 != [] && MaxNetWorth(s) == FinalNetWorthGbp(s[j].1)
  {
    if s != [] {
      var init := s[..|s| - 1];
      MaxNetWorthBounds(init);
      assert forall j :: 0 <= j < |init| ==> init[j] == s[j];
      if MaxNetWorth(s) != 0.0 && MaxNetWorth(s) == MaxNetWorth(init) {
        var j :| 0 <= j < |init| && init[j].1 != [] && MaxNetWorth(init) == FinalNetWorthGbp(init[j].1);
        assert s[j] == init[j];
      }
    }
  }

  /** The valid count is the number of scenarios with points: at most the total, and equal to it iff none is empty. */
  lemma {:induction false} ValidCountBounds(s: seq<Scenario>)
    ensures ValidCount(s) <= |s|
    ensures ValidCount(s) == |s| <==> forall j :: 0 <= j < |s| ==> s[j].1 != []
    ensures ValidCount(s) == 0 <==> forall j :: 0 <= j < |s| ==> s[j].1 == []
  {
    if s != [] {
      var init := s[..|s| - 1];
      ValidCountBounds(init);
      assert forall j :: 0 <= j < |init| ==> init[j] == s[j];
    }
  }

  /** Each counter is the number of scenarios whose resolved metadata uses that template for that component. */
  lemma {:induction false} CompositionCounts(s: seq<Scenario>, meta: seq<(string, KpiMetadata)>, c: string, t: string)
    requires forall k :: 0 <= k < |meta| ==> DistinctComponents(meta[k].1.composition)
    ensures Get(CompositionOf(s, meta), c, t) == Occurrences(s, meta, c, t)
  {
    if s != [] {
      CompositionCounts(s[..|s| - 1], meta, c, t);
      var comp := ScenarioComposition(meta, s[|s| - 1].0);
      DistinctResolved(meta, s[|s| - 1].0);
      AddCompositionCounts(CompositionOf(s[..|s| - 1], meta), comp, c, t);
    }
  }

  lemma {:induction false} MetadataForDistinct(meta: seq<(string, KpiMetadata)>, id: string)
    requires forall k :: 0 <= k < |meta| ==> DistinctComponents(meta[k].1.composition)
    ensures MetadataFor(meta, id).Some? ==> DistinctComponents(MetadataFor(meta, id).value.composition)
  {
    if meta != [] && meta[0].0 != id {
      assert forall k :: 0 <= k < |meta| - 1 ==> meta[1..][k] == meta[k + 1];
      MetadataForDistinct(meta[1..], id);
    }
  }

  lemma DistinctResolved(meta: seq<(string, KpiMetadata)>, name: string)
    requires forall k :: 0 <= k < |meta| ==> DistinctComponents(meta[k].1.composition)
    ensures DistinctComponents(ScenarioComposition(meta, name))
  {
    match FindScenarioId(meta, name)
    case None =>
    case Some(id) => MetadataForDistinct(meta, id);
  }

  // ------------------------------------------------------------------ loops

  /** The inner search of the metadata for the scenario's id, stopping at the first match. */
  method LookupScenarioId(meta: seq<(string, KpiMetadata)>, name: string) returns (id: Option<string>)
    ensures id == FindScenarioId(meta, name)
  {
    var i := 0;
    while i < |meta|
      invariant 0 <= i <= |meta|
      invariant FindScenarioId(meta[i..], name) == FindScenarioId(meta, name)
    {
      if meta[i].1.name.GetOr(meta[i].0) == name {
        return Some(meta[i].0);
      }
      assert meta[i..][1..] == meta[i + 1..];
      i := i + 1;
    }
    return None;
  }

  /** The inner loop over a composition's (component type, template) pairs. */
  method CountComposition(counts: Composition, composition: seq<(string, string)>) returns (r: Composition)
    ensures r == AddComposition(counts, composition)
  {
    r := counts;
    var i := 0;
    while i < |composition|
      invariant 0 <= i <= |composition|
      invariant r == AddComposition(counts, composition[..i])
    {
      assert composition[..i + 1][..i] == composition[..i];
      var (c, t) := composition[i];
      if t != "" && t != "Unknown" {
        r := Bump(r, c, t);
      }
      i := i + 1;
    }
    assert composition[..i] == composition;
  }

  /** `calculate_template_aware_kpis`, with the session's enriched metadata passed in. */
  method CalculateTemplateAwareKpis(scenarios: seq<Scenario>, meta: seq<(string, KpiMetadata)>) returns (k: Kpis)
    ensures k == KpisOf(scenarios, meta)
  {
    if scenarios == [] {
      return Kpis(0.0, 0, 0, map[]);
    }
    var maxNetWorth := 0.0;
    var valid := 0;
    var composition: Composition := map[];
    var i := 0;
    while i < |scenarios|
      invariant 0 <= i <= |scenarios|
      invariant maxNetWorth == MaxNetWorth(scenarios[..i])
      invariant valid == ValidCount(scenarios[..i])
      invariant composition == CompositionOf(scenarios[..i], meta)
    {
      assert scenarios[..i + 1][..i] == scenarios[..i];
      var (name, points) := scenarios[i];
      var id := LookupScenarioId(meta, name);
      if points != [] {
        valid := valid + 1;
      }
      if id.Some? && id.value != "" {
        var found := MetadataFor(meta, id.value);
        if found.Some? {
          composition := CountComposition(composition, found.value.composition);
        }
      }
      if points != [] {
        maxNetWorth := Max(maxNetWorth, FinalNetWorthGbp(points));
      }
      i := i + 1;
    }
    assert scenarios[..i] == scenarios;
    k := Kpis(maxNetWorth, |scenarios|, valid, composition);
  }
}

=== FILE: base.dfy ===
/** Shared vocabulary: optional values, results for raised errors, money arithmetic and ASCII string helpers. */
module Base {

  datatype Option<T> = None | Some(value: T)
  {
    /** Python's `d.get(key, default)` once the lookup is an `Option`. */
    function GetOr(default: T): T
    {
      if Some? then value else default
    }
  }

  /** The outcome of a call that may raise; `Err` carries what the exception would report. */
  datatype Result<T, E> = Ok(value: T) | Err(error: E)

  function Max(a: real, b: real): real { if a >= b then a else b }

  function Min(a: real, b: real): real { if a <= b then a else b }

  function MaxInt(a: int, b: int): int { if a >= b then a else b }

  function MinInt(a: int, b: int): int { if a <= b then a else b }

  function Abs(x: real): real { if x < 0.0 then -x else x }

  /** `x ** n` for a natural exponent. */
  function Pow(x: real, n: nat): real
  {
    if n == 0 then 1.0 else x * Pow(x, n - 1)
  }

  lemma {:induction false} PowPositive(x: real, n: nat)
    requires x > 0.0
    ensures Pow(x, n) > 0.0
  {
    if n > 0 {
      PowPositive(x, n - 1);
    }
  }

  lemma {:induction false} PowAtLeastOne(x: real, n: nat)
    requires x >= 1.0
    ensures Pow(x, n) >= 1.0
  {
    if n > 0 {
      PowAtLeastOne(x, n - 1);
    }
  }

  lemma {:induction false} PowAboveOne(x: real, n: nat)
    requires x > 1.0 && n > 0
    ensures Pow(x, n) > 1.0
  {
    PowAtLeastOne(x, n - 1);
  }

  lemma MulLeft(a: real, b: real, c: real)
    requires a <= b && c >= 0.0
    ensures a * c <= b * c
  {
    assert (b - a) * c >= 0.0;
  }

  lemma DivMonotone(a: real, b: real, c: real)
    requires a <= b && c > 0.0
    ensures a / c <= b / c
  {
    MulLeft(a, b, 1.0 / c);
  }

  lemma DivBelowOne(a: real, b: real)
    requires 0.0 < a < b
    ensures 0.0 < a / b < 1.0
  {
    DivMonotone(a, b, b);
    assert b / b == 1.0;
    if a / b >= 1.0 {
      MulLeft(1.0, a / b, b);
      assert false;
    }
  }

  /** Python's `sum` over a list, added from the left. */
  function Sum(s: seq<real>): real
  {
    if s == [] then 0.0 else Sum(s[..|s| - 1]) + s[|s| - 1]
  }

  lemma {:induction false} SumAppend(s: seq<real>, x: real)
    ensures Sum(s + [x]) == Sum(s) + x
  {
    assert (s + [x])[..|s + [x]| - 1] == s;
  }

  lemma {:induction false} SumNonNegative(s: seq<real>)
    requires forall i :: 0 <= i < |s| ==> s[i] >= 0.0
    ensures Sum(s) >= 0.0
  {
    if s != [] {
      SumNonNegative(s[..|s| - 1]);
    }
  }

  function Mean(s: seq<real>): real
  {
    if s == [] then 0.0 else Sum(s) / |s| as real
  }

  // ---------------------------------------------------------------- strings

  predicate IsPrefix(p: string, s: string)
  {
    |p| <= |s| && s[..|p|] == p
  }

  /** Python's `sub in s`. */
  predicate Contains(s: string, sub: string)
    decreases |s|
  {
    IsPrefix(sub, s) || (|s| > 0 && Contains(s[1..], sub))
  }

  predicate IsUpper(c: char) { 'A' <= c <= 'Z' }

  predicate IsLower(c: char) { 'a' <= c <= 'z' }

  predicate IsLetter(c: char) { IsUpper(c) || IsLower(c) }

  function LowerChar(c: char): char
  {
    if IsUpper(c) then (c as int - 'A' as int + 'a' as int) as char else c
  }

  function UpperChar(c: char): char
  {
    if IsLower(c) then (c as int - 'a' as int + 'A' as int) as char else c
  }

  /** Python's `str.lower()` on ASCII text. */
  function Lower(s: string): (r: string)
    ensures |r| == |s|
    ensures forall i :: 0 <= i < |s| ==> r[i] == LowerChar(s[i])
  {
    seq(|s|, i requires 0 <= i < |s| => LowerChar(s[i]))
  }

  /** Python's `str.replace(from, to)` for a single-character `from`. */
  function ReplaceChar(s: string, from: char, to: string): string
  {
    if s == [] then []
    else (if s[0] == from then to else [s[0]]) + ReplaceChar(s[1..], from, to)
  }

  /** Python's `str.title()` on ASCII text: a letter is upper-cased when the character before it is not a letter, lower-cased otherwise. */
  function Title(s: string): (r: string)
    ensures |r| == |s|
    ensures forall i :: 0 <= i < |s| ==> r[i] == TitleChar(s, i)
  {
    seq(|s|, i requires 0 <= i < |s| => TitleChar(s, i))
  }

  function TitleChar(s: string, i: nat): char
    requires i < |s|
  {
    if i == 0 || !IsLetter(s[i - 1]) then UpperChar(s[i]) else LowerChar(s[i])
  }

  /** Decimal digits of a natural number, most significant first. */
  function NatToString(n: nat): (r: string)
    decreases n
  {
    if n < 10 then [DigitChar(n)] else NatToString(n / 10) + [DigitChar(n % 10)]
  }

  function DigitChar(d: nat): char
    requires d < 10
  {
    ('0' as int + d) as char
  }

  predicate IsDigit(c: char)
  {
    '0' <= c <= '9'
  }

  predicate AllDigits(s: string)
  {
    forall i :: 0 <= i < |s| ==> IsDigit(s[i])
  }

  /** The value of a string of decimal digits, most significant first. */
  function DigitsValue(s: string): nat
    requires AllDigits(s)
  {
    if s == [] then 0 else DigitsValue(s[..|s| - 1]) * 10 + (s[|s| - 1] as int - '0' as int)
  }

  /** Reading back the decimal digits of a natural number gives the number. */
  lemma {:induction false} DigitsValueOfNat(n: nat)
    ensures AllDigits(NatToString(n)) && NatToString(n) != []
    ensures DigitsValue(NatToString(n)) == n
    decreases n
  {
    if n >= 10 {
      DigitsValueOfNat(n / 10);
      var s := NatToString(n);
      assert s[..|s| - 1] == NatToString(n / 10);
    }
  }

  /** The ASCII characters Python's `str.strip()`, `int()` and `float()` treat as whitespace. */
  predicate IsSpace(c: char)
  {
    c == ' ' || c == '\t' || c == '\n' || c == '\r' || c == '\U{0B}' || c == '\U{0C}'
  }

  /** Python's `str(n)` for an integer. */
  function IntToString(n: int): string
  {
    if n < 0 then "-" + NatToString(-n) else NatToString(n)
  }
}

=== FILE: breakdown.dfy ===
/** The income and expense metrics of the breakdown page, for one scenario and summarised over several. */
module Breakdown {
  import opened Base
  import opened UnifiedData

  /** The yearly figure a metric is computed from. */
  datatype Measure = GrossIncome | TotalExpenses

  function ValueOf(p: UnifiedFinancialData, m: Measure): real
  {
    match m
    case GrossIncome => GrossIncomeGbp(p)
    case TotalExpenses => TotalExpensesGbp(p)
  }

  /** The measure of every point, in order. */
  function Series(points: seq<UnifiedFinancialData>, m: Measure): (s: seq<real>)
    ensures |s| == |points|
    ensures forall i :: 0 <= i < |points| ==> s[i] == ValueOf(points[i], m)
  {
    if points == [] then [] else Series(points[..|points| - 1], m) + [ValueOf(points[|points| - 1], m)]
  }

  /** A scenario as the page sees it: its name and its yearly points, in the order of the scenario dictionary. */
  type NamedScenario = (string, seq<UnifiedFinancialData>)

  /** Total, average and growth of one measure over one scenario. */
  datatype PeriodMetrics = PeriodMetrics(total: real, average: real, growthRate: real)

  const NoMetrics: PeriodMetrics := PeriodMetrics(0.0, 0.0, 0.0)

  /** Growth from the first to the last value in percent: 0 with fewer than two values or a first value that is not positive. */
  function GrowthRate(values: seq<real>): real
  {
    if |values| >= 2 && values[0] > 0.0 then ((values[|values| - 1] - values[0]) / values[0]) * 100.0 else 0.0
  }

  /** The growth rate applied to the first value gives the change to the last one; without two values or a positive start it is 0. */
  lemma GrowthRateMeaning(values: seq<real>)
    ensures (|values| < 2 || values[0] <= 0.0) ==> GrowthRate(values) == 0.0
    ensures |values| >= 2 && values[0] > 0.0 ==> GrowthRate(values) * values[0] == (values[|values| - 1] - values[0]) * 100.0
  {
  }

  /** Expense control: the fall from the first to the last value in percent, with the same guards as growth. */
  function ExpenseControl(values: seq<real>): real
  {
    if |values| >= 2 && values[0] > 0.0 then ((values[0] - values[|values| - 1]) / values[0]) * 100.0 else 0.0
  }

  /** Controlling expenses is shrinking them: the control figure is the growth rate negated. */
  lemma ExpenseControlIsNegatedGrowth(values: seq<real>)
    ensures ExpenseControl(values) == -GrowthRate(values)
  {
    if |values| >= 2 && values[0] > 0.0 {
      var a := values[0];
      var b := values[|values| - 1];
      assert (a - b) / a == -((b - a) / a);
    }
  }

  /** The metrics of a non-empty series: its sum, its mean and its growth rate. */
  function MetricsOf(values: seq<real>): (r: PeriodMetrics)
    requires values != []
    ensures r.total == Sum(values)
    ensures r.average == Mean(values)
    ensures r.growthRate == GrowthRate(values)
  {
    var total := Sum(values);
    PeriodMetrics(total, total / |values| as real, GrowthRate(values))
  }

  /** The average spread over every year gives back the total. */
  lemma AverageTimesYears(values: seq<real>)
    requires values != []
    ensures MetricsOf(values).average * |values| as real == MetricsOf(values).total
  {
  }

  lemma {:induction false} SumConstant(values: seq<real>, c: real)
    requires forall i :: 0 <= i < |values| ==> values[i] == c
    ensures Sum(values) == |values| as real * c
  {
    if values != [] {
      SumConstant(values[..|values| - 1], c);
    }
  }

  /** A flat series: the total is n times the value, the average is the value, and there is no growth. */
  lemma FlatSeriesMetrics(values: seq<real>, c: real)
    requires values != []
    requires forall i :: 0 <= i < |values| ==> values[i] == c
    ensures MetricsOf(values).total == |values| as real * c
    ensures MetricsOf(values).average == c
    ensures MetricsOf(values).growthRate == 0.0
  {
    SumConstant(values, c);
    assert MetricsOf(values).average == (|values| as real * c) / |values| as real;
  }

  /**
   * `calculate_single_scenario_income_metrics` and `calculate_single_scenario_expense_metrics`: the metrics of the first
   * scenario of the dictionary, all zero when it has no points; an empty dictionary raises inside the guarded block, which
   * also answers zeros.
   */
  function SingleScenarioMetrics(scenarios: seq<NamedScenario>, m: Measure): (r: PeriodMetrics)
    ensures scenarios == [] || scenarios[0].1 == [] ==> r == NoMetrics
    ensures scenarios != [] && scenarios[0].1 != [] ==> r == MetricsOf(Series(scenarios[0].1, m))
  {
    if scenarios == [] || scenarios[0].1 == [] then NoMetrics else MetricsOf(Series(scenarios[0].1, m))
  }

  // ------------------------------------------------------------ summaries

  /** One entry of the summary's `scenario_metrics` list; `trend` is the growth rate for income and the expense control for expenses. */
  datatype ScenarioRow = ScenarioRow(name: string, total: real, average: real, trend: real)

  function RowOf(s: NamedScenario, m: Measure): ScenarioRow
    requires s.1 != []
  {
    var values := Series(s.1, m);
    var metrics := MetricsOf(values);
    ScenarioRow(s.0, metrics.total, metrics.average, if m == GrossIncome then metrics.growthRate else ExpenseControl(values))
  }

  /** The rows of the scenarios that have points, in dictionary order. */
  function Rows(scenarios: seq<NamedScenario>, m: Measure): (rows: seq<ScenarioRow>)
    ensures |rows| <= |scenarios|
  {
    if scenarios == [] then []
    else
      var last := scenarios[|scenarios| - 1];
      Rows(scenarios[..|scenarios| - 1], m) + (if last.1 != [] then [RowOf(last, m)] else [])
  }

  /** Every scenario with points has its row. */
  lemma {:induction false} RowsComplete(scenarios: seq<NamedScenario>, m: Measure, j: nat)
    requires j < |scenarios| && scenarios[j].1 != []
    ensures RowOf(scenarios[j], m) in Rows(scenarios, m)
  {
    var init := scenarios[..|scenarios| - 1];
    var rest := if scenarios[|scenarios| - 1].1 != [] then [RowOf(scenarios[|scenarios| - 1], m)] else [];
    assert Rows(scenarios, m) == Rows(init, m) + rest;
    if j < |init| {
      assert scenarios[j] == init[j];
      RowsComplete(init, m, j);
    } else {
      assert rest == [RowOf(scenarios[j], m)];
    }
  }

  /** Every row is the row of some scenario with points. */
  lemma {:induction false} RowsSound(scenarios: seq<NamedScenario>, m: Measure, r: ScenarioRow)
    requires r in Rows(scenarios, m)
    ensures exists j :: 0 <= j < |scenarios| && scenarios[j].1 != [] && r == RowOf(scenarios[j], m)
  {
    var init := scenarios[..|scenarios| - 1];
    var rest := if scenarios[|scenarios| - 1].1 != [] then [RowOf(scenarios[|scenarios| - 1], m)] else [];
    assert Rows(scenarios, m) == Rows(init, m) + rest;
    if r in Rows(init, m) {
      RowsSound(init, m, r);
      var j :| 0 <= j < |init| && init[j].1 != [] && r == RowOf(init[j], m);
      assert scenarios[j] == init[j];
    } else {
      assert r in rest;
      assert scenarios[|scenarios| - 1].1 != [] && r == RowOf(scenarios[|scenarios| - 1], m);
    }
  }

  /** Exactly the scenarios with points have a row, so there are rows iff some scenario has points. */
  lemma RowsOfScenarios(scenarios: seq<NamedScenario>, m: Measure)
    ensures forall j :: 0 <= j < |scenarios| && scenarios[j].1 != [] ==> RowOf(scenarios[j], m) in Rows(scenarios, m)
    ensures forall r :: r in Rows(scenarios, m) ==> exists j :: 0 <= j < |scenarios| && scenarios[j].1 != [] && r == RowOf(scenarios[j], m)
    ensures Rows(scenarios, m) == [] <==> forall j :: 0 <= j < |scenarios| ==> scenarios[j].1 == []
  {
    forall j | 0 <= j < |scenarios| && scenarios[j].1 != []
      ensures RowOf(scenarios[j], m) in Rows(scenarios, m)
    {
      RowsComplete(scenarios, m, j);
    }
    forall r | r in Rows(scenarios, m)
      ensures exists j :: 0 <= j < |scenarios| && scenarios[j].1 != [] && r == RowOf(scenarios[j], m)
    {
      RowsSound(scenarios, m, r);
    }
    if Rows(scenarios, m) != [] {
      assert Rows(scenarios, m)[0] in Rows(scenarios, m);
    }
  }

  /** The field of a row a summary ranks by. */
  datatype Column = Total | Average | Trend

  function Key(r: ScenarioRow, c: Column): real
  {
    match c
    case Total => r.total
    case Average => r.average
    case Trend => r.trend
  }

  /** Python's `max(rows, key=...)` read back through the key: the largest key value. */
  function MaxBy(rows: seq<ScenarioRow>, c: Column): (r: real)
    requires rows != []
    ensures forall i :: 0 <= i < |rows| ==> Key(rows[i], c) <= r
    ensures exists i :: 0 <= i < |rows| && Key(rows[i], c) == r
  {
    if |rows| == 1 then Key(rows[0], c)
    else
      var rest := MaxBy(rows[..|rows| - 1], c);
      var last := Key(rows[|rows| - 1], c);
      assert forall i :: 0 <= i < |rows| - 1 ==> rows[i] == rows[..|rows| - 1][i];
      if last > rest then last else rest
  }

  /** Python's `min(rows, key=...)` read back through the key: the smallest key value. */
  function MinBy(rows: seq<ScenarioRow>, c: Column): (r: real)
    requires rows != []
    ensures forall i :: 0 <= i < |rows| ==> r <= Key(rows[i], c)
    ensures exists i :: 0 <= i < |rows| && Key(rows[i], c) == r
  {
    if |rows| == 1 then Key(rows[0], c)
    else
      var rest := MinBy(rows[..|rows| - 1], c);
      var last := Key(rows[|rows| - 1], c);
      assert forall i :: 0 <= i < |rows| - 1 ==> rows[i] == rows[..|rows| - 1][i];
      if last < rest then last else rest
  }

  lemma BelowMax(rows: seq<ScenarioRow>, row: ScenarioRow, c: Column)
    requires row in rows
    ensures Key(row, c) <= MaxBy(rows, c)
  {
  }

  lemma AboveMin(rows: seq<ScenarioRow>, row: ScenarioRow, c: Column)
    requires row in rows
    ensures MinBy(rows, c) <= Key(row, c)
  {
  }

  datatype IncomeSummary = IncomeSummary(totalScenarios: nat, bestTotalIncome: real, bestAvgIncome: real, bestGrowthRate: real)

  datatype ExpenseSummary = ExpenseSummary(totalScenarios: nat, lowestTotalExpenses: real, lowestAvgExpenses: real, bestExpenseControl: real)

  function IncomeSummaryOf(scenarios: seq<NamedScenario>): IncomeSummary
  {
    var rows := Rows(scenarios, GrossIncome);
    if rows == [] then IncomeSummary(0, 0.0, 0.0, 0.0)
    else IncomeSummary(|scenarios|, MaxBy(rows, Total), MaxBy(rows, Average), MaxBy(rows, Trend))
  }

  function ExpenseSummaryOf(scenarios: seq<NamedScenario>): ExpenseSummary
  {
    var rows := Rows(scenarios, TotalExpenses);
    if rows == [] then ExpenseSummary(0, 0.0, 0.0, 0.0)
    else ExpenseSummary(|scenarios|, MinBy(rows, Total), MinBy(rows, Average), MaxBy(rows, Trend))
  }

  /** Collects the rows of the scenarios with points, as the loop over `scenarios.items()` does. */
  method CollectRows(scenarios: seq<NamedScenario>, m: Measure) returns (rows: seq<ScenarioRow>)
    ensures rows == Rows(scenarios, m)
  {
    rows := [];
    var i := 0;
    while i < |scenarios|
      invariant 0 <= i <= |scenarios|
      invariant rows == Rows(scenarios[..i], m)
    {
      assert scenarios[..i + 1][..i] == scenarios[..i];
      if scenarios[i].1 != [] {
        rows := rows + [RowOf(scenarios[i], m)];
      }
      i := i + 1;
    }
    assert scenarios[..i] == scenarios;
  }

  /** `calculate_multi_scenario_income_summary`. */
  method CalculateMultiScenarioIncomeSummary(scenarios: seq<NamedScenario>) returns (s: IncomeSummary)
    ensures s == IncomeSummaryOf(scenarios)
  {
    if scenarios == [] {
      return IncomeSummary(0, 0.0, 0.0, 0.0);
    }
    var rows := CollectRows(scenarios, GrossIncome);
    if rows == [] {
      return IncomeSummary(0, 0.0, 0.0, 0.0);
    }
    s := IncomeSummary(|scenarios|, MaxBy(rows, Total), MaxBy(rows, Average), MaxBy(rows, Trend));
  }

  /** `calculate_multi_scenario_expense_summary`. */
  method CalculateMultiScenarioExpenseSummary(scenarios: seq<NamedScenario>) returns (s: ExpenseSummary)
    ensures s == ExpenseSummaryOf(scenarios)
  {
    if scenarios == [] {
      return ExpenseSummary(0, 0.0, 0.0, 0.0);
    }
    var rows := CollectRows(scenarios, TotalExpenses);
    if rows == [] {
      return ExpenseSummary(0, 0.0, 0.0, 0.0);
    }
    s := ExpenseSummary(|scenarios|, MinBy(rows, Total), MinBy(rows, Average), MaxBy(rows, Trend));
  }

  /** A row holds the scenario's total, its mean, and its growth rate (income) or expense control (expenses). */
  lemma RowMeaning(s: NamedScenario, m: Measure)
    requires s.1 != []
    ensures RowOf(s, m).name == s.0
    ensures RowOf(s, m).total == Sum(Series(s.1, m))
    ensures RowOf(s, m).average == Mean(Series(s.1, m))
    ensures m == GrossIncome ==> RowOf(s, m).trend == GrowthRate(Series(s.1, m))
    ensures m == TotalExpenses ==> RowOf(s, m).trend == ExpenseControl(Series(s.1, m))
  {
    var values := Series(s.1, m);
    var metrics := MetricsOf(values);
    assert RowOf(s, m) == ScenarioRow(s.0, metrics.total, metrics.average,
      if m == GrossIncome then metrics.growthRate else ExpenseControl(values));
  }

  /**
   * The income summary counts every scenario, empty ones included, as soon as one has points; its best figures beat the
   * row of every scenario with points and the best total is some such scenario's total; with no points anywhere it is all zeros.
   */
  lemma IncomeSummaryBest(scenarios: seq<NamedScenario>)
    ensures (forall j :: 0 <= j < |scenarios| ==> scenarios[j].1 == []) ==> IncomeSummaryOf(scenarios) == IncomeSummary(0, 0.0, 0.0, 0.0)
    ensures forall j :: 0 <= j < |scenarios| && scenarios[j].1 != [] ==>
      && IncomeSummaryOf(scenarios).totalScenarios == |scenarios|
      && RowOf(scenarios[j], GrossIncome).total <= IncomeSummaryOf(scenarios).bestTotalIncome
      && RowOf(scenarios[j], GrossIncome).average <= IncomeSummaryOf(scenarios).bestAvgIncome
      && RowOf(scenarios[j], GrossIncome).trend <= IncomeSummaryOf(scenarios).bestGrowthRate
    ensures (exists j :: 0 <= j < |scenarios| && scenarios[j].1 != []) ==>
      exists j :: 0 <= j < |scenarios| && scenarios[j].1 != [] && RowOf(scenarios[j], GrossIncome).total == IncomeSummaryOf(scenarios).bestTotalIncome
  {
    RowsOfScenarios(scenarios, GrossIncome);
    var rows := Rows(scenarios, GrossIncome);
    if rows != [] {
      var s := IncomeSummaryOf(scenarios);
      forall j | 0 <= j < |scenarios| && scenarios[j].1 != []
        ensures RowOf(scenarios[j], GrossIncome).total <= s.bestTotalIncome
        ensures RowOf(scenarios[j], GrossIncome).average <= s.bestAvgIncome
        ensures RowOf(scenarios[j], GrossIncome).trend <= s.bestGrowthRate
      {
        var row := RowOf(scenarios[j], GrossIncome);
        BelowMax(rows, row, Total);
        BelowMax(rows, row, Average);
        BelowMax(rows, row, Trend);
        assert s.bestGrowthRate == MaxBy(rows, Trend);
        assert Key(row, Trend) == row.trend;
      }
      var k :| 0 <= k < |rows| && Key(rows[k], Total) == s.bestTotalIncome;
      assert rows[k] in rows;
    }
  }

  /**
   * The expense summary's lowest figures undercut the row of every scenario with points, the lowest total is some such
   * scenario's total, and the expense control is the best fall in expenses among them.
   */
  lemma ExpenseSummaryLowest(scenarios: seq<NamedScenario>)
    ensures (forall j :: 0 <= j < |scenarios| ==> scenarios[j].1 == []) ==> ExpenseSummaryOf(scenarios) == ExpenseSummary(0, 0.0, 0.0, 0.0)
    ensures forall j :: 0 <= j < |scenarios| && scenarios[j].1 != [] ==>
      && ExpenseSummaryOf(scenarios).totalScenarios == |scenarios|
      && ExpenseSummaryOf(scenarios).lowestTotalExpenses <= RowOf(scenarios[j], TotalExpenses).total
      && ExpenseSummaryOf(scenarios).lowestAvgExpenses <= RowOf(scenarios[j], TotalExpenses).average
      && RowOf(scenarios[j], TotalExpenses).trend <= ExpenseSummaryOf(scenarios).bestExpenseControl
    ensures (exists j :: 0 <= j < |scenarios| && scenarios[j].1 != []) ==>
      exists j :: 0 <= j < |scenarios| && scenarios[j].1 != [] && RowOf(scenarios[j], TotalExpenses).total == ExpenseSummaryOf(scenarios).lowestTotalExpenses
  {
    RowsOfScenarios(scenarios, TotalExpenses);
    var rows := Rows(scenarios, TotalExpenses);
    if rows != [] {
      var s := ExpenseSummaryOf(scenarios);
      forall j | 0 <= j < |scenarios| && scenarios[j].1 != []
        ensures s.lowestTotalExpenses <= RowOf(scenarios[j], TotalExpenses).total
        ensures s.lowestAvgExpenses <= RowOf(scenarios[j], TotalExpenses).average
        ensures RowOf(scenarios[j], TotalExpenses).trend <= s.bestExpenseControl
      {
        var row := RowOf(scenarios[j], TotalExpenses);
        AboveMin(rows, row, Total);
        AboveMin(rows, row, Average);
        BelowMax(rows, row, Trend);
        assert s.bestExpenseControl == MaxBy(rows, Trend);
        assert Key(row, Trend) == row.trend;
      }
      var k :| 0 <= k < |rows| && Key(rows[k], Total) == s.lowestTotalExpenses;
      assert rows[k] in rows;
    }
  }
}

=== FILE: charts.dfy ===
/** The performance ranking behind the dashboard's ranking charts: net worth, savings rate and total savings per scenario, best first. */
module Charts {
  import opened Base
  import opened FinancialData
  import opened ComponentUtils

  /** A ranking entry: a scenario name and its score. */
  type Entry = (string, real)

  /** The income chain of the ranking: GBP equivalent, then the GBP salary, then the USD gross at 1.26. */
  function RankingIncomeOf(p: FinancialDataPoint): real
  {
    FirstPositive(p.grossIncomeGbpEquiv, p.grossSalaryGbp, p.totalGrossUsd)
  }

  /** The savings of every point, in order. */
  function SavingsList(points: seq<FinancialDataPoint>): (s: seq<real>)
    ensures |s| == |points|
    ensures forall i :: 0 <= i < |points| ==> s[i] == SavingsOf(points[i])
  {
    if points == [] then [] else SavingsList(points[..|points| - 1]) + [SavingsOf(points[|points| - 1])]
  }

  /** The income of every point, in order. */
  function IncomeList(points: seq<FinancialDataPoint>): (s: seq<real>)
    ensures |s| == |points|
    ensures forall i :: 0 <= i < |points| ==> s[i] == RankingIncomeOf(points[i])
  {
    if points == [] then [] else IncomeList(points[..|points| - 1]) + [RankingIncomeOf(points[|points| - 1])]
  }

  /** Mean savings over mean income in percent, the income floored at 1 so that a year without income cannot divide by zero. */
  function SavingsRateOf(savings: seq<real>, incomes: seq<real>): real
  {
    (Mean(savings) / Max(1.0, Mean(incomes))) * 100.0
  }

  lemma {:induction false} MeanNonNegative(s: seq<real>)
    requires forall i :: 0 <= i < |s| ==> s[i] >= 0.0
    ensures Mean(s) >= 0.0
  {
    SumNonNegative(s);
  }

  /** Savings and income are never negative, so neither are the savings rate and the total savings; the rate is 100 times savings per unit of income. */
  lemma SavingsRateMeaning(points: seq<FinancialDataPoint>)
    ensures SavingsRateOf(SavingsList(points), IncomeList(points)) >= 0.0
    ensures Sum(SavingsList(points)) >= 0.0
    ensures SavingsRateOf(SavingsList(points), IncomeList(points)) * Max(1.0, Mean(IncomeList(points)))
      == Mean(SavingsList(points)) * 100.0
  {
    MeanNonNegative(SavingsList(points));
    SumNonNegative(SavingsList(points));
    PercentOfShare(Mean(SavingsList(points)), Max(1.0, Mean(IncomeList(points))));
  }

  /** A share `a / m` as a percentage, scaled back by `m`, is `a` as a percentage; it is never negative for `a >= 0`. */
  lemma PercentOfShare(a: real, m: real)
    requires m >= 1.0
    ensures (a / m) * 100.0 * m == a * 100.0
    ensures a >= 0.0 ==> (a / m) * 100.0 >= 0.0
  {
  }

  /** One scenario's three scores. */
  datatype Score = Score(name: string, netWorth: real, savingsRate: real, totalSavings: real)

  function ScoreOf(name: string, points: seq<FinancialDataPoint>): Score
    requires points != []
  {
    Score(name, NetWorthOf(points[|points| - 1]), SavingsRateOf(SavingsList(points), IncomeList(points)),
          Sum(SavingsList(points)))
  }

  /** The scores of the scenarios with points, in dictionary order; empty scenarios are skipped. */
  function Scores(scenarios: seq<(string, seq<FinancialDataPoint>)>): seq<Score>
  {
    if scenarios == [] then []
    else
      var last := scenarios[|scenarios| - 1];
      Scores(scenarios[..|scenarios| - 1]) + (if last.1 != [] then [ScoreOf(last.0, last.1)] else [])
  }

  /** Every scenario with points is scored. */
  lemma {:induction false} ScoresComplete(scenarios: seq<(string, seq<FinancialDataPoint>)>, j: nat)
    requires j < |scenarios| && scenarios[j].1 != []
    ensures ScoreOf(scenarios[j].0, scenarios[j].1) in Scores(scenarios)
  {
    var init := scenarios[..|scenarios| - 1];
    var last := scenarios[|scenarios| - 1];
    var rest := if last.1 != [] then [ScoreOf(last.0, last.1)] else [];
    assert Scores(scenarios) == Scores(init) + rest;
    if j < |init| {
      assert init[j] == scenarios[j];
      ScoresComplete(init, j);
    } else {
      assert j == |scenarios| - 1;
      assert ScoreOf(last.0, last.1) in rest;
    }
  }

  /** Every score belongs to a scenario with points. */
  lemma {:induction false} ScoresSound(scenarios: seq<(string, seq<FinancialDataPoint>)>, sc: Score)
    requires sc in Scores(scenarios)
    ensures exists j :: 0 <= j < |scenarios| && scenarios[j].1 != [] && sc == ScoreOf(scenarios[j].0, scenarios[j].1)
  {
    var init := scenarios[..|scenarios| - 1];
    var last := scenarios[|scenarios| - 1];
    var rest := if last.1 != [] then [ScoreOf(last.0, last.1)] else [];
    assert Scores(scenarios) == Scores(init) + rest;
    if sc in Scores(init) {
      ScoresSound(init, sc);
      var j :| 0 <= j < |init| && init[j].1 != [] && sc == ScoreOf(init[j].0, init[j].1);
      assert init[j] == scenarios[j];
      assert scenarios[j].1 != [] && sc == ScoreOf(scenarios[j].0, scenarios[j].1);
    } else {
      assert sc in rest;
      var j := |scenarios| - 1;
      assert scenarios[j].1 != [] && sc == ScoreOf(scenarios[j].0, scenarios[j].1);
    }
  }

  /** Scoring one more scenario appends its score when it has points. */
  lemma ScoresStep(scenarios: seq<(string, seq<FinancialDataPoint>)>, i: nat)
    requires i < |scenarios|
    ensures Scores(scenarios[..i + 1]) ==
      Scores(scenarios[..i]) + (if scenarios[i].1 != [] then [ScoreOf(scenarios[i].0, scenarios[i].1)] else [])
  {
    assert scenarios[..i + 1][..i] == scenarios[..i];
  }

  /** Which score a ranking list holds. */
  datatype Metric = NetWorth | SavingsRate | TotalSavings

  function ScoreValue(sc: Score, m: Metric): real
  {
    match m
    case NetWorth => sc.netWorth
    case SavingsRate => sc.savingsRate
    case TotalSavings => sc.totalSavings
  }

  /** The unsorted ranking list of one metric: one entry per scored scenario, in order. */
  function Column(scores: seq<Score>, m: Metric): (c: seq<Entry>)
    ensures |c| == |scores|
    ensures forall i :: 0 <= i < |scores| ==> c[i] == (scores[i].name, ScoreValue(scores[i], m))
  {
    if scores == [] then [] else Column(scores[..|scores| - 1], m) + [(scores[|scores| - 1].name, ScoreValue(scores[|scores| - 1], m))]
  }

  lemma ColumnAppend(scores: seq<Score>, sc: Score, m: Metric)
    ensures Column(scores + [sc], m) == Column(scores, m) + [(sc.name, ScoreValue(sc, m))]
  {
    assert (scores + [sc])[..|scores|] == scores;
  }

  /** One more scenario adds its entry to a ranking list when it has points, and nothing otherwise. */
  lemma ColumnStep(scenarios: seq<(string, seq<FinancialDataPoint>)>, i: nat, m: Metric)
    requires i < |scenarios|
    ensures Column(Scores(scenarios[..i + 1]), m) ==
      Column(Scores(scenarios[..i]), m) +
      (if scenarios[i].1 != [] then [(scenarios[i].0, ScoreValue(ScoreOf(scenarios[i].0, scenarios[i].1), m))] else [])
  {
    ScoresStep(scenarios, i);
    if scenarios[i].1 != [] {
      ColumnAppend(Scores(scenarios[..i]), ScoreOf(scenarios[i].0, scenarios[i].1), m);
    }
  }

  // ---------------------------------------------------------------- sorting

  /** Best first: values never increase along the list. */
  predicate SortedDescending(s: seq<Entry>)
  {
    forall i, j :: 0 <= i < j < |s| ==> s[i].1 >= s[j].1
  }

  /** Places `x` after every entry worth at least as much, so that earlier entries stay ahead of ties. */
  function Insert(s: seq<Entry>, x: Entry): (r: seq<Entry>)
    ensures |r| == |s| + 1
  {
    if s == [] || s[|s| - 1].1 >= x.1 then s + [x]
    else Insert(s[..|s| - 1], x) + [s[|s| - 1]]
  }

  /** `list.sort(key=lambda x: x[1], reverse=True)`: a stable descending sort, written as insertion in list order. */
  function SortDescending(s: seq<Entry>): (r: seq<Entry>)
    ensures |r| == |s|
  {
    if s == [] then [] else Insert(SortDescending(s[..|s| - 1]), s[|s| - 1])
  }

  lemma {:induction false} InsertKeepsEntries(s: seq<Entry>, x: Entry)
    ensures multiset(Insert(s, x)) == multiset(s) + multiset{x}
  {
    if !(s == [] || s[|s| - 1].1 >= x.1) {
      InsertKeepsEntries(s[..|s| - 1], x);
      assert s == s[..|s| - 1] + [s[|s| - 1]];
    }
  }

  lemma {:induction false} InsertSorted(s: seq<Entry>, x: Entry)
    requires SortedDescending(s)
    ensures SortedDescending(Insert(s, x))
    ensures Insert(s, x) != [] && (Insert(s, x)[|s|].1 == x.1 || Insert(s, x)[|s|] == s[|s| - 1])
  {
    if !(s == [] || s[|s| - 1].1 >= x.1) {
      var init := s[..|s| - 1];
      InsertSorted(init, x);
      var r := Insert(init, x);
      assert Insert(s, x) == r + [s[|s| - 1]];
      forall i | 0 <= i < |r|
        ensures r[i].1 >= s[|s| - 1].1
      {
        InsertKeepsEntries(init, x);
        assert r[i] in multiset(r);
        assert r[i] in multiset(init) || r[i] == x;
        if r[i] != x {
          assert r[i] in init;
        }
      }
    }
  }

  /** The sort returns the same entries, best first. */
  lemma {:induction false} SortDescendingCorrect(s: seq<Entry>)
    ensures SortedDescending(SortDescending(s))
    ensures multiset(SortDescending(s)) == multiset(s)
  {
    if s != [] {
      var init := s[..|s| - 1];
      SortDescendingCorrect(init);
      InsertSorted(SortDescending(init), s[|s| - 1]);
      InsertKeepsEntries(SortDescending(init), s[|s| - 1]);
      assert s == init + [s[|s| - 1]];
    }
  }

  /** The three ranking lists of `create_performance_ranking`, each sorted best first. */
  function RankingOf(scenarios: seq<(string, seq<FinancialDataPoint>)>): Rankings
  {
    var scores := Scores(scenarios);
    Rankings(SortDescending(Column(scores, NetWorth)), SortDescending(Column(scores, SavingsRate)),
             SortDescending(Column(scores, TotalSavings)))
  }

  /**
   * Each ranking list is sorted best first and holds exactly one entry per scenario with points, with that scenario's
   * score; a scenario's entry is in a list iff it has points.
   */
  lemma RankingMeaning(scenarios: seq<(string, seq<FinancialDataPoint>)>, m: Metric)
    ensures var list := match m case NetWorth => RankingOf(scenarios).netWorth
                                case SavingsRate => RankingOf(scenarios).savingsRate
                                case TotalSavings => RankingOf(scenarios).totalSavings;
      && SortedDescending(list)
      && multiset(list) == multiset(Column(Scores(scenarios), m))
      && (forall j :: 0 <= j < |scenarios| && scenarios[j].1 != [] ==>
            (scenarios[j].0, ScoreValue(ScoreOf(scenarios[j].0, scenarios[j].1), m)) in list)
  {
    var scores := Scores(scenarios);
    var column := Column(scores, m);
    SortDescendingCorrect(column);
    forall j | 0 <= j < |scenarios| && scenarios[j].1 != []
      ensures (scenarios[j].0, ScoreValue(ScoreOf(scenarios[j].0, scenarios[j].1), m)) in SortDescending(column)
    {
      var sc := ScoreOf(scenarios[j].0, scenarios[j].1);
      ScoresComplete(scenarios, j);
      var k :| 0 <= k < |scores| && scores[k] == sc;
      assert column[k] == (sc.name, ScoreValue(sc, m));
      assert column[k] in multiset(column);
    }
  }

  /** The savings and income lists of one scenario, built point by point as the inner loop does. */
  method PointLists(points: seq<FinancialDataPoint>) returns (savings: seq<real>, incomes: seq<real>)
    ensures savings == SavingsList(points) && incomes == IncomeList(points)
  {
    savings := [];
    incomes := [];
    var i := 0;
    while i < |points|
      invariant 0 <= i <= |points|
      invariant savings == SavingsList(points[..i]) && incomes == IncomeList(points[..i])
    {
      assert points[..i + 1][..i] == points[..i];
      savings := savings + [SavingsOf(points[i])];
      incomes := incomes + [RankingIncomeOf(points[i])];
      i := i + 1;
    }
    assert points[..i] == points;
  }

  /** The scoring loop of `create_performance_ranking`: one entry per scenario with points in each of the three lists. */
  method ScoreColumns(scenarios: seq<(string, seq<FinancialDataPoint>)>)
    returns (netWorth: seq<Entry>, savingsRate: seq<Entry>, totalSavings: seq<Entry>)
    ensures netWorth == Column(Scores(scenarios), NetWorth)
    ensures savingsRate == Column(Scores(scenarios), SavingsRate)
    ensures totalSavings == Column(Scores(scenarios), TotalSavings)
  {
    netWorth := [];
    savingsRate := [];
    totalSavings := [];
    var i := 0;
    while i < |scenarios|
      invariant 0 <= i <= |scenarios|
      invariant netWorth == Column(Scores(scenarios[..i]), NetWorth)
      invariant savingsRate == Column(Scores(scenarios[..i]), SavingsRate)
      invariant totalSavings == Column(Scores(scenarios[..i]), TotalSavings)
    {
      ColumnStep(scenarios, i, NetWorth);
      ColumnStep(scenarios, i, SavingsRate);
      ColumnStep(scenarios, i, TotalSavings);
      var (name, points) := scenarios[i];
      if points != [] {
        var savings, incomes := PointLists(points);
        netWorth := netWorth + [(name, NetWorthOf(points[|points| - 1]))];
        savingsRate := savingsRate + [(name, SavingsRateOf(savings, incomes))];
        totalSavings := totalSavings + [(name, Sum(savings))];
      }
      i := i + 1;
    }
    assert scenarios[..i] == scenarios;
  }

  /** `create_performance_ranking`: scores every scenario with points, then sorts each list best first. */
  method CreatePerformanceRanking(scenarios: seq<(string, seq<FinancialDataPoint>)>) returns (r: Rankings)
    ensures r == RankingOf(scenarios)
  {
    var netWorth, savingsRate, totalSavings := ScoreColumns(scenarios);
    r := Rankings(SortDescending(netWorth), SortDescending(savingsRate), SortDescending(totalSavings));
  }
}

=== FILE: common.dfy ===
/** Shared helpers used by every jurisdiction: inflation, currency conversion, mortgage arithmetic and configuration checks. */
module Common {
  import opened Base

  /** A year-keyed inflation path; `default` is the entry under the key "default", absent when the path has none. */
  datatype InflationPath = InflationPath(byYear: map<int, real>, default: Option<real>)

  /**
   * The single-year inflation factor `1 + rate` for `year`. The fallback entry is looked up
   * before the year-specific one, so a path without "default" raises even for a listed year.
   */
  function InflationMultiplier(year: int, path: InflationPath): (r: Result<real, string>)
    ensures r.Err? <==> path.default.None?
    ensures r.Ok? && year in path.byYear ==> r.value == 1.0 + path.byYear[year]
    ensures r.Ok? && year !in path.byYear ==> r.value == 1.0 + path.default.value
  {
    match path.default
    case None => Err("KeyError: 'default'")
    case Some(d) => Ok(1.0 + if year in path.byYear then path.byYear[year] else d)
  }

  function UsdToGbp(usd: real, rate: real): (gbp: real)
    requires rate != 0.0
    ensures gbp * rate == usd
  {
    usd / rate
  }

  function GbpToUsd(gbp: real, rate: real): (usd: real)
    ensures rate != 0.0 ==> usd / rate == gbp
  {
    gbp * rate
  }

  lemma CurrencyRoundTrip(x: real, rate: real)
    requires rate != 0.0
    ensures GbpToUsd(UsdToGbp(x, rate), rate) == x
    ensures UsdToGbp(GbpToUsd(x, rate), rate) == x
  {
  }

  /**
   * The monthly payment on a loan of `principal` at `annualRate` over `termYears`.
   * A zero term divides by zero in both branches and raises.
   */
  function MortgagePayment(principal: real, annualRate: real, termYears: nat): (r: Result<real, string>)
    ensures r.Err? <==> termYears == 0
    ensures r.Ok? && annualRate <= 0.0 ==> r.value * (termYears * 12) as real == principal
    ensures r.Ok? && annualRate > 0.0 ==> r.value == Annuity(principal, annualRate / 12.0, termYears * 12)
  {
    var monthlyRate := annualRate / 12.0;
    var n := termYears * 12;
    if termYears == 0 then Err("ZeroDivisionError")
    else if monthlyRate > 0.0 then Ok(Annuity(principal, monthlyRate, n))
    else Ok(principal / n as real)
  }

  /** The level payment `P·r·q/(q − 1)` with `q = (1 + r)^n`. */
  function Annuity(principal: real, monthlyRate: real, n: nat): real
    requires monthlyRate > 0.0 && n > 0
  {
    var q := Pow(1.0 + monthlyRate, n);
    PowAboveOne(1.0 + monthlyRate, n);
    principal * (monthlyRate * q) / (q - 1.0)
  }

  /** The balance left after `months` payments of `payment` on a loan accruing `monthlyRate` per month. */
  function BalanceAfter(balance: real, monthlyRate: real, payment: real, months: nat): real
  {
    if months == 0 then balance
    else BalanceAfter(balance, monthlyRate, payment, months - 1) * (1.0 + monthlyRate) - payment
  }

  /** The closed form of the balance after `k` months, scaled by the rate: `B_k·r = b·r·q − p·(q − 1)` with `q = (1 + r)^k`. */
  predicate ClosedFormHolds(b: real, r: real, p: real, k: nat)
  {
    BalanceAfter(b, r, p, k) * r == b * r * Pow(1.0 + r, k) - p * (Pow(1.0 + r, k) - 1.0)
  }

  lemma {:induction false} BalanceClosedForm(b: real, r: real, p: real, k: nat)
    ensures ClosedFormHolds(b, r, p, k)
  {
    if k > 0 {
      BalanceClosedForm(b, r, p, k - 1);
      ClosedFormStep(b, r, p, k);
    }
  }

  /** The closed form carries over from one month to the next. */
  lemma ClosedFormStep(b: real, r: real, p: real, k: nat)
    requires k > 0 && ClosedFormHolds(b, r, p, k - 1)
    ensures ClosedFormHolds(b, r, p, k)
  {
    var prev := BalanceAfter(b, r, p, k - 1);
    var q := Pow(1.0 + r, k - 1);
    StepAlgebra(prev, b, r, p, q, BalanceAfter(b, r, p, k), Pow(1.0 + r, k));
  }

  /** One month of the closed-form induction, as plain ring arithmetic. */
  lemma StepAlgebra(prev: real, b: real, r: real, p: real, q: real, next: real, qNext: real)
    requires prev * r == b * r * q - p * (q - 1.0)
    requires next == prev * (1.0 + r) - p && qNext == (1.0 + r) * q
    ensures next * r == b * r * qNext - p * (qNext - 1.0)
  {
    calc {
      next * r;
      (prev * (1.0 + r) - p) * r;
      (prev * r) * (1.0 + r) - p * r;
      (b * r * q - p * (q - 1.0)) * (1.0 + r) - p * r;
      b * r * q + b * r * q * r - p * q - p * q * r + p;
      b * r * ((1.0 + r) * q) - p * ((1.0 + r) * q - 1.0);
    }
  }

  lemma AnnuityEquation(principal: real, r: real, n: nat)
    requires r > 0.0 && n > 0
    ensures Pow(1.0 + r, n) > 1.0
    ensures Annuity(principal, r, n) * (Pow(1.0 + r, n) - 1.0) == principal * r * Pow(1.0 + r, n)
  {
    var q := Pow(1.0 + r, n);
    PowAboveOne(1.0 + r, n);
    var a := Annuity(principal, r, n);
    assert a * (q - 1.0) == principal * (r * q);
  }

  /** With a positive rate, paying the annuity for the whole term leaves nothing owing. */
  lemma AnnuityPaysOffLoan(principal: real, annualRate: real, termYears: nat)
    requires annualRate > 0.0 && termYears > 0
    ensures MortgagePayment(principal, annualRate, termYears).Ok?
    ensures BalanceAfter(principal, annualRate / 12.0, MortgagePayment(principal, annualRate, termYears).value, termYears * 12) == 0.0
  {
    var r := annualRate / 12.0;
    var n := termYears * 12;
    var q := Pow(1.0 + r, n);
    PowAboveOne(1.0 + r, n);
    var p := MortgagePayment(principal, annualRate, termYears).value;
    AnnuityEquation(principal, r, n);
    BalanceClosedForm(principal, r, p, n);
    var b := BalanceAfter(principal, r, p, n);
    assert b * r == principal * r * q - p * (q - 1.0);
    assert b * r == 0.0;
  }

  /** With a positive rate and principal, the payment is more than the first month's interest. */
  lemma AnnuityExceedsInterest(principal: real, annualRate: real, termYears: nat)
    requires annualRate > 0.0 && termYears > 0 && principal > 0.0
    ensures MortgagePayment(principal, annualRate, termYears).Ok?
    ensures MortgagePayment(principal, annualRate, termYears).value > principal * (annualRate / 12.0)
  {
    var r := annualRate / 12.0;
    var n := termYears * 12;
    var q := Pow(1.0 + r, n);
    PowAboveOne(1.0 + r, n);
    var p := MortgagePayment(principal, annualRate, termYears).value;
    AnnuityEquation(principal, r, n);
    var pr := principal * r;
    assert pr > 0.0;
    assert p * (q - 1.0) == pr * q;
    if p <= pr {
      MulLeft(p, pr, q - 1.0);
      assert false;
    }
  }

  /** Equity is the value above the balance, never negative. */
  function HouseEquity(houseValue: real, mortgageBalance: real): (r: real)
    ensures r >= 0.0 && r >= houseValue - mortgageBalance
    ensures r == 0.0 || r == houseValue - mortgageBalance
  {
    Max(0.0, houseValue - mortgageBalance)
  }

  /** The configuration keys every legacy projection needs, in the order they are reported. */
  const RequiredKeys: seq<string> := [
    "start_year", "plan_duration_years", "inflation_rate", "investment_return_rate",
    "start_age", "student_loan_debt", "tax_bands", "tax_rates", "ni_bands", "ni_rates",
    "student_loan_plan2", "isa_allowance", "lisa_allowance", "sipp_allowance"
  ]

  /** The members of `required` that are not in `present`, in their listed order. */
  function MissingKeys(required: seq<string>, present: set<string>): (r: seq<string>)
    ensures forall k :: k in r <==> k in required && k !in present
    ensures |r| <= |required|
  {
    if required == [] then []
    else (if required[0] in present then [] else [required[0]]) + MissingKeys(required[1..], present)
  }

  /** Raises, naming every missing required key, or returns True. */
  function ValidateConfig(present: set<string>): (r: Result<bool, seq<string>>)
    ensures r.Ok? <==> forall k :: k in RequiredKeys ==> k in present
    ensures r.Ok? ==> r.value
    ensures r.Err? ==> forall k :: k in r.error <==> k in RequiredKeys && k !in present
  {
    var missing := MissingKeys(RequiredKeys, present);
    assert missing != [] ==> missing[0] in missing;
    assert missing == [] ==> forall k :: k in RequiredKeys ==> k in present by {
      if missing == [] {
        forall k | k in RequiredKeys ensures k in present {
          assert k !in missing;
        }
      }
    }
    if missing != [] then Err(missing) else Ok(true)
  }
}

=== FILE: components_utils.dfy ===
/** Helpers of the dashboard components: percentage change, number scaling, name classifiers, selection checks, comparison insights and the ranking table. */
module ComponentUtils {
  import opened Base
  import Formatting

  /** `calculate_percentage_change`: 0 from a zero start, else the change relative to the start, in percent. */
  function PercentageChange(initial: real, final: real): (r: real)
    ensures initial == 0.0 ==> r == 0.0
    ensures initial != 0.0 ==> r * initial == (final - initial) * 100.0
  {
    if initial == 0.0 then 0.0 else ((final - initial) / initial) * 100.0
  }

  /** Applying a nonzero start's percentage change to it gives the final value back. */
  lemma PercentageChangeRecovers(initial: real, final: real)
    requires initial != 0.0
    ensures initial + initial * PercentageChange(initial, final) / 100.0 == final
  {
    var r := PercentageChange(initial, final);
    assert r * initial == (final - initial) * 100.0;
    assert initial * r / 100.0 == (final - initial);
  }

  /** How `format_large_number` scales a value before printing it with one decimal (or none, without a suffix). */
  datatype Scaled = Scaled(mantissa: real, suffix: string)

  function FormatLargeNumber(value: real): (s: Scaled)
    ensures s.suffix == "B" <==> value >= 1000000000.0
    ensures s.suffix == "M" <==> 1000000.0 <= value < 1000000000.0
    ensures s.suffix == "K" <==> 1000.0 <= value < 1000000.0
    ensures s.suffix == "" <==> value < 1000.0
  {
    if value >= 1000000000.0 then Scaled(value / 1000000000.0, "B")
    else if value >= 1000000.0 then Scaled(value / 1000000.0, "M")
    else if value >= 1000.0 then Scaled(value / 1000.0, "K")
    else Scaled(value, "")
  }

  function SuffixScale(suffix: string): real
  {
    if suffix == "B" then 1000000000.0 else if suffix == "M" then 1000000.0 else if suffix == "K" then 1000.0 else 1.0
  }

  /** The scaled mantissa times its suffix's scale is the value, and below a billion a suffixed mantissa lies in [1, 1000). */
  lemma LargeNumberScaling(value: real)
    ensures FormatLargeNumber(value).mantissa * SuffixScale(FormatLargeNumber(value).suffix) == value
    ensures FormatLargeNumber(value).suffix in {"K", "M"} ==> 1.0 <= FormatLargeNumber(value).mantissa < 1000.0
    ensures FormatLargeNumber(value).suffix == "B" ==> FormatLargeNumber(value).mantissa >= 1.0
  {
  }

  // ------------------------------------------------------------ classifiers

  /** `get_scenario_category`: the first of UK_Scenario, Seattle, New_York, Dubai found in the name, else Other. */
  function ScenarioCategory(name: string): (c: string)
    ensures c in {"UK", "Seattle", "New York", "Dubai", "Other"}
    ensures c == "UK" <==> Contains(name, "UK_Scenario")
    ensures c == "Other" <==>
      !Contains(name, "UK_Scenario") && !Contains(name, "Seattle") && !Contains(name, "New_York") && !Contains(name, "Dubai")
  {
    if Contains(name, "UK_Scenario") then "UK"
    else if Contains(name, "Seattle") then "Seattle"
    else if Contains(name, "New_York") then "New York"
    else if Contains(name, "Dubai") then "Dubai"
    else "Other"
  }

  /** `get_scenario_tax_status`. */
  function ScenarioTaxStatus(name: string): (s: string)
    ensures s == "Tax-Free" <==> Contains(name, "Dubai")
    ensures s == "Taxed" <==> !Contains(name, "Dubai")
  {
    if Contains(name, "Dubai") then "Tax-Free" else "Taxed"
  }

  /** `get_scenario_housing_strategy`. */
  function ScenarioHousingStrategy(name: string): (s: string)
    ensures s == "UK Home" <==> Contains(name, "UK_Home")
    ensures s == "Local Home" <==> !Contains(name, "UK_Home") && Contains(name, "Local_Home")
    ensures s == "N/A" <==> !Contains(name, "UK_Home") && !Contains(name, "Local_Home")
  {
    if Contains(name, "UK_Home") then "UK Home"
    else if Contains(name, "Local_Home") then "Local Home"
    else "N/A"
  }

  /** `get_scenario_relocation_timing`. */
  function ScenarioRelocationTiming(name: string): (s: string)
    ensures s == "Year 4 (3 UK years)" <==> Contains(name, "Year4")
    ensures s == "Year 5 (4 UK years)" <==> !Contains(name, "Year4") && Contains(name, "Year5")
    ensures s == "N/A" <==> !Contains(name, "Year4") && !Contains(name, "Year5")
  {
    if Contains(name, "Year4") then "Year 4 (3 UK years)"
    else if Contains(name, "Year5") then "Year 5 (4 UK years)"
    else "N/A"
  }

  /** A scenario filed under Dubai is always reported tax-free. */
  lemma DubaiCategoryIsTaxFree(name: string)
    requires ScenarioCategory(name) == "Dubai"
    ensures ScenarioTaxStatus(name) == "Tax-Free"
  {
  }

  /** `validate_scenario_selection`: one to three scenarios. */
  predicate ValidScenarioSelection(selected: seq<string>)
  {
    selected != [] && |selected| <= 3
  }

  /** A selection is valid iff it holds one to three scenarios, so dropping scenarios from the end of a valid one keeps it valid until it is empty. */
  lemma ValidSelectionSizes(selected: seq<string>)
    ensures ValidScenarioSelection(selected) <==> 1 <= |selected| <= 3
    ensures ValidScenarioSelection(selected) ==> forall k :: 1 <= k <= |selected| ==> ValidScenarioSelection(selected[..k])
  {
  }

  // --------------------------------------------------------------- insights

  /** The metrics `get_scenario_comparison_insights` reads from each scenario. */
  datatype ScenarioMetrics = ScenarioMetrics(finalNetWorth: real, avgSavingsRate: real, totalTaxBurden: real)

  /** One insight; `better` is the scenario (1 or 2) it favours and `amount` the positive size of the gap. */
  datatype Insight =
    | HigherNetWorth(better: nat, amount: real)
    | HigherSavingsRate(better: nat, amount: real)
    | LowerTaxBurden(better: nat, amount: real)

  function NetWorthInsight(m1: ScenarioMetrics, m2: ScenarioMetrics): seq<Insight>
  {
    var diff := m1.finalNetWorth - m2.finalNetWorth;
    if Abs(diff) > 10000.0 then (if diff > 0.0 then [HigherNetWorth(1, diff)] else [HigherNetWorth(2, Abs(diff))]) else []
  }

  function SavingsRateInsight(m1: ScenarioMetrics, m2: ScenarioMetrics): seq<Insight>
  {
    var diff := m1.avgSavingsRate - m2.avgSavingsRate;
    if Abs(diff) > 2.0 then (if diff > 0.0 then [HigherSavingsRate(1, diff)] else [HigherSavingsRate(2, Abs(diff))]) else []
  }

  function TaxInsight(m1: ScenarioMetrics, m2: ScenarioMetrics): seq<Insight>
  {
    var diff := m1.totalTaxBurden - m2.totalTaxBurden;
    if Abs(diff) > 5000.0 then (if diff < 0.0 then [LowerTaxBurden(1, Abs(diff))] else [LowerTaxBurden(2, diff)]) else []
  }

  /** `get_scenario_comparison_insights`: the net worth, savings rate and tax insights, each only when its gap is significant. */
  method ComparisonInsights(m1: ScenarioMetrics, m2: ScenarioMetrics) returns (insights: seq<Insight>)
    ensures insights == NetWorthInsight(m1, m2) + SavingsRateInsight(m1, m2) + TaxInsight(m1, m2)
  {
    insights := [];
    var netWorthDiff := m1.finalNetWorth - m2.finalNetWorth;
    if Abs(netWorthDiff) > 10000.0 {
      if netWorthDiff > 0.0 {
        insights := insights + [HigherNetWorth(1, netWorthDiff)];
      } else {
        insights := insights + [HigherNetWorth(2, Abs(netWorthDiff))];
      }
    }
    var savingsDiff := m1.avgSavingsRate - m2.avgSavingsRate;
    if Abs(savingsDiff) > 2.0 {
      if savingsDiff > 0.0 {
        insights := insights + [HigherSavingsRate(1, savingsDiff)];
      } else {
        insights := insights + [HigherSavingsRate(2, Abs(savingsDiff))];
      }
    }
    var taxDiff := m1.totalTaxBurden - m2.totalTaxBurden;
    if Abs(taxDiff) > 5000.0 {
      if taxDiff < 0.0 {
        insights := insights + [LowerTaxBurden(1, Abs(taxDiff))];
      } else {
        insights := insights + [LowerTaxBurden(2, taxDiff)];
      }
    }
  }

  /**
   * At most three insights, each present exactly when its gap passes the threshold, each naming the
   * scenario that is better on that measure, and swapping the scenarios flips which one is named.
   */
  lemma InsightsGated(m1: ScenarioMetrics, m2: ScenarioMetrics)
    ensures var all := NetWorthInsight(m1, m2) + SavingsRateInsight(m1, m2) + TaxInsight(m1, m2);
      && |all| <= 3
      && ((exists i :: 0 <= i < |all| && all[i].HigherNetWorth?) <==> Abs(m1.finalNetWorth - m2.finalNetWorth) > 10000.0)
      && ((exists i :: 0 <= i < |all| && all[i].HigherSavingsRate?) <==> Abs(m1.avgSavingsRate - m2.avgSavingsRate) > 2.0)
      && ((exists i :: 0 <= i < |all| && all[i].LowerTaxBurden?) <==> Abs(m1.totalTaxBurden - m2.totalTaxBurden) > 5000.0)
      && (forall i :: 0 <= i < |all| ==> all[i].amount > 0.0 && all[i].better in {1, 2})
    ensures forall i :: 0 <= i < |NetWorthInsight(m1, m2)| ==>
      (NetWorthInsight(m1, m2)[i].better == 1 <==> m1.finalNetWorth > m2.finalNetWorth)
    ensures forall i :: 0 <= i < |TaxInsight(m1, m2)| ==>
      (TaxInsight(m1, m2)[i].better == 1 <==> m1.totalTaxBurden < m2.totalTaxBurden)
    ensures |NetWorthInsight(m1, m2)| == 1 ==> NetWorthInsight(m2, m1)[0].better == 3 - NetWorthInsight(m1, m2)[0].better
  {
    var a := NetWorthInsight(m1, m2);
    var b := SavingsRateInsight(m1, m2);
    var c := TaxInsight(m1, m2);
    var all := a + b + c;
    assert forall i :: 0 <= i < |all| ==> all[i] in a || all[i] in b || all[i] in c;
    if a != [] {
      assert all[0] == a[0];
    }
    if b != [] {
      assert all[|a|] == b[0];
    }
    if c != [] {
      assert all[|a| + |b|] == c[0];
    }
  }

  // ----------------------------------------------------------- ranking table

  /** `format_currency` of the components: £ for GBP, $ for USD, no symbol otherwise, then the rounded amount with thousands separators. */
  function FormatAmount(amount: real, currency: string): string
  {
    Formatting.FormatCurrency(Some(amount), if currency == "GBP" then "£" else if currency == "USD" then "$" else "")
  }

  /** The currency only chooses the symbol: the digits agree with the formatting utilities' `format_currency` for the same symbol. */
  lemma FormatAmountAgrees(amount: real)
    ensures FormatAmount(amount, "GBP") == Formatting.FormatCurrency(Some(amount), "£")
    ensures FormatAmount(amount, "USD") == Formatting.FormatCurrency(Some(amount), "$")
    ensures forall currency :: (FormatAmount(amount, currency) ==
      (if currency == "GBP" then "£" else if currency == "USD" then "$" else "") + FormatAmount(amount, "EUR"))
  {
  }

  /** `format_percentage` of the components, with its default of one decimal: the value rounded half to even, then "%". */
  function FormatPercentage(value: real): string
  {
    var n := Formatting.RoundHalfEven(Abs(value) * 10.0);
    (if value < 0.0 then "-" else "") + NatToString(n / 10) + "." + [DigitChar(n % 10)] + "%"
  }

  datatype Rankings = Rankings(netWorth: seq<(string, real)>, savingsRate: seq<(string, real)>, totalSavings: seq<(string, real)>)

  function RankLine(position: nat, scenario: string, shown: string): string
  {
    NatToString(position) + ". " + scenario + ": " + shown
  }

  /** A ranked value as shown: an amount in pounds, or a percentage. */
  function Shown(value: real, currency: bool): string
  {
    if currency then FormatAmount(value, "GBP") else FormatPercentage(value)
  }

  /** The numbered lines for the first entries of a ranking, counting from 1. */
  function RankLines(entries: seq<(string, real)>, currency: bool): (lines: seq<string>)
    ensures |lines| == |entries|
    ensures forall i :: 0 <= i < |entries| ==> lines[i] == RankLine(i + 1, entries[i].0, Shown(entries[i].1, currency))
  {
    if entries == [] then []
    else
      var last := entries[|entries| - 1];
      RankLines(entries[..|entries| - 1], currency) + [RankLine(|entries|, last.0, Shown(last.1, currency))]
  }

  /** One more entry adds one more numbered line. */
  lemma RankLinesStep(entries: seq<(string, real)>, i: nat, currency: bool)
    requires i < |entries|
    ensures RankLines(entries[..i + 1], currency) == RankLines(entries[..i], currency) + [RankLine(i + 1, entries[i].0, Shown(entries[i].1, currency))]
  {
    assert entries[..i + 1][..i] == entries[..i];
  }

  function FirstFive(entries: seq<(string, real)>): (r: seq<(string, real)>)
    ensures |r| == MinInt(5, |entries|) && r == entries[..|r|]
  {
    if |entries| > 5 then entries[..5] else entries
  }

  const NetWorthHeading: string := "<strong>Net Worth Rankings:</strong>"
  const SavingsRateHeading: string := "<strong>Savings Rate Rankings:</strong>"

  /** The rows of `create_performance_ranking_table` before they are joined. */
  function RankingTableRows(r: Rankings): seq<string>
  {
    [NetWorthHeading] + RankLines(FirstFive(r.netWorth), true) + [""] + [SavingsRateHeading]
      + RankLines(FirstFive(r.savingsRate), false)
  }

  /** `"\n".join(rows)`. */
  function JoinLines(rows: seq<string>): string
  {
    if rows == [] then "" else if |rows| == 1 then rows[0] else JoinLines(rows[..|rows| - 1]) + "\n" + rows[|rows| - 1]
  }

  /** The table shows two headed sections of at most five numbered entries each, the best-ranked first, with a blank row between. */
  lemma RankingTableShape(r: Rankings)
    ensures var rows := RankingTableRows(r);
      var n := MinInt(5, |r.netWorth|);
      var m := MinInt(5, |r.savingsRate|);
      && |rows| == 3 + n + m
      && rows[0] == NetWorthHeading && rows[n + 1] == "" && rows[n + 2] == SavingsRateHeading
      && (forall i :: 0 <= i < n ==>
            rows[i + 1] == RankLine(i + 1, r.netWorth[i].0, Shown(r.netWorth[i].1, true)))
      && (forall i :: 0 <= i < m ==>
            rows[n + 3 + i] == RankLine(i + 1, r.savingsRate[i].0, Shown(r.savingsRate[i].1, false)))
  {
    var top, rates := FirstFive(r.netWorth), FirstFive(r.savingsRate);
    assert forall i :: 0 <= i < |top| ==> top[i] == r.netWorth[i];
    assert forall i :: 0 <= i < |rates| ==> rates[i] == r.savingsRate[i];
    TwoSections(NetWorthHeading, RankLines(top, true), SavingsRateHeading, RankLines(rates, false));
  }

  /** Where the pieces of two headed sections separated by a blank row land. */
  lemma TwoSections(h1: string, a: seq<string>, h2: string, b: seq<string>)
    ensures var rows := [h1] + a + [""] + [h2] + b;
      && |rows| == 3 + |a| + |b|
      && rows[0] == h1 && rows[|a| + 1] == "" && rows[|a| + 2] == h2
      && (forall i :: 0 <= i < |a| ==> rows[i + 1] == a[i])
      && (forall i :: 0 <= i < |b| ==> rows[|a| + 3 + i] == b[i])
  {
  }

  /** One of the two numbered loops of `create_performance_ranking_table`. */
  method NumberRows(entries: seq<(string, real)>, currency: bool) returns (rows: seq<string>)
    ensures rows == RankLines(entries, currency)
  {
    rows := [];
    var i := 0;
    while i < |entries|
      invariant 0 <= i <= |entries|
      invariant rows == RankLines(entries[..i], currency)
    {
      RankLinesStep(entries, i, currency);
      var shown := if currency then FormatAmount(entries[i].1, "GBP") else FormatPercentage(entries[i].1);
      rows := rows + [RankLine(i + 1, entries[i].0, shown)];
      i := i + 1;
    }
    assert entries[..i] == entries;
  }

  /** `create_performance_ranking_table`: the two headed, numbered sections joined with newlines. */
  method CreatePerformanceRankingTable(r: Rankings) returns (table: string)
    ensures table == JoinLines(RankingTableRows(r))
  {
    var netWorthRows := NumberRows(FirstFive(r.netWorth), true);
    var savingsRows := NumberRows(FirstFive(r.savingsRate), false);
    var rows := [NetWorthHeading] + netWorthRows + [""] + [SavingsRateHeading] + savingsRows;
    table := JoinLines(rows);
  }
}

=== FILE: data_utils.dfy ===
/**
 * The dashboard's data helpers: selecting scenarios and years, filtering by scenario type,
 * the headline metrics, the scenario catalogue and the two-scenario comparison.
 * A dictionary of scenarios is an insertion-ordered list of entries; each scenario is read as a value.
 */
module DataUtils {
  import opened Base
  import opened UnifiedData

  /** The fields of a `UnifiedFinancialScenario`, read as a value. */
  datatype ScenarioRecord = ScenarioRecord(name: string, description: string, phase: FinancialPhase,
                                           dataPoints: seq<UnifiedFinancialData>, metadata: Option<ScenarioMetadata>)

  datatype Entry = Entry(key: string, scenario: ScenarioRecord)

  function Keys(d: seq<Entry>): (ks: seq<string>)
    ensures |ks| == |d| && forall i :: 0 <= i < |d| ==> ks[i] == d[i].key
  {
    if d == [] then [] else [d[0].key] + Keys(d[1..])
  }

  predicate DistinctKeys(d: seq<Entry>)
  {
    forall i, j :: 0 <= i < j < |d| ==> d[i].key != d[j].key
  }

  /** `d[k]` / `k in d`: the first entry with that key. */
  function Find(d: seq<Entry>, k: string): (r: Option<ScenarioRecord>)
    ensures r.Some? <==> k in Keys(d)
    ensures r.Some? ==> Entry(k, r.value) in d
  {
    if d == [] then None
    else if d[0].key == k then Some(d[0].scenario)
    else
      assert forall k' :: k' in Keys(d[1..]) <==> k' in Keys(d) && (k' != d[0].key || k' in Keys(d[1..]));
      Find(d[1..], k)
  }

  /** `d[k] = v`: overwrites in place when the key is present, appends otherwise. */
  function Put(d: seq<Entry>, k: string, v: ScenarioRecord): (r: seq<Entry>)
  {
    if d == [] then [Entry(k, v)]
    else if d[0].key == k then [Entry(k, v)] + d[1..]
    else [d[0]] + Put(d[1..], k, v)
  }

  /** Putting a key keeps the other keys and their order, and adds the key at the end only when it was new. */
  lemma {:induction false} PutKeys(d: seq<Entry>, k: string, v: ScenarioRecord)
    ensures k in Keys(d) ==> Keys(Put(d, k, v)) == Keys(d)
    ensures k !in Keys(d) ==> Keys(Put(d, k, v)) == Keys(d) + [k]
  {
    if d != [] {
      assert Keys(d) == [d[0].key] + Keys(d[1..]);
      if d[0].key != k {
        PutKeys(d[1..], k, v);
        assert Keys(Put(d, k, v)) == [d[0].key] + Keys(Put(d[1..], k, v));
        assert k in Keys(d) <==> k in Keys(d[1..]);
      } else {
        assert Keys(Put(d, k, v)) == [k] + Keys(d[1..]);
      }
    }
  }

  /** After `d[k] = v` the entry for `k` holds `v`, and every other entry was already there. */
  lemma {:induction false} PutEntries(d: seq<Entry>, k: string, v: ScenarioRecord)
    ensures Entry(k, v) in Put(d, k, v)
    ensures forall e :: e in Put(d, k, v) ==> e == Entry(k, v) || e in d
  {
    if d != [] && d[0].key != k {
      PutEntries(d[1..], k, v);
      assert forall e :: e in Put(d, k, v) ==> e == d[0] || e in Put(d[1..], k, v);
    }
  }

  /** Putting into a dictionary keeps its keys distinct. */
  lemma PutDistinct(d: seq<Entry>, k: string, v: ScenarioRecord)
    requires DistinctKeys(d)
    ensures DistinctKeys(Put(d, k, v))
  {
    PutKeys(d, k, v);
    var r := Put(d, k, v);
    forall i, j | 0 <= i < j < |r|
      ensures r[i].key != r[j].key
    {
      assert Keys(r)[i] == r[i].key && Keys(r)[j] == r[j].key;
      if k !in Keys(d) && j == |d| {
        assert Keys(r)[i] == Keys(d)[i];
      }
    }
  }

  // ------------------------------------------------------------ filter_scenarios

  /** The points whose year lies in `[lo, hi]`, in their original order. */
  function InRange(points: seq<UnifiedFinancialData>, lo: int, hi: int): (r: seq<UnifiedFinancialData>)
    ensures |r| <= |points|
  {
    if points == [] then []
    else
      var p := points[|points| - 1];
      InRange(points[..|points| - 1], lo, hi) + (if lo <= p.year <= hi then [p] else [])
  }

  /** A point is kept iff it was there and its year lies in the range. */
  lemma {:induction false} InRangeKeeps(points: seq<UnifiedFinancialData>, lo: int, hi: int)
    ensures forall p :: p in InRange(points, lo, hi) <==> p in points && lo <= p.year <= hi
  {
    if points != [] {
      InRangeKeeps(points[..|points| - 1], lo, hi);
      assert forall p :: p in points <==> p in points[..|points| - 1] || p == points[|points| - 1];
    }
  }

  function Trimmed(s: ScenarioRecord, lo: int, hi: int): ScenarioRecord
  {
    ScenarioRecord(s.name, s.description, s.phase, InRange(s.dataPoints, lo, hi), s.metadata)
  }

  /** The result of `filter_scenarios` after the first names of the selection. */
  function FilterSelection(all: seq<Entry>, selected: seq<string>, lo: int, hi: int): seq<Entry>
  {
    if selected == [] then []
    else
      var d := FilterSelection(all, selected[..|selected| - 1], lo, hi);
      var name := selected[|selected| - 1];
      match Find(all, name)
      case None => d
      case Some(s) => Put(d, name, Trimmed(s, lo, hi))
  }

  /**
   * The selection keeps exactly the selected names that exist, once each; each kept scenario is the
   * stored one with its name, description, phase and metadata unchanged and only the years in range.
   */
  lemma {:induction false} FilterSelectionKeeps(all: seq<Entry>, selected: seq<string>, lo: int, hi: int)
    ensures DistinctKeys(FilterSelection(all, selected, lo, hi))
    ensures forall k :: k in Keys(FilterSelection(all, selected, lo, hi)) <==> k in selected && Find(all, k).Some?
    ensures forall e :: e in FilterSelection(all, selected, lo, hi) ==>
      Find(all, e.key).Some? && e.scenario == Trimmed(Find(all, e.key).value, lo, hi)
  {
    if selected != [] {
      var init := selected[..|selected| - 1];
      var name := selected[|selected| - 1];
      FilterSelectionKeeps(all, init, lo, hi);
      var d := FilterSelection(all, init, lo, hi);
      assert forall k :: k in selected <==> k in init || k == name;
      if Find(all, name).Some? {
        PutKeys(d, name, Trimmed(Find(all, name).value, lo, hi));
        PutEntries(d, name, Trimmed(Find(all, name).value, lo, hi));
        PutDistinct(d, name, Trimmed(Find(all, name).value, lo, hi));
      }
    }
  }

  /** The selected names that exist, in selection order. */
  function Existing(all: seq<Entry>, selected: seq<string>): seq<string>
  {
    if selected == [] then []
    else
      var name := selected[|selected| - 1];
      Existing(all, selected[..|selected| - 1]) + (if Find(all, name).Some? then [name] else [])
  }

  /** Without repeated names, the result lists the existing selected names in selection order, unknown names dropped. */
  lemma {:induction false} FilterSelectionOrder(all: seq<Entry>, selected: seq<string>, lo: int, hi: int)
    requires forall i, j :: 0 <= i < j < |selected| ==> selected[i] != selected[j]
    ensures Keys(FilterSelection(all, selected, lo, hi)) == Existing(all, selected)
  {
    if selected != [] {
      var init := selected[..|selected| - 1];
      var name := selected[|selected| - 1];
      FilterSelectionOrder(all, init, lo, hi);
      FilterSelectionKeeps(all, init, lo, hi);
      var d := FilterSelection(all, init, lo, hi);
      if Find(all, name).Some? {
        assert name !in init;
        PutKeys(d, name, Trimmed(Find(all, name).value, lo, hi));
      }
    }
  }

  /** The inner loop of `filter_scenarios`: the points whose year lies in `[lo, hi]`, in order. */
  method KeepInRange(points: seq<UnifiedFinancialData>, lo: int, hi: int) returns (kept: seq<UnifiedFinancialData>)
    ensures kept == InRange(points, lo, hi)
  {
    kept := [];
    var j := 0;
    while j < |points|
      invariant 0 <= j <= |points|
      invariant kept == InRange(points[..j], lo, hi)
    {
      assert points[..j + 1][..j] == points[..j];
      var p := points[j];
      if lo <= p.year <= hi {
        kept := kept + [p];
      }
      j := j + 1;
    }
    assert points[..j] == points;
  }

  /** `filter_scenarios`: the selected scenarios that exist, each cut down to the years in `[lo, hi]`. */
  method FilterScenarios(all: seq<Entry>, selected: seq<string>, lo: int, hi: int) returns (filtered: seq<Entry>)
    ensures filtered == FilterSelection(all, selected, lo, hi)
  {
    filtered := [];
    var i := 0;
    while i < |selected|
      invariant 0 <= i <= |selected|
      invariant filtered == FilterSelection(all, selected[..i], lo, hi)
    {
      assert selected[..i + 1][..i] == selected[..i];
      var name := selected[i];
      var found := Find(all, name);
      if found.Some? {
        var s := found.value;
        var kept := KeepInRange(s.dataPoints, lo, hi);
        filtered := Put(filtered, name, ScenarioRecord(s.name, s.description, s.phase, kept, s.metadata));
      }
      i := i + 1;
    }
    assert selected[..i] == selected;
  }

  // --------------------------------------------------- filter_scenarios_by_type

  datatype TypeFlags = TypeFlags(ukOnly: bool, internationalOnly: bool, taxFreeOnly: bool, delayedRelocationOnly: bool)

  /** A scenario passes when every flag that is set accepts its name. */
  predicate PassesTypeFlags(name: string, f: TypeFlags)
  {
    && (f.ukOnly ==> IsPrefix("UK_Scenario", name))
    && (f.internationalOnly ==> !IsPrefix("UK_Scenario", name))
    && (f.taxFreeOnly ==> Contains(name, "Dubai"))
    && (f.delayedRelocationOnly ==> Contains(name, "Year4") || Contains(name, "Year5"))
  }

  function FilterByType(d: seq<Entry>, f: TypeFlags): seq<Entry>
  {
    if d == [] then []
    else FilterByType(d[..|d| - 1], f) + (if PassesTypeFlags(d[|d| - 1].key, f) then [d[|d| - 1]] else [])
  }

  /** Exactly the passing entries are kept; with no flag set the input comes back unchanged. */
  lemma {:induction false} FilterByTypeKeeps(d: seq<Entry>, f: TypeFlags)
    ensures forall e :: e in FilterByType(d, f) <==> e in d && PassesTypeFlags(e.key, f)
    ensures f == TypeFlags(false, false, false, false) ==> FilterByType(d, f) == d
  {
    if d != [] {
      var init := d[..|d| - 1];
      var last := d[|d| - 1];
      FilterByTypeKeeps(init, f);
      assert d == init + [last];
      var tail := if PassesTypeFlags(last.key, f) then [last] else [];
      assert FilterByType(d, f) == FilterByType(init, f) + tail;
      assert forall e :: e in d <==> e in init || e == last;
      assert forall e :: e in FilterByType(d, f) <==> e in FilterByType(init, f) || e in tail;
    }
  }

  /** The UK-only and international-only flags together reject every scenario. */
  lemma UkAndInternationalExclusive(name: string, f: TypeFlags)
    requires f.ukOnly && f.internationalOnly
    ensures !PassesTypeFlags(name, f)
  {
  }

  /** `filter_scenarios_by_type`. */
  method FilterScenariosByType(all: seq<Entry>, f: TypeFlags) returns (filtered: seq<Entry>)
    ensures filtered == FilterByType(all, f)
  {
    filtered := [];
    var i := 0;
    while i < |all|
      invariant 0 <= i <= |all|
      invariant filtered == FilterByType(all[..i], f)
    {
      assert all[..i + 1][..i] == all[..i];
      var includeScenario := true;
      if f.ukOnly && !IsPrefix("UK_Scenario", all[i].key) {
        includeScenario := false;
      }
      if f.internationalOnly && IsPrefix("UK_Scenario", all[i].key) {
        includeScenario := false;
      }
      if f.taxFreeOnly && !Contains(all[i].key, "Dubai") {
        includeScenario := false;
      }
      if f.delayedRelocationOnly && !(Contains(all[i].key, "Year4") || Contains(all[i].key, "Year5")) {
        includeScenario := false;
      }
      if includeScenario {
        filtered := filtered + [all[i]];
      }
      i := i + 1;
    }
    assert all[..i] == all;
  }

  // ------------------------------------------------------ calculate_key_metrics

  datatype KeyMetrics = KeyMetrics(maxNetWorth: real, avgAnnualSavings: real, totalTaxBurden: real, scenariosCount: nat)

  /** Every point of every scenario, scenario by scenario. */
  function AllPoints(d: seq<Entry>): seq<UnifiedFinancialData>
  {
    if d == [] then [] else AllPoints(d[..|d| - 1]) + d[|d| - 1].scenario.dataPoints
  }

  /** The running maximum of the net worths, starting from 0. */
  function PeakNetWorth(points: seq<UnifiedFinancialData>): real
  {
    if points == [] then 0.0 else Max(PeakNetWorth(points[..|points| - 1]), NetWorthGbp(points[|points| - 1]))
  }

  /** The peak is at least 0 and every point's net worth, and it is 0 or some point's net worth. */
  lemma {:induction false} PeakNetWorthBounds(points: seq<UnifiedFinancialData>)
    ensures PeakNetWorth(points) >= 0.0
    ensures forall p :: p in points ==> NetWorthGbp(p) <= PeakNetWorth(points)
    ensures PeakNetWorth(points) == 0.0 || exists p :: p in points && NetWorthGbp(p) == PeakNetWorth(points)
  {
    if points != [] {
      var init := points[..|points| - 1];
      PeakNetWorthBounds(init);
      assert forall p :: p in points <==> p in init || p == points[|points| - 1];
    }
  }

  /** The running values of the loop: the peak net worth, the savings and tax sums and the number of points. */
  datatype Totals = Totals(maxNetWorth: real, savings: real, tax: real, count: nat)

  function TotalsOf(ps: seq<UnifiedFinancialData>): Totals
  {
    Totals(PeakNetWorth(ps), Sum(SavingsSeries(ps)), Sum(TaxSeries(ps)), |ps|)
  }

  function KeyMetricsOf(d: seq<Entry>): KeyMetrics
  {
    var t := TotalsOf(AllPoints(d));
    KeyMetrics(t.maxNetWorth, t.savings / MaxInt(1, t.count) as real, t.tax, |d|)
  }

  /** With no scenario every metric is 0; the average is the mean of the yearly savings over all points. */
  lemma KeyMetricsMeaning(d: seq<Entry>)
    ensures d == [] ==> KeyMetricsOf(d) == KeyMetrics(0.0, 0.0, 0.0, 0)
    ensures KeyMetricsOf(d).maxNetWorth >= 0.0
    ensures forall p :: p in AllPoints(d) ==> NetWorthGbp(p) <= KeyMetricsOf(d).maxNetWorth
    ensures AllPoints(d) != [] ==> KeyMetricsOf(d).avgAnnualSavings == AverageAnnualSavingsGbp(AllPoints(d))
    ensures KeyMetricsOf(d).scenariosCount == |d|
  {
    var ps := AllPoints(d);
    var t := TotalsOf(ps);
    assert KeyMetricsOf(d) == KeyMetrics(t.maxNetWorth, t.savings / MaxInt(1, t.count) as real, t.tax, |d|);
    PeakNetWorthBounds(ps);
    if ps != [] {
      assert MaxInt(1, t.count) == |ps|;
      assert t.savings / |ps| as real == AverageAnnualSavingsGbp(ps);
    }
  }

  /** One more point moves the totals by exactly that point's figures. */
  lemma TotalsAppend(ps: seq<UnifiedFinancialData>, p: UnifiedFinancialData)
    ensures TotalsOf(ps + [p]) == Totals(Max(TotalsOf(ps).maxNetWorth, NetWorthGbp(p)), TotalsOf(ps).savings + AnnualSavingsGbp(p),
                                         TotalsOf(ps).tax + TotalTaxGbp(p), TotalsOf(ps).count + 1)
  {
    assert (ps + [p])[..|ps + [p]| - 1] == ps;
    assert SavingsSeries(ps + [p]) == SavingsSeries(ps) + [AnnualSavingsGbp(p)];
    assert TaxSeries(ps + [p]) == TaxSeries(ps) + [TotalTaxGbp(p)];
    SumAppend(SavingsSeries(ps), AnnualSavingsGbp(p));
    SumAppend(TaxSeries(ps), TotalTaxGbp(p));
  }

  /** The inner loop of `calculate_key_metrics`: folds one scenario's points into the running totals. */
  method AccumulatePoints(t: Totals, points: seq<UnifiedFinancialData>, ghost before: seq<UnifiedFinancialData>) returns (r: Totals)
    requires t == TotalsOf(before)
    ensures r == TotalsOf(before + points)
  {
    r := t;
    var j := 0;
    assert before + points[..0] == before;
    while j < |points|
      invariant 0 <= j <= |points|
      invariant r == TotalsOf(before + points[..j])
    {
      var p := points[j];
      AccumulateStep(before, points, j, r);
      r := Totals(Max(r.maxNetWorth, NetWorthGbp(p)), r.savings + AnnualSavingsGbp(p), r.tax + TotalTaxGbp(p), r.count + 1);
      j := j + 1;
    }
    assert points[..j] == points;
  }

  /** One turn of the inner loop: folding point `j` into the totals of the earlier points. */
  lemma AccumulateStep(before: seq<UnifiedFinancialData>, points: seq<UnifiedFinancialData>, j: nat, t: Totals)
    requires j < |points| && t == TotalsOf(before + points[..j])
    ensures Totals(Max(t.maxNetWorth, NetWorthGbp(points[j])), t.savings + AnnualSavingsGbp(points[j]),
                   t.tax + TotalTaxGbp(points[j]), t.count + 1) == TotalsOf(before + points[..j + 1])
  {
    assert before + points[..j + 1] == (before + points[..j]) + [points[j]];
    TotalsAppend(before + points[..j], points[j]);
  }

  /** `calculate_key_metrics`: a running maximum and two running sums over every point of every scenario. */
  method CalculateKeyMetrics(scenarios: seq<Entry>) returns (m: KeyMetrics)
    ensures m == KeyMetricsOf(scenarios)
  {
    if scenarios == [] {
      return KeyMetrics(0.0, 0.0, 0.0, 0);
    }
    var totals := Totals(0.0, 0.0, 0.0, 0);
    var i := 0;
    while i < |scenarios|
      invariant 0 <= i <= |scenarios|
      invariant totals == TotalsOf(AllPoints(scenarios[..i]))
    {
      assert scenarios[..i + 1][..i] == scenarios[..i];
      assert AllPoints(scenarios[..i + 1]) == AllPoints(scenarios[..i]) + scenarios[i].scenario.dataPoints;
      if scenarios[i].scenario.dataPoints != [] {
        totals := AccumulatePoints(totals, scenarios[i].scenario.dataPoints, AllPoints(scenarios[..i]));
      } else {
        assert AllPoints(scenarios[..i]) + [] == AllPoints(scenarios[..i]);
      }
      i := i + 1;
    }
    assert scenarios[..i] == scenarios;
    m := KeyMetrics(totals.maxNetWorth, totals.savings / MaxInt(1, totals.count) as real, totals.tax, |scenarios|);
  }

  // ----------------------------------------------------- get_scenario_metadata

  datatype Catalogue = Catalogue(uk: seq<string>, international: seq<string>, delayed: seq<string>,
                                 taxFree: seq<string>, groups: seq<(string, seq<string>)>, all: seq<string>)

  const UkNames: seq<string> := ["UK_Scenario_A", "UK_Scenario_B"]

  const InternationalNames: seq<string> := ["Seattle Uk Home", "Seattle Local Home", "New York Uk Home",
                                            "New York Local Home", "Dubai Uk Home", "Dubai Local Home"]

  const DelayedNames: seq<string> := [
    "Seattle Year4 Uk Home", "Seattle Year4 Local Home", "Seattle Year5 Uk Home", "Seattle Year5 Local Home",
    "New York Year4 Uk Home", "New York Year4 Local Home", "New York Year5 Uk Home", "New York Year5 Local Home",
    "Dubai Year4 Uk Home", "Dubai Year4 Local Home", "Dubai Year5 Uk Home", "Dubai Year5 Local Home"]

  const TaxFreeNames: seq<string> := ["Dubai Uk Home", "Dubai Local Home", "Dubai Year4 Uk Home", "Dubai Year4 Local Home",
                                      "Dubai Year5 Uk Home", "Dubai Year5 Local Home"]

  const AllNames: seq<string> := [
    "UK_Scenario_A", "UK_Scenario_B",
    "Seattle Uk Home", "Seattle Local Home", "New York Uk Home", "New York Local Home",
    "Dubai Uk Home", "Dubai Local Home",
    "Seattle Year4 Uk Home", "Seattle Year4 Local Home", "Seattle Year5 Uk Home", "Seattle Year5 Local Home",
    "New York Year4 Uk Home", "New York Year4 Local Home", "New York Year5 Uk Home", "New York Year5 Local Home",
    "Dubai Year4 Uk Home", "Dubai Year4 Local Home", "Dubai Year5 Uk Home", "Dubai Year5 Local Home"]

  /** `get_scenario_metadata`: the fixed catalogue of display names; `all` lists UK, then international, then delayed scenarios. */
  function ScenarioCatalogue(): (c: Catalogue)
    ensures c.all == c.uk + c.international + c.delayed
    ensures |c.all| == 20 && |c.groups| == 4
  {
    var groups := [("UK", UkNames),
                   ("Seattle", ["Seattle Uk Home", "Seattle Local Home", "Seattle Year4 Uk Home", "Seattle Year4 Local Home",
                                "Seattle Year5 Uk Home", "Seattle Year5 Local Home"]),
                   ("New York", ["New York Uk Home", "New York Local Home", "New York Year4 Uk Home", "New York Year4 Local Home",
                                 "New York Year5 Uk Home", "New York Year5 Local Home"]),
                   ("Dubai", TaxFreeNames)];
    assert AllNames == UkNames + InternationalNames + DelayedNames;
    Catalogue(UkNames, InternationalNames, DelayedNames, TaxFreeNames, groups, AllNames)
  }

  /** Every tax-free scenario is in the full list: the Dubai international and delayed scenarios. */
  lemma TaxFreeScenariosListed()
    ensures forall n :: n in ScenarioCatalogue().taxFree ==> n in ScenarioCatalogue().all
  {
    assert TaxFreeNames == InternationalNames[4..] + DelayedNames[8..];
  }

  // --------------------------------------------------- prepare_comparison_data

  datatype ComparisonSide = ComparisonSide(name: string, finalNetWorth: real, totalSavings: real, totalTax: real)

  datatype Comparison = Comparison(scenario1: ComparisonSide, scenario2: ComparisonSide)

  function Side(name: string, points: seq<UnifiedFinancialData>): (c: ComparisonSide)
    ensures c.name == name
    ensures c.finalNetWorth == FinalNetWorthGbp(points)
  {
    ComparisonSide(name, if points != [] then FinalNetWorthGbp(points) else 0.0,
                   Sum(SavingsSeries(points)), Sum(TaxSeries(points)))
  }

  /** `prepare_comparison_data`: nothing when either name is missing, otherwise both scenarios' final net worth and totals. */
  function PrepareComparisonData(scenario1: string, scenario2: string, all: seq<Entry>): (r: Option<Comparison>)
    ensures r.None? <==> scenario1 !in Keys(all) || scenario2 !in Keys(all)
    ensures r.Some? ==> r.value.scenario1.name == scenario1 && r.value.scenario2.name == scenario2
    ensures r.Some? ==> r.value.scenario1.finalNetWorth == FinalNetWorthGbp(Find(all, scenario1).value.dataPoints)
    ensures r.Some? ==> r.value.scenario2.finalNetWorth == FinalNetWorthGbp(Find(all, scenario2).value.dataPoints)
  {
    if Find(all, scenario1).None? || Find(all, scenario2).None? then None
    else Some(Comparison(Side(scenario1, Find(all, scenario1).value.dataPoints),
                         Side(scenario2, Find(all, scenario2).value.dataPoints)))
  }

  /** Swapping the two names swaps the two sides of the comparison. */
  lemma ComparisonSwaps(scenario1: string, scenario2: string, all: seq<Entry>)
    ensures var r := PrepareComparisonData(scenario1, scenario2, all);
      var q := PrepareComparisonData(scenario2, scenario1, all);
      r.Some? <==> q.Some? && (r.Some? ==> q.value == Comparison(r.value.scenario2, r.value.scenario1))
  {
  }
}

=== FILE: financial_data.dfy ===
/** The legacy per-year record and scenario, with their "first positive field" getters. */
module FinancialData {
  import opened Base

  datatype Phase = UK | International

  /**
   * One plan year of the legacy projection. Every amount defaults to 0.0; GBP fields describe UK years,
   * USD fields international years, and the `*GbpEquiv` fields hold the GBP comparison values.
   */
  datatype FinancialDataPoint = FinancialDataPoint(
    year: int,
    age: int,
    phase: Phase,
    // UK financial data (GBP)
    grossSalaryGbp: real,
    grossBonusGbp: real,
    vestedRsuGbp: real,
    totalGrossGbp: real,
    netIncomeGbp: real,
    totalExpensesGbp: real,
    annualSavingsGbp: real,
    cumulativePortfolioGbp: real,
    houseEquityGbp: real,
    netWorthGbp: real,
    // UK expenses (GBP)
    personalExpensesGbp: real,
    parentalSupportGbp: real,
    travelExpensesGbp: real,
    rentGbp: real,
    universityRepaymentGbp: real,
    marriageCostsGbp: real,
    childCostsGbp: real,
    mortgagePaymentGbp: real,
    // UK tax and deductions (GBP)
    incomeTaxGbp: real,
    nationalInsuranceGbp: real,
    studentLoanRepaymentGbp: real,
    // UK investment breakdown (GBP)
    lisaContributionGbp: real,
    isaContributionGbp: real,
    sippContributionGbp: real,
    giaContributionGbp: real,
    lisaBonusGbp: real,
    // international financial data (USD)
    grossSalaryUsd: real,
    grossBonusUsd: real,
    vestedRsuUsd: real,
    totalGrossUsd: real,
    netIncomeUsd: real,
    totalExpensesUsd: real,
    annualSavingsUsd: real,
    cumulativePortfolioUsd: real,
    netWorthUsd: real,
    houseEquityUsd: real,
    // international expenses (USD)
    rentUsd: real,
    healthcareUsd: real,
    retirementContributionUsd: real,
    generalExpensesUsd: real,
    relocationCostUsd: real,
    mortgagePaymentUsd: real,
    // international tax and growth (USD)
    incomeTaxUsd: real,
    investmentGrowthUsd: real,
    // GBP equivalents
    netWorthGbpEquiv: real,
    grossIncomeGbpEquiv: real,
    grossSalaryGbpEquiv: real,
    grossBonusGbpEquiv: real,
    vestedRsuGbpEquiv: real,
    netIncomeGbpEquiv: real,
    totalExpensesGbpEquiv: real,
    annualSavingsGbpEquiv: real,
    cumulativePortfolioGbpEquiv: real,
    houseEquityGbpEquiv: real)

  /** A point with the given year, age and phase and every amount at its default of 0.0. */
  function EmptyPoint(year: int, age: int, phase: Phase): (p: FinancialDataPoint)
    ensures p.year == year && p.age == age && p.phase == phase
    ensures p.netWorthGbp == 0.0 && p.netWorthUsd == 0.0 && p.netWorthGbpEquiv == 0.0
  {
    FinancialDataPoint(year, age, phase,
      0.0, 0.0, 0.0, 0.0, 0.0, 0.0, 0.0, 0.0, 0.0, 0.0,
      0.0, 0.0, 0.0, 0.0, 0.0, 0.0, 0.0, 0.0,
      0.0, 0.0, 0.0,
      0.0, 0.0, 0.0, 0.0, 0.0,
      0.0, 0.0, 0.0, 0.0, 0.0, 0.0, 0.0, 0.0, 0.0, 0.0,
      0.0, 0.0, 0.0, 0.0, 0.0, 0.0,
      0.0, 0.0,
      0.0, 0.0, 0.0, 0.0, 0.0, 0.0, 0.0, 0.0, 0.0, 0.0)
  }

  /** The fixed USD-per-GBP rate the legacy getters divide by. */
  const LegacyUsdRate: real := 1.26

  /**
   * The legacy fallback chain: the GBP equivalent if positive, else the GBP value if positive,
   * else the USD value converted at 1.26 if positive, else 0.
   */
  function FirstPositive(gbpEquiv: real, gbp: real, usd: real): (r: real)
    ensures r >= 0.0
    ensures r > 0.0 <==> gbpEquiv > 0.0 || gbp > 0.0 || usd > 0.0
    ensures gbpEquiv > 0.0 ==> r == gbpEquiv
    ensures gbpEquiv <= 0.0 && gbp > 0.0 ==> r == gbp
    ensures gbpEquiv <= 0.0 && gbp <= 0.0 && usd > 0.0 ==> r * LegacyUsdRate == usd
  {
    if gbpEquiv > 0.0 then gbpEquiv
    else if gbp > 0.0 then gbp
    else if usd > 0.0 then usd / LegacyUsdRate
    else 0.0
  }

  function NetWorthOf(p: FinancialDataPoint): real
  {
    FirstPositive(p.netWorthGbpEquiv, p.netWorthGbp, p.netWorthUsd)
  }

  function SavingsOf(p: FinancialDataPoint): real
  {
    FirstPositive(p.annualSavingsGbpEquiv, p.annualSavingsGbp, p.annualSavingsUsd)
  }

  /** The record has no `income_tax_gbp_equiv` field, so the chain for tax starts at the GBP value. */
  function TaxOf(p: FinancialDataPoint): real
  {
    FirstPositive(0.0, p.incomeTaxGbp, p.incomeTaxUsd)
  }

  function IncomeOf(p: FinancialDataPoint): real
  {
    FirstPositive(p.grossIncomeGbpEquiv, p.totalGrossGbp, p.totalGrossUsd)
  }

  /** The tax burden over a list of points, added in order. */
  function TaxBurden(points: seq<FinancialDataPoint>): real
  {
    if points == [] then 0.0 else TaxBurden(points[..|points| - 1]) + TaxOf(points[|points| - 1])
  }

  lemma {:induction false} TaxBurdenNonNegative(points: seq<FinancialDataPoint>)
    ensures TaxBurden(points) >= 0.0
  {
    if points != [] {
      TaxBurdenNonNegative(points[..|points| - 1]);
    }
  }

  /** The three running totals of `get_average_savings_rate` over a list: only years with positive income count. */
  datatype RateTotals = RateTotals(savings: real, income: real, validYears: nat)

  function RateTotalsOf(points: seq<FinancialDataPoint>): RateTotals
  {
    if points == [] then RateTotals(0.0, 0.0, 0)
    else
      var t := RateTotalsOf(points[..|points| - 1]);
      var p := points[|points| - 1];
      if IncomeOf(p) > 0.0 then RateTotals(t.savings + SavingsOf(p), t.income + IncomeOf(p), t.validYears + 1)
      else t
  }

  /** Every counted year adds positive income, so the income total is positive exactly when some year counted. */
  lemma {:induction false} CountedIncomeIsPositive(points: seq<FinancialDataPoint>)
    ensures RateTotalsOf(points).income >= 0.0
    ensures RateTotalsOf(points).validYears > 0 <==> RateTotalsOf(points).income > 0.0
  {
    if points != [] {
      CountedIncomeIsPositive(points[..|points| - 1]);
    }
  }

  /** The rate from the totals: savings over income as a percentage, or 0 with no counted year. */
  function SavingsRate(t: RateTotals): (r: real)
  {
    if t.validYears == 0 || t.income == 0.0 then 0.0 else (t.savings / t.income) * 100.0
  }

  /** A year without positive income changes neither the totals nor the rate. */
  lemma YearWithoutIncomeIsIgnored(points: seq<FinancialDataPoint>, p: FinancialDataPoint)
    requires IncomeOf(p) <= 0.0
    ensures RateTotalsOf(points + [p]) == RateTotalsOf(points)
  {
    assert (points + [p])[..|points + [p]| - 1] == points;
  }

  /** With at least one counted year the rate is `100 · savings / income` over those years. */
  lemma SavingsRateOfCountedYears(points: seq<FinancialDataPoint>)
    requires RateTotalsOf(points).validYears > 0
    ensures SavingsRate(RateTotalsOf(points)) * RateTotalsOf(points).income == RateTotalsOf(points).savings * 100.0
  {
    CountedIncomeIsPositive(points);
  }

  /** The legacy scenario: a name and a list of points that grows as the projection runs. */
  class FinancialScenario {
    var name: string
    var dataPoints: seq<FinancialDataPoint>

    constructor (name: string)
      ensures this.name == name && dataPoints == []
    {
      this.name := name;
      dataPoints := [];
    }

    /** `add_data_point`: appends at the end. */
    method AddDataPoint(p: FinancialDataPoint)
      modifies this
      ensures dataPoints == old(dataPoints) + [p] && name == old(name)
    {
      dataPoints := dataPoints + [p];
    }

    /** `get_final_net_worth`: the fallback chain on the last point, or 0 with no points. */
    function GetFinalNetWorth(): (r: real)
      reads this
      ensures r >= 0.0
      ensures dataPoints == [] ==> r == 0.0
      ensures dataPoints != [] ==> r == NetWorthOf(dataPoints[|dataPoints| - 1])
    {
      if dataPoints == [] then 0.0 else NetWorthOf(dataPoints[|dataPoints| - 1])
    }

    /** `get_final_annual_savings`: the same chain on the savings fields. */
    function GetFinalAnnualSavings(): (r: real)
      reads this
      ensures r >= 0.0
      ensures dataPoints == [] ==> r == 0.0
      ensures dataPoints != [] ==> r == SavingsOf(dataPoints[|dataPoints| - 1])
    {
      if dataPoints == [] then 0.0 else SavingsOf(dataPoints[|dataPoints| - 1])
    }

    /** `get_total_tax_burden`: adds each point's tax in order; never negative. */
    method GetTotalTaxBurden() returns (total: real)
      ensures total == TaxBurden(dataPoints)
      ensures total >= 0.0
    {
      total := 0.0;
      var i := 0;
      while i < |dataPoints|
        invariant 0 <= i <= |dataPoints|
        invariant total == TaxBurden(dataPoints[..i])
      {
        assert dataPoints[..i + 1][..i] == dataPoints[..i];
        total := total + TaxOf(dataPoints[i]);
        i := i + 1;
      }
      assert dataPoints[..i] == dataPoints;
      TaxBurdenNonNegative(dataPoints);
    }

    /** `get_average_savings_rate`: the savings rate over the years with positive income. */
    method GetAverageSavingsRate() returns (rate: real)
      ensures rate == SavingsRate(RateTotalsOf(dataPoints))
      ensures RateTotalsOf(dataPoints).validYears == 0 ==> rate == 0.0
    {
      if dataPoints == [] {
        return 0.0;
      }
      var totalSavings := 0.0;
      var totalIncome := 0.0;
      var validYears := 0;
      var i := 0;
      while i < |dataPoints|
        invariant 0 <= i <= |dataPoints|
        invariant RateTotals(totalSavings, totalIncome, validYears) == RateTotalsOf(dataPoints[..i])
      {
        assert dataPoints[..i + 1][..i] == dataPoints[..i];
        var savings := SavingsOf(dataPoints[i]);
        var income := IncomeOf(dataPoints[i]);
        if income > 0.0 {
          totalSavings := totalSavings + savings;
          totalIncome := totalIncome + income;
          validYears := validYears + 1;
        }
        i := i + 1;
      }
      assert dataPoints[..i] == dataPoints;
      if validYears == 0 || totalIncome == 0.0 {
        return 0.0;
      }
      rate := (totalSavings / totalIncome) * 100.0;
    }

    /** `copy`: a new scenario with the same name and the same points, field for field, in order. */
    method Copy() returns (c: FinancialScenario)
      ensures fresh(c)
      ensures c.name == name && c.dataPoints == dataPoints
    {
      c := new FinancialScenario(name);
      var i := 0;
      while i < |dataPoints|
        invariant 0 <= i <= |dataPoints|
        invariant c.name == name && c.dataPoints == dataPoints[..i]
      {
        var p := dataPoints[i];
        var q := FinancialDataPoint(p.year, p.age, p.phase,
          p.grossSalaryGbp, p.grossBonusGbp, p.vestedRsuGbp, p.totalGrossGbp, p.netIncomeGbp,
          p.totalExpensesGbp, p.annualSavingsGbp, p.cumulativePortfolioGbp, p.houseEquityGbp, p.netWorthGbp,
          p.personalExpensesGbp, p.parentalSupportGbp, p.travelExpensesGbp, p.rentGbp,
          p.universityRepaymentGbp, p.marriageCostsGbp, p.childCostsGbp, p.mortgagePaymentGbp,
          p.incomeTaxGbp, p.nationalInsuranceGbp, p.studentLoanRepaymentGbp,
          p.lisaContributionGbp, p.isaContributionGbp, p.sippContributionGbp, p.giaContributionGbp, p.lisaBonusGbp,
          p.grossSalaryUsd, p.grossBonusUsd, p.vestedRsuUsd, p.totalGrossUsd, p.netIncomeUsd,
          p.totalExpensesUsd, p.annualSavingsUsd, p.cumulativePortfolioUsd, p.netWorthUsd, p.houseEquityUsd,
          p.rentUsd, p.healthcareUsd, p.retirementContributionUsd, p.generalExpensesUsd, p.relocationCostUsd,
          p.mortgagePaymentUsd,
          p.incomeTaxUsd, p.investmentGrowthUsd,
          p.netWorthGbpEquiv, p.grossIncomeGbpEquiv, p.grossSalaryGbpEquiv, p.grossBonusGbpEquiv,
          p.vestedRsuGbpEquiv, p.netIncomeGbpEquiv, p.totalExpensesGbpEquiv, p.annualSavingsGbpEquiv,
          p.cumulativePortfolioGbpEquiv, p.houseEquityGbpEquiv);
        c.AddDataPoint(q);
        assert dataPoints[..i + 1] == dataPoints[..i] + [p];
        i := i + 1;
      }
      assert dataPoints[..i] == dataPoints;
    }
  }
}

=== FILE: formatting.dfy ===
/** Display formatting of amounts, scenario names and year ranges, and the parsing of formatted amounts back to numbers. */
module Formatting {
  import opened Base

  /** `USD_TO_GBP_RATE`: US dollars per pound. */
  const UsdToGbpRate: real := 1.26

  // ---------------------------------------------------------------- numbers

  /** The text with leading and trailing whitespace removed. */
  function StripSpace(s: string): (r: string)
    ensures r == [] || (!IsSpace(r[0]) && !IsSpace(r[|r| - 1]))
    decreases |s|
  {
    if s != [] && IsSpace(s[0]) then StripSpace(s[1..])
    else if s != [] && IsSpace(s[|s| - 1]) then StripSpace(s[..|s| - 1])
    else s
  }

  /** `r` is `s` less the whitespace before index `i` and from index `j` on. */
  predicate MiddleOf(r: string, s: string, i: int, j: int)
  {
    && 0 <= i <= j <= |s| && r == s[i..j]
    && (forall k :: 0 <= k < i ==> IsSpace(s[k]))
    && (forall k :: j <= k < |s| ==> IsSpace(s[k]))
  }

  lemma MiddleOfTail(r: string, s: string, i: int, j: int)
    requires s != [] && IsSpace(s[0]) && MiddleOf(r, s[1..], i, j)
    ensures MiddleOf(r, s, i + 1, j + 1)
  {
    assert forall k :: 1 <= k < |s| ==> s[k] == s[1..][k - 1];
  }

  lemma MiddleOfInit(r: string, s: string, i: int, j: int)
    requires s != [] && IsSpace(s[|s| - 1]) && MiddleOf(r, s[..|s| - 1], i, j)
    ensures MiddleOf(r, s, i, j)
  {
    assert forall k :: 0 <= k < |s| - 1 ==> s[k] == s[..|s| - 1][k];
  }

  /** Stripping removes only whitespace, and only from the two ends: the result is a middle slice of the text. */
  lemma {:induction false} StripSpaceIsMiddle(s: string)
    ensures exists i, j :: MiddleOf(StripSpace(s), s, i, j)
    decreases |s|
  {
    if s != [] && IsSpace(s[0]) {
      StripSpaceIsMiddle(s[1..]);
      var i, j :| MiddleOf(StripSpace(s[1..]), s[1..], i, j);
      MiddleOfTail(StripSpace(s[1..]), s, i, j);
      assert StripSpace(s) == StripSpace(s[1..]);
      assert MiddleOf(StripSpace(s), s, i + 1, j + 1);
    } else if s != [] && IsSpace(s[|s| - 1]) {
      StripSpaceIsMiddle(s[..|s| - 1]);
      var i, j :| MiddleOf(StripSpace(s[..|s| - 1]), s[..|s| - 1], i, j);
      MiddleOfInit(StripSpace(s[..|s| - 1]), s, i, j);
      assert StripSpace(s) == StripSpace(s[..|s| - 1]);
      assert MiddleOf(StripSpace(s), s, i, j);
    } else {
      assert StripSpace(s) == s == s[0..|s|];
      assert MiddleOf(StripSpace(s), s, 0, |s|);
    }
  }

  /** Text with no whitespace at either end is left as it is. */
  lemma StripNothing(s: string)
    requires s != [] && !IsSpace(s[0]) && !IsSpace(s[|s| - 1])
    ensures StripSpace(s) == s
  {
  }

  /**
   * Python's `float()` on a plain decimal: surrounding whitespace is skipped, then an optional sign, digits,
   * and an optional fraction, with at least one digit. Exponents, `inf`, `nan` and underscores are not modelled.
   */
  function ParseFloat(s: string): Option<real>
  {
    ParseDecimal(StripSpace(s))
  }

  /** An optional sign, digits, and an optional fraction, with at least one digit; any other text is rejected. */
  function ParseDecimal(s: string): Option<real>
  {
    if s != [] && (s[0] == '-' || s[0] == '+') then
      match ParseUnsigned(s[1..])
      case None => None
      case Some(x) => Some(if s[0] == '-' then -x else x)
    else ParseUnsigned(s)
  }

  function ParseUnsigned(s: string): Option<real>
  {
    if AllDigits(s) then (if s == [] then None else Some(DigitsValue(s) as real))
    else if '.' in s then
      var k := IndexOf(s, '.');
      var whole := s[..k];
      var fraction := s[k + 1..];
      if AllDigits(whole) && AllDigits(fraction) && (whole != [] || fraction != []) then
        PowPositive(10.0, |fraction|);
        Some(DigitsValue(whole) as real + DigitsValue(fraction) as real / Pow(10.0, |fraction|))
      else None
    else None
  }

  function IndexOf(s: string, c: char): (k: nat)
    requires c in s
    ensures k < |s| && s[k] == c && c !in s[..k]
  {
    if s[0] == c then 0 else 1 + IndexOf(s[1..], c)
  }

  /** The text of a whole number reads back as that number. */
  lemma ParseWholeNumber(n: nat)
    ensures ParseDecimal(NatToString(n)) == Some(n as real)
    ensures ParseDecimal("-" + NatToString(n)) == Some(-(n as real))
  {
    DigitsValueOfNat(n);
    var s := NatToString(n);
    assert IsDigit(s[0]);
    assert ("-" + s)[1..] == s;
  }

  /** Python's round-half-to-even of a non-negative value, as `.0f` formatting applies it. */
  function RoundHalfEven(x: real): (n: nat)
    requires x >= 0.0
    ensures (n as real) - 0.5 <= x <= (n as real) + 0.5
    // a value exactly halfway between two integers goes to the even one
    ensures x - x.Floor as real == 0.5 ==> n % 2 == 0
  {
    var f := x.Floor;
    var d := x - f as real;
    if d < 0.5 then f
    else if d > 0.5 then f + 1
    else if f % 2 == 0 then f else f + 1
  }

  // ------------------------------------------------------------- formatting

  /** Digits grouped in threes from the right with commas, as the `,` format option does. */
  function Grouped(digits: string): string
  {
    if |digits| <= 3 then digits else Grouped(digits[..|digits| - 3]) + "," + digits[|digits| - 3..]
  }

  /** `format_currency`: the symbol then the value rounded to a whole number with comma grouping; nothing gives the symbol and 0. */
  function FormatCurrency(value: Option<real>, symbol: string): string
  {
    match value
    case None => symbol + "0"
    case Some(x) =>
      symbol + (if x < 0.0 then "-" else "") + Grouped(NatToString(RoundHalfEven(Abs(x))))
  }

  /** `extract_numeric_from_currency`: strips £, $ and commas, then parses; empty or unreadable text gives 0. */
  function ExtractNumericFromCurrency(s: string): real
  {
    if s == [] then 0.0
    else
      match ParseFloat(Unmarked(s))
      case None => 0.0
      case Some(x) => x
  }

  /** `extract_numeric_from_percentage`: strips only the percent sign, then parses; empty or unreadable text gives 0. */
  function ExtractNumericFromPercentage(s: string): real
  {
    if s == [] then 0.0
    else
      match ParseFloat(ReplaceChar(s, '%', ""))
      case None => 0.0
      case Some(x) => x
  }

  lemma {:induction false} ReplaceCharAppend(a: string, b: string, c: char, t: string)
    ensures ReplaceChar(a + b, c, t) == ReplaceChar(a, c, t) + ReplaceChar(b, c, t)
  {
    if a != [] {
      ReplaceCharAppend(a[1..], b, c, t);
      assert (a + b)[0] == a[0];
      assert (a + b)[1..] == a[1..] + b;
      var piece := if a[0] == c then t else [a[0]];
      calc {
        ReplaceChar(a + b, c, t);
        piece + ReplaceChar(a[1..] + b, c, t);
        piece + (ReplaceChar(a[1..], c, t) + ReplaceChar(b, c, t));
        (piece + ReplaceChar(a[1..], c, t)) + ReplaceChar(b, c, t);
        ReplaceChar(a, c, t) + ReplaceChar(b, c, t);
      }
    } else {
      assert a + b == b;
    }
  }

  lemma {:induction false} ReplaceAbsentChar(s: string, c: char, t: string)
    requires c !in s
    ensures ReplaceChar(s, c, t) == s
  {
    if s != [] {
      ReplaceAbsentChar(s[1..], c, t);
      assert s == [s[0]] + s[1..];
    }
  }

  /** Grouping only inserts commas: removing them gives the digits back. */
  lemma {:induction false} UngroupDigits(digits: string)
    requires AllDigits(digits)
    ensures ReplaceChar(Grouped(digits), ',', "") == digits
    decreases |digits|
  {
    if |digits| <= 3 {
      ReplaceAbsentChar(digits, ',', "");
    } else {
      var head := digits[..|digits| - 3];
      var tail := digits[|digits| - 3..];
      var gh := Grouped(head);
      calc {
        ReplaceChar(Grouped(digits), ',', "");
        ReplaceChar((gh + ",") + tail, ',', "");
        { ReplaceCharAppend(gh + ",", tail, ',', ""); }
        ReplaceChar(gh + ",", ',', "") + ReplaceChar(tail, ',', "");
        { ReplaceCharAppend(gh, ",", ',', "");
          assert ReplaceChar(",", ',', "") == ""; }
        ReplaceChar(gh, ',', "") + ReplaceChar(tail, ',', "");
        { UngroupDigits(head);
          assert forall i :: 0 <= i < |tail| ==> IsDigit(tail[i]);
          ReplaceAbsentChar(tail, ',', ""); }
        head + tail;
        digits;
      }
    }
  }

  /** A grouped number is made of digits and commas only. */
  lemma {:induction false} GroupedChars(digits: string)
    requires AllDigits(digits)
    ensures forall i :: 0 <= i < |Grouped(digits)| ==> IsDigit(Grouped(digits)[i]) || Grouped(digits)[i] == ','
    decreases |digits|
  {
    if |digits| > 3 {
      GroupedChars(digits[..|digits| - 3]);
    }
  }

  /** Text made of digits, commas and a leading minus loses nothing else when £ and $ are removed. */
  lemma NoSymbolsToStrip(s: string)
    requires forall i :: 0 <= i < |s| ==> IsDigit(s[i]) || s[i] == ',' || s[i] == '-'
    ensures ReplaceChar(ReplaceChar(s, '£', ""), '$', "") == s
  {
    ReplaceAbsentChar(s, '£', "");
    ReplaceAbsentChar(s, '$', "");
  }

  /** Removing £, $ and commas from a symbol, a sign and grouped digits leaves the sign and the digits. */
  lemma StripFormatted(symbol: string, sign: string, digits: string)
    requires symbol == "£" || symbol == "$"
    requires sign == "" || sign == "-"
    requires AllDigits(digits)
    ensures Unmarked(symbol + sign + Grouped(digits)) == sign + digits
  {
    var body := sign + Grouped(digits);
    GroupedChars(digits);
    assert symbol + sign + Grouped(digits) == symbol + body;
    calc {
      ReplaceChar(ReplaceChar(symbol + body, '£', ""), '$', "");
      { ReplaceCharAppend(symbol, body, '£', ""); }
      ReplaceChar(ReplaceChar(symbol, '£', "") + ReplaceChar(body, '£', ""), '$', "");
      { ReplaceCharAppend(ReplaceChar(symbol, '£', ""), ReplaceChar(body, '£', ""), '$', ""); }
      ReplaceChar(ReplaceChar(symbol, '£', ""), '$', "") + ReplaceChar(ReplaceChar(body, '£', ""), '$', "");
      { assert ReplaceChar(ReplaceChar(symbol, '£', ""), '$', "") == ""; }
      ReplaceChar(ReplaceChar(body, '£', ""), '$', "");
      { NoSymbolsToStrip(body); }
      body;
    }
    calc {
      ReplaceChar(body, ',', "");
      { ReplaceCharAppend(sign, Grouped(digits), ',', ""); }
      ReplaceChar(sign, ',', "") + ReplaceChar(Grouped(digits), ',', "");
      { ReplaceAbsentChar(sign, ',', ""); UngroupDigits(digits); }
      sign + digits;
    }
  }

  /** What `extract_numeric_from_currency` hands to `float()`: the text less pound signs, dollar signs and commas. */
  function Unmarked(s: string): string
  {
    ReplaceChar(ReplaceChar(ReplaceChar(s, '£', ""), '$', ""), ',', "")
  }

  lemma UnmarkedAppend(a: string, b: string)
    ensures Unmarked(a + b) == Unmarked(a) + Unmarked(b)
  {
    ReplaceCharAppend(a, b, '£', "");
    ReplaceCharAppend(ReplaceChar(a, '£', ""), ReplaceChar(b, '£', ""), '$', "");
    ReplaceCharAppend(ReplaceChar(ReplaceChar(a, '£', ""), '$', ""), ReplaceChar(ReplaceChar(b, '£', ""), '$', ""), ',', "");
  }

  lemma SymbolUnmarked(symbol: string)
    requires symbol == "£" || symbol == "$"
    ensures Unmarked(symbol) == ""
  {
    if symbol == "£" {
      assert ReplaceChar(symbol, '£', "") == "";
    } else {
      assert ReplaceChar(symbol, '£', "") == "$";
      assert ReplaceChar("$", '$', "") == "";
    }
    assert ReplaceChar("", '$', "") == "" && ReplaceChar("", ',', "") == "";
  }

  /** A space between the symbol and the amount is skipped, as `float()` skips surrounding whitespace. */
  lemma SpaceAfterSymbolIgnored(symbol: string, t: string)
    requires symbol == "£" || symbol == "$"
    ensures ExtractNumericFromCurrency(symbol + " " + t) == ExtractNumericFromCurrency(symbol + t)
  {
    UnmarkedAppend(symbol + " ", t);
    UnmarkedAppend(symbol, " ");
    UnmarkedAppend(symbol, t);
    SymbolUnmarked(symbol);
    assert Unmarked(" ") == " " by {
      assert ReplaceChar(" ", '£', "") == " ";
      assert ReplaceChar(" ", '$', "") == " ";
      assert ReplaceChar(" ", ',', "") == " ";
    }
    var u := Unmarked(t);
    assert Unmarked(symbol + " " + t) == " " + u;
    assert Unmarked(symbol + t) == u;
    assert (" " + u)[1..] == u;
    assert ParseFloat(" " + u) == ParseFloat(u);
  }

  /** A whole number's digits, with or without a minus sign, parse back as that number. */
  lemma SignedDigitsParse(n: nat, negative: bool)
    ensures ParseFloat((if negative then "-" else "") + NatToString(n)) == Some(if negative then -(n as real) else n as real)
  {
    var digits := NatToString(n);
    DigitsValueOfNat(n);
    ParseWholeNumber(n);
    var text := (if negative then "-" else "") + digits;
    assert text[|text| - 1] == digits[|digits| - 1];
    assert IsDigit(digits[0]) && IsDigit(digits[|digits| - 1]);
    StripNothing(text);
    if !negative {
      assert text == digits;
    }
  }

  /**
   * Reading a formatted amount back gives the value rounded to a whole number (half to even), with its sign;
   * a whole-number amount therefore survives the round trip exactly.
   */
  lemma CurrencyRoundTrip(x: real, symbol: string)
    requires symbol == "£" || symbol == "$"
    ensures var back := ExtractNumericFromCurrency(FormatCurrency(Some(x), symbol));
      && (x >= 0.0 ==> back == RoundHalfEven(x) as real)
      && (x < 0.0 ==> back == -(RoundHalfEven(-x) as real))
      && (x == x.Floor as real ==> back == x)
  {
    var n := RoundHalfEven(Abs(x));
    var digits := NatToString(n);
    DigitsValueOfNat(n);
    var sign := if x < 0.0 then "-" else "";
    var text := FormatCurrency(Some(x), symbol);
    assert text == symbol + sign + Grouped(digits);
    var stripped := Unmarked(text);
    assert stripped == sign + digits by {
      StripFormatted(symbol, sign, digits);
    }
    SignedDigitsParse(n, x < 0.0);
    if x == x.Floor as real {
      if x < 0.0 {
        WholeNegated(x);
      }
      RoundOfWhole(Abs(x));
    }
  }

  lemma WholeNegated(x: real)
    requires x == x.Floor as real
    ensures -x == (-x).Floor as real
  {
    var k := x.Floor;
    assert -x == (-k) as real;
    assert (-x).Floor == -k;
  }

  lemma RoundOfWhole(y: real)
    requires y >= 0.0 && y == y.Floor as real
    ensures RoundHalfEven(y) as real == y
  {
    var f := y.Floor;
    assert y - f as real == 0.0;
  }

  /** A whole percentage reads back as its number. */
  lemma PercentageRoundTrip(n: nat)
    ensures ExtractNumericFromPercentage(NatToString(n) + "%") == n as real
  {
    DigitsValueOfNat(n);
    ReplaceCharAppend(NatToString(n), "%", '%', "");
    ReplaceAbsentChar(NatToString(n), '%', "");
    var digits := NatToString(n);
    assert IsDigit(digits[0]) && IsDigit(digits[|digits| - 1]);
    StripNothing(digits);
    assert ReplaceChar("%", '%', "") == "";
    assert NatToString(n) + "" == NatToString(n);
    ParseWholeNumber(n);
  }

  /** `convert_usd_to_gbp`: divides by 1.26; nothing gives 0. */
  function ConvertUsdToGbp(usd: Option<real>): real
  {
    match usd
    case None => 0.0
    case Some(v) => v / UsdToGbpRate
  }

  /** `convert_gbp_to_usd`: multiplies by 1.26; nothing gives 0. */
  function ConvertGbpToUsd(gbp: Option<real>): real
  {
    match gbp
    case None => 0.0
    case Some(v) => v * UsdToGbpRate
  }

  /** The two conversions undo each other, and a missing value converts to 0 either way. */
  lemma ConversionsInverse(v: real)
    ensures ConvertUsdToGbp(Some(ConvertGbpToUsd(Some(v)))) == v
    ensures ConvertGbpToUsd(Some(ConvertUsdToGbp(Some(v)))) == v
    ensures ConvertUsdToGbp(None) == 0.0 && ConvertGbpToUsd(None) == 0.0
  {
  }

  // ------------------------------------------------------------------ names

  /** `format_scenario_name`: "Unknown Scenario" for an empty name, else underscores become spaces and the words are title-cased. */
  function FormatScenarioName(name: string): (r: string)
  {
    if name == [] then "Unknown Scenario" else Title(ReplaceChar(name, '_', " "))
  }

  lemma {:induction false} ReplaceUnderscore(s: string)
    ensures |ReplaceChar(s, '_', " ")| == |s|
    ensures '_' !in ReplaceChar(s, '_', " ")
  {
    if s != [] {
      ReplaceUnderscore(s[1..]);
    }
  }

  lemma CaseChanges(c: char)
    ensures UpperChar(UpperChar(c)) == UpperChar(c) && LowerChar(LowerChar(c)) == LowerChar(c)
    ensures UpperChar(LowerChar(c)) == UpperChar(c) && LowerChar(UpperChar(c)) == LowerChar(c)
    ensures IsLetter(UpperChar(c)) == IsLetter(c) && IsLetter(LowerChar(c)) == IsLetter(c)
  {
  }

  lemma TitleIdempotent(s: string)
    ensures Title(Title(s)) == Title(s)
  {
    var t := Title(s);
    forall i | 0 <= i < |s|
      ensures Title(t)[i] == t[i]
    {
      var upper := i == 0 || !IsLetter(s[i - 1]);
      assert t[i] == if upper then UpperChar(s[i]) else LowerChar(s[i]);
      if i > 0 {
        assert t[i - 1] == UpperChar(s[i - 1]) || t[i - 1] == LowerChar(s[i - 1]);
        CaseChanges(s[i - 1]);
        assert IsLetter(t[i - 1]) == IsLetter(s[i - 1]);
      }
      assert Title(t)[i] == if upper then UpperChar(t[i]) else LowerChar(t[i]);
      CaseChanges(s[i]);
    }
  }

  /** A formatted name keeps the length of a non-empty name, has no underscores, and formatting it again changes nothing. */
  lemma FormatScenarioNameStable(name: string)
    requires name != []
    ensures |FormatScenarioName(name)| == |name|
    ensures '_' !in FormatScenarioName(name)
    ensures FormatScenarioName(FormatScenarioName(name)) == FormatScenarioName(name)
  {
    var spaced := ReplaceChar(name, '_', " ");
    ReplaceUnderscore(name);
    var r := Title(spaced);
    assert forall i :: 0 <= i < |r| ==> r[i] != '_' by {
      forall i | 0 <= i < |r| ensures r[i] != '_' {
        assert spaced[i] != '_';
      }
    }
    ReplaceAbsentChar(r, '_', " ");
    TitleIdempotent(spaced);
  }

  /** `format_year_range`: "Year a-b" for exactly two values, else the default "Year 1-10". */
  function FormatYearRange(yearRange: seq<int>): string
  {
    if |yearRange| != 2 then "Year 1-10"
    else "Year " + IntToString(yearRange[0]) + "-" + IntToString(yearRange[1])
  }

  /** The default text is the one the full ten-year plan [1, 10] formats to. */
  lemma YearRangeDefault(yearRange: seq<int>)
    requires |yearRange| != 2
    ensures FormatYearRange(yearRange) == FormatYearRange([1, 10])
  {
    assert NatToString(1) == "1";
    assert NatToString(10) == NatToString(1) + "0";
  }
}

=== FILE: goals.dfy ===
/** Goal-based yearly costs shared by the legacy UK expenses and the location-independent goals. */
module Goals {
  import opened Base

  /** The goal and lifestyle entries of the legacy configuration. */
  datatype GoalConfig = GoalConfig(
    personalExpenses: map<int, real>,
    personalDefault: real,
    parentalBeforeHouse: real,
    parentalAfterHouse: real,
    housePurchaseYear: int,
    annualTravel: real,
    rentAmount: real,
    rentStartYear: int,
    universityYear: int,
    universityAmount: real,
    marriageStartYear: int,
    marriageEndYear: int,
    marriageTotalCost: real,
    childStartYear: int,
    childOneOffCost: real,
    childOngoingAnnualCost: real)

  /** The plan year's personal-expense entry, or the default entry, inflated. */
  function Personal(planYear: int, cfg: GoalConfig, inf: real): (r: real)
    ensures planYear in cfg.personalExpenses ==> r == cfg.personalExpenses[planYear] * inf
    ensures planYear !in cfg.personalExpenses ==> r == cfg.personalDefault * inf
  {
    (if planYear in cfg.personalExpenses then cfg.personalExpenses[planYear] else cfg.personalDefault) * inf
  }

  /** Parental support switches from the before-house to the after-house amount in the house-purchase year. */
  function ParentalSupport(planYear: int, cfg: GoalConfig, inf: real): (r: real)
    ensures planYear >= cfg.housePurchaseYear ==> r == cfg.parentalAfterHouse * inf
    ensures planYear < cfg.housePurchaseYear ==> r == cfg.parentalBeforeHouse * inf
  {
    (if planYear >= cfg.housePurchaseYear then cfg.parentalAfterHouse else cfg.parentalBeforeHouse) * inf
  }

  function Travel(cfg: GoalConfig, inf: real): real
  {
    cfg.annualTravel * inf
  }

  /** The university fee falls only in its configured year and is not inflated. */
  function UniversityPayment(planYear: int, cfg: GoalConfig): (r: real)
    ensures planYear != cfg.universityYear ==> r == 0.0
    ensures planYear == cfg.universityYear ==> r == cfg.universityAmount
  {
    if planYear == cfg.universityYear then cfg.universityAmount else 0.0
  }

  /** The wedding budget spread evenly over the inclusive range of marriage years. */
  function Marriage(planYear: int, cfg: GoalConfig): (r: real)
    ensures !(cfg.marriageStartYear <= planYear <= cfg.marriageEndYear) ==> r == 0.0
    ensures cfg.marriageStartYear <= planYear <= cfg.marriageEndYear ==>
      r * (cfg.marriageEndYear - cfg.marriageStartYear + 1) as real == cfg.marriageTotalCost
  {
    if cfg.marriageStartYear <= planYear <= cfg.marriageEndYear then
      cfg.marriageTotalCost / (cfg.marriageEndYear - cfg.marriageStartYear + 1) as real
    else 0.0
  }

  /** The sum of the yearly marriage costs over plan years `from..to` inclusive. */
  function MarriageOver(cfg: GoalConfig, from: int, to: int): real
    decreases to - from
  {
    if to < from then 0.0 else MarriageOver(cfg, from, to - 1) + Marriage(to, cfg)
  }

  /** The yearly marriage costs add up to the whole budget. */
  lemma MarriageSumsToTotal(cfg: GoalConfig)
    requires cfg.marriageStartYear <= cfg.marriageEndYear
    ensures MarriageOver(cfg, cfg.marriageStartYear, cfg.marriageEndYear) == cfg.marriageTotalCost
  {
    MarriagePartialSum(cfg, cfg.marriageEndYear);
    var k := (cfg.marriageEndYear - cfg.marriageStartYear + 1) as real;
    assert k * (cfg.marriageTotalCost / k) == cfg.marriageTotalCost;
  }

  lemma {:induction false} MarriagePartialSum(cfg: GoalConfig, y: int)
    requires cfg.marriageStartYear <= cfg.marriageEndYear
    requires cfg.marriageStartYear - 1 <= y <= cfg.marriageEndYear
    ensures MarriageOver(cfg, cfg.marriageStartYear, y)
      == (y - cfg.marriageStartYear + 1) as real * (cfg.marriageTotalCost / (cfg.marriageEndYear - cfg.marriageStartYear + 1) as real)
    decreases y - cfg.marriageStartYear
  {
    if y >= cfg.marriageStartYear {
      MarriagePartialSum(cfg, y - 1);
      var c := cfg.marriageTotalCost / (cfg.marriageEndYear - cfg.marriageStartYear + 1) as real;
      assert Marriage(y, cfg) == c;
      assert (y - 1 - cfg.marriageStartYear + 1) as real * c + c == (y - cfg.marriageStartYear + 1) as real * c;
    }
  }

  /** Child costs: nothing before the start year, the un-inflated one-off cost in it, the inflated ongoing cost after. */
  function Child(planYear: int, cfg: GoalConfig, inf: real): (r: real)
    ensures planYear < cfg.childStartYear ==> r == 0.0
    ensures planYear == cfg.childStartYear ==> r == cfg.childOneOffCost
    ensures planYear > cfg.childStartYear ==> r == cfg.childOngoingAnnualCost * inf
  {
    if planYear == cfg.childStartYear then cfg.childOneOffCost
    else if planYear > cfg.childStartYear then cfg.childOngoingAnnualCost * inf
    else 0.0
  }
}

=== FILE: perf_opt.dfy ===
/** Caching, memoised currency conversion, pagination and timing of operations. Clock readings are parameters. */
module PerfOpt {
  import opened Base
  import opened UnifiedData

  datatype CacheStrategy = Memory | Persistent | Hybrid

  /** A cached value stamped with the time it was stored (in seconds) and how long it stays fresh. */
  datatype CacheEntry<V> = CacheEntry(value: V, timestamp: real, ttl: real, accessCount: nat)

  predicate IsExpired<V>(e: CacheEntry<V>, now: real)
  {
    now > e.timestamp + e.ttl
  }

  /** Twenty-four hours. */
  const DefaultTtl: real := 86400.0

  /** `ttl or self.default_ttl`: a missing or zero duration falls back to the default. */
  function EffectiveTtl(ttl: Option<real>): real
  {
    if ttl.Some? && ttl.value != 0.0 then ttl.value else DefaultTtl
  }

  datatype CacheStats = CacheStats(totalEntries: nat, expiredEntries: nat, activeEntries: int, totalAccesses: nat, strategy: CacheStrategy)

  /** The access counts of the entries under `keys`, added up. */
  ghost function AccessesOver<K, V>(m: map<K, CacheEntry<V>>, keys: set<K>): nat
    requires keys <= m.Keys
    decreases |keys|
  {
    if keys == {} then 0
    else
      var k :| k in keys;
      m[k].accessCount + AccessesOver(m, keys - {k})
  }

  /** The sum does not depend on which key is taken first. */
  lemma {:induction false} AccessesOverRemove<K, V>(m: map<K, CacheEntry<V>>, keys: set<K>, k: K)
    requires keys <= m.Keys && k in keys
    ensures AccessesOver(m, keys) == m[k].accessCount + AccessesOver(m, keys - {k})
    decreases |keys|
  {
    var j :| j in keys && AccessesOver(m, keys) == m[j].accessCount + AccessesOver(m, keys - {j});
    if j != k {
      AccessesOverRemove(m, keys - {j}, k);
      AccessesOverRemove(m, keys - {k}, j);
      assert keys - {j} - {k} == keys - {k} - {j};
    }
  }

  /** Two caches that agree on `keys` have the same access total over them. */
  lemma {:induction false} AccessesOverAgree<K, V>(m1: map<K, CacheEntry<V>>, m2: map<K, CacheEntry<V>>, keys: set<K>)
    requires keys <= m1.Keys && keys <= m2.Keys
    requires forall k :: k in keys ==> m1[k].accessCount == m2[k].accessCount
    ensures AccessesOver(m1, keys) == AccessesOver(m2, keys)
    decreases |keys|
  {
    if keys != {} {
      var k :| k in keys;
      AccessesOverRemove(m1, keys, k);
      AccessesOverRemove(m2, keys, k);
      AccessesOverAgree(m1, m2, keys - {k});
    }
  }

  ghost function TotalAccesses<K, V>(m: map<K, CacheEntry<V>>): nat
  {
    AccessesOver(m, m.Keys)
  }

  /** In-memory time-limited cache. The persistent file the source mirrors it to is not modelled. */
  class CurrencyConversionCache<K(==), V> {
    var strategy: CacheStrategy
    var memoryCache: map<K, CacheEntry<V>>

    constructor (strategy: CacheStrategy)
      ensures this.strategy == strategy && memoryCache == map[]
    {
      this.strategy := strategy;
      memoryCache := map[];
    }

    ghost function ExpiredKeys(now: real): set<K>
      reads this
    {
      set k | k in memoryCache && IsExpired(memoryCache[k], now)
    }

    /**
     * A fresh entry is returned and its access count goes up by one; an expired one is
     * dropped and reported missing.
     */
    method Get(key: K, now: real) returns (r: Option<V>)
      modifies this
      ensures strategy == old(strategy)
      ensures key !in old(memoryCache) ==> r.None? && memoryCache == old(memoryCache)
      ensures key in old(memoryCache) && !IsExpired(old(memoryCache)[key], now) ==>
        r == Some(old(memoryCache)[key].value) &&
        memoryCache == old(memoryCache)[key := old(memoryCache)[key].(accessCount := old(memoryCache)[key].accessCount + 1)]
      ensures key in old(memoryCache) && IsExpired(old(memoryCache)[key], now) ==>
        r.None? && memoryCache == old(memoryCache) - {key}
    {
      if key in memoryCache {
        var entry := memoryCache[key];
        if !IsExpired(entry, now) {
          memoryCache := memoryCache[key := entry.(accessCount := entry.accessCount + 1)];
          return Some(entry.value);
        } else {
          memoryCache := memoryCache - {key};
        }
      }
      return None;
    }

    /** Stores `value` stamped `now`, replacing any earlier entry, with a fresh access count. */
    method Set(key: K, value: V, ttl: Option<real>, now: real)
      modifies this
      ensures strategy == old(strategy)
      ensures memoryCache == old(memoryCache)[key := CacheEntry(value, now, EffectiveTtl(ttl), 0)]
    {
      memoryCache := memoryCache[key := CacheEntry(value, now, EffectiveTtl(ttl), 0)];
    }

    /** Drops every expired entry, keeps every fresh one, and reports how many were dropped. */
    method ClearExpired(now: real) returns (count: nat)
      modifies this
      ensures strategy == old(strategy)
      ensures count == |old(ExpiredKeys(now))|
      ensures memoryCache.Keys == old(memoryCache).Keys - old(ExpiredKeys(now))
      ensures forall k :: k in memoryCache ==> memoryCache[k] == old(memoryCache)[k] && !IsExpired(memoryCache[k], now)
    {
      var expired := set k | k in memoryCache && IsExpired(memoryCache[k], now);
      count := |expired|;
      var pending := expired;
      while pending != {}
        invariant pending <= expired
        invariant memoryCache.Keys == old(memoryCache).Keys - (expired - pending)
        invariant forall k :: k in memoryCache ==> memoryCache[k] == old(memoryCache)[k]
        invariant strategy == old(strategy)
        decreases |pending|
      {
        var k :| k in pending;
        memoryCache := memoryCache - {k};
        pending := pending - {k};
      }
    }

    /** Entry counts split into expired and active, and the total number of hits recorded. */
    method GetStats(now: real) returns (s: CacheStats)
      ensures s.totalEntries == |memoryCache|
      ensures s.expiredEntries == |ExpiredKeys(now)|
      ensures s.activeEntries == s.totalEntries - s.expiredEntries
      ensures s.activeEntries == |set k | k in memoryCache && !IsExpired(memoryCache[k], now)|
      ensures s.totalAccesses == TotalAccesses(memoryCache)
      ensures s.strategy == strategy
    {
      var expired := set k | k in memoryCache && IsExpired(memoryCache[k], now);
      var active := set k | k in memoryCache && !IsExpired(memoryCache[k], now);
      assert memoryCache.Keys == expired + active;
      assert expired * active == {};
      var accesses := 0;
      var pending := memoryCache.Keys;
      while pending != {}
        invariant pending <= memoryCache.Keys
        invariant accesses + AccessesOver(memoryCache, pending) == TotalAccesses(memoryCache)
        decreases |pending|
      {
        var k :| k in pending;
        AccessesOverRemove(memoryCache, pending, k);
        accesses := accesses + memoryCache[k].accessCount;
        pending := pending - {k};
      }
      s := CacheStats(|memoryCache|, |expired|, |memoryCache| - |expired|, accesses, strategy);
    }
  }

  /** A hit on a fresh entry adds exactly one to the total number of recorded accesses. */
  lemma HitAddsOneAccess<K, V>(m: map<K, CacheEntry<V>>, key: K)
    requires key in m
    ensures TotalAccesses(m[key := m[key].(accessCount := m[key].accessCount + 1)]) == TotalAccesses(m) + 1
  {
    var m2 := m[key := m[key].(accessCount := m[key].accessCount + 1)];
    assert m2.Keys == m.Keys;
    AccessesOverRemove(m, m.Keys, key);
    AccessesOverRemove(m2, m2.Keys, key);
    AccessesOverAgree(m, m2, m.Keys - {key});
  }

  // ----------------------------------------------------- currency conversion

  datatype ConversionArgs = ConversionArgs(value: real, fromCurrency: Currency, toCurrency: Currency, exchangeRate: real)

  /**
   * `optimized_currency_conversion`: the same currency on both sides is taken as GBP; a GBP amount is its
   * own GBP value; anything else is divided by the rate, which raises on a zero rate.
   */
  function ConvertCurrency(a: ConversionArgs): (r: Result<CurrencyValue, string>)
    ensures r.Err? <==> a.fromCurrency != a.toCurrency && a.fromCurrency != GBP && a.exchangeRate == 0.0
    ensures a.fromCurrency == a.toCurrency ==> r == Ok(FromGbp(a.value))
    ensures r.Ok? ==> r.value.value == a.value
    ensures r.Ok? && a.fromCurrency != a.toCurrency ==>
      r.value.currency == a.fromCurrency && r.value.exchangeRate == a.exchangeRate
    ensures r.Ok? && a.fromCurrency != a.toCurrency && a.fromCurrency != GBP ==>
      r.value.gbpValue * a.exchangeRate == a.value
    ensures r.Ok? && a.fromCurrency == GBP ==> r.value.gbpValue == a.value
  {
    if a.fromCurrency == a.toCurrency then Ok(FromGbp(a.value))
    else if a.fromCurrency == GBP then Ok(CurrencyValue(a.value, a.fromCurrency, a.value, a.exchangeRate))
    else if a.exchangeRate == 0.0 then Err("ZeroDivisionError")
    else Ok(CurrencyValue(a.value, a.fromCurrency, a.value / a.exchangeRate, a.exchangeRate))
  }

  /** Every cached conversion is the conversion of its own arguments. */
  ghost predicate Memoizes(c: CurrencyConversionCache<ConversionArgs, CurrencyValue>)
    reads c
  {
    forall a :: a in c.memoryCache ==> ConvertCurrency(a) == Ok(c.memoryCache[a].value)
  }

  /**
   * The memoising wrapper: a cached answer is returned as is, otherwise the conversion is computed and,
   * when it does not raise, stored with the default lifetime. Either way the answer is the conversion.
   */
  method CachedCurrencyConversion(cache: CurrencyConversionCache<ConversionArgs, CurrencyValue>, a: ConversionArgs, now: real)
    returns (r: Result<CurrencyValue, string>)
    requires Memoizes(cache)
    modifies cache
    ensures r == ConvertCurrency(a)
    ensures Memoizes(cache)
  {
    var cached := cache.Get(a, now);
    if cached.Some? {
      return Ok(cached.value);
    }
    r := ConvertCurrency(a);
    if r.Ok? {
      cache.Set(a, r.value, None, now);
    }
  }

  // ---------------------------------------------------------- data access

  /** Python's floor division. */
  function FloorDiv(a: int, b: int): int
    requires b != 0
  {
    if b > 0 then a / b else (-a) / (-b)
  }

  /** A Python slice bound: negative counts from the end, then clipped to the sequence. */
  function SliceBound(i: int, n: nat): (r: nat)
    ensures r <= n
  {
    if i < 0 then (if n + i < 0 then 0 else n + i) else if i > n then n else i
  }

  /** `data[i:j]` with Python's treatment of negative and out-of-range bounds. */
  function PySlice<T>(data: seq<T>, i: int, j: int): seq<T>
  {
    var lo := SliceBound(i, |data|);
    var hi := SliceBound(j, |data|);
    if lo >= hi then [] else data[lo..hi]
  }

  datatype Page<T> = Page(data: seq<T>, page: int, pageSize: int, totalItems: nat, totalPages: int, hasNext: bool, hasPrev: bool)

  /** `paginate_data`: one page of `data` and the page counts. A zero page size raises in the page count. */
  function Paginate<T>(data: seq<T>, page: int, pageSize: int): (r: Result<Page<T>, string>)
    ensures r.Err? <==> pageSize == 0
    ensures r.Ok? ==> r.value.totalItems == |data| && r.value.page == page && r.value.pageSize == pageSize
    ensures r.Ok? ==> (r.value.hasNext <==> page < r.value.totalPages) && (r.value.hasPrev <==> page > 1)
  {
    if pageSize == 0 then Err("ZeroDivisionError")
    else
      var totalItems := |data|;
      var totalPages := FloorDiv(totalItems + pageSize - 1, pageSize);
      var startIdx := (page - 1) * pageSize;
      var endIdx := startIdx + pageSize;
      Ok(Page(PySlice(data, startIdx, endIdx), page, pageSize, totalItems, totalPages, page < totalPages, page > 1))
  }

  /** For a positive page size the page count is the ceiling of items over size: 0 for no items. */
  lemma PageCountIsCeiling<T>(data: seq<T>, page: int, pageSize: int)
    requires pageSize > 0
    ensures var t := Paginate(data, page, pageSize).value.totalPages;
      t >= 0 && t * pageSize >= |data| && (|data| > 0 ==> (t - 1) * pageSize < |data|) && (|data| == 0 ==> t == 0)
  {
    var n := |data|;
    var t := (n + pageSize - 1) / pageSize;
    var rem := (n + pageSize - 1) % pageSize;
    assert n + pageSize - 1 == t * pageSize + rem;
    assert (t - 1) * pageSize == t * pageSize - pageSize;
    if t < 0 {
      MulLeftInt(t, -1, pageSize);
      assert false;
    }
  }

  lemma MulLeftInt(a: int, b: int, c: int)
    requires a <= b && c >= 0
    ensures a * c <= b * c
  {
  }

  /** For a positive size, page `page ≥ 1` holds that page's items, and nothing once past the end. */
  lemma PageContents<T>(data: seq<T>, page: int, pageSize: int)
    requires pageSize > 0 && page >= 1
    ensures (page - 1) * pageSize >= 0 && page * pageSize == (page - 1) * pageSize + pageSize
    ensures Paginate(data, page, pageSize).value.data ==
      if (page - 1) * pageSize < |data| then data[(page - 1) * pageSize .. MinInt(page * pageSize, |data|)] else []
  {
    MulLeftInt(0, page - 1, pageSize);
  }

  /** The pages `1..k` of size `pageSize`, one after the other. */
  function PagesUpTo<T>(data: seq<T>, pageSize: int, k: nat): seq<T>
    requires pageSize > 0
  {
    if k == 0 then [] else PagesUpTo(data, pageSize, k - 1) + Paginate(data, k, pageSize).value.data
  }

  /** The first `k` pages are the first `k · pageSize` items. */
  lemma {:induction false} PagesUpToIsPrefix<T>(data: seq<T>, pageSize: int, k: nat)
    requires pageSize > 0
    ensures PagesUpTo(data, pageSize, k) == data[..MinInt(k * pageSize, |data|)]
  {
    MulLeftInt(0, k, pageSize);
    if k > 0 {
      PagesUpToIsPrefix(data, pageSize, k - 1);
      PageContents(data, k, pageSize);
      assert (k - 1) * pageSize + pageSize == k * pageSize;
      var lo := MinInt((k - 1) * pageSize, |data|);
      var hi := MinInt(k * pageSize, |data|);
      assert data[..lo] + data[lo..hi] == data[..hi];
    }
  }

  /** Reading every page in turn gives back the whole list, each item once and in order. */
  lemma PagesCoverData<T>(data: seq<T>, pageSize: int)
    requires pageSize > 0
    ensures Paginate(data, 1, pageSize).value.totalPages >= 0
    ensures PagesUpTo(data, pageSize, Paginate(data, 1, pageSize).value.totalPages as nat) == data
  {
    var total := Paginate(data, 1, pageSize).value.totalPages;
    PageCountIsCeiling(data, 1, pageSize);
    PagesUpToIsPrefix(data, pageSize, total as nat);
  }

  /** Counts how often each access pattern has been seen. */
  class DataAccessOptimizer {
    var chunkSize: int
    var accessPatterns: map<string, int>

    constructor (chunkSize: int)
      ensures this.chunkSize == chunkSize && accessPatterns == map[]
    {
      this.chunkSize := chunkSize;
      accessPatterns := map[];
    }

    /** One more sighting of `pattern`; every other count is kept. */
    method TrackAccessPattern(pattern: string)
      modifies this
      ensures chunkSize == old(chunkSize)
      ensures accessPatterns == old(accessPatterns)[pattern := (if pattern in old(accessPatterns) then old(accessPatterns)[pattern] else 0) + 1]
    {
      accessPatterns := accessPatterns[pattern := (if pattern in accessPatterns then accessPatterns[pattern] else 0) + 1];
    }

    /** A copy of the counters; later tracking does not change a copy already taken. */
    method GetAccessStats() returns (stats: map<string, int>)
      ensures stats == accessPatterns
    {
      stats := accessPatterns;
    }
  }

  /** A count that starts absent is 1 after the first sighting and grows by one with each later one. */
  lemma TrackingCounts(before: map<string, int>, pattern: string)
    ensures var after := before[pattern := (if pattern in before then before[pattern] else 0) + 1];
      after[pattern] == (if pattern in before then before[pattern] + 1 else 1) &&
      forall p :: p in before && p != pattern ==> p in after && after[p] == before[p]
  {
  }

  /** Durations of finished operations and start times of running ones. */
  class PerformanceMonitor {
    var metrics: map<string, seq<real>>
    var startTimes: map<string, real>

    constructor ()
      ensures metrics == map[] && startTimes == map[]
    {
      metrics := map[];
      startTimes := map[];
    }

    method StartTimer(operation: string, now: real)
      modifies this
      ensures startTimes == old(startTimes)[operation := now] && metrics == old(metrics)
    {
      startTimes := startTimes[operation := now];
    }

    /**
     * For a running operation: the time since its start, appended to its durations, and the operation is
     * no longer running. For any other: 0, and nothing changes.
     */
    method EndTimer(operation: string, now: real) returns (duration: real)
      modifies this
      ensures operation !in old(startTimes) ==> duration == 0.0 && metrics == old(metrics) && startTimes == old(startTimes)
      ensures operation in old(startTimes) ==>
        duration == now - old(startTimes)[operation] &&
        startTimes == old(startTimes) - {operation} &&
        metrics == old(metrics)[operation := (if operation in old(metrics) then old(metrics)[operation] else []) + [duration]]
    {
      if operation in startTimes {
        duration := now - startTimes[operation];
        var times := if operation in metrics then metrics[operation] else [];
        metrics := metrics[operation := times + [duration]];
        startTimes := startTimes - {operation};
      } else {
        duration := 0.0;
      }
    }

    /** The mean recorded duration, or 0 when nothing has been recorded. */
    function GetAverageTime(operation: string): (r: real)
      reads this
      ensures (operation !in metrics || metrics[operation] == []) ==> r == 0.0
      ensures operation in metrics && metrics[operation] != [] ==> r * |metrics[operation]| as real == Sum(metrics[operation])
    {
      if operation in metrics && metrics[operation] != [] then Mean(metrics[operation]) else 0.0
    }
  }

  /** The timer name used around conversions. */
  const CurrencyConversionTimer: string := "currency_conversion"

  /**
   * `optimize_currency_value_creation`: a memoised conversion into GBP, timed from `startTime` to `endTime`
   * whether or not the conversion raises.
   */
  method OptimizeCurrencyValueCreation(cache: CurrencyConversionCache<ConversionArgs, CurrencyValue>, monitor: PerformanceMonitor,
                                       value: real, currency: Currency, exchangeRate: real, startTime: real, endTime: real)
    returns (r: Result<CurrencyValue, string>)
    requires Memoizes(cache)
    modifies cache, monitor
    ensures r == ConvertCurrency(ConversionArgs(value, currency, GBP, exchangeRate))
    ensures Memoizes(cache)
    ensures monitor.startTimes == old(monitor.startTimes) - {CurrencyConversionTimer}
    ensures monitor.metrics == old(monitor.metrics)[CurrencyConversionTimer :=
      (if CurrencyConversionTimer in old(monitor.metrics) then old(monitor.metrics)[CurrencyConversionTimer] else []) + [endTime - startTime]]
  {
    monitor.StartTimer(CurrencyConversionTimer, startTime);
    r := CachedCurrencyConversion(cache, ConversionArgs(value, currency, GBP, exchangeRate), startTime);
    var _ := monitor.EndTimer(CurrencyConversionTimer, endTime);
  }

  /** Every cache, counter and timer is emptied. */
  method ClearAllCaches(cache: CurrencyConversionCache<ConversionArgs, CurrencyValue>, optimizer: DataAccessOptimizer,
                        monitor: PerformanceMonitor, now: real)
    modifies cache, optimizer, monitor
    ensures cache.memoryCache == map[] && Memoizes(cache)
    ensures optimizer.accessPatterns == map[] && optimizer.chunkSize == old(optimizer.chunkSize)
    ensures monitor.metrics == map[] && monitor.startTimes == map[]
  {
    var _ := cache.ClearExpired(now);
    cache.memoryCache := map[];
    optimizer.accessPatterns := map[];
    monitor.metrics := map[];
    monitor.startTimes := map[];
  }
}

=== FILE: performance.dfy ===
/** The dashboard's performance monitor: bounded histories of load and chart timings, their summary and the advice drawn from it. */
module Performance {
  import opened Base

  datatype LoadRecord = LoadRecord(operation: string, duration: real, timestamp: string)

  datatype ChartRecord = ChartRecord(chartType: string, duration: real, timestamp: string)

  /** The system readings the advice looks at (read from the operating system by the dashboard). */
  datatype SystemMetrics = SystemMetrics(memoryPercent: real, memoryAvailableGb: real, cpuPercent: real)

  /**
   * `get_performance_summary`. `operations` lists the keys of `avg_load_times`
   * in the order the dictionary was filled (first occurrence in the history).
   */
  datatype Summary = Summary(operations: seq<string>, avgLoadTimes: map<string, real>, avgChartTime: real,
                             totalOperations: nat, uptime: real)

  /** One line of `get_performance_recommendations`, without its text rendering. */
  datatype Advice =
    | SlowOperation(operation: string, seconds: real)
    | OptimisableOperation(operation: string, seconds: real)
    | SlowCharts(seconds: real)
    | HighMemory
    | HighCpu
    | Optimal

  const LoadHistory: nat := 50
  const ChartHistory: nat := 100

  /** The list after `if len(xs) > n: xs = xs[-n:]`. */
  function KeepLast<T>(s: seq<T>, n: nat): (r: seq<T>)
    ensures |r| == if |s| > n then n else |s|
    ensures forall i :: 0 <= i < |r| ==> r[i] == s[|s| - |r| + i]
  {
    if |s| > n then s[|s| - n..] else s
  }

  /** Appending then trimming keeps the new entry last, never exceeds the bound, and only drops entries once the bound is reached. */
  lemma AppendThenKeepLast<T>(s: seq<T>, x: T, n: nat)
    requires n > 0 && |s| <= n
    ensures var r := KeepLast(s + [x], n);
      && |r| <= n
      && r[|r| - 1] == x
      && (|s| < n ==> r == s + [x])
      && (|s| == n ==> r == s[1..] + [x])
  {
    var r := KeepLast(s + [x], n);
    assert r[|r| - 1] == (s + [x])[|s|];
    if |s| == n {
      assert r == (s + [x])[1..];
      assert (s + [x])[1..] == s[1..] + [x];
    }
  }

  /** The durations recorded for `op`, in order. */
  function DurationsOf(loads: seq<LoadRecord>, op: string): (d: seq<real>)
    ensures |d| <= |loads|
  {
    if loads == [] then []
    else DurationsOf(loads[..|loads| - 1], op)
         + (if loads[|loads| - 1].operation == op then [loads[|loads| - 1].duration] else [])
  }

  /** The distinct operations of the history, in order of first occurrence. */
  function OperationsOf(loads: seq<LoadRecord>): seq<string>
  {
    if loads == [] then []
    else
      var ops := OperationsOf(loads[..|loads| - 1]);
      if loads[|loads| - 1].operation in ops then ops else ops + [loads[|loads| - 1].operation]
  }

  /** An operation is listed exactly when it was recorded, then it has at least one duration, and no operation is listed twice. */
  lemma {:induction false} OperationsOfRecorded(loads: seq<LoadRecord>, op: string)
    ensures op in OperationsOf(loads) <==> exists j :: 0 <= j < |loads| && loads[j].operation == op
    ensures op in OperationsOf(loads) <==> DurationsOf(loads, op) != []
    ensures forall i, j :: 0 <= i < j < |OperationsOf(loads)| ==> OperationsOf(loads)[i] != OperationsOf(loads)[j]
  {
    if loads != [] {
      var init := loads[..|loads| - 1];
      OperationsOfRecorded(init, op);
      if op in OperationsOf(loads) && op !in OperationsOf(init) {
        assert loads[|loads| - 1].operation == op;
      }
      if exists j :: 0 <= j < |loads| && loads[j].operation == op {
        var j :| 0 <= j < |loads| && loads[j].operation == op;
        if j < |loads| - 1 {
          assert init[j].operation == op;
        }
      }
      if exists j :: 0 <= j < |init| && init[j].operation == op {
        var j :| 0 <= j < |init| && init[j].operation == op;
        assert loads[j].operation == op;
      }
    }
  }

  /** The groups after one more record: its duration appended to its operation's list, which is opened when new. */
  function AddRecord(groups: map<string, seq<real>>, rec: LoadRecord): map<string, seq<real>>
  {
    groups[rec.operation := (if rec.operation in groups then groups[rec.operation] else []) + [rec.duration]]
  }

  /** One record keeps the grouping in step with the specification of the longer history. */
  lemma GroupStep(prefix: seq<LoadRecord>, rec: LoadRecord, ops: seq<string>, groups: map<string, seq<real>>)
    requires ops == OperationsOf(prefix)
    requires forall op :: op in groups <==> op in ops
    requires forall op :: op in groups ==> groups[op] == DurationsOf(prefix, op)
    ensures (if rec.operation in groups then ops else ops + [rec.operation]) == OperationsOf(prefix + [rec])
    ensures forall op :: op in AddRecord(groups, rec) <==> op in OperationsOf(prefix + [rec])
    ensures forall op :: op in AddRecord(groups, rec) ==> AddRecord(groups, rec)[op] == DurationsOf(prefix + [rec], op)
  {
    var longer := prefix + [rec];
    assert longer[..|longer| - 1] == prefix;
    OperationsOfRecorded(prefix, rec.operation);
    forall op | op in AddRecord(groups, rec)
      ensures AddRecord(groups, rec)[op] == DurationsOf(longer, op)
    {
      assert DurationsOf(longer, op) == DurationsOf(prefix, op) + (if rec.operation == op then [rec.duration] else []);
      if op != rec.operation {
        assert op in groups;
      }
    }
  }

  /** The grouping loop of `get_performance_summary`: the distinct operations in order and each one's durations. */
  method GroupByOperation(loads: seq<LoadRecord>) returns (ops: seq<string>, groups: map<string, seq<real>>)
    ensures ops == OperationsOf(loads)
    ensures forall op :: op in groups <==> op in ops
    ensures forall op :: op in groups ==> groups[op] == DurationsOf(loads, op)
  {
    ops := [];
    groups := map[];
    var i := 0;
    while i < |loads|
      invariant 0 <= i <= |loads|
      invariant ops == OperationsOf(loads[..i])
      invariant forall op :: op in groups <==> op in ops
      invariant forall op :: op in groups ==> groups[op] == DurationsOf(loads[..i], op)
    {
      var rec := loads[i];
      assert loads[..i + 1] == loads[..i] + [rec];
      GroupStep(loads[..i], rec, ops, groups);
      if rec.operation !in groups {
        groups := groups[rec.operation := []];
        ops := ops + [rec.operation];
      }
      groups := groups[rec.operation := groups[rec.operation] + [rec.duration]];
      i := i + 1;
    }
    assert loads[..i] == loads;
  }

  function ChartDurations(charts: seq<ChartRecord>): (d: seq<real>)
    ensures |d| == |charts| && forall i :: 0 <= i < |charts| ==> d[i] == charts[i].duration
  {
    seq(|charts|, i requires 0 <= i < |charts| => charts[i].duration)
  }

  /** The summary of a history: all zeros when no load was recorded (even if charts were), otherwise the per-operation means. */
  function SummaryOf(loads: seq<LoadRecord>, charts: seq<ChartRecord>, start: real, now: real): Summary
  {
    if loads == [] then Summary([], map[], 0.0, 0, now - start)
    else
      var ops := OperationsOf(loads);
      Summary(ops, map op | op in ops :: Mean(DurationsOf(loads, op)), Mean(ChartDurations(charts)),
              |loads| + |charts|, now - start)
  }

  /** Every recorded operation has a mean, nothing else has one, and the mean averages exactly that operation's durations. */
  lemma SummaryAverages(loads: seq<LoadRecord>, charts: seq<ChartRecord>, start: real, now: real, op: string)
    ensures var s := SummaryOf(loads, charts, start, now);
      && (op in s.avgLoadTimes <==> exists j :: 0 <= j < |loads| && loads[j].operation == op)
      && (op in s.avgLoadTimes ==>
            DurationsOf(loads, op) != [] && s.avgLoadTimes[op] == Sum(DurationsOf(loads, op)) / |DurationsOf(loads, op)| as real)
      && (loads != [] ==> s.totalOperations == |loads| + |charts|)
      && (loads == [] ==> s.totalOperations == 0 && s.avgChartTime == 0.0)
  {
    OperationsOfRecorded(loads, op);
  }

  function AdviceFor(op: string, avg: real): (r: seq<Advice>)
    ensures |r| <= 1
  {
    if avg > 5.0 then [SlowOperation(op, avg)]
    else if avg > 2.0 then [OptimisableOperation(op, avg)]
    else []
  }

  /** The per-operation advice, in the order of `ops`. */
  function OperationAdvice(ops: seq<string>, avg: map<string, real>): (r: seq<Advice>)
    requires forall op :: op in ops ==> op in avg
    ensures |r| <= |ops|
  {
    if ops == [] then [] else AdviceFor(ops[0], avg[ops[0]]) + OperationAdvice(ops[1..], avg)
  }

  /** An operation is called slow iff its mean exceeds 5 s, optimisable iff it lies in (2, 5], and no other advice comes from the load times. */
  lemma {:induction false} OperationAdviceThresholds(ops: seq<string>, avg: map<string, real>)
    requires forall op :: op in ops ==> op in avg
    ensures forall op :: op in ops ==> (SlowOperation(op, avg[op]) in OperationAdvice(ops, avg) <==> avg[op] > 5.0)
    ensures forall op :: op in ops ==>
      (OptimisableOperation(op, avg[op]) in OperationAdvice(ops, avg) <==> 2.0 < avg[op] <= 5.0)
    ensures forall a :: a in OperationAdvice(ops, avg) ==>
      || (a.SlowOperation? && a.operation in ops && a.seconds == avg[a.operation] && a.seconds > 5.0)
      || (a.OptimisableOperation? && a.operation in ops && a.seconds == avg[a.operation] && 2.0 < a.seconds <= 5.0)
  {
    if ops != [] {
      OperationAdviceThresholds(ops[1..], avg);
      forall op | op in ops
        ensures SlowOperation(op, avg[op]) in OperationAdvice(ops, avg) <==> avg[op] > 5.0
        ensures OptimisableOperation(op, avg[op]) in OperationAdvice(ops, avg) <==> 2.0 < avg[op] <= 5.0
      {
        if op != ops[0] {
          assert op in ops[1..];
        }
      }
      forall a | a in OperationAdvice(ops, avg)
        ensures || (a.SlowOperation? && a.operation in ops && a.seconds == avg[a.operation] && a.seconds > 5.0)
                || (a.OptimisableOperation? && a.operation in ops && a.seconds == avg[a.operation] && 2.0 < a.seconds <= 5.0)
      {
        if a !in AdviceFor(ops[0], avg[ops[0]]) {
          assert a in OperationAdvice(ops[1..], avg);
        }
      }
    }
  }

  lemma {:induction false} NoAdviceWhenFast(ops: seq<string>, avg: map<string, real>)
    requires forall op :: op in ops ==> op in avg && avg[op] <= 2.0
    ensures OperationAdvice(ops, avg) == []
  {
    if ops != [] {
      NoAdviceWhenFast(ops[1..], avg);
    }
  }

  /** `get_performance_recommendations`, with the system readings passed in. */
  function Recommendations(s: Summary, sys: SystemMetrics): (r: seq<Advice>)
    requires forall op :: op in s.operations ==> op in s.avgLoadTimes
    ensures r != []
  {
    var flagged := OperationAdvice(s.operations, s.avgLoadTimes)
      + (if s.avgChartTime > 1.0 then [SlowCharts(s.avgChartTime)] else [])
      + (if sys.memoryPercent > 80.0 then [HighMemory] else [])
      + (if sys.cpuPercent > 70.0 then [HighCpu] else []);
    if flagged == [] then [Optimal] else flagged
  }

  /** "Performance is optimal" is given alone, and exactly when no operation, chart time or system reading is flagged. */
  lemma OptimalIffNothingFlagged(s: Summary, sys: SystemMetrics)
    requires forall op :: op in s.operations ==> op in s.avgLoadTimes
    ensures Optimal in Recommendations(s, sys) <==> Recommendations(s, sys) == [Optimal]
    ensures Optimal in Recommendations(s, sys) <==>
      && (forall op :: op in s.operations ==> s.avgLoadTimes[op] <= 2.0)
      && s.avgChartTime <= 1.0 && sys.memoryPercent <= 80.0 && sys.cpuPercent <= 70.0
  {
    OperationAdviceThresholds(s.operations, s.avgLoadTimes);
    var ops := OperationAdvice(s.operations, s.avgLoadTimes);
    assert Optimal !in ops;
    if forall op :: op in s.operations ==> s.avgLoadTimes[op] <= 2.0 {
      NoAdviceWhenFast(s.operations, s.avgLoadTimes);
    } else {
      var op :| op in s.operations && s.avgLoadTimes[op] > 2.0;
      assert SlowOperation(op, s.avgLoadTimes[op]) in ops || OptimisableOperation(op, s.avgLoadTimes[op]) in ops;
    }
  }

  /** The TTLs of `get_optimal_cache_ttl`, in seconds. */
  const TtlByOperation: map<string, nat> :=
    map["scenario_data" := 300, "chart_data" := 60, "metrics" := 30, "filtered_data" := 120]

  /** `get_optimal_cache_ttl`: the mapped TTL, or 60 s for an unknown kind of operation. */
  function OptimalCacheTtl(operationType: string): (ttl: nat)
    ensures operationType in TtlByOperation ==> ttl == TtlByOperation[operationType]
    ensures operationType !in TtlByOperation ==> ttl == 60
    ensures 30 <= ttl <= 300
  {
    if operationType in TtlByOperation then TtlByOperation[operationType] else 60
  }

  /** The monitor, whose histories are appended to and trimmed in place. */
  class PerformanceMonitor {
    var loadTimes: seq<LoadRecord>
    var chartTimes: seq<ChartRecord>
    var memoryUsage: seq<real>
    var cpuUsage: seq<real>
    var startTime: real

    predicate Valid()
      reads this
    {
      |loadTimes| <= LoadHistory && |chartTimes| <= ChartHistory
    }

    constructor (now: real)
      ensures Valid()
      ensures loadTimes == [] && chartTimes == [] && memoryUsage == [] && cpuUsage == [] && startTime == now
    {
      loadTimes := [];
      chartTimes := [];
      memoryUsage := [];
      cpuUsage := [];
      startTime := now;
    }

    /** `track_load_time`: appends, then keeps only the last 50 entries. */
    method TrackLoadTime(operation: string, duration: real, timestamp: string)
      requires Valid()
      modifies this
      ensures Valid()
      ensures loadTimes == KeepLast(old(loadTimes) + [LoadRecord(operation, duration, timestamp)], LoadHistory)
      ensures chartTimes == old(chartTimes) && memoryUsage == old(memoryUsage) && cpuUsage == old(cpuUsage)
      ensures startTime == old(startTime)
    {
      loadTimes := loadTimes + [LoadRecord(operation, duration, timestamp)];
      if |loadTimes| > LoadHistory {
        loadTimes := loadTimes[|loadTimes| - LoadHistory..];
      }
    }

    /** `track_chart_creation`: appends, then keeps only the last 100 entries. */
    method TrackChartCreation(chartType: string, duration: real, timestamp: string)
      requires Valid()
      modifies this
      ensures Valid()
      ensures chartTimes == KeepLast(old(chartTimes) + [ChartRecord(chartType, duration, timestamp)], ChartHistory)
      ensures loadTimes == old(loadTimes) && memoryUsage == old(memoryUsage) && cpuUsage == old(cpuUsage)
      ensures startTime == old(startTime)
    {
      chartTimes := chartTimes + [ChartRecord(chartType, duration, timestamp)];
      if |chartTimes| > ChartHistory {
        chartTimes := chartTimes[|chartTimes| - ChartHistory..];
      }
    }

    /** `get_performance_summary`, grouping the load durations by operation in one pass. */
    method PerformanceSummary(now: real) returns (s: Summary)
      ensures s == SummaryOf(loadTimes, chartTimes, startTime, now)
    {
      if loadTimes == [] {
        return Summary([], map[], 0.0, 0, now - startTime);
      }
      var ops, groups := GroupByOperation(loadTimes);
      var averages := map op | op in groups :: Mean(groups[op]);
      assert averages == map op | op in ops :: Mean(DurationsOf(loadTimes, op));
      s := Summary(ops, averages, Mean(ChartDurations(chartTimes)), |loadTimes| + |chartTimes|, now - startTime);
    }

    /** `get_performance_recommendations`: the advice drawn from the current summary and the given system readings. */
    method PerformanceRecommendations(now: real, sys: SystemMetrics) returns (r: seq<Advice>)
      ensures var s := SummaryOf(loadTimes, chartTimes, startTime, now);
        (forall op :: op in s.operations ==> op in s.avgLoadTimes) && r == Recommendations(s, sys)
    {
      var s := PerformanceSummary(now);
      r := Recommendations(s, sys);
    }
  }
}

=== FILE: phases.dfy ===
/** The phase schedule of a plan: phases laid end to end over plan years, and the lookup of a year's phase. */
module Phases {
  import opened Base
  import opened TemplateMerge

  /** One phase of a plan: its span of plan years and whatever templates it carries. */
  datatype Phase<T> = Phase(name: string, duration: int, startYear: int, endYear: int, locationMarket: string, templates: T)

  /** The templates a loaded phase carries. */
  datatype PhaseTemplates = PhaseTemplates(
    salaryProgression: Template,
    expenseProfile: Value,
    housingStrategy: Template,
    taxSystem: Template,
    investmentStrategy: Option<Template>)

  function TotalDuration<T>(phases: seq<Phase<T>>): int
  {
    if phases == [] then 0 else TotalDuration(phases[..|phases| - 1]) + phases[|phases| - 1].duration
  }

  /** Phases laid end to end from plan year `from`: each spans its duration and the next starts the year after. */
  predicate LaidEndToEnd<T>(phases: seq<Phase<T>>, from: int)
  {
    (phases != [] ==> phases[0].startYear == from) &&
    (forall k :: 0 <= k < |phases| ==> phases[k].endYear == phases[k].startYear + phases[k].duration - 1) &&
    (forall k :: 0 <= k < |phases| - 1 ==> phases[k + 1].startYear == phases[k].endYear + 1)
  }

  predicate Covers<T>(p: Phase<T>, year: int)
  {
    p.startYear <= year <= p.endYear
  }

  /** `phases[i]` holds the year and no phase before it does. */
  predicate FirstCovering<T>(phases: seq<Phase<T>>, i: int, year: int)
  {
    0 <= i < |phases| && Covers(phases[i], year) && forall k :: 0 <= k < i ==> !Covers(phases[k], year)
  }

  lemma FirstCoveringTail<T>(phases: seq<Phase<T>>, j: int, year: int)
    requires phases != [] && !Covers(phases[0], year) && FirstCovering(phases[1..], j, year)
    ensures FirstCovering(phases, j + 1, year)
  {
    assert forall k :: 1 <= k < |phases| ==> phases[k] == phases[1..][k - 1];
  }

  /** `_get_phase_for_year`: the first phase whose span holds the year, or an error. */
  function GetPhaseForYear<T>(phases: seq<Phase<T>>, year: int): (r: Result<Phase<T>, string>)
    ensures r.Ok? ==> r.value in phases && r.value.startYear <= year <= r.value.endYear
    ensures r.Err? <==> forall k :: 0 <= k < |phases| ==> !(phases[k].startYear <= year <= phases[k].endYear)
    ensures r.Ok? ==> exists i :: FirstCovering(phases, i, year) && phases[i] == r.value
  {
    if phases == [] then Err("No phase found for year")
    else if Covers(phases[0], year) then
      assert FirstCovering(phases, 0, year);
      Ok(phases[0])
    else
      var r := GetPhaseForYear(phases[1..], year);
      assert forall k :: 1 <= k < |phases| ==> phases[k] == phases[1..][k - 1];
      assert r.Ok? ==> exists i :: FirstCovering(phases, i, year) && phases[i] == r.value by {
        if r.Ok? {
          var j :| FirstCovering(phases[1..], j, year) && phases[1..][j] == r.value;
          FirstCoveringTail(phases, j, year);
        }
      }
      r
  }

  /** With phases laid end to end from year `from`, every year before `from` plus their total duration finds a phase. */
  lemma {:induction false} EveryYearHasAPhase<T>(phases: seq<Phase<T>>, from: int, year: int)
    requires LaidEndToEnd(phases, from)
    requires from <= year < from + TotalDuration(phases)
    ensures GetPhaseForYear(phases, year).Ok?
  {
    if phases == [] {
      assert false;
    } else if year <= phases[0].endYear {
    } else {
      var rest := phases[1..];
      assert LaidEndToEnd(rest, phases[0].endYear + 1) by {
        forall k | 0 <= k < |rest|
          ensures rest[k].endYear == rest[k].startYear + rest[k].duration - 1
        {
          assert rest[k] == phases[k + 1];
        }
        forall k | 0 <= k < |rest| - 1
          ensures rest[k + 1].startYear == rest[k].endYear + 1
        {
          assert rest[k] == phases[k + 1] && rest[k + 1] == phases[k + 2];
        }
      }
      TotalDurationFront(phases);
      EveryYearHasAPhase(rest, phases[0].endYear + 1, year);
      var r := GetPhaseForYear(rest, year);
      assert GetPhaseForYear(phases, year) == r;
    }
  }

  /** A phase starting the year after the last one ends extends a schedule laid end to end. */
  lemma {:induction false} AppendLaidEndToEnd<T>(phases: seq<Phase<T>>, p: Phase<T>, from: int)
    requires LaidEndToEnd(phases, from)
    requires phases == [] ==> p.startYear == from
    requires phases != [] ==> p.startYear == phases[|phases| - 1].endYear + 1
    requires p.endYear == p.startYear + p.duration - 1
    ensures LaidEndToEnd(phases + [p], from)
    ensures TotalDuration(phases + [p]) == TotalDuration(phases) + p.duration
  {
    var extended := phases + [p];
    assert extended[..|phases|] == phases;
    assert extended[|phases|] == p;
    assert TotalDuration(extended) == TotalDuration(phases) + p.duration;
    assert extended[0].startYear == from by {
      if phases != [] {
        assert extended[0] == phases[0];
      }
    }
    forall k | 0 <= k < |extended|
      ensures extended[k].endYear == extended[k].startYear + extended[k].duration - 1
    {
      if k < |phases| {
        assert extended[k] == phases[k];
      }
    }
    forall k | 0 <= k < |extended| - 1
      ensures extended[k + 1].startYear == extended[k].endYear + 1
    {
      assert extended[k] == phases[k];
      if k + 1 < |phases| {
        assert extended[k + 1] == phases[k + 1];
      }
    }
  }

  /** The total duration counted from the front. */
  lemma {:induction false} TotalDurationFront<T>(phases: seq<Phase<T>>)
    requires phases != []
    ensures TotalDuration(phases) == phases[0].duration + TotalDuration(phases[1..])
  {
    if |phases| > 1 {
      var init := phases[..|phases| - 1];
      TotalDurationFront(init);
      assert init[1..] == phases[1..][..|phases[1..]| - 1];
      assert init[0] == phases[0];
    } else {
      assert phases[1..] == [];
      assert phases[..0] == [];
    }
  }

  /** Spans of phases laid end to end do not overlap, so the phase found for a year is the only one holding it. */
  lemma {:induction false} PhaseForYearIsUnique<T>(phases: seq<Phase<T>>, from: int, year: int, j: int)
    requires LaidEndToEnd(phases, from)
    requires forall k :: 0 <= k < |phases| ==> phases[k].duration > 0
    requires 0 <= j < |phases| && phases[j].startYear <= year <= phases[j].endYear
    ensures GetPhaseForYear(phases, year) == Ok(phases[j])
  {
    StartsIncrease(phases, from);
    if j > 0 {
      assert !(phases[0].startYear <= year <= phases[0].endYear) by {
        assert phases[0].endYear < phases[1].startYear <= phases[j].startYear;
      }
      var rest := phases[1..];
      assert LaidEndToEnd(rest, phases[0].endYear + 1) by {
        forall k | 0 <= k < |rest|
          ensures rest[k].endYear == rest[k].startYear + rest[k].duration - 1
        {
          assert rest[k] == phases[k + 1];
        }
        forall k | 0 <= k < |rest| - 1
          ensures rest[k + 1].startYear == rest[k].endYear + 1
        {
          assert rest[k] == phases[k + 1] && rest[k + 1] == phases[k + 2];
        }
      }
      assert rest[j - 1] == phases[j];
      PhaseForYearIsUnique(rest, phases[0].endYear + 1, year, j - 1);
    }
  }

  /** Start years strictly increase along phases laid end to end with positive durations. */
  lemma StartsIncrease<T>(phases: seq<Phase<T>>, from: int)
    requires LaidEndToEnd(phases, from)
    requires forall k :: 0 <= k < |phases| ==> phases[k].duration > 0
    ensures forall i, j :: 0 <= i < j < |phases| ==> phases[i].endYear < phases[j].startYear
  {
    forall i, j | 0 <= i < j < |phases|
      ensures phases[i].endYear < phases[j].startYear
    {
      var k := i;
      while k < j
        invariant i <= k <= j
        invariant phases[i].endYear < phases[k].startYear || k == i
        decreases j - k
      {
        assert phases[k + 1].startYear == phases[k].endYear + 1;
        k := k + 1;
      }
    }
  }
}

=== FILE: planner.dfy ===
/**
 * The legacy year-by-year projector: a UK career under scenario A or B, a career abroad, and a UK career followed
 * by a move abroad. Each run walks the plan years in order, updates one scenario state and appends one data point
 * per year; a missing configuration entry or an undefined value raises and ends the run.
 */
module LegacyPlanner {
  import opened Base
  import Common
  import UkTax
  import UkTaxLegacy
  import UsTax
  import Goals
  import opened FinancialData
  import opened ScenarioHelpers
  import opened ScenarioBuilder

  /** One international location's entries. */
  datatype LocationConfig = LocationConfig(
    salaryProgression: map<int, real>,
    bonusRate: real,
    rsuRate: real,
    taxSystem: string,
    costs: UkTax.LocationCosts,
    retirementContribution: real,
    exchangeRate: real,
    relocationCost: real,
    housingOptions: HousingOptions)

  /** One delayed-relocation plan: years spent in the UK first, then the location and its salary multiplier. */
  datatype DelayedConfig = DelayedConfig(ukYears: int, location: string, salaryMultiplier: real, housingStrategy: string)

  /** The legacy configuration the three runs read. */
  datatype LegacyConfig = LegacyConfig(
    startYear: int,
    planDurationYears: int,
    startAge: int,
    studentLoanDebt: real,
    uk: UkTax.UkConfig,
    goals: Goals.GoalConfig,
    inflationPath: Common.InflationPath,
    investmentReturnRate: real,
    parentalHome: ParentalHomePurchase,
    international: map<string, LocationConfig>,
    delayedRelocation: map<string, DelayedConfig>)

  /** The number of years in `range(start_year, start_year + plan_duration_years)`. */
  function YearCount(cfg: LegacyConfig): nat
  {
    if cfg.planDurationYears > 0 then cfg.planDurationYears else 0
  }

  // ------------------------------------------------------------- UK years

  /** Scenario A's IPO: unvested equity doubles in value in plan year 4 only. */
  function IpoMultiplier(planYear: int): (m: real)
    ensures m == 2.0 <==> planYear == 4
    ensures m == 1.0 <==> planYear != 4
  {
    if planYear == 4 then 2.0 else 1.0
  }

  /** The grants scenario A holds after `planYear`: one per year from plan year 3, each a fifth of that salary. */
  function GrantsA(planYear: int): (g: seq<RsuGrant>)
    ensures AllAnnual(g)
    ensures |g| == MaxInt(0, planYear - 2)
    decreases planYear
  {
    if planYear < 3 then [] else GrantsA(planYear - 1) + NewGrantsA(planYear, UkSalary(planYear, "A"))
  }

  /** Scenario A's `k`-th grant is made in plan year `k + 3` and vests over the four years from then. */
  lemma {:induction false} GrantsAInOrder(planYear: int)
    ensures forall k :: 0 <= k < |GrantsA(planYear)| ==>
      GrantsA(planYear)[k].grantYear == k + 3 && GrantsA(planYear)[k].vestingEndYear == k + 6
    decreases planYear
  {
    if planYear >= 3 {
      GrantsAInOrder(planYear - 1);
      var g := GrantsA(planYear);
      assert g == GrantsA(planYear - 1) + NewGrantsA(planYear, UkSalary(planYear, "A"));
      forall k | 0 <= k < |g|
        ensures g[k].grantYear == k + 3 && g[k].vestingEndYear == k + 6
      {
        if k < |GrantsA(planYear - 1)| {
          assert g[k] == GrantsA(planYear - 1)[k];
        } else {
          assert g[k] == NewGrantsA(planYear, UkSalary(planYear, "A"))[0];
        }
      }
    }
  }

  /** The grants scenario B holds after `planYear`: the single cliff grant made in plan year 3. */
  function GrantsB(planYear: int): (g: seq<RsuGrant>)
    ensures g == [] || g == [ScenarioBGrant]
  {
    if planYear >= 3 then [ScenarioBGrant] else []
  }

  /** The grants a UK scenario holds after `planYear`; none for a scenario type that is neither A nor B. */
  function GrantsFor(scenarioType: string, planYear: int): seq<RsuGrant>
  {
    if scenarioType == "A" then GrantsA(planYear) else if scenarioType == "B" then GrantsB(planYear) else []
  }

  /** The vested and unvested equity of a scripted UK scenario in `planYear`. */
  function UkRsu(scenarioType: string, planYear: int): (r: (real, real))
    requires scenarioType == "A" || scenarioType == "B"
    ensures scenarioType == "B" ==> r == RsuVestingB(planYear, GrantsB(planYear))
    ensures scenarioType == "A" ==>
      r == (VestedSumA(GrantsA(planYear), planYear) * IpoMultiplier(planYear),
            UnvestedSumA(GrantsA(planYear), planYear, IpoMultiplier(planYear)))
  {
    if scenarioType == "A" then
      (VestedSumA(GrantsA(planYear), planYear) * IpoMultiplier(planYear),
       UnvestedSumA(GrantsA(planYear), planYear, IpoMultiplier(planYear)))
    else RsuVestingB(planYear, GrantsB(planYear))
  }

  /** The year's UK expense lines under their legacy keys; there is no "mortgage_payment" entry. */
  function UkExpenseMap(e: UkTaxLegacy.UkExpenses): map<string, real>
  {
    map["personal" := e.personal, "parental_support" := e.parentalSupport, "travel" := e.travel, "rent" := e.rent,
        "university_payment" := e.universityPayment, "marriage" := e.marriage, "child" := e.child]
  }

  /** The year's allocation under its breakdown keys. */
  function BreakdownMap(a: UkTax.Allocation): map<string, real>
  {
    map["lisa_contr" := a.lisa, "isa_contr" := a.isa, "sipp_contr" := a.sipp, "gia_contr" := a.gia,
        "lisa_bonus" := a.lisaBonus]
  }

  /**
   * The UK expense lines are keyed "university_payment" while the data point reads "university_repayment", and
   * the mortgage payment is never keyed: both lines of every UK point are zero although the year's total
   * expenses include them.
   */
  lemma UkPointDropsUniversityAndMortgage(e: UkTaxLegacy.UkExpenses, year: int, age: int, f: UkFigures,
                                          breakdown: map<string, real>)
    ensures UkDataPoint(year, age, f, UkExpenseMap(e), breakdown).universityRepaymentGbp == 0.0
    ensures UkDataPoint(year, age, f, UkExpenseMap(e), breakdown).mortgagePaymentGbp == 0.0
    ensures UkDataPoint(year, age, f, UkExpenseMap(e), breakdown).personalExpensesGbp == e.personal
  {
    assert "university_repayment" !in UkExpenseMap(e);
    assert "mortgage_payment" !in UkExpenseMap(e);
  }

  /** A UK year raises: a scenario type other than A or B, no default inflation rate, or a zero-term mortgage due. */
  predicate UkYearFails(planYear: int, scenarioType: string, cfg: LegacyConfig)
  {
    (scenarioType != "A" && scenarioType != "B") || cfg.inflationPath.default.None? ||
    (planYear >= cfg.parentalHome.targetYear + 1 && cfg.parentalHome.mortgageTermYears == 0)
  }

  /** Once a UK year raises, every later UK year of the same plan would too. */
  lemma UkYearFailsLater(y1: int, y2: int, scenarioType: string, cfg: LegacyConfig)
    requires y1 <= y2 && UkYearFails(y1, scenarioType, cfg)
    ensures UkYearFails(y2, scenarioType, cfg)
  {
  }

  /**
   * What the UK year with index `i` reports: the scenario's salary, bonus and equity, gross income taxed by the
   * year's rules, the plan 2 repayment on it, net income after tax, NI and that repayment, total expenses as the
   * legacy lines plus the parental mortgage, savings as their difference, a non-negative portfolio, and net worth
   * as portfolio, unvested equity and house equity. The house equity is zero until the parental home is bought and
   * is the deposit in that year.
   */
  predicate UkYearPoint(p: FinancialDataPoint, i: nat, scenarioType: string, cfg: LegacyConfig, price: real)
  {
    var planYear := i + 1;
    var year := cfg.startYear + i;
    (scenarioType == "A" || scenarioType == "B") && cfg.inflationPath.default.Some? &&
    ParentalPayment(planYear, price, cfg.parentalHome).Ok? &&
    var inf := Common.InflationMultiplier(year, cfg.inflationPath).value;
    var expenses := UkTaxLegacy.Expenses(planYear, cfg.goals, inf);
    p.year == planYear && p.age == cfg.startAge + i && p.phase == UK &&
    p.grossSalaryGbp == UkSalary(planYear, scenarioType) &&
    p.grossBonusGbp == UkBonus(p.grossSalaryGbp, scenarioType, planYear) &&
    p.vestedRsuGbp == UkRsu(scenarioType, planYear).0 &&
    p.totalGrossGbp == p.grossSalaryGbp + p.grossBonusGbp + p.vestedRsuGbp &&
    (p.incomeTaxGbp, p.nationalInsuranceGbp) == UkTax.TaxAndNi(p.totalGrossGbp, year, cfg.uk) &&
    p.studentLoanRepaymentGbp == UkTax.LoanRepayment(p.totalGrossGbp, cfg.uk.studentLoan) &&
    p.netIncomeGbp == p.totalGrossGbp - p.incomeTaxGbp - p.nationalInsuranceGbp - p.studentLoanRepaymentGbp &&
    p.totalExpensesGbp ==
      UkTaxLegacy.UkExpensesTotal(expenses) + ParentalPayment(planYear, price, cfg.parentalHome).value &&
    p.personalExpensesGbp == expenses.personal &&
    p.universityRepaymentGbp == 0.0 && p.mortgagePaymentGbp == 0.0 &&
    p.annualSavingsGbp == p.netIncomeGbp - p.totalExpensesGbp &&
    p.cumulativePortfolioGbp >= 0.0 &&
    p.netWorthGbp == p.cumulativePortfolioGbp + UkRsu(scenarioType, planYear).1 + p.houseEquityGbp &&
    (planYear < cfg.parentalHome.targetYear + 1 ==> p.houseEquityGbp == 0.0) &&
    (planYear == cfg.parentalHome.targetYear + 1 ==> p.houseEquityGbp == price * cfg.parentalHome.depositPct) &&
    p.netWorthGbpEquiv == p.netWorthGbp
  }

  /**
   * The equity step of a UK year: scenario A vests its annual grants (doubled by the IPO in year 4), scenario B
   * adds its cliff grant in year 3 and vests it; any other scenario leaves the vested value unbound.
   */
  method VestYear(planYear: int, scenarioType: string, salary: real, state: ScenarioState)
    returns (r: Result<real, string>)
    requires state.rsuGrants == GrantsFor(scenarioType, planYear - 1)
    requires salary == UkSalary(planYear, scenarioType)
    modifies state
    ensures r.Err? <==> scenarioType != "A" && scenarioType != "B"
    ensures r.Ok? ==> r.value == UkRsu(scenarioType, planYear).0
    ensures r.Ok? ==> state.unvestedEquityValue == UkRsu(scenarioType, planYear).1
    ensures r.Ok? ==> state.rsuGrants == GrantsFor(scenarioType, planYear)
    ensures state.cumulativeInvestments == old(state.cumulativeInvestments)
    ensures state.studentLoanBalance == old(state.studentLoanBalance) && state.parentalHome == old(state.parentalHome)
    ensures state.ukHome == old(state.ukHome) && state.localHome == old(state.localHome)
  {
    if scenarioType == "A" {
      var vested, unvested := state.VestScenarioA(planYear, salary, IpoMultiplier(planYear));
      assert state.rsuGrants == GrantsA(planYear);
      state.unvestedEquityValue := unvested;
      r := Ok(vested);
    } else if scenarioType == "B" {
      if planYear == 3 {
        state.rsuGrants := state.rsuGrants + [ScenarioBGrant];
      }
      assert state.rsuGrants == GrantsB(planYear);
      var vesting := RsuVestingB(planYear, state.rsuGrants);
      state.unvestedEquityValue := vesting.1;
      r := Ok(vesting.0);
    } else {
      r := Err("UnboundLocalError: rsu_vested_value");
    }
  }

  /** The figures a UK year computes make its data point the point `UkYearPoint` describes. */
  lemma UkFiguresMeetYear(i: nat, scenarioType: string, cfg: LegacyConfig, price: real, f: UkFigures,
                          e: UkTaxLegacy.UkExpenses, breakdown: map<string, real>)
    requires scenarioType == "A" || scenarioType == "B"
    requires cfg.inflationPath.default.Some? && ParentalPayment(i + 1, price, cfg.parentalHome).Ok?
    requires e == UkTaxLegacy.Expenses(i + 1, cfg.goals,
                                       Common.InflationMultiplier(cfg.startYear + i, cfg.inflationPath).value)
    requires f.salary == UkSalary(i + 1, scenarioType) && f.bonus == UkBonus(f.salary, scenarioType, i + 1)
    requires f.rsuVested == UkRsu(scenarioType, i + 1).0 && f.grossIncome == f.salary + f.bonus + f.rsuVested
    requires (f.tax, f.ni) == UkTax.TaxAndNi(f.grossIncome, cfg.startYear + i, cfg.uk)
    requires f.slRepayment == UkTax.LoanRepayment(f.grossIncome, cfg.uk.studentLoan)
    requires f.netIncome == f.grossIncome - f.tax - f.ni - f.slRepayment
    requires f.totalExpenses ==
      UkTaxLegacy.UkExpensesTotal(e) + ParentalPayment(i + 1, price, cfg.parentalHome).value
    requires f.annualSavings == f.netIncome - f.totalExpenses && f.cumulativePortfolio >= 0.0
    requires f.netWorth == f.cumulativePortfolio + UkRsu(scenarioType, i + 1).1 + f.houseEquity
    requires i + 1 < cfg.parentalHome.targetYear + 1 ==> f.houseEquity == 0.0
    requires i + 1 == cfg.parentalHome.targetYear + 1 ==> f.houseEquity == price * cfg.parentalHome.depositPct
    ensures UkYearPoint(UkDataPoint(i + 1, cfg.startAge + i, f, UkExpenseMap(e), breakdown), i, scenarioType, cfg,
                        price)
  {
    UkPointDropsUniversityAndMortgage(e, i + 1, cfg.startAge + i, f, breakdown);
  }

  /**
   * How the UK year with index `i` and point `p` moves the loan balance, the portfolio and the parental home from
   * their values before the year (`loan0`, `portfolio0`, `home0`) to those after it: the balance accrues the
   * year's interest and takes the repayment, the portfolio grows by the return and takes the savings as allocated
   * with the LISA bonus, and from the year after the target year the home is bought or carried forward at the
   * year's payment and inflation. The point reports the new portfolio and the new home's equity.
   */
  predicate UkStateStep(p: FinancialDataPoint, i: nat, cfg: LegacyConfig, price: real, loan0: real, loan1: real,
                        portfolio0: real, portfolio1: real, home0: Home, home1: Home)
  {
    var planYear := i + 1;
    var h := cfg.parentalHome;
    cfg.inflationPath.default.Some? && ParentalPayment(planYear, price, h).Ok? &&
    loan1 == UkTax.StudentLoan(p.totalGrossGbp, loan0, cfg.uk.studentLoan).1 &&
    portfolio1 == GrownPortfolio(portfolio0, cfg.investmentReturnRate,
                                 Contributions(UkTaxLegacy.InvestmentAllocation(p.annualSavingsGbp, cfg.uk))) &&
    p.cumulativePortfolioGbp == portfolio1 && p.houseEquityGbp == home1.equity &&
    (planYear < h.targetYear + 1 ==> home1 == home0) &&
    (planYear >= h.targetYear + 1 ==>
      home1 == HomeAfterYear(home0, planYear == h.targetYear + 1, price, h.depositPct, h.mortgageRate,
                             ParentalPayment(planYear, price, h).value,
                             Common.InflationMultiplier(cfg.startYear + i, cfg.inflationPath).value - 1.0))
  }

  /** The state a UK year leaves, with the figures it reports, make the step `UkStateStep` describes. */
  lemma UkFiguresStep(i: nat, cfg: LegacyConfig, price: real, f: UkFigures, expenses: map<string, real>,
                      breakdown: map<string, real>, loan0: real, loan1: real, portfolio0: real, home0: Home, home1: Home)
    requires cfg.inflationPath.default.Some? && ParentalPayment(i + 1, price, cfg.parentalHome).Ok?
    requires loan1 == UkTax.StudentLoan(f.grossIncome, loan0, cfg.uk.studentLoan).1
    requires f.cumulativePortfolio == GrownPortfolio(portfolio0, cfg.investmentReturnRate,
                                                     Contributions(UkTaxLegacy.InvestmentAllocation(f.annualSavings, cfg.uk)))
    requires f.houseEquity == home1.equity
    requires i + 1 < cfg.parentalHome.targetYear + 1 ==> home1 == home0
    requires i + 1 >= cfg.parentalHome.targetYear + 1 ==>
      home1 == HomeAfterYear(home0, i + 1 == cfg.parentalHome.targetYear + 1, price, cfg.parentalHome.depositPct,
                             cfg.parentalHome.mortgageRate, ParentalPayment(i + 1, price, cfg.parentalHome).value,
                             Common.InflationMultiplier(cfg.startYear + i, cfg.inflationPath).value - 1.0)
    ensures UkStateStep(UkDataPoint(i + 1, cfg.startAge + i, f, expenses, breakdown), i, cfg, price, loan0, loan1,
                        portfolio0, f.cumulativePortfolio, home0, home1)
  {
  }

  /**
   * The close of a UK year once its income, tax, loan and parental mortgage are known: the savings are invested
   * and the year's data point is built from the figures and the state. `loan0` and `home0` are the loan balance
   * and parental home before the year.
   */
  method RecordUkYear(i: nat, scenarioType: string, cfg: LegacyConfig, price: real, state: ScenarioState,
                      gross: real, taxNi: (real, real), repayment: real, expenses: UkTaxLegacy.UkExpenses,
                      mortgage: real, ghost loan0: real, ghost home0: Home)
    returns (p: FinancialDataPoint)
    requires scenarioType == "A" || scenarioType == "B"
    requires cfg.inflationPath.default.Some? && ParentalPayment(i + 1, price, cfg.parentalHome).Ok?
    requires mortgage == ParentalPayment(i + 1, price, cfg.parentalHome).value
    requires gross == UkSalary(i + 1, scenarioType) + UkBonus(UkSalary(i + 1, scenarioType), scenarioType, i + 1)
                      + UkRsu(scenarioType, i + 1).0
    requires taxNi == UkTax.TaxAndNi(gross, cfg.startYear + i, cfg.uk)
    requires (repayment, state.studentLoanBalance) == UkTax.StudentLoan(gross, loan0, cfg.uk.studentLoan)
    requires expenses == UkTaxLegacy.Expenses(i + 1, cfg.goals,
                                              Common.InflationMultiplier(cfg.startYear + i, cfg.inflationPath).value)
    requires state.unvestedEquityValue == UkRsu(scenarioType, i + 1).1
    requires i + 1 < cfg.parentalHome.targetYear + 1 ==> state.parentalHome == home0 == NoHome
    requires i + 1 >= cfg.parentalHome.targetYear + 1 ==>
      state.parentalHome == HomeAfterYear(home0, i + 1 == cfg.parentalHome.targetYear + 1, price,
                                          cfg.parentalHome.depositPct, cfg.parentalHome.mortgageRate, mortgage,
                                          Common.InflationMultiplier(cfg.startYear + i, cfg.inflationPath).value - 1.0)
    modifies state
    ensures UkYearPoint(p, i, scenarioType, cfg, price)
    ensures UkStateStep(p, i, cfg, price, loan0, state.studentLoanBalance, old(state.cumulativeInvestments),
                        state.cumulativeInvestments, home0, state.parentalHome)
    ensures state.studentLoanBalance == old(state.studentLoanBalance) && state.parentalHome == old(state.parentalHome)
    ensures state.rsuGrants == old(state.rsuGrants) && state.unvestedEquityValue == old(state.unvestedEquityValue)
    ensures state.ukHome == old(state.ukHome) && state.localHome == old(state.localHome)
  {
    var salary := UkSalary(i + 1, scenarioType);
    var net := gross - taxNi.0 - taxNi.1 - repayment;
    var total := UkTaxLegacy.UkExpensesTotal(expenses) + mortgage;
    var savings := net - total;
    ghost var portfolio0 := state.cumulativeInvestments;
    var breakdown := state.UkInvestmentGrowth(savings, cfg.uk, cfg.investmentReturnRate);
    var netWorth := state.cumulativeInvestments + state.unvestedEquityValue + state.parentalHome.equity;
    var figures := UkFigures(salary, UkBonus(salary, scenarioType, i + 1), UkRsu(scenarioType, i + 1).0, gross, net,
                             total, savings, state.cumulativeInvestments, state.parentalHome.equity, netWorth,
                             taxNi.0, taxNi.1, repayment);
    UkFiguresMeetYear(i, scenarioType, cfg, price, figures, expenses, BreakdownMap(breakdown));
    UkFiguresStep(i, cfg, price, figures, UkExpenseMap(expenses), BreakdownMap(breakdown), loan0,
                  state.studentLoanBalance, portfolio0, home0, state.parentalHome);
    p := UkDataPoint(i + 1, cfg.startAge + i, figures, UkExpenseMap(expenses), BreakdownMap(breakdown));
  }

  /**
   * One UK year of `run_scenario_pydantic` (and of the UK phase of the delayed run with scenario B): income,
   * equity vesting, tax, the student loan, expenses, the parental mortgage, investment growth and the year's data
   * point.
   */
  method UkYear(i: nat, scenarioType: string, cfg: LegacyConfig, price: real, state: ScenarioState)
    returns (r: Result<FinancialDataPoint, string>)
    requires state.rsuGrants == GrantsFor(scenarioType, i)
    requires i < cfg.parentalHome.targetYear + 1 ==> state.parentalHome == NoHome
    modifies state
    ensures r.Err? <==> UkYearFails(i + 1, scenarioType, cfg)
    ensures r.Ok? ==> UkYearPoint(r.value, i, scenarioType, cfg, price)
    ensures r.Ok? ==> state.rsuGrants == GrantsFor(scenarioType, i + 1)
    ensures r.Ok? ==> state.unvestedEquityValue == UkRsu(scenarioType, i + 1).1
    ensures r.Ok? && i + 1 < cfg.parentalHome.targetYear + 1 ==> state.parentalHome == NoHome
    ensures r.Ok? ==> UkStateStep(r.value, i, cfg, price, old(state.studentLoanBalance), state.studentLoanBalance,
                                  old(state.cumulativeInvestments), state.cumulativeInvestments,
                                  old(state.parentalHome), state.parentalHome)
    ensures state.ukHome == old(state.ukHome) && state.localHome == old(state.localHome)
  {
    var planYear := i + 1;
    var year := cfg.startYear + i;
    var salary := UkSalary(planYear, scenarioType);
    var bonus := UkBonus(salary, scenarioType, planYear);
    ghost var loan0, home0 := state.studentLoanBalance, state.parentalHome;
    var rsu := VestYear(planYear, scenarioType, salary, state);
    if rsu.Err? {
      assert UkYearFails(planYear, scenarioType, cfg);
      return Err(rsu.error);
    }
    var rsuVested := rsu.value;
    var gross := salary + bonus + rsuVested;
    var taxNi := UkTax.TaxAndNi(gross, year, cfg.uk);
    var loan := UkTax.StudentLoan(gross, state.studentLoanBalance, cfg.uk.studentLoan);
    state.studentLoanBalance := loan.1;
    var inf := Common.InflationMultiplier(year, cfg.inflationPath);
    if inf.Err? {
      assert UkYearFails(planYear, scenarioType, cfg);
      return Err(inf.error);
    }
    var expenses := UkTaxLegacy.Expenses(planYear, cfg.goals, inf.value);
    var mortgage := state.MortgageAndHouseEquity(planYear, price, cfg.parentalHome, inf.value - 1.0);
    if mortgage.Err? {
      assert UkYearFails(planYear, scenarioType, cfg);
      return Err(mortgage.error);
    }
    assert !UkYearFails(planYear, scenarioType, cfg);
    var p := RecordUkYear(i, scenarioType, cfg, price, state, gross, taxNi, loan.0, expenses, mortgage.value,
                          loan0, home0);
    r := Ok(p);
  }

  /** Every point of `ps` is the UK point of its year. */
  predicate UkPoints(ps: seq<FinancialDataPoint>, scenarioType: string, cfg: LegacyConfig, price: real)
  {
    forall k :: 0 <= k < |ps| ==> UkYearPoint(ps[k], k, scenarioType, cfg, price)
  }

  lemma UkPointsAppend(ps: seq<FinancialDataPoint>, p: FinancialDataPoint, scenarioType: string, cfg: LegacyConfig, price: real)
    requires UkPoints(ps, scenarioType, cfg, price) && UkYearPoint(p, |ps|, scenarioType, cfg, price)
    ensures UkPoints(ps + [p], scenarioType, cfg, price)
  {
    assert forall k :: 0 <= k < |ps| ==> (ps + [p])[k] == ps[k];
  }

  // ------------------------------------------------------------ the parental home over a run

  /**
   * The parental home after the first `n` plan years of a UK run whose home costs `price`: none up to the target
   * year, bought in the year after it, then carried forward a year at a time at the year's payment and inflation.
   * A year whose payment or inflation cannot be computed leaves it as it was (such a year raises in the run).
   */
  function ParentalHomeAt(n: nat, cfg: LegacyConfig, price: real): Home
  {
    if n == 0 then NoHome
    else
      var prev := ParentalHomeAt(n - 1, cfg, price);
      var h := cfg.parentalHome;
      if n < h.targetYear + 1 || cfg.inflationPath.default.None? || ParentalPayment(n, price, h).Err? then prev
      else
        HomeAfterYear(prev, n == h.targetYear + 1, price, h.depositPct, h.mortgageRate,
                      ParentalPayment(n, price, h).value,
                      Common.InflationMultiplier(cfg.startYear + n - 1, cfg.inflationPath).value - 1.0)
  }

  /** Up to the target year the parental home is not yet bought. */
  lemma {:induction false} NoParentalHomeBeforeTarget(n: nat, cfg: LegacyConfig, price: real)
    requires n < cfg.parentalHome.targetYear + 1
    ensures ParentalHomeAt(n, cfg, price) == NoHome
  {
    if n > 0 {
      NoParentalHomeBeforeTarget(n - 1, cfg, price);
    }
  }

  /** A UK year that starts from the home after `i` years leaves the home after `i + 1` years, and reports its equity. */
  lemma UkStepFollowsHome(p: FinancialDataPoint, i: nat, cfg: LegacyConfig, price: real, loan0: real, loan1: real,
                          portfolio0: real, portfolio1: real, home1: Home)
    requires UkStateStep(p, i, cfg, price, loan0, loan1, portfolio0, portfolio1, ParentalHomeAt(i, cfg, price), home1)
    ensures home1 == ParentalHomeAt(i + 1, cfg, price)
    ensures p.houseEquityGbp == ParentalHomeAt(i + 1, cfg, price).equity
  {
  }

  /** The first `m` points of `ps` report the equity of the parental home after their own year. */
  predicate ParentalEquities(ps: seq<FinancialDataPoint>, m: int, cfg: LegacyConfig, price: real)
  {
    forall k :: 0 <= k < |ps| && k < m ==> ps[k].houseEquityGbp == ParentalHomeAt(k + 1, cfg, price).equity
  }

  lemma ParentalEquitiesAppend(ps: seq<FinancialDataPoint>, p: FinancialDataPoint, m: int, cfg: LegacyConfig,
                               price: real)
    requires ParentalEquities(ps, m, cfg, price)
    requires |ps| < m ==> p.houseEquityGbp == ParentalHomeAt(|ps| + 1, cfg, price).equity
    ensures ParentalEquities(ps + [p], m, cfg, price)
  {
    assert forall k :: 0 <= k < |ps| ==> (ps + [p])[k] == ps[k];
  }

  // ------------------------------------------------------------ the portfolio

  /** The portfolio a point reports in its own currency: GBP for a UK year, USD for a year abroad. */
  function Portfolio(p: FinancialDataPoint): real
  {
    if p.phase == UK then p.cumulativePortfolioGbp else p.cumulativePortfolioUsd
  }

  /** What a year adds to the portfolio: a UK year its savings as allocated with the LISA bonus, a year abroad its savings. */
  function Contributed(p: FinancialDataPoint, cfg: LegacyConfig): real
  {
    if p.phase == UK then Contributions(UkTaxLegacy.InvestmentAllocation(p.annualSavingsGbp, cfg.uk))
    else p.annualSavingsUsd
  }

  /**
   * Each point's portfolio is the previous point's grown by a year's return and topped up by the point's own
   * contribution, floored at zero; the first point's starts from zero. The previous value is taken as it stands,
   * in whatever currency it was reported.
   */
  predicate PortfolioChain(ps: seq<FinancialDataPoint>, cfg: LegacyConfig)
  {
    forall k {:trigger PortfolioBefore(ps, k)} :: 0 <= k < |ps| ==>
      Portfolio(ps[k]) == GrownPortfolio(PortfolioBefore(ps, k), cfg.investmentReturnRate, Contributed(ps[k], cfg))
  }

  /** The portfolio before the year of point `k`: the previous point's, zero before the first. */
  function PortfolioBefore(ps: seq<FinancialDataPoint>, k: nat): real
    requires k <= |ps|
  {
    if k == 0 then 0.0 else Portfolio(ps[k - 1])
  }

  lemma PortfolioChainAppend(ps: seq<FinancialDataPoint>, p: FinancialDataPoint, cfg: LegacyConfig)
    requires PortfolioChain(ps, cfg)
    requires Portfolio(p) == GrownPortfolio(PortfolioBefore(ps, |ps|), cfg.investmentReturnRate, Contributed(p, cfg))
    ensures PortfolioChain(ps + [p], cfg)
  {
    var qs := ps + [p];
    forall k | 0 <= k < |qs|
      ensures Portfolio(qs[k]) == GrownPortfolio(PortfolioBefore(qs, k), cfg.investmentReturnRate, Contributed(qs[k], cfg))
    {
      if k > 0 {
        assert qs[k - 1] == ps[k - 1];
      }
      assert PortfolioBefore(qs, k) == PortfolioBefore(ps, k);
      if k < |ps| {
        assert qs[k] == ps[k];
      }
    }
  }

  /** A UK year continues the chain: its point's portfolio is the state's before the year, grown by its contribution. */
  lemma UkStepGrows(p: FinancialDataPoint, i: nat, scenarioType: string, cfg: LegacyConfig, price: real,
                    loan0: real, loan1: real, portfolio0: real, portfolio1: real, home0: Home, home1: Home)
    requires UkYearPoint(p, i, scenarioType, cfg, price)
    requires UkStateStep(p, i, cfg, price, loan0, loan1, portfolio0, portfolio1, home0, home1)
    ensures Portfolio(p) == portfolio1
    ensures Portfolio(p) == GrownPortfolio(portfolio0, cfg.investmentReturnRate, Contributed(p, cfg))
  {
  }

  /** With a non-negative return and no year taking money out, the portfolio of a run never falls. */
  lemma {:induction false} ChainNeverFalls(ps: seq<FinancialDataPoint>, cfg: LegacyConfig, j: nat, k: nat)
    requires PortfolioChain(ps, cfg) && cfg.investmentReturnRate >= 0.0
    requires forall m :: 0 <= m < |ps| ==> Contributed(ps[m], cfg) >= 0.0
    requires j <= k < |ps|
    ensures 0.0 <= Portfolio(ps[j]) <= Portfolio(ps[k])
  {
    forall m | 0 < m < |ps|
      ensures Portfolio(ps[m - 1]) <= Portfolio(ps[m])
    {
      ChainStepNeverFalls(ps, cfg, m);
    }
    StepsNeverFall(ps, j, k);
    assert Portfolio(ps[j]) == GrownPortfolio(PortfolioBefore(ps, j), cfg.investmentReturnRate, Contributed(ps[j], cfg));
  }

  lemma ChainStepNeverFalls(ps: seq<FinancialDataPoint>, cfg: LegacyConfig, k: nat)
    requires PortfolioChain(ps, cfg) && cfg.investmentReturnRate >= 0.0
    requires 0 < k < |ps| && Contributed(ps[k], cfg) >= 0.0
    ensures Portfolio(ps[k - 1]) <= Portfolio(ps[k])
  {
    assert Portfolio(ps[k - 1]) == GrownPortfolio(PortfolioBefore(ps, k - 1), cfg.investmentReturnRate,
                                                  Contributed(ps[k - 1], cfg));
    assert PortfolioBefore(ps, k) == Portfolio(ps[k - 1]);
    PortfolioNeverShrinks(Portfolio(ps[k - 1]), cfg.investmentReturnRate, Contributed(ps[k], cfg));
  }

  lemma {:induction false} StepsNeverFall(ps: seq<FinancialDataPoint>, j: nat, k: nat)
    requires forall m :: 0 < m < |ps| ==> Portfolio(ps[m - 1]) <= Portfolio(ps[m])
    requires j <= k < |ps|
    ensures Portfolio(ps[j]) <= Portfolio(ps[k])
    decreases k - j
  {
    if j < k {
      StepsNeverFall(ps, j, k - 1);
    }
  }

  /**
   * One pass of `run_scenario_pydantic`'s year loop: the UK year with index `i` is computed from the state and its
   * point appended to the scenario, which keeps every point the described one and the portfolio chained; on an
   * error nothing is appended.
   */
  method AppendUkYear(i: nat, scenarioType: string, cfg: LegacyConfig, price: real, scenario: FinancialScenario,
                      state: ScenarioState)
    returns (r: Result<FinancialDataPoint, string>)
    requires |scenario.dataPoints| == i && UkPoints(scenario.dataPoints, scenarioType, cfg, price)
    requires PortfolioChain(scenario.dataPoints, cfg)
    requires state.cumulativeInvestments == PortfolioBefore(scenario.dataPoints, i)
    requires state.rsuGrants == GrantsFor(scenarioType, i)
    requires state.parentalHome == ParentalHomeAt(i, cfg, price)
    requires ParentalEquities(scenario.dataPoints, i, cfg, price)
    modifies scenario, state
    ensures r.Err? <==> UkYearFails(i + 1, scenarioType, cfg)
    ensures r.Err? ==> scenario.dataPoints == old(scenario.dataPoints)
    ensures r.Ok? ==> scenario.dataPoints == old(scenario.dataPoints) + [r.value]
    ensures r.Ok? ==> UkPoints(scenario.dataPoints, scenarioType, cfg, price)
    ensures r.Ok? ==> PortfolioChain(scenario.dataPoints, cfg)
    ensures r.Ok? ==> state.cumulativeInvestments == PortfolioBefore(scenario.dataPoints, i + 1)
    ensures r.Ok? ==> state.rsuGrants == GrantsFor(scenarioType, i + 1)
    ensures r.Ok? ==> state.parentalHome == ParentalHomeAt(i + 1, cfg, price)
    ensures r.Ok? ==> ParentalEquities(scenario.dataPoints, i + 1, cfg, price)
    ensures scenario.name == old(scenario.name)
  {
    ghost var loan0, portfolio0, home0 := state.studentLoanBalance, state.cumulativeInvestments, state.parentalHome;
    if i < cfg.parentalHome.targetYear + 1 {
      NoParentalHomeBeforeTarget(i, cfg, price);
    }
    r := UkYear(i, scenarioType, cfg, price, state);
    if r.Err? {
      return;
    }
    UkPointsAppend(scenario.dataPoints, r.value, scenarioType, cfg, price);
    UkStepGrows(r.value, i, scenarioType, cfg, price, loan0, state.studentLoanBalance, portfolio0,
                state.cumulativeInvestments, home0, state.parentalHome);
    UkStepFollowsHome(r.value, i, cfg, price, loan0, state.studentLoanBalance, portfolio0,
                      state.cumulativeInvestments, state.parentalHome);
    PortfolioChainAppend(scenario.dataPoints, r.value, cfg);
    ParentalEquitiesAppend(scenario.dataPoints, r.value, i + 1, cfg, price);
    scenario.AddDataPoint(r.value);
  }

  /**
   * `run_scenario_pydantic`: one UK point per plan year, in order, the portfolio carried from each year to the
   * next. The run raises exactly when some year does, which is when its last year does.
   */
  method RunScenario(scenarioType: string, cfg: LegacyConfig) returns (r: Result<FinancialScenario, string>)
    ensures r.Err? <==> YearCount(cfg) > 0 && UkYearFails(YearCount(cfg), scenarioType, cfg)
    ensures r.Ok? ==> r.value.name == "UK_Scenario_" + scenarioType && |r.value.dataPoints| == YearCount(cfg)
    ensures r.Ok? ==> forall i :: 0 <= i < |r.value.dataPoints| ==>
      UkYearPoint(r.value.dataPoints[i], i, scenarioType, cfg,
                  Compounded(cfg.parentalHome.basePrice, cfg.parentalHome.priceGrows))
    ensures r.Ok? ==> PortfolioChain(r.value.dataPoints, cfg)
    ensures r.Ok? ==> ParentalEquities(r.value.dataPoints, YearCount(cfg), cfg,
                                       Compounded(cfg.parentalHome.basePrice, cfg.parentalHome.priceGrows))
  {
    var scenario := new FinancialScenario("UK_Scenario_" + scenarioType);
    var state := new ScenarioState(cfg.studentLoanDebt);
    var price := ParentalHomePrice(cfg.parentalHome);
    var n := YearCount(cfg);
    var i := 0;
    while i < n
      invariant 0 <= i <= n
      invariant scenario.name == "UK_Scenario_" + scenarioType && |scenario.dataPoints| == i
      invariant UkPoints(scenario.dataPoints, scenarioType, cfg, price)
      invariant state.rsuGrants == GrantsFor(scenarioType, i)
      invariant state.parentalHome == ParentalHomeAt(i, cfg, price)
      invariant ParentalEquities(scenario.dataPoints, i, cfg, price)
      invariant i == 0 || !UkYearFails(i, scenarioType, cfg)
      invariant PortfolioChain(scenario.dataPoints, cfg)
      invariant state.cumulativeInvestments == PortfolioBefore(scenario.dataPoints, i)
    {
      var point := AppendUkYear(i, scenarioType, cfg, price, scenario, state);
      if point.Err? {
        UkYearFailsLater(i + 1, n, scenarioType, cfg);
        return Err(point.error);
      }
      i := i + 1;
    }
    r := Ok(scenario);
  }

  // -------------------------------------------------------- international years

  /** `salary_progression.get(k, salary_progression[10])`: the year-10 entry is read first, so it must exist. */
  function BaseSalary(loc: LocationConfig, k: int): (r: Result<real, string>)
    ensures r.Err? <==> 10 !in loc.salaryProgression
    ensures r.Ok? && k in loc.salaryProgression ==> r.value == loc.salaryProgression[k]
    ensures r.Ok? && k !in loc.salaryProgression ==> r.value == loc.salaryProgression[10]
  {
    if 10 !in loc.salaryProgression then Err("KeyError: salary_progression[10]")
    else if k in loc.salaryProgression then Ok(loc.salaryProgression[k])
    else Ok(loc.salaryProgression[10])
  }

  /** The tax of an international year: none under "tax_free", the US rules otherwise. */
  function IntlTax(gross: real, taxSystem: string): (t: real)
    ensures taxSystem == "tax_free" ==> t == 0.0
    ensures taxSystem != "tax_free" ==> t == UsTax.UsTax(gross, taxSystem)
  {
    if taxSystem == "tax_free" then 0.0 else UsTax.UsTax(gross, taxSystem)
  }

  /** `amount * rate`: a salary scaled by a multiplier, or the part of it paid as bonus or equity. */
  function Portion(amount: real, rate: real): real
  {
    amount * rate
  }

  /** The relocation line in USD: a positive GBP cost converted at the location's rate, any other amount as is. */
  function RelocationExpense(due: real, rate: real): (e: real)
    ensures due > 0.0 && rate != 0.0 ==> e / rate == due
    ensures due <= 0.0 ==> e == due
  {
    if due > 0.0 then Common.GbpToUsd(due, rate) else due
  }

  /** The home a housing strategy buys, if any. */
  function OwnedOption(strategy: string, options: HousingOptions): (o: Option<HomeOption>)
    ensures o.Some? <==> strategy == "uk_home" || strategy == "local_home"
  {
    if strategy == "uk_home" then Some(options.ukHome)
    else if strategy == "local_home" then Some(options.localHome)
    else None
  }

  /** The expense lines of an international year, with the relocation cost and the mortgage payment added. */
  function IntlExpenseMap(e: UkTax.LocationExpenses, relocation: real, mortgage: real): map<string, real>
  {
    map["rent" := e.rent, "healthcare" := e.healthcare, "retirement_contrib" := e.retirement,
        "general_expenses" := e.generalExpenses, "relocation_cost" := relocation, "mortgage_payment" := mortgage]
  }

  /** The comparison figures under their "gbp_" keys; no exchange rate is among them. */
  function GbpMap(c: Comparison): (m: map<string, real>)
    ensures "exchange_rate" !in m
    ensures ComparisonRate(m) == DefaultExchangeRate
  {
    map["gbp_net_worth" := c.netWorth, "gbp_gross_income" := c.grossIncome, "gbp_net_income" := c.netIncome,
        "gbp_total_expenses" := c.totalExpenses, "gbp_annual_savings" := c.annualSavings,
        "gbp_cumulative_portfolio" := c.cumulativeInvestments]
  }

  /**
   * An international year raises: no year-10 salary, no default inflation rate, a zero exchange rate, or, for a
   * strategy that buys, from the year after the purchase year a zero mortgage term or a later year with no home
   * recorded.
   */
  predicate IntlYearFails(planYear: int, loc: LocationConfig, strategy: string, cfg: LegacyConfig, recorded: bool)
  {
    10 !in loc.salaryProgression || cfg.inflationPath.default.None? || loc.exchangeRate == 0.0 ||
    HousingFails(planYear, loc.housingOptions, strategy, recorded)
  }

  /**
   * The housing step raises for a strategy that buys, from the year after the purchase year: on a zero mortgage
   * term, or in a later year with no home recorded.
   */
  predicate HousingFails(planYear: int, options: HousingOptions, strategy: string, recorded: bool)
  {
    var o := OwnedOption(strategy, options);
    o.Some? && planYear >= o.value.purchaseYear + 1 &&
    (o.value.mortgageTermYears == 0 || (planYear != o.value.purchaseYear + 1 && !recorded))
  }

  /**
   * What the housing step of an international year yields, from the strategy's home `h0` before the year: from the
   * year after the purchase year of a home the strategy buys, that home's year (`OwnedHomeYear`) succeeds, its
   * payment and the new home's equity are reported and the new home `h1` is recorded; otherwise nothing is paid,
   * there is no equity and the home is left as it was.
   */
  predicate OwnedHousing(planYear: int, options: HousingOptions, inflationRate: real, strategy: string,
                         h0: Option<Home>, payment: real, equity: real, h1: Option<Home>)
  {
    var o := OwnedOption(strategy, options);
    if o.Some? && planYear >= o.value.purchaseYear + 1 then
      var y := OwnedHomeYear(planYear, o.value, h0, inflationRate);
      y.Ok? && payment == y.value.0 && equity == y.value.1.equity && h1 == Some(y.value.1)
    else payment == 0.0 && equity == 0.0 && h1 == h0
  }

  /**
   * The housing step of an international year: the payment and equity of the strategy's home, nothing for a
   * strategy that buys none or before the year after its purchase.
   */
  method HousingYear(planYear: int, options: HousingOptions, inflationRate: real, strategy: string,
                     state: ScenarioState)
    returns (r: Result<(real, real), string>)
    modifies state
    ensures r.Err? <==> HousingFails(planYear, options, strategy, old(state.HomeFor(strategy)).Some?)
    ensures r.Ok? ==> OwnedHousing(planYear, options, inflationRate, strategy, old(state.HomeFor(strategy)),
                                   r.value.0, r.value.1, state.HomeFor(strategy))
    ensures strategy != "uk_home" ==> state.ukHome == old(state.ukHome)
    ensures strategy != "local_home" ==> state.localHome == old(state.localHome)
    ensures r.Ok? && old(state.ukHome).Some? ==> state.ukHome.Some?
    ensures r.Ok? && old(state.localHome).Some? ==> state.localHome.Some?
    ensures (r.Ok? && OwnedOption(strategy, options).Some? &&
             planYear >= OwnedOption(strategy, options).value.purchaseYear + 1) ==> state.HomeFor(strategy).Some?
    ensures state.cumulativeInvestments == old(state.cumulativeInvestments)
    ensures state.unvestedEquityValue == old(state.unvestedEquityValue) && state.rsuGrants == old(state.rsuGrants)
    ensures state.parentalHome == old(state.parentalHome) && state.studentLoanBalance == old(state.studentLoanBalance)
  {
    r := state.InternationalHousing(planYear, options, inflationRate, strategy);
  }

  /**
   * What the international year with index `i` reports, in USD: the base salary of `salaryYear` times the
   * multiplier, bonus and equity as rates of it, tax by the location's system, total expenses as the location's
   * lines plus relocation and mortgage, savings as net income less expenses, a non-negative portfolio, net worth
   * as portfolio, `unvested` and house equity, and the GBP comparison figures at the location's rate. A strategy
   * that buys nothing, or a year before the purchase, has no mortgage and no house equity.
   */
  predicate IntlYearPoint(p: FinancialDataPoint, i: nat, salaryYear: int, multiplier: real, rsuVests: bool,
                          due: real, unvested: real, loc: LocationConfig, strategy: string, cfg: LegacyConfig)
  {
    var planYear := i + 1;
    var year := cfg.startYear + i;
    10 in loc.salaryProgression && cfg.inflationPath.default.Some? && loc.exchangeRate != 0.0 &&
    var inf := Common.InflationMultiplier(year, cfg.inflationPath).value;
    var o := OwnedOption(strategy, loc.housingOptions);
    p.year == planYear && p.age == cfg.startAge + i && p.phase == International &&
    p.grossSalaryUsd == Portion(BaseSalary(loc, salaryYear).value, multiplier) &&
    p.grossBonusUsd == Portion(p.grossSalaryUsd, loc.bonusRate) &&
    p.vestedRsuUsd == (if rsuVests then Portion(p.grossSalaryUsd, loc.rsuRate) / 4.0 else 0.0) &&
    p.totalGrossUsd == p.grossSalaryUsd + p.grossBonusUsd + p.vestedRsuUsd &&
    p.incomeTaxUsd == IntlTax(p.totalGrossUsd, loc.taxSystem) &&
    p.netIncomeUsd == p.totalGrossUsd - p.incomeTaxUsd &&
    p.relocationCostUsd == RelocationExpense(due, loc.exchangeRate) &&
    p.totalExpensesUsd ==
      UkTax.LocationExpensesTotal(InternationalExpenses(loc.costs, loc.retirementContribution, inf, p.grossSalaryUsd))
      + p.relocationCostUsd + p.mortgagePaymentUsd &&
    p.annualSavingsUsd == p.netIncomeUsd - p.totalExpensesUsd &&
    p.investmentGrowthUsd == p.annualSavingsUsd &&
    p.cumulativePortfolioUsd >= 0.0 &&
    p.netWorthUsd == p.cumulativePortfolioUsd + unvested + p.houseEquityUsd &&
    ((o.None? || planYear < o.value.purchaseYear + 1) ==> p.mortgagePaymentUsd == 0.0 && p.houseEquityUsd == 0.0) &&
    Common.GbpToUsd(p.netWorthGbpEquiv, loc.exchangeRate) == p.netWorthUsd &&
    Common.GbpToUsd(p.cumulativePortfolioGbpEquiv, loc.exchangeRate) == p.cumulativePortfolioUsd
  }

  /** The amounts an international year computes make its data point the point `IntlYearPoint` describes. */
  lemma IntlFiguresMeetYear(i: nat, salaryYear: int, multiplier: real, rsuVests: bool, due: real, unvested: real,
                            loc: LocationConfig, strategy: string, cfg: LegacyConfig,
                            salary: real, bonus: real, rsuVested: real, gross: real, tax: real, net: real,
                            e: UkTax.LocationExpenses, relocation: real, mortgage: real, total: real, savings: real,
                            portfolio: real, equity: real, netWorth: real, gbp: Comparison)
    requires 10 in loc.salaryProgression && cfg.inflationPath.default.Some? && loc.exchangeRate != 0.0
    requires salary == Portion(BaseSalary(loc, salaryYear).value, multiplier) && bonus == Portion(salary, loc.bonusRate)
    requires rsuVested == (if rsuVests then Portion(salary, loc.rsuRate) / 4.0 else 0.0)
    requires gross == salary + bonus + rsuVested && tax == IntlTax(gross, loc.taxSystem) && net == gross - tax
    requires e == InternationalExpenses(loc.costs, loc.retirementContribution,
                                        Common.InflationMultiplier(cfg.startYear + i, cfg.inflationPath).value, salary)
    requires relocation == RelocationExpense(due, loc.exchangeRate)
    requires total == UkTax.LocationExpensesTotal(e) + relocation + mortgage && savings == net - total
    requires portfolio >= 0.0 && netWorth == portfolio + unvested + equity
    requires (OwnedOption(strategy, loc.housingOptions).None? ||
              i + 1 < OwnedOption(strategy, loc.housingOptions).value.purchaseYear + 1) ==>
             mortgage == 0.0 && equity == 0.0
    requires gbp == ConvertToGbp(Comparison(netWorth, gross, net, total, savings, portfolio), loc.exchangeRate)
    ensures IntlYearPoint(
      IntlDataPoint(i + 1, cfg.startAge + i,
                    IntlFigures(salary, bonus, rsuVested, gross, net, total, savings, portfolio, netWorth, equity, tax,
                                savings),
                    IntlExpenseMap(e, relocation, mortgage), GbpMap(gbp)),
      i, salaryYear, multiplier, rsuVests, due, unvested, loc, strategy, cfg)
  {
  }

  /**
   * The arithmetic of an international year, once its lookups have succeeded: income, tax, expenses, savings,
   * the grown portfolio and the GBP comparison, assembled into the year's point.
   */
  method IntlPoint(i: nat, salaryYear: int, multiplier: real, rsuVests: bool, due: real, unvested: real,
                   loc: LocationConfig, strategy: string, cfg: LegacyConfig, portfolio: real, housing: (real, real))
    returns (p: FinancialDataPoint, newPortfolio: real)
    requires 10 in loc.salaryProgression && cfg.inflationPath.default.Some? && loc.exchangeRate != 0.0
    requires (OwnedOption(strategy, loc.housingOptions).None? ||
              i + 1 < OwnedOption(strategy, loc.housingOptions).value.purchaseYear + 1) ==> housing == (0.0, 0.0)
    ensures IntlYearPoint(p, i, salaryYear, multiplier, rsuVests, due, unvested, loc, strategy, cfg)
    ensures p.mortgagePaymentUsd == housing.0 && p.houseEquityUsd == housing.1
    ensures newPortfolio == p.cumulativePortfolioUsd
    ensures newPortfolio == GrownPortfolio(portfolio, cfg.investmentReturnRate, p.annualSavingsUsd)
  {
    var salary := Portion(BaseSalary(loc, salaryYear).value, multiplier);
    var bonus := Portion(salary, loc.bonusRate);
    var rsuVested := if rsuVests then Portion(salary, loc.rsuRate) / 4.0 else 0.0;
    var gross := salary + bonus + rsuVested;
    var tax := IntlTax(gross, loc.taxSystem);
    var net := gross - tax;
    var inf := Common.InflationMultiplier(cfg.startYear + i, cfg.inflationPath).value;
    var expenses := InternationalExpenses(loc.costs, loc.retirementContribution, inf, salary);
    var relocation := RelocationExpense(due, loc.exchangeRate);
    var total := UkTax.LocationExpensesTotal(expenses) + relocation + housing.0;
    var savings := net - total;
    newPortfolio := GrownPortfolio(portfolio, cfg.investmentReturnRate, savings);
    var netWorth := newPortfolio + unvested + housing.1;
    var gbp := ConvertToGbp(Comparison(netWorth, gross, net, total, savings, newPortfolio), loc.exchangeRate);
    IntlFiguresMeetYear(i, salaryYear, multiplier, rsuVests, due, unvested, loc, strategy, cfg, salary, bonus,
                        rsuVested, gross, tax, net, expenses, relocation, housing.0, total, savings, newPortfolio,
                        housing.1, netWorth, gbp);
    p := IntlDataPoint(i + 1, cfg.startAge + i,
                       IntlFigures(salary, bonus, rsuVested, gross, net, total, savings, newPortfolio, netWorth,
                                   housing.1, tax, savings),
                       IntlExpenseMap(expenses, relocation, housing.0), GbpMap(gbp));
  }

  /**
   * How the international year with index `i` and point `p` moves the portfolio and the strategy's home from their
   * values before the year (`portfolio0`, `home0`) to those after it: the portfolio grows by the return and takes
   * the year's savings, floored at zero, and the housing step runs at the year's inflation rate. The point reports
   * the new portfolio, the housing payment and the house equity.
   */
  predicate IntlStateStep(p: FinancialDataPoint, i: nat, loc: LocationConfig, strategy: string, cfg: LegacyConfig,
                          portfolio0: real, portfolio1: real, home0: Option<Home>, home1: Option<Home>)
  {
    cfg.inflationPath.default.Some? &&
    portfolio1 == GrownPortfolio(portfolio0, cfg.investmentReturnRate, p.annualSavingsUsd) &&
    p.cumulativePortfolioUsd == portfolio1 &&
    OwnedHousing(i + 1, loc.housingOptions,
                 Common.InflationMultiplier(cfg.startYear + i, cfg.inflationPath).value - 1.0, strategy, home0,
                 p.mortgagePaymentUsd, p.houseEquityUsd, home1)
  }

  /**
   * One international year, shared by `run_international_scenario_pydantic` and the international phase of the
   * delayed run: salary from the progression, equity, tax, expenses, housing, the relocation line, portfolio
   * growth, the GBP comparison and the year's data point. The unvested equity is carried, never updated.
   */
  method IntlYear(i: nat, salaryYear: int, multiplier: real, rsuVests: bool, due: real,
                  loc: LocationConfig, strategy: string, cfg: LegacyConfig, state: ScenarioState)
    returns (r: Result<FinancialDataPoint, string>)
    modifies state
    ensures r.Err? <==> IntlYearFails(i + 1, loc, strategy, cfg, old(state.HomeFor(strategy)).Some?)
    ensures r.Ok? ==>
      IntlYearPoint(r.value, i, salaryYear, multiplier, rsuVests, due, old(state.unvestedEquityValue), loc, strategy, cfg)
    ensures r.Ok? ==> IntlStateStep(r.value, i, loc, strategy, cfg, old(state.cumulativeInvestments),
                                    state.cumulativeInvestments, old(state.HomeFor(strategy)), state.HomeFor(strategy))
    ensures strategy != "uk_home" ==> state.ukHome == old(state.ukHome)
    ensures strategy != "local_home" ==> state.localHome == old(state.localHome)
    ensures r.Ok? && old(state.ukHome).Some? ==> state.ukHome.Some?
    ensures r.Ok? && old(state.localHome).Some? ==> state.localHome.Some?
    ensures (r.Ok? && OwnedOption(strategy, loc.housingOptions).Some? &&
             i + 1 >= OwnedOption(strategy, loc.housingOptions).value.purchaseYear + 1) ==> state.HomeFor(strategy).Some?
    ensures state.unvestedEquityValue == old(state.unvestedEquityValue) && state.rsuGrants == old(state.rsuGrants)
    ensures state.parentalHome == old(state.parentalHome) && state.studentLoanBalance == old(state.studentLoanBalance)
  {
    var planYear := i + 1;
    var year := cfg.startYear + i;
    var base := BaseSalary(loc, salaryYear);
    if base.Err? {
      return Err(base.error);
    }
    var inf := Common.InflationMultiplier(year, cfg.inflationPath);
    if inf.Err? {
      return Err(inf.error);
    }
    ghost var home0 := state.HomeFor(strategy);
    var housing := HousingYear(planYear, loc.housingOptions, inf.value - 1.0, strategy, state);
    if housing.Err? {
      return Err(housing.error);
    }
    if loc.exchangeRate == 0.0 {
      return Err("ZeroDivisionError: exchange_rate");
    }
    ghost var home1 := state.HomeFor(strategy);
    var point;
    point, state.cumulativeInvestments := IntlPoint(i, salaryYear, multiplier, rsuVests, due,
                                                    state.unvestedEquityValue, loc, strategy, cfg,
                                                    state.cumulativeInvestments, housing.value);
    assert state.HomeFor(strategy) == home1;
    r := Ok(point);
  }

  /** A year abroad continues the chain: its point's portfolio is the state's before the year, grown by its savings. */
  lemma IntlStepGrows(p: FinancialDataPoint, i: nat, loc: LocationConfig, strategy: string, cfg: LegacyConfig,
                      portfolio0: real, portfolio1: real, home0: Option<Home>, home1: Option<Home>)
    requires p.phase == International
    requires IntlStateStep(p, i, loc, strategy, cfg, portfolio0, portfolio1, home0, home1)
    ensures Portfolio(p) == portfolio1
    ensures Portfolio(p) == GrownPortfolio(portfolio0, cfg.investmentReturnRate, Contributed(p, cfg))
  {
  }

  // --------------------------------------------------------- a bought home over a run

  /**
   * The strategy's home after the housing step of plan year `planYear` from `h0`: the home `OwnedHousing` records
   * from the year after the purchase year of a home the strategy buys, `h0` otherwise (or when the step raises).
   */
  function OwnedStep(planYear: int, options: HousingOptions, inflationRate: real, strategy: string,
                     h0: Option<Home>): Option<Home>
  {
    var o := OwnedOption(strategy, options);
    if o.Some? && planYear >= o.value.purchaseYear + 1 && OwnedHomeYear(planYear, o.value, h0, inflationRate).Ok? then
      Some(OwnedHomeYear(planYear, o.value, h0, inflationRate).value.1)
    else h0
  }

  /**
   * The strategy's home after the first `n` plan years of a run that starts from `h0`: the first `from` years leave
   * it alone (the UK years of a delayed plan), and every later year takes the housing step at its inflation rate.
   */
  function OwnedHomeAt(n: nat, from: int, loc: LocationConfig, strategy: string, cfg: LegacyConfig,
                       h0: Option<Home>): Option<Home>
  {
    if n == 0 then h0
    else
      var prev := OwnedHomeAt(n - 1, from, loc, strategy, cfg, h0);
      if n <= from || cfg.inflationPath.default.None? then prev
      else
        OwnedStep(n, loc.housingOptions, Common.InflationMultiplier(cfg.startYear + n - 1, cfg.inflationPath).value - 1.0,
                  strategy, prev)
  }

  /**
   * The point of the year with index `k` reports the housing step taken from the home after `k` years to the home
   * after `k + 1` years: from the year after the purchase, that home's payment and equity; before it, or for a
   * strategy that buys nothing, no payment and no equity.
   */
  predicate OwnedHousingAt(p: FinancialDataPoint, k: nat, from: int, loc: LocationConfig, strategy: string,
                           cfg: LegacyConfig, h0: Option<Home>)
  {
    cfg.inflationPath.default.Some? &&
    OwnedHousing(k + 1, loc.housingOptions,
                 Common.InflationMultiplier(cfg.startYear + k, cfg.inflationPath).value - 1.0, strategy,
                 OwnedHomeAt(k, from, loc, strategy, cfg, h0), p.mortgagePaymentUsd, p.houseEquityUsd,
                 OwnedHomeAt(k + 1, from, loc, strategy, cfg, h0))
  }

  /** Every point of `ps` from index `from` on reports its year's housing step. */
  predicate OwnedHousings(ps: seq<FinancialDataPoint>, from: int, loc: LocationConfig, strategy: string,
                          cfg: LegacyConfig, h0: Option<Home>)
  {
    forall k :: 0 <= k < |ps| && from <= k ==> OwnedHousingAt(ps[k], k, from, loc, strategy, cfg, h0)
  }

  lemma OwnedHousingsAppend(ps: seq<FinancialDataPoint>, p: FinancialDataPoint, from: int, loc: LocationConfig,
                            strategy: string, cfg: LegacyConfig, h0: Option<Home>)
    requires OwnedHousings(ps, from, loc, strategy, cfg, h0)
    requires from <= |ps| ==> OwnedHousingAt(p, |ps|, from, loc, strategy, cfg, h0)
    ensures OwnedHousings(ps + [p], from, loc, strategy, cfg, h0)
  {
    assert forall k :: 0 <= k < |ps| ==> (ps + [p])[k] == ps[k];
  }

  /**
   * A year abroad that starts from the home after `i` years (for a strategy that buys one) leaves the home after
   * `i + 1` years and reports that year's housing step.
   */
  lemma IntlStepFollowsHome(p: FinancialDataPoint, i: nat, from: int, loc: LocationConfig, strategy: string,
                            cfg: LegacyConfig, h0: Option<Home>, portfolio0: real, portfolio1: real,
                            home0: Option<Home>, home1: Option<Home>)
    requires from <= i
    requires IntlStateStep(p, i, loc, strategy, cfg, portfolio0, portfolio1, home0, home1)
    requires OwnedOption(strategy, loc.housingOptions).Some? ==> home0 == OwnedHomeAt(i, from, loc, strategy, cfg, h0)
    ensures OwnedOption(strategy, loc.housingOptions).Some? ==> home1 == OwnedHomeAt(i + 1, from, loc, strategy, cfg, h0)
    ensures OwnedHousingAt(p, i, from, loc, strategy, cfg, h0)
  {
  }

  /** The relocation cost of the international run: charged only for Seattle, New York and Dubai. */
  function RelocationDue(location: string, loc: LocationConfig): (c: real)
    ensures location == "seattle" || location == "new_york" || location == "dubai" ==> c == loc.relocationCost
    ensures location != "seattle" && location != "new_york" && location != "dubai" ==> c == 0.0
  {
    if location in ["seattle", "new_york", "dubai"] then loc.relocationCost else 0.0
  }

  /**
   * An international run of `n` years raises: a missing year-10 salary, inflation default or exchange rate, or a
   * home bought from year `n` or earlier with a zero term or a purchase before the plan starts, whose first owned
   * year then finds no home recorded.
   */
  predicate IntlRunFails(n: int, loc: LocationConfig, strategy: string, cfg: LegacyConfig)
  {
    10 !in loc.salaryProgression || cfg.inflationPath.default.None? || loc.exchangeRate == 0.0 ||
    (var o := OwnedOption(strategy, loc.housingOptions);
     o.Some? && n >= o.value.purchaseYear + 1 && (o.value.mortgageTermYears == 0 || o.value.purchaseYear + 1 < 1))
  }

  /** Every point of `ps` is the international point of its year, the relocation cost charged in the first. */
  predicate IntlPoints(ps: seq<FinancialDataPoint>, relocationCost: real, loc: LocationConfig, strategy: string, cfg: LegacyConfig)
  {
    forall k :: 0 <= k < |ps| ==>
      IntlYearPoint(ps[k], k, k + 1, 1.0, k + 1 >= 3, if k == 0 then relocationCost else 0.0, 0.0, loc, strategy, cfg)
  }

  lemma IntlPointsAppend(ps: seq<FinancialDataPoint>, p: FinancialDataPoint, relocationCost: real, loc: LocationConfig,
                         strategy: string, cfg: LegacyConfig)
    requires IntlPoints(ps, relocationCost, loc, strategy, cfg)
    requires IntlYearPoint(p, |ps|, |ps| + 1, 1.0, |ps| + 1 >= 3, if |ps| == 0 then relocationCost else 0.0, 0.0, loc, strategy, cfg)
    ensures IntlPoints(ps + [p], relocationCost, loc, strategy, cfg)
  {
    assert forall k :: 0 <= k < |ps| ==> (ps + [p])[k] == ps[k];
  }

  /**
   * One pass of `run_international_scenario_pydantic`'s year loop: the international year with index `i` is
   * computed from the state and its point appended to the scenario, which keeps every point the described one and
   * the portfolio chained; on an error nothing is appended.
   */
  method AppendIntlYear(i: nat, relocationCost: real, loc: LocationConfig, strategy: string, cfg: LegacyConfig,
                        scenario: FinancialScenario, state: ScenarioState)
    returns (r: Result<FinancialDataPoint, string>)
    requires |scenario.dataPoints| == i && IntlPoints(scenario.dataPoints, relocationCost, loc, strategy, cfg)
    requires PortfolioChain(scenario.dataPoints, cfg)
    requires state.cumulativeInvestments == PortfolioBefore(scenario.dataPoints, i)
    requires state.unvestedEquityValue == 0.0
    requires OwnedOption(strategy, loc.housingOptions).Some? ==>
      state.HomeFor(strategy) == OwnedHomeAt(i, 0, loc, strategy, cfg, None)
    requires OwnedHousings(scenario.dataPoints, 0, loc, strategy, cfg, None)
    modifies scenario, state
    ensures r.Err? <==> IntlYearFails(i + 1, loc, strategy, cfg, old(state.HomeFor(strategy)).Some?)
    ensures r.Err? ==> scenario.dataPoints == old(scenario.dataPoints)
    ensures r.Ok? ==> scenario.dataPoints == old(scenario.dataPoints) + [r.value]
    ensures r.Ok? ==> IntlPoints(scenario.dataPoints, relocationCost, loc, strategy, cfg)
    ensures r.Ok? ==> PortfolioChain(scenario.dataPoints, cfg)
    ensures r.Ok? ==> state.cumulativeInvestments == PortfolioBefore(scenario.dataPoints, i + 1)
    ensures r.Ok? && OwnedOption(strategy, loc.housingOptions).Some? ==>
      state.HomeFor(strategy) == OwnedHomeAt(i + 1, 0, loc, strategy, cfg, None)
    ensures r.Ok? ==> OwnedHousings(scenario.dataPoints, 0, loc, strategy, cfg, None)
    ensures state.unvestedEquityValue == 0.0
    ensures (r.Ok? && OwnedOption(strategy, loc.housingOptions).Some? &&
             i + 1 >= OwnedOption(strategy, loc.housingOptions).value.purchaseYear + 1) ==> state.HomeFor(strategy).Some?
    ensures scenario.name == old(scenario.name)
  {
    ghost var portfolio0, home0 := state.cumulativeInvestments, state.HomeFor(strategy);
    r := IntlYear(i, i + 1, 1.0, i + 1 >= 3, if i == 0 then relocationCost else 0.0, loc, strategy, cfg, state);
    if r.Err? {
      return;
    }
    IntlPointsAppend(scenario.dataPoints, r.value, relocationCost, loc, strategy, cfg);
    IntlStepGrows(r.value, i, loc, strategy, cfg, portfolio0, state.cumulativeInvestments, home0,
                  state.HomeFor(strategy));
    IntlStepFollowsHome(r.value, i, 0, loc, strategy, cfg, None, portfolio0, state.cumulativeInvestments, home0,
                        state.HomeFor(strategy));
    PortfolioChainAppend(scenario.dataPoints, r.value, cfg);
    OwnedHousingsAppend(scenario.dataPoints, r.value, 0, loc, strategy, cfg, None);
    scenario.AddDataPoint(r.value);
  }

  /**
   * `run_international_scenario_pydantic`: one international point per plan year, in order, with the salary of
   * that plan year, equity from year 3, the relocation cost in year 1 only and no unvested equity.
   */
  method RunInternationalScenario(location: string, cfg: LegacyConfig, strategy: string)
    returns (r: Result<FinancialScenario, string>)
    ensures r.Err? <==> (location !in cfg.international ||
      (YearCount(cfg) > 0 && IntlRunFails(YearCount(cfg), cfg.international[location], strategy, cfg)))
    ensures r.Ok? ==> r.value.name == Title(location) + "_International" && |r.value.dataPoints| == YearCount(cfg)
    ensures r.Ok? ==> forall i :: 0 <= i < |r.value.dataPoints| ==>
      IntlYearPoint(r.value.dataPoints[i], i, i + 1, 1.0, i + 1 >= 3,
                    if i == 0 then RelocationDue(location, cfg.international[location]) else 0.0, 0.0,
                    cfg.international[location], strategy, cfg)
    ensures r.Ok? ==> PortfolioChain(r.value.dataPoints, cfg)
    ensures r.Ok? ==> OwnedHousings(r.value.dataPoints, 0, cfg.international[location], strategy, cfg, None)
  {
    var scenario := new FinancialScenario(Title(location) + "_International");
    if location !in cfg.international {
      return Err("KeyError: international_scenarios");
    }
    var loc := cfg.international[location];
    var state := new ScenarioState.International();
    var relocationCost := RelocationDue(location, loc);
    var o := OwnedOption(strategy, loc.housingOptions);
    var n := YearCount(cfg);
    var i := 0;
    while i < n
      invariant 0 <= i <= n
      invariant scenario.name == Title(location) + "_International" && |scenario.dataPoints| == i
      invariant IntlPoints(scenario.dataPoints, relocationCost, loc, strategy, cfg)
      invariant state.unvestedEquityValue == 0.0
      invariant i == 0 ==> state.HomeFor(strategy).None?
      invariant o.Some? && i >= 1 && i >= o.value.purchaseYear + 1 ==> state.HomeFor(strategy).Some?
      invariant o.Some? ==> state.HomeFor(strategy) == OwnedHomeAt(i, 0, loc, strategy, cfg, None)
      invariant OwnedHousings(scenario.dataPoints, 0, loc, strategy, cfg, None)
      invariant i >= 1 ==> !IntlRunFails(i, loc, strategy, cfg)
      invariant PortfolioChain(scenario.dataPoints, cfg)
      invariant state.cumulativeInvestments == PortfolioBefore(scenario.dataPoints, i)
    {
      var point := AppendIntlYear(i, relocationCost, loc, strategy, cfg, scenario, state);
      if point.Err? {
        return Err(point.error);
      }
      i := i + 1;
    }
    r := Ok(scenario);
  }

  // ---------------------------------------------------------- delayed relocation

  /** The unvested equity a delayed plan carries abroad: scenario B's at the last UK year, none without one. */
  function CarriedUnvested(ukYears: int): real
  {
    if ukYears >= 1 then UkRsu("B", ukYears).1 else 0.0
  }

  /**
   * A year of a delayed plan raises: a UK year as scenario B's would; an international year as the international
   * run's would with a home always recorded, since the UK state starts with one.
   */
  predicate DelayedYearFails(planYear: int, d: DelayedConfig, loc: LocationConfig, cfg: LegacyConfig)
  {
    if planYear <= d.ukYears then UkYearFails(planYear, "B", cfg)
    else IntlYearFails(planYear, loc, d.housingStrategy, cfg, true)
  }

  /**
   * What the delayed plan's year with index `i` reports: up to the UK years a scenario B UK point; after them an
   * international point whose salary is the progression entry of the international year times the multiplier,
   * with equity every year, the relocation cost in the first international year only, and the UK unvested equity
   * carried unchanged.
   */
  predicate DelayedYearPoint(p: FinancialDataPoint, i: nat, d: DelayedConfig, loc: LocationConfig, cfg: LegacyConfig,
                             price: real)
  {
    if i + 1 <= d.ukYears then UkYearPoint(p, i, "B", cfg, price)
    else
      var intPlanYear := i + 1 - d.ukYears;
      IntlYearPoint(p, i, intPlanYear, d.salaryMultiplier, intPlanYear >= 1,
                    if intPlanYear == 1 then loc.relocationCost else 0.0, CarriedUnvested(d.ukYears),
                    loc, d.housingStrategy, cfg)
  }

  /** One year of `run_delayed_relocation_scenario_pydantic`, in the UK or abroad. */
  method DelayedYear(i: nat, d: DelayedConfig, loc: LocationConfig, cfg: LegacyConfig, price: real,
                     state: ScenarioState)
    returns (r: Result<FinancialDataPoint, string>)
    requires i + 1 <= d.ukYears ==> state.rsuGrants == GrantsFor("B", i)
    requires i + 1 <= d.ukYears && i < cfg.parentalHome.targetYear + 1 ==> state.parentalHome == NoHome
    requires d.ukYears <= i ==> state.unvestedEquityValue == CarriedUnvested(d.ukYears)
    requires state.ukHome.Some? && state.localHome.Some?
    modifies state
    ensures r.Err? <==> DelayedYearFails(i + 1, d, loc, cfg)
    ensures r.Ok? ==> DelayedYearPoint(r.value, i, d, loc, cfg, price)
    ensures r.Ok? && i + 2 <= d.ukYears ==> state.rsuGrants == GrantsFor("B", i + 1)
    ensures r.Ok? && i + 2 <= d.ukYears && i + 1 < cfg.parentalHome.targetYear + 1 ==> state.parentalHome == NoHome
    ensures r.Ok? && d.ukYears <= i + 1 ==> state.unvestedEquityValue == CarriedUnvested(d.ukYears)
    ensures r.Ok? ==> state.ukHome.Some? && state.localHome.Some?
    ensures r.Ok? && i + 1 <= d.ukYears ==>
      UkStateStep(r.value, i, cfg, price, old(state.studentLoanBalance), state.studentLoanBalance,
                  old(state.cumulativeInvestments), state.cumulativeInvestments,
                  old(state.parentalHome), state.parentalHome)
    ensures r.Ok? && d.ukYears < i + 1 ==>
      IntlStateStep(r.value, i, loc, d.housingStrategy, cfg, old(state.cumulativeInvestments),
                    state.cumulativeInvestments, old(state.HomeFor(d.housingStrategy)), state.HomeFor(d.housingStrategy))
    ensures d.ukYears < i + 1 ==>
      state.studentLoanBalance == old(state.studentLoanBalance) && state.parentalHome == old(state.parentalHome)
    ensures i + 1 <= d.ukYears ==> state.ukHome == old(state.ukHome) && state.localHome == old(state.localHome)
  {
    if i + 1 <= d.ukYears {
      r := UkYear(i, "B", cfg, price, state);
    } else {
      var intPlanYear := i + 1 - d.ukYears;
      assert state.HomeFor(d.housingStrategy).Some? || OwnedOption(d.housingStrategy, loc.housingOptions).None?;
      r := IntlYear(i, intPlanYear, d.salaryMultiplier, intPlanYear >= 1,
                    if intPlanYear == 1 then loc.relocationCost else 0.0, loc, d.housingStrategy, cfg, state);
    }
  }

  /** Every point of `ps` is the delayed plan's point of its year. */
  predicate DelayedPoints(ps: seq<FinancialDataPoint>, d: DelayedConfig, loc: LocationConfig, cfg: LegacyConfig, price: real)
  {
    forall k :: 0 <= k < |ps| ==> DelayedYearPoint(ps[k], k, d, loc, cfg, price)
  }

  lemma DelayedPointsAppend(ps: seq<FinancialDataPoint>, p: FinancialDataPoint, d: DelayedConfig, loc: LocationConfig,
                            cfg: LegacyConfig, price: real)
    requires DelayedPoints(ps, d, loc, cfg, price) && DelayedYearPoint(p, |ps|, d, loc, cfg, price)
    ensures DelayedPoints(ps + [p], d, loc, cfg, price)
  {
    assert forall k :: 0 <= k < |ps| ==> (ps + [p])[k] == ps[k];
  }

  /**
   * The move abroad does not convert the portfolio: the first international year grows the last UK year's GBP
   * value at the return rate and adds its USD savings to it.
   */
  lemma PortfolioCarriedUnconverted(ps: seq<FinancialDataPoint>, d: DelayedConfig, loc: LocationConfig,
                                    cfg: LegacyConfig, price: real)
    requires DelayedPoints(ps, d, loc, cfg, price) && PortfolioChain(ps, cfg)
    requires 1 <= d.ukYears < |ps|
    ensures ps[d.ukYears].cumulativePortfolioUsd ==
      GrownPortfolio(ps[d.ukYears - 1].cumulativePortfolioGbp, cfg.investmentReturnRate, ps[d.ukYears].annualSavingsUsd)
  {
    var k := d.ukYears;
    assert DelayedYearPoint(ps[k - 1], k - 1, d, loc, cfg, price) && DelayedYearPoint(ps[k], k, d, loc, cfg, price);
    assert PortfolioBefore(ps, k) == ps[k - 1].cumulativePortfolioGbp;
  }

  /**
   * What holds after the first `i` years of `run_delayed_relocation_scenario_pydantic`'s loop: the points so far
   * are the described ones, chained by the portfolio, with the parental home's equity in the UK years and the
   * bought home's housing figures in the years abroad; the state carries the portfolio, the grants and the
   * parental home of the UK years, the unvested equity carried abroad, and the bought home so far.
   */
  predicate DelayedRunState(i: nat, d: DelayedConfig, loc: LocationConfig, cfg: LegacyConfig, price: real,
                            ps: seq<FinancialDataPoint>, state: ScenarioState)
    reads state
  {
    && DelayedRunValues(i, d, loc, cfg, price, ps, state.cumulativeInvestments, state.rsuGrants, state.parentalHome,
                        state.unvestedEquityValue, state.HomeFor(d.housingStrategy))
    && state.ukHome.Some? && state.localHome.Some?
  }

  /** `DelayedRunState` on the values the state holds: the portfolio, grants, parental home, unvested equity and bought home. */
  predicate DelayedRunValues(i: nat, d: DelayedConfig, loc: LocationConfig, cfg: LegacyConfig, price: real,
                             ps: seq<FinancialDataPoint>, portfolio: real, grants: seq<RsuGrant>, parental: Home,
                             unvested: real, owned: Option<Home>)
  {
    && |ps| == i
    && DelayedPoints(ps, d, loc, cfg, price)
    && PortfolioChain(ps, cfg)
    && ParentalEquities(ps, d.ukYears, cfg, price)
    && OwnedHousings(ps, d.ukYears, loc, d.housingStrategy, cfg, Some(NoHome))
    && portfolio == PortfolioBefore(ps, i)
    && (i + 1 <= d.ukYears ==> grants == GrantsFor("B", i))
    && (i <= d.ukYears ==> parental == ParentalHomeAt(i, cfg, price))
    && (d.ukYears <= i ==> unvested == CarriedUnvested(d.ukYears))
    && (OwnedOption(d.housingStrategy, loc.housingOptions).Some? ==>
          owned == OwnedHomeAt(i, d.ukYears, loc, d.housingStrategy, cfg, Some(NoHome)))
  }

  /** The delayed run starts from no points and the initial state: nothing invested, no grants, no homes yet. */
  lemma DelayedRunStart(d: DelayedConfig, loc: LocationConfig, cfg: LegacyConfig, price: real, owned: Option<Home>)
    requires OwnedOption(d.housingStrategy, loc.housingOptions).Some? ==> owned == Some(NoHome)
    ensures DelayedRunValues(0, d, loc, cfg, price, [], 0.0, [], NoHome, 0.0, owned)
  {
  }

  /**
   * A year of the delayed run keeps `DelayedRunValues`: the year's point and its step of the UK or the
   * international state, appended to the points so far, give the values after the year.
   */
  lemma DelayedRunStep(i: nat, d: DelayedConfig, loc: LocationConfig, cfg: LegacyConfig, price: real,
                       ps: seq<FinancialDataPoint>, p: FinancialDataPoint, loan0: real, loan1: real,
                       portfolio0: real, portfolio1: real, grants0: seq<RsuGrant>, grants1: seq<RsuGrant>,
                       parental0: Home, parental1: Home, unvested0: real, unvested1: real,
                       owned0: Option<Home>, owned1: Option<Home>)
    requires DelayedRunValues(i, d, loc, cfg, price, ps, portfolio0, grants0, parental0, unvested0, owned0)
    requires DelayedYearPoint(p, i, d, loc, cfg, price)
    requires i + 2 <= d.ukYears ==> grants1 == GrantsFor("B", i + 1)
    requires d.ukYears <= i + 1 ==> unvested1 == CarriedUnvested(d.ukYears)
    requires i + 1 <= d.ukYears ==>
      UkStateStep(p, i, cfg, price, loan0, loan1, portfolio0, portfolio1, parental0, parental1) && owned1 == owned0
    requires d.ukYears < i + 1 ==>
      IntlStateStep(p, i, loc, d.housingStrategy, cfg, portfolio0, portfolio1, owned0, owned1) && parental1 == parental0
    ensures DelayedRunValues(i + 1, d, loc, cfg, price, ps + [p], portfolio1, grants1, parental1, unvested1, owned1)
  {
    DelayedPointsAppend(ps, p, d, loc, cfg, price);
    if i + 1 <= d.ukYears {
      if i < cfg.parentalHome.targetYear + 1 {
        NoParentalHomeBeforeTarget(i, cfg, price);
      }
      UkStepGrows(p, i, "B", cfg, price, loan0, loan1, portfolio0, portfolio1, parental0, parental1);
      UkStepFollowsHome(p, i, cfg, price, loan0, loan1, portfolio0, portfolio1, parental1);
      assert OwnedHomeAt(i + 1, d.ukYears, loc, d.housingStrategy, cfg, Some(NoHome)) ==
             OwnedHomeAt(i, d.ukYears, loc, d.housingStrategy, cfg, Some(NoHome));
    } else {
      IntlStepGrows(p, i, loc, d.housingStrategy, cfg, portfolio0, portfolio1, owned0, owned1);
      IntlStepFollowsHome(p, i, d.ukYears, loc, d.housingStrategy, cfg, Some(NoHome), portfolio0, portfolio1,
                          owned0, owned1);
    }
    PortfolioChainAppend(ps, p, cfg);
    ParentalEquitiesAppend(ps, p, d.ukYears, cfg, price);
    OwnedHousingsAppend(ps, p, d.ukYears, loc, d.housingStrategy, cfg, Some(NoHome));
  }

  /**
   * One pass of `run_delayed_relocation_scenario_pydantic`'s year loop: the plan's year with index `i` is computed
   * from the state and its point appended to the scenario, which keeps every point the described one and the
   * portfolio chained across the move abroad; on an error nothing is appended.
   */
  method AppendDelayedYear(i: nat, d: DelayedConfig, loc: LocationConfig, cfg: LegacyConfig, price: real,
                           scenario: FinancialScenario, state: ScenarioState)
    returns (r: Result<FinancialDataPoint, string>)
    requires DelayedRunState(i, d, loc, cfg, price, scenario.dataPoints, state)
    modifies scenario, state
    ensures r.Err? <==> DelayedYearFails(i + 1, d, loc, cfg)
    ensures r.Err? ==> scenario.dataPoints == old(scenario.dataPoints)
    ensures r.Ok? ==> scenario.dataPoints == old(scenario.dataPoints) + [r.value]
    ensures r.Ok? ==> DelayedRunState(i + 1, d, loc, cfg, price, scenario.dataPoints, state)
    ensures scenario.name == old(scenario.name)
  {
    ghost var loan0, portfolio0, grants0 := state.studentLoanBalance, state.cumulativeInvestments, state.rsuGrants;
    ghost var home0, unvested0, owned0 := state.parentalHome, state.unvestedEquityValue, state.HomeFor(d.housingStrategy);
    if i + 1 <= d.ukYears && i < cfg.parentalHome.targetYear + 1 {
      NoParentalHomeBeforeTarget(i, cfg, price);
    }
    r := DelayedYear(i, d, loc, cfg, price, state);
    if r.Err? {
      return;
    }
    DelayedRunStep(i, d, loc, cfg, price, scenario.dataPoints, r.value, loan0, state.studentLoanBalance,
                   portfolio0, state.cumulativeInvestments, grants0, state.rsuGrants, home0, state.parentalHome,
                   unvested0, state.unvestedEquityValue, owned0, state.HomeFor(d.housingStrategy));
    scenario.AddDataPoint(r.value);
  }

  /**
   * `run_delayed_relocation_scenario_pydantic`: the plan's UK years as scenario B, then the international years,
   * one point per plan year in order. The run raises exactly when the plan or its location is missing or some
   * year raises.
   */
  method RunDelayedRelocationScenario(name: string, cfg: LegacyConfig) returns (r: Result<FinancialScenario, string>)
    ensures r.Err? <==> (name !in cfg.delayedRelocation || cfg.delayedRelocation[name].location !in cfg.international ||
      exists k :: 1 <= k <= YearCount(cfg) &&
        DelayedYearFails(k, cfg.delayedRelocation[name], cfg.international[cfg.delayedRelocation[name].location], cfg))
    ensures r.Ok? ==> r.value.name == name && |r.value.dataPoints| == YearCount(cfg)
    ensures r.Ok? ==> DelayedPoints(r.value.dataPoints, cfg.delayedRelocation[name],
                                    cfg.international[cfg.delayedRelocation[name].location], cfg,
                                    Compounded(cfg.parentalHome.basePrice, cfg.parentalHome.priceGrows))
    ensures r.Ok? ==> PortfolioChain(r.value.dataPoints, cfg)
    ensures r.Ok? ==> ParentalEquities(r.value.dataPoints, cfg.delayedRelocation[name].ukYears, cfg,
                                       Compounded(cfg.parentalHome.basePrice, cfg.parentalHome.priceGrows))
    ensures r.Ok? ==> OwnedHousings(r.value.dataPoints, cfg.delayedRelocation[name].ukYears,
                                    cfg.international[cfg.delayedRelocation[name].location],
                                    cfg.delayedRelocation[name].housingStrategy, cfg, Some(NoHome))
  {
    if name !in cfg.delayedRelocation {
      return Err("KeyError: delayed_relocation");
    }
    var d := cfg.delayedRelocation[name];
    if d.location !in cfg.international {
      return Err("KeyError: international_scenarios");
    }
    r := DelayedYears(name, d, cfg.international[d.location], cfg);
  }

  /** The year loop of `run_delayed_relocation_scenario_pydantic`, once the plan and its location are found. */
  method DelayedYears(name: string, d: DelayedConfig, loc: LocationConfig, cfg: LegacyConfig)
    returns (r: Result<FinancialScenario, string>)
    ensures r.Err? <==> exists k :: 1 <= k <= YearCount(cfg) && DelayedYearFails(k, d, loc, cfg)
    ensures r.Ok? ==> r.value.name == name && |r.value.dataPoints| == YearCount(cfg)
    ensures r.Ok? ==> DelayedPoints(r.value.dataPoints, d, loc, cfg,
                                    Compounded(cfg.parentalHome.basePrice, cfg.parentalHome.priceGrows))
    ensures r.Ok? ==> PortfolioChain(r.value.dataPoints, cfg)
    ensures r.Ok? ==> ParentalEquities(r.value.dataPoints, d.ukYears, cfg,
                                       Compounded(cfg.parentalHome.basePrice, cfg.parentalHome.priceGrows))
    ensures r.Ok? ==> OwnedHousings(r.value.dataPoints, d.ukYears, loc, d.housingStrategy, cfg, Some(NoHome))
  {
    var scenario := new FinancialScenario(name);
    var state := new ScenarioState(cfg.studentLoanDebt);
    var price := ParentalHomePrice(cfg.parentalHome);
    DelayedRunStart(d, loc, cfg, price, state.HomeFor(d.housingStrategy));
    var run := RunDelayedYears(d, loc, cfg, price, scenario, state);
    if run.Err? {
      return Err(run.error);
    }
    r := Ok(scenario);
  }

  /** The year loop itself: year after year appended to the scenario until the plan ends or a year raises. */
  method RunDelayedYears(d: DelayedConfig, loc: LocationConfig, cfg: LegacyConfig, price: real,
                         scenario: FinancialScenario, state: ScenarioState)
    returns (r: Result<(), string>)
    requires DelayedRunState(0, d, loc, cfg, price, scenario.dataPoints, state)
    modifies scenario, state
    ensures r.Err? <==> exists k :: 1 <= k <= YearCount(cfg) && DelayedYearFails(k, d, loc, cfg)
    ensures r.Ok? ==> DelayedRunState(YearCount(cfg), d, loc, cfg, price, scenario.dataPoints, state)
    ensures scenario.name == old(scenario.name)
  {
    var n := YearCount(cfg);
    var i := 0;
    while i < n
      invariant 0 <= i <= n
      invariant scenario.name == old(scenario.name)
      invariant forall k :: 1 <= k <= i ==> !DelayedYearFails(k, d, loc, cfg)
      invariant DelayedRunState(i, d, loc, cfg, price, scenario.dataPoints, state)
    {
      var point := AppendDelayedYear(i, d, loc, cfg, price, scenario, state);
      if point.Err? {
        return Err(point.error);
      }
      i := i + 1;
    }
    r := Ok(());
  }
}

=== FILE: rates.dfy ===
/** Year-keyed lookups of template values: rate tables keyed by year, ranges ("3-5"), open ranges ("6+") or lists. */
module Rates {
  import opened Base

  // ------------------------------------------------------------- parsing

  function StripLeft(s: string): (r: string)
    ensures |r| <= |s|
    ensures r == [] || !IsSpace(r[0])
  {
    if s != [] && IsSpace(s[0]) then StripLeft(s[1..]) else s
  }

  function StripRight(s: string): (r: string)
    ensures |r| <= |s|
    ensures r == [] || !IsSpace(r[|r| - 1])
  {
    if s != [] && IsSpace(s[|s| - 1]) then StripRight(s[..|s| - 1]) else s
  }

  /** Python's `str.strip()` for the whitespace above. */
  function Strip(s: string): string
  {
    StripRight(StripLeft(s))
  }

  /** The value of a non-empty run of decimal digits; anything else is not a number. */
  function ParseDigits(s: string): (n: Option<nat>)
    ensures n.Some? <==> s != [] && AllDigits(s)
    ensures n.Some? ==> n.value == DigitsValue(s)
  {
    if s != [] && AllDigits(s) then Some(DigitsValue(s)) else None
  }

  /** Python's `int(s)` on a string: optional surrounding whitespace, an optional sign, then decimal digits. */
  function ParseInt(s: string): Option<int>
  {
    var t := Strip(s);
    if t != [] && (t[0] == '+' || t[0] == '-') then
      match ParseDigits(t[1..])
      case None => None
      case Some(n) => var v: int := if t[0] == '-' then 0 - n as int else n; Some(v)
    else
      match ParseDigits(t)
      case None => None
      case Some(n) => Some(n)
  }

  /** Python's `s.split(sep)`: the pieces between separators, empty pieces included. */
  function Split(s: string, sep: char): (parts: seq<string>)
    ensures |parts| >= 1
  {
    if s == [] then [""]
    else if s[0] == sep then [""] + Split(s[1..], sep)
    else
      var rest := Split(s[1..], sep);
      [[s[0]] + rest[0]] + rest[1..]
  }

  predicate EndsWith(s: string, c: char)
  {
    s != [] && s[|s| - 1] == c
  }

  // ------------------------------------------------------------- facts about decimal text

  /** Reading back the decimal text of a number gives the number. */
  lemma ParseDigitsOfNatToString(n: nat)
    ensures ParseDigits(NatToString(n)) == Some(n)
  {
    DigitsValueOfNat(n);
  }

  /** `int(str(n)) == n` for a natural number. */
  lemma ParseIntOfNatToString(n: nat)
    ensures ParseInt(NatToString(n)) == Some(n)
  {
    var s := NatToString(n);
    ParseDigitsOfNatToString(n);
    assert StripLeft(s) == s by {
      assert !IsSpace(s[0]);
    }
    assert StripRight(s) == s by {
      assert !IsSpace(s[|s| - 1]);
    }
    assert s[0] != '+' && s[0] != '-';
  }

  lemma {:induction false} SplitWithoutSeparator(s: string, sep: char)
    requires forall i :: 0 <= i < |s| ==> s[i] != sep
    ensures Split(s, sep) == [s]
  {
    if s != [] {
      SplitWithoutSeparator(s[1..], sep);
      assert [s[0]] + s[1..] == s;
    }
  }

  /** Splitting around one separator splits each side independently. */
  lemma {:induction false} SplitAround(x: string, sep: char, y: string)
    ensures Split(x + [sep] + y, sep) == Split(x, sep) + Split(y, sep)
  {
    if x == [] {
      assert x + [sep] + y == [sep] + y;
      assert ([sep] + y)[1..] == y;
    } else {
      var whole := x + [sep] + y;
      assert whole[1..] == x[1..] + [sep] + y;
      SplitAround(x[1..], sep, y);
      if x[0] != sep {
        var rest := Split(x[1..], sep);
        assert Split(x, sep) == [[x[0]] + rest[0]] + rest[1..];
      }
    }
  }

  lemma {:induction false} ContainsLast(s: string, c: char)
    requires s != [] && s[|s| - 1] == c
    ensures Contains(s, [c])
    decreases |s|
  {
    if |s| > 1 {
      ContainsLast(s[1..], c);
    } else {
      assert s[..1] == [c];
    }
  }

  lemma {:induction false} ContainsAppend(x: string, y: string, c: char)
    requires Contains(x, [c])
    ensures Contains(x + y, [c])
    decreases |x|
  {
    if IsPrefix([c], x) {
      assert (x + y)[..1] == x[..1];
    } else {
      ContainsAppend(x[1..], y, c);
      assert (x + y)[1..] == x[1..] + y;
    }
  }

  // ------------------------------------------------------------- rate tables

  datatype RateKey = IntKey(n: int) | StrKey(s: string)

  /** A rate table: a list indexed from year 1, or (key, rate) pairs in file order. */
  datatype RateTable = RateList(list: seq<real>) | RateDict(entries: seq<(RateKey, real)>)

  /** Whether a dictionary key of `_get_rate` selects the year; unparsable numbers raise. */
  function KeyMatches(key: RateKey, year: int): Result<bool, string>
  {
    match key
    case IntKey(n) => Ok(n == year)
    case StrKey(s) =>
      if Contains(s, "-") then
        var parts := Split(s, '-');
        if |parts| != 2 then Err("ValueError")
        else
          match (ParseInt(parts[0]), ParseInt(parts[1]))
          case (Some(lo), Some(hi)) => Ok(lo <= year <= hi)
          case _ => Err("ValueError")
      else if EndsWith(s, '+') then
        match ParseInt(s[..|s| - 1])
        case Some(from) => Ok(year >= from)
        case None => Err("ValueError")
      else Ok(false)
  }

  /** `_get_rate`: the list entry for the year, or the first dictionary entry whose key selects the year, else the default. */
  function GetRate(year: int, rates: RateTable, default: Option<real>): (r: Result<Option<real>, string>)
    requires year >= 1
    ensures rates.RateList? && year <= |rates.list| ==> r == Ok(Some(rates.list[year - 1]))
    ensures rates.RateList? && year > |rates.list| ==> r == Ok(default)
    ensures default.Some? && r.Ok? ==> r.value.Some?
  {
    match rates
    case RateList(list) => if year <= |list| then Ok(Some(list[year - 1])) else Ok(default)
    case RateDict(entries) => FirstRate(entries, year, default)
  }

  function FirstRate(entries: seq<(RateKey, real)>, year: int, default: Option<real>): (r: Result<Option<real>, string>)
    ensures default.Some? && r.Ok? ==> r.value.Some?
  {
    if entries == [] then Ok(default)
    else
      match KeyMatches(entries[0].0, year)
      case Err(e) => Err(e)
      case Ok(true) => Ok(Some(entries[0].1))
      case Ok(false) => FirstRate(entries[1..], year, default)
  }

  /** The first entry whose key selects the year wins, whatever follows it. */
  lemma {:induction false} FirstMatchWins(entries: seq<(RateKey, real)>, year: int, default: Option<real>, i: int)
    requires 0 <= i < |entries|
    requires KeyMatches(entries[i].0, year) == Ok(true)
    requires forall j :: 0 <= j < i ==> KeyMatches(entries[j].0, year) == Ok(false)
    ensures FirstRate(entries, year, default) == Ok(Some(entries[i].1))
  {
    if i > 0 {
      FirstMatchWins(entries[1..], year, default, i - 1);
    }
  }

  /** When no key selects the year (and none fails to parse), the default comes back. */
  lemma {:induction false} NoMatchGivesDefault(entries: seq<(RateKey, real)>, year: int, default: Option<real>)
    requires forall j :: 0 <= j < |entries| ==> KeyMatches(entries[j].0, year) == Ok(false)
    ensures FirstRate(entries, year, default) == Ok(default)
  {
    if entries != [] {
      NoMatchGivesDefault(entries[1..], year, default);
    }
  }

  /** The text "a-b" of two natural numbers: it has one '-', no '+', and its two halves read back as a and b. */
  lemma RangeTextFacts(lo: nat, hi: nat)
    ensures var s := NatToString(lo) + "-" + NatToString(hi);
      Contains(s, "-") && !Contains(s, "+") && Split(s, '-') == [NatToString(lo), NatToString(hi)]
    ensures ParseInt(NatToString(lo)) == Some(lo) && ParseInt(NatToString(hi)) == Some(hi)
  {
    var a, b := NatToString(lo), NatToString(hi);
    DigitsValueOfNat(lo);
    DigitsValueOfNat(hi);
    var s := a + "-" + b;
    assert s == a + ['-'] + b;
    SplitAround(a, '-', b);
    SplitWithoutSeparator(a, '-');
    SplitWithoutSeparator(b, '-');
    ContainsLast(a + "-", '-');
    ContainsAppend(a + "-", b, '-');
    assert forall i :: 0 <= i < |s| ==> s[i] != '+';
    NoCharNoContains(s, '+');
    ParseIntOfNatToString(lo);
    ParseIntOfNatToString(hi);
  }

  /** A key "a-b" selects exactly the years a to b, both included. */
  lemma RangeKeyIsInclusive(lo: nat, hi: nat, year: int)
    ensures KeyMatches(StrKey(NatToString(lo) + "-" + NatToString(hi)), year) == Ok(lo <= year <= hi)
  {
    RangeTextFacts(lo, hi);
  }

  /** A key "n+" selects every year from n on. */
  lemma OpenKeyIsFrom(from: nat, year: int)
    ensures KeyMatches(StrKey(NatToString(from) + "+"), year) == Ok(year >= from)
  {
    var a := NatToString(from);
    var s := a + "+";
    DigitsValueOfNat(from);
    assert !Contains(s, "-") by {
      assert forall i :: 0 <= i < |s| ==> s[i] != '-';
      NoCharNoContains(s, '-');
    }
    assert s[..|s| - 1] == a;
    ParseIntOfNatToString(from);
  }

  lemma {:induction false} NoCharNoContains(s: string, c: char)
    requires forall i :: 0 <= i < |s| ==> s[i] != c
    ensures !Contains(s, [c])
    decreases |s|
  {
    if s != [] {
      assert s[..1][0] == s[0];
      NoCharNoContains(s[1..], c);
    }
  }

  /** An integer key selects only its own year. */
  lemma IntKeyIsExact(n: int, year: int)
    ensures KeyMatches(IntKey(n), year) == Ok(n == year)
  {
  }

  // ------------------------------------------------------------- ranges

  /** `_in_range`: "n+" (any '+' removed) means from n on, "a-b" means a to b inclusive, anything else one exact year. */
  function InRange(year: int, range: string): Result<bool, string>
  {
    if Contains(range, "+") then
      match ParseInt(ReplaceChar(range, '+', ""))
      case Some(from) => Ok(year >= from)
      case None => Err("ValueError")
    else if Contains(range, "-") then
      var parts := Split(range, '-');
      if |parts| != 2 then Err("ValueError")
      else
        match (ParseInt(parts[0]), ParseInt(parts[1]))
        case (Some(lo), Some(hi)) => Ok(lo <= year <= hi)
        case _ => Err("ValueError")
    else
      match ParseInt(range)
      case Some(n) => Ok(year == n)
      case None => Err("ValueError")
  }

  lemma {:induction false} ReplaceAbsent(s: string, c: char)
    requires forall i :: 0 <= i < |s| ==> s[i] != c
    ensures ReplaceChar(s, c, "") == s
  {
    if s != [] {
      ReplaceAbsent(s[1..], c);
    }
  }

  lemma {:induction false} ReplaceTrailing(a: string, c: char)
    requires forall i :: 0 <= i < |a| ==> a[i] != c
    ensures ReplaceChar(a + [c], c, "") == a
    decreases |a|
  {
    var s := a + [c];
    if a == [] {
      assert s[1..] == [];
      assert ReplaceChar(s, c, "") == "" + ReplaceChar(s[1..], c, "");
    } else {
      assert s[0] == a[0] && s[0] != c;
      assert s[1..] == a[1..] + [c];
      assert forall i :: 0 <= i < |a[1..]| ==> a[1..][i] == a[i + 1];
      ReplaceTrailing(a[1..], c);
      assert ReplaceChar(s, c, "") == [a[0]] + ReplaceChar(s[1..], c, "");
      assert [a[0]] + a[1..] == a;
    }
  }

  /** `_in_range` reads "n+" as every year from n on. */
  lemma InRangeOpen(from: nat, year: int)
    ensures InRange(year, NatToString(from) + "+") == Ok(year >= from)
  {
    var a := NatToString(from);
    DigitsValueOfNat(from);
    ParseIntOfNatToString(from);
    ContainsLast(a + "+", '+');
    ReplaceTrailing(a, '+');
  }

  /** `_in_range` reads "a-b" as the years a to b, both included. */
  lemma InRangeInclusive(lo: nat, hi: nat, year: int)
    ensures InRange(year, NatToString(lo) + "-" + NatToString(hi)) == Ok(lo <= year <= hi)
  {
    RangeTextFacts(lo, hi);
  }

  /** `_in_range` reads a bare number as that one year. */
  lemma InRangeExact(n: nat, year: int)
    ensures InRange(year, NatToString(n)) == Ok(year == n)
  {
    DigitsValueOfNat(n);
    ParseIntOfNatToString(n);
    NoCharNoContains(NatToString(n), '+');
    NoCharNoContains(NatToString(n), '-');
  }

  /** A phase's year specification in a life-event or phase block; `years` is the text Python's `str()` gives. */
  datatype PhaseInfo = PhaseInfo(year: Option<int>, startYear: Option<int>, endYear: Option<int>, years: Option<string>)

  /** `_year_in_phase`: the first specification present decides; with none the phase covers every year. */
  function YearInPhase(year: int, info: PhaseInfo): (r: Result<bool, string>)
    ensures info.year.Some? ==> r == Ok(year == info.year.value)
    ensures info.year.None? && info.startYear.Some? && info.endYear.Some? ==>
      r == Ok(info.startYear.value <= year <= info.endYear.value)
    ensures info.year.None? && info.startYear.Some? && info.endYear.None? && info.years.None? ==>
      r == Ok(year >= info.startYear.value)
    ensures info == PhaseInfo(None, None, None, None) ==> r == Ok(true)
  {
    if info.year.Some? then Ok(year == info.year.value)
    else if info.startYear.Some? && info.endYear.Some? then Ok(info.startYear.value <= year <= info.endYear.value)
    else if info.years.Some? then
      var text := info.years.value;
      if Contains(text, "-") then
        var parts := Split(text, '-');
        if |parts| != 2 then Err("ValueError")
        else
          match (ParseInt(parts[0]), ParseInt(parts[1]))
          case (Some(lo), Some(hi)) => Ok(lo <= year <= hi)
          case _ => Err("ValueError")
      else
        match ParseInt(text)
        case Some(n) => Ok(year == n)
        case None => Err("ValueError")
    else if info.startYear.Some? then Ok(year >= info.startYear.value)
    else Ok(true)
  }

  /** A `years` range "a-b" covers a to b inclusive. */
  lemma YearsRangeIsInclusive(lo: nat, hi: nat, year: int)
    ensures YearInPhase(year, PhaseInfo(None, None, None, Some(NatToString(lo) + "-" + NatToString(hi)))) == Ok(lo <= year <= hi)
  {
    RangeTextFacts(lo, hi);
  }
}

=== FILE: scenario_builder.dfy ===
/**
 * Building legacy data points and scenarios: a UK point from GBP figures, an international point from USD figures
 * and their GBP comparison values, and whole scenarios from table rows keyed by column name.
 */
module ScenarioBuilder {
  import opened Base
  import opened FinancialData

  /** `dict.get(key, 0.0)`. */
  function GetOr(m: map<string, real>, key: string, default: real): (r: real)
    ensures key in m ==> r == m[key]
    ensures key !in m ==> r == default
  {
    if key in m then m[key] else default
  }

  // ------------------------------------------------------------ data points

  /** The GBP figures of a UK year. */
  datatype UkFigures = UkFigures(
    salary: real,
    bonus: real,
    rsuVested: real,
    grossIncome: real,
    netIncome: real,
    totalExpenses: real,
    annualSavings: real,
    cumulativePortfolio: real,
    houseEquity: real,
    netWorth: real,
    tax: real,
    ni: real,
    slRepayment: real)

  /**
   * `create_uk_data_point`: a UK point carrying the figures, the expense lines and the investment breakdown read
   * from their mappings (0.0 for an absent key), with every GBP equivalent equal to its GBP figure.
   */
  function UkDataPoint(year: int, age: int, f: UkFigures, expenses: map<string, real>, breakdown: map<string, real>)
    : (p: FinancialDataPoint)
    ensures p.year == year && p.age == age && p.phase == UK
    ensures p.totalGrossGbp == f.grossIncome && p.netIncomeGbp == f.netIncome && p.netWorthGbp == f.netWorth
    ensures p.totalExpensesGbp == f.totalExpenses && p.annualSavingsGbp == f.annualSavings
    ensures p.grossSalaryGbp == f.salary && p.grossBonusGbp == f.bonus && p.vestedRsuGbp == f.rsuVested
    ensures p.incomeTaxGbp == f.tax && p.nationalInsuranceGbp == f.ni && p.studentLoanRepaymentGbp == f.slRepayment
    ensures p.cumulativePortfolioGbp == f.cumulativePortfolio && p.houseEquityGbp == f.houseEquity
    ensures p.netWorthGbpEquiv == p.netWorthGbp && p.grossIncomeGbpEquiv == p.totalGrossGbp
    ensures p.grossSalaryGbpEquiv == p.grossSalaryGbp && p.grossBonusGbpEquiv == p.grossBonusGbp
    ensures p.vestedRsuGbpEquiv == p.vestedRsuGbp && p.netIncomeGbpEquiv == p.netIncomeGbp
    ensures p.totalExpensesGbpEquiv == p.totalExpensesGbp && p.annualSavingsGbpEquiv == p.annualSavingsGbp
    ensures p.cumulativePortfolioGbpEquiv == p.cumulativePortfolioGbp && p.houseEquityGbpEquiv == p.houseEquityGbp
    ensures "personal" !in expenses ==> p.personalExpensesGbp == 0.0
    ensures "personal" in expenses ==> p.personalExpensesGbp == expenses["personal"]
    ensures "university_repayment" !in expenses ==> p.universityRepaymentGbp == 0.0
    ensures "university_repayment" in expenses ==> p.universityRepaymentGbp == expenses["university_repayment"]
    ensures "mortgage_payment" !in expenses ==> p.mortgagePaymentGbp == 0.0
    ensures "mortgage_payment" in expenses ==> p.mortgagePaymentGbp == expenses["mortgage_payment"]
    ensures "lisa_contr" !in breakdown ==> p.lisaContributionGbp == 0.0
    ensures p.netWorthUsd == 0.0 && p.totalGrossUsd == 0.0 && p.annualSavingsUsd == 0.0 && p.incomeTaxUsd == 0.0
  {
    EmptyPoint(year, age, UK).(
      grossSalaryGbp := f.salary,
      grossBonusGbp := f.bonus,
      vestedRsuGbp := f.rsuVested,
      totalGrossGbp := f.grossIncome,
      netIncomeGbp := f.netIncome,
      totalExpensesGbp := f.totalExpenses,
      annualSavingsGbp := f.annualSavings,
      cumulativePortfolioGbp := f.cumulativePortfolio,
      houseEquityGbp := f.houseEquity,
      netWorthGbp := f.netWorth,
      personalExpensesGbp := GetOr(expenses, "personal", 0.0),
      parentalSupportGbp := GetOr(expenses, "parental_support", 0.0),
      travelExpensesGbp := GetOr(expenses, "travel", 0.0),
      rentGbp := GetOr(expenses, "rent", 0.0),
      universityRepaymentGbp := GetOr(expenses, "university_repayment", 0.0),
      marriageCostsGbp := GetOr(expenses, "marriage", 0.0),
      childCostsGbp := GetOr(expenses, "child", 0.0),
      mortgagePaymentGbp := GetOr(expenses, "mortgage_payment", 0.0),
      incomeTaxGbp := f.tax,
      nationalInsuranceGbp := f.ni,
      studentLoanRepaymentGbp := f.slRepayment,
      lisaContributionGbp := GetOr(breakdown, "lisa_contr", 0.0),
      isaContributionGbp := GetOr(breakdown, "isa_contr", 0.0),
      sippContributionGbp := GetOr(breakdown, "sipp_contr", 0.0),
      giaContributionGbp := GetOr(breakdown, "gia_contr", 0.0),
      lisaBonusGbp := GetOr(breakdown, "lisa_bonus", 0.0),
      netWorthGbpEquiv := f.netWorth,
      grossIncomeGbpEquiv := f.grossIncome,
      grossSalaryGbpEquiv := f.salary,
      grossBonusGbpEquiv := f.bonus,
      vestedRsuGbpEquiv := f.rsuVested,
      netIncomeGbpEquiv := f.netIncome,
      totalExpensesGbpEquiv := f.totalExpenses,
      annualSavingsGbpEquiv := f.annualSavings,
      cumulativePortfolioGbpEquiv := f.cumulativePortfolio,
      houseEquityGbpEquiv := f.houseEquity)
  }

  /** The USD figures of an international year. */
  datatype IntlFigures = IntlFigures(
    salary: real,
    bonus: real,
    rsuVested: real,
    grossIncome: real,
    netIncome: real,
    totalExpenses: real,
    annualSavings: real,
    cumulativePortfolio: real,
    netWorth: real,
    houseEquity: real,
    tax: real,
    investmentGrowth: real)

  /** The rate the house equity is divided by when the comparison figures carry none. */
  const DefaultExchangeRate: real := 1.26

  /** The comparison figures' rate, the default when absent. */
  function ComparisonRate(gbpData: map<string, real>): real
  {
    GetOr(gbpData, "exchange_rate", DefaultExchangeRate)
  }

  /**
   * `create_international_data_point`: an international point with the USD figures and expense lines, the GBP
   * comparison figures (0.0 when absent), salary, bonus and RSU equivalents estimated as 80%, 10% and 10% of the
   * GBP gross income, and the house equity converted at the comparison rate when positive.
   */
  function IntlDataPoint(
    year: int, age: int, f: IntlFigures, expenses: map<string, real>, gbpData: map<string, real>)
    : (p: FinancialDataPoint)
    requires ComparisonRate(gbpData) != 0.0
    ensures p.year == year && p.age == age && p.phase == International
    ensures p.totalGrossUsd == f.grossIncome && p.netWorthUsd == f.netWorth && p.houseEquityUsd == f.houseEquity
    ensures p.incomeTaxUsd == f.tax && p.investmentGrowthUsd == f.investmentGrowth
    ensures p.grossSalaryUsd == f.salary && p.grossBonusUsd == f.bonus && p.vestedRsuUsd == f.rsuVested
    ensures p.netIncomeUsd == f.netIncome && p.totalExpensesUsd == f.totalExpenses
    ensures p.annualSavingsUsd == f.annualSavings && p.cumulativePortfolioUsd == f.cumulativePortfolio
    ensures p.cumulativePortfolioGbpEquiv == GetOr(gbpData, "gbp_cumulative_portfolio", 0.0)
    ensures p.grossSalaryGbpEquiv + p.grossBonusGbpEquiv + p.vestedRsuGbpEquiv == p.grossIncomeGbpEquiv
    ensures p.grossSalaryGbpEquiv == p.grossIncomeGbpEquiv * 0.8 && p.grossBonusGbpEquiv == p.vestedRsuGbpEquiv
    ensures p.grossIncomeGbpEquiv == GetOr(gbpData, "gbp_gross_income", 0.0)
    ensures p.netWorthGbpEquiv == GetOr(gbpData, "gbp_net_worth", 0.0)
    ensures f.houseEquity > 0.0 ==> p.houseEquityGbpEquiv * ComparisonRate(gbpData) == f.houseEquity
    ensures f.houseEquity <= 0.0 ==> p.houseEquityGbpEquiv == 0.0
    ensures "relocation_cost" !in expenses ==> p.relocationCostUsd == 0.0
    ensures "relocation_cost" in expenses ==> p.relocationCostUsd == expenses["relocation_cost"]
    ensures "mortgage_payment" in expenses ==> p.mortgagePaymentUsd == expenses["mortgage_payment"]
    ensures "mortgage_payment" !in expenses ==> p.mortgagePaymentUsd == 0.0
    ensures p.netWorthGbp == 0.0 && p.totalGrossGbp == 0.0 && p.annualSavingsGbp == 0.0 && p.incomeTaxGbp == 0.0
  {
    var gross := GetOr(gbpData, "gbp_gross_income", 0.0);
    EmptyPoint(year, age, International).(
      grossSalaryUsd := f.salary,
      grossBonusUsd := f.bonus,
      vestedRsuUsd := f.rsuVested,
      totalGrossUsd := f.grossIncome,
      netIncomeUsd := f.netIncome,
      totalExpensesUsd := f.totalExpenses,
      annualSavingsUsd := f.annualSavings,
      cumulativePortfolioUsd := f.cumulativePortfolio,
      netWorthUsd := f.netWorth,
      houseEquityUsd := f.houseEquity,
      rentUsd := GetOr(expenses, "rent", 0.0),
      healthcareUsd := GetOr(expenses, "healthcare", 0.0),
      retirementContributionUsd := GetOr(expenses, "retirement_contrib", 0.0),
      generalExpensesUsd := GetOr(expenses, "general_expenses", 0.0),
      relocationCostUsd := GetOr(expenses, "relocation_cost", 0.0),
      mortgagePaymentUsd := GetOr(expenses, "mortgage_payment", 0.0),
      incomeTaxUsd := f.tax,
      investmentGrowthUsd := f.investmentGrowth,
      netWorthGbpEquiv := GetOr(gbpData, "gbp_net_worth", 0.0),
      grossIncomeGbpEquiv := gross,
      grossSalaryGbpEquiv := gross * 0.8,
      grossBonusGbpEquiv := gross * 0.1,
      vestedRsuGbpEquiv := gross * 0.1,
      netIncomeGbpEquiv := GetOr(gbpData, "gbp_net_income", 0.0),
      totalExpensesGbpEquiv := GetOr(gbpData, "gbp_total_expenses", 0.0),
      annualSavingsGbpEquiv := GetOr(gbpData, "gbp_annual_savings", 0.0),
      cumulativePortfolioGbpEquiv := GetOr(gbpData, "gbp_cumulative_portfolio", 0.0),
      houseEquityGbpEquiv := if f.houseEquity > 0.0 then f.houseEquity / ComparisonRate(gbpData) else 0.0)
  }

  // ------------------------------------------------------------------- rows

  /** One table row: its year, age and phase entries when present, and its amounts by column name. */
  datatype Row = Row(year: Option<int>, age: Option<int>, phase: Option<string>, columns: map<string, real>)

  /** The first of `required` that `columns` lacks, in the order they are read. */
  function FirstMissing(required: seq<string>, columns: map<string, real>): (r: Option<string>)
    ensures r.None? <==> forall c :: c in required ==> c in columns
    ensures r.Some? ==> r.value in required && r.value !in columns
  {
    if required == [] then None
    else if required[0] !in columns then Some(required[0])
    else FirstMissing(required[1..], columns)
  }

  /** The columns a UK row must have, in the order they are read. */
  const UkColumns: seq<string> := [
    "Gross Salary (\U{A3})", "Gross Bonus (\U{A3})", "Vested RSU (\U{A3})", "Total Gross (\U{A3})",
    "Net Income (\U{A3})", "Total Expenses (\U{A3})", "Annual Savings (\U{A3})", "Cumulative Portfolio (\U{A3})",
    "House Equity (\U{A3})", "Net Worth (\U{A3})",
    "Personal Expenses (\U{A3})", "Parental Support (\U{A3})", "Travel Expenses (\U{A3})", "Rent (\U{A3})",
    "University Repayment (\U{A3})", "Marriage Costs (\U{A3})", "Child Costs (\U{A3})", "Mortgage Payment (\U{A3})",
    "Income Tax (\U{A3})", "National Insurance (\U{A3})", "Student Loan Repayment (\U{A3})"]

  /** The columns an international row must have, in the order they are read. */
  const IntlColumns: seq<string> := [
    "Gross Salary (USD)", "Gross Bonus (USD)", "Vested RSU (USD)", "Total Gross (USD)", "Net Income (USD)",
    "Total Expenses (USD)", "Annual Savings (USD)", "Cumulative Portfolio (USD)", "Net Worth (USD)",
    "House Equity (USD)",
    "Rent (USD)", "Healthcare (USD)", "Retirement Contribution (USD)", "General Expenses (USD)",
    "Relocation Cost (USD)", "Mortgage Payment (USD)", "Income Tax (USD)",
    "Net Worth (GBP)", "Gross Income (GBP)", "Net Income (GBP)", "Total Expenses (GBP)", "Annual Savings (GBP)",
    "Cumulative Portfolio (GBP)"]

  /** Year, age and the listed columns are all there. */
  predicate Complete(row: Row, required: seq<string>)
  {
    row.year.Some? && row.age.Some? && forall c :: c in required ==> c in row.columns
  }

  /** A column's amount; only read once the column is known to be there. */
  function Col(m: map<string, real>, column: string): real
  {
    GetOr(m, column, 0.0)
  }

  /** A UK row's point: the columns as figures, expense lines and (optional) investment breakdown. */
  function UkPointOfRow(row: Row): (r: Result<FinancialDataPoint, string>)
    ensures r.Ok? <==> Complete(row, UkColumns)
    ensures r.Ok? ==> r.value.phase == UK && r.value.year == row.year.value && r.value.age == row.age.value
    ensures r.Err? && row.year.Some? && row.age.Some? ==> r.error in UkColumns && r.error !in row.columns
  {
    if row.year.None? then Err("Year")
    else if row.age.None? then Err("Age")
    else match FirstMissing(UkColumns, row.columns)
      case Some(c) => Err(c)
      case None =>
        var m := row.columns;
        var f := UkFigures(
          Col(m, "Gross Salary (\U{A3})"), Col(m, "Gross Bonus (\U{A3})"), Col(m, "Vested RSU (\U{A3})"), Col(m, "Total Gross (\U{A3})"),
          Col(m, "Net Income (\U{A3})"), Col(m, "Total Expenses (\U{A3})"), Col(m, "Annual Savings (\U{A3})"),
          Col(m, "Cumulative Portfolio (\U{A3})"), Col(m, "House Equity (\U{A3})"), Col(m, "Net Worth (\U{A3})"),
          Col(m, "Income Tax (\U{A3})"), Col(m, "National Insurance (\U{A3})"), Col(m, "Student Loan Repayment (\U{A3})"));
        var expenses := UkExpenseLines(m);
        var breakdown := map[
          "lisa_contr" := GetOr(m, "LISA Contribution (\U{A3})", 0.0),
          "isa_contr" := GetOr(m, "ISA Contribution (\U{A3})", 0.0),
          "sipp_contr" := GetOr(m, "SIPP Contribution (\U{A3})", 0.0),
          "gia_contr" := GetOr(m, "GIA Contribution (\U{A3})", 0.0),
          "lisa_bonus" := GetOr(m, "LISA Bonus (\U{A3})", 0.0)];
        Ok(UkDataPoint(row.year.value, row.age.value, f, expenses, breakdown))
  }

  /** The expense lines of a UK row, keyed as the point expects them. */
  function UkExpenseLines(m: map<string, real>): (e: map<string, real>)
    ensures "university_repayment" in e && e["university_repayment"] == Col(m, "University Repayment (\U{A3})")
    ensures "mortgage_payment" in e && e["mortgage_payment"] == Col(m, "Mortgage Payment (\U{A3})")
  {
    map[
      "personal" := Col(m, "Personal Expenses (\U{A3})"),
      "parental_support" := Col(m, "Parental Support (\U{A3})"),
      "travel" := Col(m, "Travel Expenses (\U{A3})"),
      "rent" := Col(m, "Rent (\U{A3})"),
      "university_repayment" := Col(m, "University Repayment (\U{A3})"),
      "marriage" := Col(m, "Marriage Costs (\U{A3})"),
      "child" := Col(m, "Child Costs (\U{A3})"),
      "mortgage_payment" := Col(m, "Mortgage Payment (\U{A3})")]
  }

  /** A complete UK row's point reports its own columns, the university repayment and the mortgage included. */
  lemma UkRowColumnsCarriedOver(row: Row)
    requires Complete(row, UkColumns)
    ensures UkPointOfRow(row).Ok?
    ensures UkPointOfRow(row).value.netWorthGbp == Col(row.columns, "Net Worth (\U{A3})")
    ensures UkPointOfRow(row).value.universityRepaymentGbp == Col(row.columns, "University Repayment (\U{A3})")
    ensures UkPointOfRow(row).value.mortgagePaymentGbp == Col(row.columns, "Mortgage Payment (\U{A3})")
  {
    assert FirstMissing(UkColumns, row.columns).None?;
    var e := UkExpenseLines(row.columns);
    assert UkPointOfRow(row).value.netWorthGbp == Col(row.columns, "Net Worth (\U{A3})");
  }

  /** An international row's point, its comparison figures carrying the default rate of 1.26. */
  function IntlPointOfRow(row: Row): (r: Result<FinancialDataPoint, string>)
    ensures r.Ok? <==> Complete(row, IntlColumns)
    ensures r.Ok? ==> r.value.phase == International && r.value.year == row.year.value && r.value.age == row.age.value
    ensures r.Err? && row.year.Some? && row.age.Some? ==> r.error in IntlColumns && r.error !in row.columns
  {
    if row.year.None? then Err("Year")
    else if row.age.None? then Err("Age")
    else match FirstMissing(IntlColumns, row.columns)
      case Some(c) => Err(c)
      case None =>
        var m := row.columns;
        var f := IntlFigures(
          Col(m, "Gross Salary (USD)"), Col(m, "Gross Bonus (USD)"), Col(m, "Vested RSU (USD)"), Col(m, "Total Gross (USD)"),
          Col(m, "Net Income (USD)"), Col(m, "Total Expenses (USD)"), Col(m, "Annual Savings (USD)"),
          Col(m, "Cumulative Portfolio (USD)"), Col(m, "Net Worth (USD)"), Col(m, "House Equity (USD)"), Col(m, "Income Tax (USD)"),
          GetOr(m, "Investment Growth (USD)", 0.0));
        var expenses := map[
          "rent" := Col(m, "Rent (USD)"),
          "healthcare" := Col(m, "Healthcare (USD)"),
          "retirement_contrib" := Col(m, "Retirement Contribution (USD)"),
          "general_expenses" := Col(m, "General Expenses (USD)"),
          "relocation_cost" := Col(m, "Relocation Cost (USD)"),
          "mortgage_payment" := Col(m, "Mortgage Payment (USD)")];
        var gbpData := map[
          "gbp_net_worth" := Col(m, "Net Worth (GBP)"),
          "gbp_gross_income" := Col(m, "Gross Income (GBP)"),
          "gbp_net_income" := Col(m, "Net Income (GBP)"),
          "gbp_total_expenses" := Col(m, "Total Expenses (GBP)"),
          "gbp_annual_savings" := Col(m, "Annual Savings (GBP)"),
          "gbp_cumulative_portfolio" := Col(m, "Cumulative Portfolio (GBP)"),
          "exchange_rate" := DefaultExchangeRate];
        Ok(IntlDataPoint(row.year.value, row.age.value, f, expenses, gbpData))
  }

  /** A complete international row's point converts its house equity at the default rate. */
  lemma IntlRowEquityAtDefaultRate(row: Row)
    requires Complete(row, IntlColumns)
    ensures IntlPointOfRow(row).Ok?
    ensures IntlPointOfRow(row).value.netWorthUsd == Col(row.columns, "Net Worth (USD)")
    ensures Col(row.columns, "House Equity (USD)") > 0.0 ==>
      IntlPointOfRow(row).value.houseEquityGbpEquiv * DefaultExchangeRate == Col(row.columns, "House Equity (USD)")
  {
  }

  /** A delayed-relocation row's point: UK when its phase entry is "UK", international otherwise. */
  function DelayedPointOfRow(row: Row): (r: Result<FinancialDataPoint, string>)
    ensures row.phase == Some("UK") ==> r == UkPointOfRow(row)
    ensures row.phase != Some("UK") ==> r == IntlPointOfRow(row)
    ensures r.Ok? ==> (r.value.phase == UK <==> row.phase == Some("UK"))
  {
    if row.phase == Some("UK") then UkPointOfRow(row) else IntlPointOfRow(row)
  }

  // -------------------------------------------------------------- scenarios

  /** One point per row, in row order; the first row its builder refuses stops the build. */
  method BuildRows(pointOf: Row -> Result<FinancialDataPoint, string>, name: string, rows: seq<Row>)
    returns (r: Result<FinancialScenario, string>)
    ensures r.Ok? <==> forall i :: 0 <= i < |rows| ==> pointOf(rows[i]).Ok?
    ensures r.Ok? ==> fresh(r.value) && r.value.name == name && |r.value.dataPoints| == |rows|
    ensures r.Ok? ==> forall i :: 0 <= i < |rows| ==> r.value.dataPoints[i] == pointOf(rows[i]).value
  {
    var scenario := new FinancialScenario(name);
    var i := 0;
    while i < |rows|
      invariant 0 <= i <= |rows|
      invariant scenario.name == name && |scenario.dataPoints| == i
      invariant forall j :: 0 <= j < i ==> pointOf(rows[j]).Ok? && scenario.dataPoints[j] == pointOf(rows[j]).value
    {
      var point := pointOf(rows[i]);
      if point.Err? {
        return Err(point.error);
      }
      scenario.AddDataPoint(point.value);
      i := i + 1;
    }
    r := Ok(scenario);
  }

  /** `build_uk_scenario`: a UK point per row, in order; a row missing a required column raises. */
  method BuildUkScenario(name: string, rows: seq<Row>) returns (r: Result<FinancialScenario, string>)
    ensures r.Ok? <==> forall i :: 0 <= i < |rows| ==> Complete(rows[i], UkColumns)
    ensures r.Ok? ==> fresh(r.value) && r.value.name == name && |r.value.dataPoints| == |rows|
    ensures r.Ok? ==> forall i :: 0 <= i < |rows| ==> r.value.dataPoints[i] == UkPointOfRow(rows[i]).value
    ensures r.Ok? ==> forall i :: 0 <= i < |rows| ==> r.value.dataPoints[i].phase == UK
  {
    r := BuildRows(UkPointOfRow, name, rows);
  }

  /** `build_international_scenario`: an international point per row, in order. */
  method BuildInternationalScenario(name: string, rows: seq<Row>) returns (r: Result<FinancialScenario, string>)
    ensures r.Ok? <==> forall i :: 0 <= i < |rows| ==> Complete(rows[i], IntlColumns)
    ensures r.Ok? ==> fresh(r.value) && r.value.name == name && |r.value.dataPoints| == |rows|
    ensures r.Ok? ==> forall i :: 0 <= i < |rows| ==> r.value.dataPoints[i] == IntlPointOfRow(rows[i]).value
    ensures r.Ok? ==> forall i :: 0 <= i < |rows| ==> r.value.dataPoints[i].phase == International
  {
    r := BuildRows(IntlPointOfRow, name, rows);
  }

  /** `build_delayed_relocation_scenario`: rows marked "UK" become UK points, all others international points. */
  method BuildDelayedRelocationScenario(name: string, rows: seq<Row>) returns (r: Result<FinancialScenario, string>)
    ensures r.Ok? <==> forall i :: 0 <= i < |rows| ==> DelayedPointOfRow(rows[i]).Ok?
    ensures r.Ok? ==> fresh(r.value) && r.value.name == name && |r.value.dataPoints| == |rows|
    ensures r.Ok? ==> forall i :: 0 <= i < |rows| ==> r.value.dataPoints[i] == DelayedPointOfRow(rows[i]).value
    ensures r.Ok? ==> forall i :: 0 <= i < |rows| ==> (r.value.dataPoints[i].phase == UK <==> rows[i].phase == Some("UK"))
  {
    r := BuildRows(DelayedPointOfRow, name, rows);
  }
}

=== FILE: scenario_helpers.dfy ===
/**
 * The helpers the legacy projectors share: the mutable per-run state, the parental home price, the scripted UK
 * salary and bonus paths, RSU vesting for the two UK scenarios, home purchase book-keeping, international
 * expenses, UK portfolio growth and the GBP comparison figures.
 */
module ScenarioHelpers {
  import opened Base
  import Common
  import UkTax
  import UkTaxLegacy
  import UsTax

  // ------------------------------------------------------------------ state

  /**
   * An RSU grant. Scenario A's grants vest a fixed amount every year from the grant year; scenario B's single
   * grant vests quarterly from a cliff year until its end year.
   */
  datatype RsuGrant =
    | AnnualGrant(grantYear: int, annualVestValue: real, vestingEndYear: int)
    | CliffGrant(grantYear: int, totalValue: real, vestCliffYear: int, vestingEndYear: int)

  predicate AllAnnual(grants: seq<RsuGrant>)
  {
    forall k :: 0 <= k < |grants| ==> grants[k].AnnualGrant?
  }

  /** A home's value, outstanding mortgage balance and recorded equity. */
  datatype Home = Home(value: real, balance: real, equity: real)

  const NoHome: Home := Home(0.0, 0.0, 0.0)

  /**
   * The state a projection carries from one year to the next. The UK runs start with every entry present; the
   * international run starts with only the portfolio and the unvested equity, so its two foreign homes are absent
   * (`None`) until bought.
   */
  class ScenarioState {
    var cumulativeInvestments: real
    var studentLoanBalance: real
    var rsuGrants: seq<RsuGrant>
    var unvestedEquityValue: real
    var parentalHome: Home
    var ukHome: Option<Home>
    var localHome: Option<Home>

    /** `initialize_scenario_state`: everything zero except the student loan, no grants. */
    constructor (studentLoanDebt: real)
      ensures cumulativeInvestments == 0.0 && unvestedEquityValue == 0.0
      ensures studentLoanBalance == studentLoanDebt && rsuGrants == []
      ensures parentalHome == NoHome && ukHome == Some(NoHome) && localHome == Some(NoHome)
    {
      cumulativeInvestments := 0.0;
      studentLoanBalance := studentLoanDebt;
      rsuGrants := [];
      unvestedEquityValue := 0.0;
      parentalHome := NoHome;
      ukHome := Some(NoHome);
      localHome := Some(NoHome);
    }

    /** The recorded home a housing strategy tracks: the UK home, the local home, or none for any other strategy. */
    function HomeFor(strategy: string): (h: Option<Home>)
      reads this
      ensures strategy == "uk_home" ==> h == ukHome
      ensures strategy == "local_home" ==> h == localHome
      ensures strategy != "uk_home" && strategy != "local_home" ==> h == None
    {
      if strategy == "uk_home" then ukHome else if strategy == "local_home" then localHome else None
    }

    /** The two-entry state the international run starts from. */
    constructor International()
      ensures cumulativeInvestments == 0.0 && unvestedEquityValue == 0.0
      ensures rsuGrants == [] && ukHome == None && localHome == None
    {
      cumulativeInvestments := 0.0;
      studentLoanBalance := 0.0;
      rsuGrants := [];
      unvestedEquityValue := 0.0;
      parentalHome := NoHome;
      ukHome := None;
      localHome := None;
    }

    /**
     * `calculate_rsu_vesting_scenario_a`: from plan year 3 a grant of a fifth of the salary, spread over four
     * years, is appended; the vested value counts every grant already made, the unvested value the vests left.
     */
    method VestScenarioA(planYear: int, salary: real, ipoMultiplier: real) returns (vested: real, unvested: real)
      requires AllAnnual(rsuGrants)
      modifies this
      ensures rsuGrants == old(rsuGrants) + NewGrantsA(planYear, salary)
      ensures |rsuGrants| == |old(rsuGrants)| + (if planYear >= 3 then 1 else 0)
      ensures AllAnnual(rsuGrants)
      ensures vested == VestedSumA(rsuGrants, planYear) * ipoMultiplier
      ensures unvested == UnvestedSumA(rsuGrants, planYear, ipoMultiplier)
      ensures cumulativeInvestments == old(cumulativeInvestments) && studentLoanBalance == old(studentLoanBalance)
      ensures unvestedEquityValue == old(unvestedEquityValue) && parentalHome == old(parentalHome)
      ensures ukHome == old(ukHome) && localHome == old(localHome)
    {
      rsuGrants := rsuGrants + NewGrantsA(planYear, salary);
      vested := VestedSumA(rsuGrants, planYear) * ipoMultiplier;
      unvested := 0.0;
      var i := 0;
      while i < |rsuGrants|
        invariant 0 <= i <= |rsuGrants|
        invariant unvested == UnvestedSumA(rsuGrants[..i], planYear, ipoMultiplier)
      {
        assert rsuGrants[..i + 1][..i] == rsuGrants[..i];
        unvested := unvested + UnvestedOf(rsuGrants[i], planYear, ipoMultiplier);
        i := i + 1;
      }
      assert rsuGrants[..i] == rsuGrants;
    }

    /**
     * `calculate_mortgage_and_house_equity`: from the year after the target year the annual mortgage payment is
     * due; that year the home is bought, later years revalue it and pay the mortgage down. A zero term raises
     * before anything is recorded.
     */
    method MortgageAndHouseEquity(planYear: int, price: real, p: ParentalHomePurchase, inflationRate: real)
      returns (r: Result<real, string>)
      modifies this
      ensures r.Ok? <==> ParentalPayment(planYear, price, p).Ok?
      ensures r.Ok? ==> r.value == ParentalPayment(planYear, price, p).value
      ensures r.Ok? && planYear >= p.targetYear + 1 ==>
        parentalHome == HomeAfterYear(old(parentalHome), planYear == p.targetYear + 1, price, p.depositPct,
                                      p.mortgageRate, r.value, inflationRate)
      ensures r.Err? || planYear < p.targetYear + 1 ==> parentalHome == old(parentalHome)
      ensures cumulativeInvestments == old(cumulativeInvestments) && studentLoanBalance == old(studentLoanBalance)
      ensures rsuGrants == old(rsuGrants) && unvestedEquityValue == old(unvestedEquityValue)
      ensures ukHome == old(ukHome) && localHome == old(localHome)
    {
      if planYear < p.targetYear + 1 {
        return Ok(0.0);
      }
      var payment := AnnualPayment(price, p.depositPct, p.mortgageRate, p.mortgageTermYears);
      if payment.Err? {
        return Err(payment.error);
      }
      parentalHome := HomeAfterYear(parentalHome, planYear == p.targetYear + 1, price, p.depositPct,
                                    p.mortgageRate, payment.value, inflationRate);
      r := Ok(payment.value);
    }

    /**
     * `calculate_international_housing`: for the "uk_home" and "local_home" strategies, from the year after the
     * purchase year, the annual payment and the home's equity; `(0, 0)` otherwise.
     */
    method InternationalHousing(planYear: int, options: HousingOptions, inflationRate: real, strategy: string)
      returns (r: Result<(real, real), string>)
      modifies this
      ensures strategy != "uk_home" && strategy != "local_home" ==> r == Ok((0.0, 0.0))
      ensures strategy == "uk_home" && planYear < options.ukHome.purchaseYear + 1 ==> r == Ok((0.0, 0.0))
      ensures strategy == "local_home" && planYear < options.localHome.purchaseYear + 1 ==> r == Ok((0.0, 0.0))
      ensures strategy == "uk_home" && planYear >= options.ukHome.purchaseYear + 1 ==>
        (r.Ok? <==> OwnedHomeYear(planYear, options.ukHome, old(ukHome), inflationRate).Ok?) &&
        (r.Ok? ==> r.value.0 == OwnedHomeYear(planYear, options.ukHome, old(ukHome), inflationRate).value.0 &&
                   ukHome == Some(OwnedHomeYear(planYear, options.ukHome, old(ukHome), inflationRate).value.1) &&
                   r.value.1 == ukHome.value.equity)
      ensures strategy == "local_home" && planYear >= options.localHome.purchaseYear + 1 ==>
        (r.Ok? <==> OwnedHomeYear(planYear, options.localHome, old(localHome), inflationRate).Ok?) &&
        (r.Ok? ==> r.value.0 == OwnedHomeYear(planYear, options.localHome, old(localHome), inflationRate).value.0 &&
                   localHome == Some(OwnedHomeYear(planYear, options.localHome, old(localHome), inflationRate).value.1) &&
                   r.value.1 == localHome.value.equity)
      ensures strategy != "uk_home" || planYear < options.ukHome.purchaseYear + 1 || r.Err? ==> ukHome == old(ukHome)
      ensures old(ukHome).Some? ==> ukHome.Some?
      ensures old(localHome).Some? ==> localHome.Some?
      ensures strategy != "local_home" || planYear < options.localHome.purchaseYear + 1 || r.Err? ==>
        localHome == old(localHome)
      ensures cumulativeInvestments == old(cumulativeInvestments) && studentLoanBalance == old(studentLoanBalance)
      ensures rsuGrants == old(rsuGrants) && unvestedEquityValue == old(unvestedEquityValue)
      ensures parentalHome == old(parentalHome)
    {
      if strategy == "uk_home" && planYear >= options.ukHome.purchaseYear + 1 {
        var price := GrownHomePrice(options.ukHome.price, options.ukHome.priceGrowth, planYear - options.ukHome.purchaseYear);
        var year := HomeYear(planYear, options.ukHome, price, ukHome, inflationRate);
        if year.Err? {
          return Err(year.error);
        }
        ukHome := Some(year.value.1);
        r := Ok((year.value.0, year.value.1.equity));
      } else if strategy == "local_home" && planYear >= options.localHome.purchaseYear + 1 {
        var price := GrownHomePrice(options.localHome.price, options.localHome.priceGrowth, planYear - options.localHome.purchaseYear);
        var year := HomeYear(planYear, options.localHome, price, localHome, inflationRate);
        if year.Err? {
          return Err(year.error);
        }
        localHome := Some(year.value.1);
        r := Ok((year.value.0, year.value.1.equity));
      } else {
        r := Ok((0.0, 0.0));
      }
    }

    /**
     * `calculate_uk_investment_growth`: the year's savings are split by the legacy allocation, the portfolio grows
     * at the return rate, the contributions and the LISA bonus are added, and the result is floored at zero.
     */
    method UkInvestmentGrowth(savings: real, cfg: UkTax.UkConfig, returnRate: real) returns (a: UkTax.Allocation)
      modifies this
      ensures a == UkTaxLegacy.InvestmentAllocation(savings, cfg)
      ensures cumulativeInvestments == GrownPortfolio(old(cumulativeInvestments), returnRate, Contributions(a))
      ensures studentLoanBalance == old(studentLoanBalance) && rsuGrants == old(rsuGrants)
      ensures unvestedEquityValue == old(unvestedEquityValue) && parentalHome == old(parentalHome)
      ensures ukHome == old(ukHome) && localHome == old(localHome)
    {
      a := UkTaxLegacy.InvestmentAllocation(savings, cfg);
      cumulativeInvestments := GrownPortfolio(cumulativeInvestments, returnRate, Contributions(a));
    }
  }

  // ------------------------------------------------------------ home prices

  /** `price` after each rate of `growth` in turn. */
  function Compounded(price: real, growth: seq<real>): real
    decreases |growth|
  {
    if growth == [] then price else Compounded(price, growth[..|growth| - 1]) * (1.0 + growth[|growth| - 1])
  }

  /** Compounding is linear in the starting price. */
  lemma {:induction false} CompoundedScales(price: real, growth: seq<real>)
    ensures Compounded(price, growth) == price * Compounded(1.0, growth)
    decreases |growth|
  {
    if growth != [] {
      var init := growth[..|growth| - 1];
      CompoundedScales(price, init);
      var g := 1.0 + growth[|growth| - 1];
      assert Compounded(price, growth) == (price * Compounded(1.0, init)) * g;
      assert Compounded(1.0, growth) == Compounded(1.0, init) * g;
    }
  }

  /** With no falling year a non-negative price never ends below where it started. */
  lemma {:induction false} CompoundedNeverFalls(price: real, growth: seq<real>)
    requires price >= 0.0
    requires forall k :: 0 <= k < |growth| ==> growth[k] >= 0.0
    ensures Compounded(price, growth) >= price
    decreases |growth|
  {
    if growth != [] {
      var init := growth[..|growth| - 1];
      CompoundedNeverFalls(price, init);
      var before := Compounded(price, init);
      MulLeft(1.0, 1.0 + growth[|growth| - 1], before);
    }
  }

  /** The parental purchase entries of the legacy configuration. */
  datatype ParentalHomePurchase = ParentalHomePurchase(
    basePrice: real,
    priceGrows: seq<real>,
    targetYear: int,
    depositPct: real,
    mortgageRate: real,
    mortgageTermYears: nat)

  /** `calculate_parental_home_price`: the base price grown by every listed rate. */
  method ParentalHomePrice(p: ParentalHomePurchase) returns (price: real)
    ensures price == Compounded(p.basePrice, p.priceGrows)
  {
    price := p.basePrice;
    var i := 0;
    while i < |p.priceGrows|
      invariant 0 <= i <= |p.priceGrows|
      invariant price == Compounded(p.basePrice, p.priceGrows[..i])
    {
      assert p.priceGrows[..i + 1][..i] == p.priceGrows[..i];
      price := price * (1.0 + p.priceGrows[i]);
      i := i + 1;
    }
    assert p.priceGrows[..i] == p.priceGrows;
  }

  /** How many rates of a growth list apply `years` after purchase: the first `years` of them, at most all. */
  function RatesApplied(years: int, listed: nat): (n: nat)
    ensures n <= listed
    ensures years >= listed ==> n == listed
    ensures 0 <= years <= listed ==> n == years
  {
    if years <= 0 then 0 else MinInt(years, listed)
  }

  /** The price `years` after the purchase year: the first `years` rates of `growth` compounded. */
  method GrownHomePrice(price: real, growth: seq<real>, years: int) returns (p: real)
    ensures p == Compounded(price, growth[..RatesApplied(years, |growth|)])
  {
    p := price;
    var i := 0;
    while i < |growth|
      invariant 0 <= i <= |growth|
      invariant p == Compounded(price, growth[..RatesApplied(MinInt(i, years), |growth|)])
    {
      if i < years {
        assert growth[..i + 1][..i] == growth[..i];
        p := p * (1.0 + growth[i]);
      }
      i := i + 1;
    }
  }

  /** Past the end of the growth list the price stops growing: every later year sees the same price. */
  lemma GrowthStopsAtListEnd(price: real, growth: seq<real>, y1: int, y2: int)
    requires |growth| <= y1 <= y2
    ensures growth[..RatesApplied(y1, |growth|)] == growth[..RatesApplied(y2, |growth|)] == growth
    ensures Compounded(price, growth[..RatesApplied(y2, |growth|)]) == Compounded(price, growth)
  {
  }

  // -------------------------------------------------------------- mortgages

  /** The annual cost of the mortgage on a home bought at `price`: twelve monthly payments on the borrowed part. */
  function AnnualPayment(price: real, depositPct: real, rate: real, termYears: nat): (r: Result<real, string>)
    ensures r.Err? <==> termYears == 0
  {
    var monthly := Common.MortgagePayment(price * (1.0 - depositPct), rate, termYears);
    if monthly.Err? then Err(monthly.error) else Ok(monthly.value * 12.0)
  }

  /** The parental mortgage payment of a plan year: nothing before the year after the target year. */
  function ParentalPayment(planYear: int, price: real, p: ParentalHomePurchase): (r: Result<real, string>)
    ensures planYear < p.targetYear + 1 ==> r == Ok(0.0)
    ensures r.Err? <==> planYear >= p.targetYear + 1 && p.mortgageTermYears == 0
  {
    if planYear < p.targetYear + 1 then Ok(0.0) else AnnualPayment(price, p.depositPct, p.mortgageRate, p.mortgageTermYears)
  }

  /** Once due, the parental payment is the same in every year: it depends on the price, not on the year. */
  lemma ParentalPaymentIsLevel(y1: int, y2: int, price: real, p: ParentalHomePurchase)
    requires y1 >= p.targetYear + 1 && y2 >= p.targetYear + 1 && p.mortgageTermYears > 0
    ensures ParentalPayment(y1, price, p).Ok? && ParentalPayment(y2, price, p).Ok?
    ensures ParentalPayment(y1, price, p).value == ParentalPayment(y2, price, p).value
    ensures p.mortgageRate > 0.0 ==>
      (ParentalPayment(y1, price, p).value ==
       Common.Annuity(price * (1.0 - p.depositPct), p.mortgageRate / 12.0, p.mortgageTermYears * 12) * 12.0)
  {
    TwelveMonthlyPayments(price, p.depositPct, p.mortgageRate, p.mortgageTermYears);
  }

  lemma TwelveMonthlyPayments(price: real, depositPct: real, rate: real, termYears: nat)
    requires termYears > 0
    ensures AnnualPayment(price, depositPct, rate, termYears).Ok?
    ensures AnnualPayment(price, depositPct, rate, termYears).value ==
      Common.MortgagePayment(price * (1.0 - depositPct), rate, termYears).value * 12.0
  {
    var monthly := Common.MortgagePayment(price * (1.0 - depositPct), rate, termYears);
    assert monthly.Ok?;
  }

  /**
   * One year of a home's book-keeping once it is owned: bought this year at `price` with `depositPct` down, or
   * revalued by inflation and, while a balance is owed, paid down by the payment less a year's interest on the
   * balance. With nothing owed the recorded equity is left as it was.
   */
  function HomeAfterYear(h: Home, bought: bool, price: real, depositPct: real, rate: real, payment: real, inflationRate: real)
    : (r: Home)
    ensures bought ==> r.value == price && r.balance + r.equity == price && r.equity == price * depositPct
    ensures !bought ==> r.value == h.value * (1.0 + inflationRate)
    ensures !bought && h.balance > 0.0 ==> r.balance >= 0.0 && r.equity == r.value - r.balance
    ensures !bought && h.balance > 0.0 ==> r.balance == Max(0.0, h.balance - (payment - h.balance * rate))
    ensures !bought && h.balance <= 0.0 ==> r.balance == h.balance && r.equity == h.equity
  {
    if bought then
      var loan := price * (1.0 - depositPct);
      assert loan + price * depositPct == price;
      Home(price, loan, price * depositPct)
    else
      var value := h.value * (1.0 + inflationRate);
      if h.balance > 0.0 then
        var balance := Max(0.0, h.balance - (payment - h.balance * rate));
        Home(value, balance, value - balance)
      else Home(value, h.balance, h.equity)
  }

  /**
   * While the payment covers a year's interest on the whole loan, the balance stays between zero and the amount
   * borrowed, year after year.
   */
  lemma BalanceStaysWithinLoan(h: Home, loan: real, rate: real, payment: real, inflationRate: real, price: real, depositPct: real)
    requires 0.0 <= h.balance <= loan && rate >= 0.0 && payment >= loan * rate
    ensures 0.0 <= HomeAfterYear(h, false, price, depositPct, rate, payment, inflationRate).balance <= loan
  {
    MulLeft(h.balance, loan, rate);
  }

  /** The annual payment on a loan at a positive rate is more than a year's interest on the amount borrowed. */
  lemma PaymentCoversInterest(price: real, depositPct: real, rate: real, termYears: nat)
    requires rate > 0.0 && termYears > 0 && price * (1.0 - depositPct) > 0.0
    ensures AnnualPayment(price, depositPct, rate, termYears).Ok?
    ensures AnnualPayment(price, depositPct, rate, termYears).value > price * (1.0 - depositPct) * rate
  {
    Common.AnnuityExceedsInterest(price * (1.0 - depositPct), rate, termYears);
  }

  /** Once the mortgage is cleared the recorded equity is frozen, however much the home is revalued. */
  lemma PaidOffEquityIsFrozen(h: Home, price: real, depositPct: real, rate: real, payment: real, inflationRate: real)
    requires h.balance <= 0.0
    ensures HomeAfterYear(h, false, price, depositPct, rate, payment, inflationRate).equity == h.equity
  {
  }

  /** The entries of one international home option. */
  datatype HomeOption = HomeOption(
    purchaseYear: int,
    price: real,
    priceGrowth: seq<real>,
    depositPct: real,
    mortgageRate: real,
    mortgageTermYears: nat)

  datatype HousingOptions = HousingOptions(ukHome: HomeOption, localHome: HomeOption)

  /** A year's payment and new home for an owned international home, given the year's grown price. */
  function HomeYear(planYear: int, opt: HomeOption, price: real, h: Option<Home>, inflationRate: real)
    : (r: Result<(real, Home), string>)
  {
    var payment := AnnualPayment(price, opt.depositPct, opt.mortgageRate, opt.mortgageTermYears);
    if payment.Err? then Err(payment.error)
    else if planYear != opt.purchaseYear + 1 && h.None? then Err("KeyError: house value")
    else
      var prev := if h.Some? then h.value else NoHome;
      Ok((payment.value, HomeAfterYear(prev, planYear == opt.purchaseYear + 1, price, opt.depositPct,
                                       opt.mortgageRate, payment.value, inflationRate)))
  }

  /**
   * A year of an international home from the year after its purchase year on: the price grown by the first
   * `planYear - purchaseYear` rates, the payment on it, and the home bought or carried forward. A later year with
   * no recorded home raises, as does a zero term.
   */
  function OwnedHomeYear(planYear: int, opt: HomeOption, h: Option<Home>, inflationRate: real)
    : (r: Result<(real, Home), string>)
    requires planYear >= opt.purchaseYear + 1
    ensures r.Err? <==> opt.mortgageTermYears == 0 || (planYear != opt.purchaseYear + 1 && h.None?)
    ensures r.Ok? && planYear == opt.purchaseYear + 1 ==>
      r.value.1.value == Compounded(opt.price, opt.priceGrowth[..RatesApplied(1, |opt.priceGrowth|)])
  {
    HomeYear(planYear, opt, Compounded(opt.price, opt.priceGrowth[..RatesApplied(planYear - opt.purchaseYear, |opt.priceGrowth|)]), h, inflationRate)
  }

  // --------------------------------------------------------- salary and bonus

  /** `calculate_uk_salary_progression`: scenario A's steps, scenario B's 12.5% yearly rises from 98182, 0 otherwise. */
  function UkSalary(planYear: int, scenarioType: string): (s: real)
    ensures s >= 0.0
    ensures scenarioType != "A" && scenarioType != "B" ==> s == 0.0
    ensures scenarioType == "B" && planYear >= 3 ==> s == 98182.0 * Pow(1.125, planYear - 3)
  {
    if scenarioType == "A" then
      if planYear <= 1 then 55000.0 else if planYear <= 2 then 67500.0 else if planYear <= 5 then 80000.0 else 115000.0
    else if scenarioType == "B" then
      if planYear <= 1 then 55000.0
      else if planYear <= 2 then 67500.0
      else if planYear == 3 then 98182.0
      else
        PowPositive(1.125, planYear - 3);
        98182.0 * Pow(1.125, planYear - 3)
    else 0.0
  }

  /** From year 3 scenario B's salary rises by exactly an eighth each year. */
  lemma SalaryBRisesByAnEighth(planYear: int)
    requires planYear >= 3
    ensures UkSalary(planYear + 1, "B") == UkSalary(planYear, "B") * 1.125
  {
    assert Pow(1.125, planYear + 1 - 3) == 1.125 * Pow(1.125, planYear - 3);
  }

  /** Neither scripted salary ever falls from one year to a later one. */
  lemma {:induction false} SalaryNeverFalls(scenarioType: string, y1: int, y2: int)
    requires scenarioType == "A" || scenarioType == "B"
    requires y1 <= y2
    ensures UkSalary(y1, scenarioType) <= UkSalary(y2, scenarioType)
    decreases y2 - y1
  {
    if y1 < y2 {
      SalaryNeverFalls(scenarioType, y1, y2 - 1);
      if scenarioType == "B" && y2 - 1 >= 3 {
        SalaryBRisesByAnEighth(y2 - 1);
        MulLeft(1.0, 1.125, UkSalary(y2 - 1, "B"));
      }
    }
  }

  /** `calculate_uk_bonus`: 12.5% of salary for A, 12.5% then 10% from year 3 for B, 0 otherwise. */
  function UkBonus(salary: real, scenarioType: string, planYear: int): (b: real)
    ensures scenarioType != "A" && scenarioType != "B" ==> b == 0.0
    ensures salary >= 0.0 ==> 0.0 <= b && b * 8.0 <= salary
    ensures scenarioType == "A" || (scenarioType == "B" && planYear <= 2) ==> b * 8.0 == salary
    ensures scenarioType == "B" && planYear >= 3 ==> b * 10.0 == salary
  {
    if scenarioType == "A" then salary * 0.125
    else if scenarioType == "B" then (if planYear <= 2 then salary * 0.125 else salary * 0.10)
    else 0.0
  }

  // ------------------------------------------------------------ RSU vesting

  /** The grant scenario A makes in a plan year: a fifth of the salary over four years, from plan year 3 on. */
  function NewGrantsA(planYear: int, salary: real): (g: seq<RsuGrant>)
    ensures |g| == (if planYear >= 3 then 1 else 0)
    ensures AllAnnual(g)
    ensures forall k :: 0 <= k < |g| ==> g[k].grantYear == planYear && g[k].vestingEndYear == planYear + 3
  {
    if planYear >= 3 then [AnnualGrant(planYear, salary * 0.20 / 4.0, planYear + 3)] else []
  }

  /** The annual tranches of every grant made by `planYear`, whether or not its vesting has ended. */
  function VestedSumA(grants: seq<RsuGrant>, planYear: int): real
    requires AllAnnual(grants)
  {
    if grants == [] then 0.0
    else (if planYear >= grants[0].grantYear then grants[0].annualVestValue else 0.0) + VestedSumA(grants[1..], planYear)
  }

  /** A grant added at the end adds its tranche once made; its vesting end year plays no part. */
  lemma {:induction false} VestedSumAppend(grants: seq<RsuGrant>, g: RsuGrant, planYear: int)
    requires AllAnnual(grants) && g.AnnualGrant?
    ensures AllAnnual(grants + [g])
    ensures VestedSumA(grants + [g], planYear) ==
      VestedSumA(grants, planYear) + (if planYear >= g.grantYear then g.annualVestValue else 0.0)
    decreases |grants|
  {
    if grants != [] {
      assert (grants + [g])[1..] == grants[1..] + [g];
      VestedSumAppend(grants[1..], g, planYear);
    }
  }

  /** With non-negative tranches the vested sum is never negative. */
  lemma {:induction false} VestedSumNonNegative(grants: seq<RsuGrant>, planYear: int)
    requires AllAnnual(grants)
    requires forall k :: 0 <= k < |grants| ==> grants[k].annualVestValue >= 0.0
    ensures VestedSumA(grants, planYear) >= 0.0
    decreases |grants|
  {
    if grants != [] {
      VestedSumNonNegative(grants[1..], planYear);
    }
  }

  /** A grant's unvested value: its tranche times the vests left, this year's included, times the multiplier. */
  function UnvestedOf(g: RsuGrant, planYear: int, ipoMultiplier: real): real
    requires g.AnnualGrant?
  {
    g.annualVestValue * (MaxInt(0, g.vestingEndYear - planYear + 1) as real) * ipoMultiplier
  }

  /** The unvested values of the grants, added in order. */
  function UnvestedSumA(grants: seq<RsuGrant>, planYear: int, ipoMultiplier: real): real
    requires AllAnnual(grants)
  {
    if grants == [] then 0.0
    else UnvestedSumA(grants[..|grants| - 1], planYear, ipoMultiplier) + UnvestedOf(grants[|grants| - 1], planYear, ipoMultiplier)
  }

  /** The grant made this year counts four remaining vests although its first tranche also vests this year. */
  lemma NewGrantCountsFourVests(planYear: int, salary: real, ipoMultiplier: real)
    requires planYear >= 3
    ensures UnvestedOf(NewGrantsA(planYear, salary)[0], planYear, ipoMultiplier) == salary * 0.20 / 4.0 * 4.0 * ipoMultiplier
    ensures VestedSumA(NewGrantsA(planYear, salary), planYear) == salary * 0.20 / 4.0
  {
  }

  /** Scenario B's valuation multiplier: 1 up to a year after the grant, 2 in the second year, 5 after. */
  function ValuationMultiplier(yearsSinceGrant: int): (m: real)
    ensures m == 1.0 || m == 2.0 || m == 5.0
    ensures m == 1.0 <==> yearsSinceGrant <= 1
    ensures m == 5.0 <==> yearsSinceGrant >= 3
  {
    if yearsSinceGrant <= 1 then 1.0 else if yearsSinceGrant == 2 then 2.0 else 5.0
  }

  /** Quarters vested since the cliff, at most four. */
  function QuartersVested(planYear: int, cliffYear: int): (q: int)
    requires planYear >= cliffYear
    ensures 1 <= q <= 4
    ensures q == 4 || q == planYear - cliffYear + 1
  {
    MinInt(4, planYear - cliffYear + 1)
  }

  /**
   * `calculate_rsu_vesting_scenario_b`: the first grant alone counts. Between its cliff and its end year a quarter
   * of its value per quarter vested, times the valuation multiplier, vests; the vests left are valued at five times.
   */
  function RsuVestingB(planYear: int, grants: seq<RsuGrant>): (r: (real, real))
    requires grants != [] ==> grants[0].CliffGrant?
    ensures grants == [] ==> r == (0.0, 0.0)
    ensures grants != [] && (planYear < grants[0].vestCliffYear || planYear >= grants[0].vestingEndYear) ==> r.0 == 0.0
    ensures grants != [] && grants[0].vestCliffYear <= planYear < grants[0].vestingEndYear ==>
      r.0 == grants[0].totalValue / 4.0 * (QuartersVested(planYear, grants[0].vestCliffYear) as real) *
             ValuationMultiplier(planYear - grants[0].grantYear)
    ensures grants != [] ==> r.1 == grants[0].totalValue / 4.0 * (MaxInt(0, grants[0].vestingEndYear - planYear) as real) * 5.0
  {
    if grants == [] then (0.0, 0.0)
    else
      var g := grants[0];
      var vested :=
        if planYear >= g.vestCliffYear && planYear < g.vestingEndYear then
          g.totalValue / 4.0 * (QuartersVested(planYear, g.vestCliffYear) as real) * ValuationMultiplier(planYear - g.grantYear)
        else 0.0;
      var remaining := MaxInt(0, g.vestingEndYear - planYear);
      (vested, if remaining > 0 then g.totalValue / 4.0 * (remaining as real) * 5.0 else 0.0)
  }

  /** What vests in a year is at most five times the grant's value, and never negative. */
  lemma VestedBAtMostFiveTimesGrant(planYear: int, grants: seq<RsuGrant>)
    requires grants != [] && grants[0].CliffGrant? && grants[0].totalValue >= 0.0
    ensures 0.0 <= RsuVestingB(planYear, grants).0 <= grants[0].totalValue * 5.0
  {
    var g := grants[0];
    if g.vestCliffYear <= planYear < g.vestingEndYear {
      var quarter := g.totalValue / 4.0;
      var q := QuartersVested(planYear, g.vestCliffYear) as real;
      var m := ValuationMultiplier(planYear - g.grantYear);
      MulLeft(q, 4.0, quarter);
      MulLeft(0.0, q, quarter);
      MulLeft(m, 5.0, quarter * q);
      MulLeft(0.0, m, quarter * q);
      MulLeft(quarter * q, quarter * 4.0, 5.0);
    }
  }

  /** The 30000 grant scenario B makes in plan year 3, with its cliff a year later and its end four years later. */
  const ScenarioBGrant: RsuGrant := CliffGrant(3, 30000.0, 4, 7)

  /** The vesting schedule of that grant, year by year. */
  lemma ScenarioBSchedule()
    ensures RsuVestingB(3, [ScenarioBGrant]) == (0.0, 150000.0)
    ensures RsuVestingB(4, [ScenarioBGrant]) == (7500.0, 112500.0)
    ensures RsuVestingB(5, [ScenarioBGrant]) == (30000.0, 75000.0)
    ensures RsuVestingB(6, [ScenarioBGrant]) == (112500.0, 37500.0)
    ensures RsuVestingB(7, [ScenarioBGrant]) == (0.0, 0.0)
  {
  }

  // ----------------------------------------------------- expenses and growth

  /**
   * `calculate_international_expenses`: the location's rent, healthcare and general costs inflated as the
   * location expense function computes them, plus the retirement contribution on the salary.
   */
  function InternationalExpenses(costs: UkTax.LocationCosts, retirementRate: real, inf: real, salary: real)
    : (e: UkTax.LocationExpenses)
    ensures e.rent == UkTax.Expenses(costs, inf).rent && e.healthcare == UkTax.Expenses(costs, inf).healthcare
    ensures e.generalExpenses == UkTax.Expenses(costs, inf).generalExpenses
    ensures e.retirement == UsTax.RetirementContribution(salary, retirementRate)
    ensures UkTax.LocationExpensesTotal(e) ==
      UkTax.LocationExpensesTotal(UkTax.Expenses(costs, inf)) + UsTax.RetirementContribution(salary, retirementRate)
  {
    UkTax.LocationExpenses(
      costs.rentMonthly * 12.0 * inf,
      costs.healthcareMonthly * 12.0 * inf,
      UsTax.RetirementContribution(salary, retirementRate),
      costs.generalExpensesMonthly * 12.0 * inf)
  }

  /** What a UK allocation adds to the portfolio: every wrapper plus the LISA bonus. */
  function Contributions(a: UkTax.Allocation): real
  {
    a.lisa + a.lisaBonus + a.isa + a.sipp + a.gia
  }

  /** A year of portfolio growth: the previous value grown, the contributions added, floored at zero. */
  function GrownPortfolio(prev: real, returnRate: real, contributions: real): (r: real)
    ensures r >= 0.0
    ensures r >= prev * (1.0 + returnRate) + contributions
    ensures r == 0.0 || r == prev * (1.0 + returnRate) + contributions
  {
    Max(0.0, prev * (1.0 + returnRate) + contributions)
  }

  /** With a non-negative return and contributions a non-negative portfolio never shrinks. */
  lemma PortfolioNeverShrinks(prev: real, returnRate: real, contributions: real)
    requires prev >= 0.0 && returnRate >= 0.0 && contributions >= 0.0
    ensures GrownPortfolio(prev, returnRate, contributions) >= prev
  {
    MulLeft(1.0, 1.0 + returnRate, prev);
  }

  /**
   * Under the legacy allocation, with non-negative allowances, the UK contributions are the savings floored at
   * zero plus the LISA bonus: a year of negative savings adds nothing and takes nothing away.
   */
  lemma UkContributionsAreFlooredSavings(savings: real, cfg: UkTax.UkConfig)
    requires cfg.lisaAllowance >= 0.0
    ensures Contributions(UkTaxLegacy.InvestmentAllocation(savings, cfg)) ==
      Max(0.0, savings) + UkTaxLegacy.InvestmentAllocation(savings, cfg).lisaBonus
  {
  }

  // ---------------------------------------------------------------- currency

  /** The six figures an international year reports, in one currency. */
  datatype Comparison = Comparison(
    netWorth: real,
    grossIncome: real,
    netIncome: real,
    totalExpenses: real,
    annualSavings: real,
    cumulativeInvestments: real)

  /** `convert_to_gbp_for_comparison`: every figure divided by the USD-per-GBP rate. */
  function ConvertToGbp(usd: Comparison, rate: real): (gbp: Comparison)
    requires rate != 0.0
    ensures Common.GbpToUsd(gbp.netWorth, rate) == usd.netWorth
    ensures Common.GbpToUsd(gbp.grossIncome, rate) == usd.grossIncome
    ensures Common.GbpToUsd(gbp.netIncome, rate) == usd.netIncome
    ensures Common.GbpToUsd(gbp.totalExpenses, rate) == usd.totalExpenses
    ensures Common.GbpToUsd(gbp.annualSavings, rate) == usd.annualSavings
    ensures Common.GbpToUsd(gbp.cumulativeInvestments, rate) == usd.cumulativeInvestments
  {
    Comparison(
      Common.UsdToGbp(usd.netWorth, rate),
      Common.UsdToGbp(usd.grossIncome, rate),
      Common.UsdToGbp(usd.netIncome, rate),
      Common.UsdToGbp(usd.totalExpenses, rate),
      Common.UsdToGbp(usd.annualSavings, rate),
      Common.UsdToGbp(usd.cumulativeInvestments, rate))
  }
}

=== FILE: scenario_selector.dfy ===
/** The scenario filters of the selector sidebar: template filters over the enriched metadata and the quick filters on scenario ids. */
module ScenarioSelector {
  import opened Base

  /** The part of a scenario's enriched metadata the filters read; a missing key is `None` or empty. */
  datatype Metadata = Metadata(name: Option<string>, phaseType: Option<string>, templateTypes: seq<string>)

  /** The four template filters of the session; "all" switches a filter off. */
  datatype TemplateFilters = TemplateFilters(phase: string, jurisdiction: string, templateType: string, validation: string)

  const All: string := "all"

  /** The list comprehension `[s for s in xs if keep(s)]`. */
  function Where(xs: seq<string>, keep: string -> bool): (r: seq<string>)
    ensures |r| <= |xs|
    ensures forall s :: s in r <==> s in xs && keep(s)
  {
    if xs == [] then []
    else Where(xs[..|xs| - 1], keep) + (if keep(xs[|xs| - 1]) then [xs[|xs| - 1]] else [])
  }

  /** `a` is `b` with some elements dropped and the rest in their order. */
  predicate Subsequence(a: seq<string>, b: seq<string>)
    decreases |b|
  {
    if a == [] then true
    else if b == [] then false
    else (a[|a| - 1] == b[|b| - 1] && Subsequence(a[..|a| - 1], b[..|b| - 1])) || Subsequence(a, b[..|b| - 1])
  }

  /** A filter keeps the survivors in their original order. */
  lemma {:induction false} WhereIsSubsequence(xs: seq<string>, keep: string -> bool)
    ensures Subsequence(Where(xs, keep), xs)
  {
    if xs != [] {
      var init := xs[..|xs| - 1];
      WhereIsSubsequence(init, keep);
      if keep(xs[|xs| - 1]) {
        var r := Where(xs, keep);
        assert r[..|r| - 1] == Where(init, keep);
      } else {
        assert Where(xs, keep) == Where(init, keep);
        if Where(xs, keep) != [] {
          assert Subsequence(Where(xs, keep), xs);
        }
      }
    }
  }

  /** A filter keeps every copy of a value it admits, so duplicates survive. */
  lemma {:induction false} WhereKeepsCopies(xs: seq<string>, keep: string -> bool, s: string)
    requires keep(s)
    ensures multiset(Where(xs, keep))[s] == multiset(xs)[s]
  {
    if xs != [] {
      var init, last := xs[..|xs| - 1], xs[|xs| - 1];
      WhereKeepsCopies(init, keep, s);
      assert init + [last] == xs;
      assert multiset(xs) == multiset(init) + multiset{last};
      assert Where(xs, keep) == Where(init, keep) + (if keep(last) then [last] else []);
    }
  }

  /** A filter that keeps everything is the identity. */
  lemma {:induction false} WhereAll(xs: seq<string>, keep: string -> bool)
    requires forall i :: 0 <= i < |xs| ==> keep(xs[i])
    ensures Where(xs, keep) == xs
  {
    if xs != [] {
      var init, last := xs[..|xs| - 1], xs[|xs| - 1];
      assert forall i :: 0 <= i < |init| ==> init[i] == xs[i];
      WhereAll(init, keep);
      assert Where(xs, keep) == Where(init, keep) + [last];
      assert init + [last] == xs;
    }
  }

  function MetadataOf(meta: map<string, Metadata>, id: string): Metadata
  {
    if id in meta then meta[id] else Metadata(None, None, [])
  }

  /** `_matches_jurisdiction_filter`: substring tests on the lower-cased display name (the id when there is none). */
  predicate MatchesJurisdiction(id: string, meta: map<string, Metadata>, filter: string)
  {
    var name := Lower(MetadataOf(meta, id).name.GetOr(id));
    if filter == "UK" then Contains(name, "uk") && !Contains(name, "year")
    else if filter == "US" then Contains(name, "seattle") || Contains(name, "new_york")
    else if filter == "UAE" then Contains(name, "dubai")
    else if filter == "Multi-jurisdiction" then Contains(name, "year")
    else true
  }

  /** UK and multi-jurisdiction are disjoint: a name with "year" is multi-phase, never UK-only. */
  lemma JurisdictionUkExcludesMulti(id: string, meta: map<string, Metadata>)
    ensures !(MatchesJurisdiction(id, meta, "UK") && MatchesJurisdiction(id, meta, "Multi-jurisdiction"))
    ensures MatchesJurisdiction(id, meta, "UAE") <==> Contains(Lower(MetadataOf(meta, id).name.GetOr(id)), "dubai")
    ensures forall f :: f !in {"UK", "US", "UAE", "Multi-jurisdiction"} ==> MatchesJurisdiction(id, meta, f)
  {
  }

  /** `_matches_validation_filter`; `validation[id]` is the `valid` flag of a scenario, `None` when the key is absent. */
  predicate MatchesValidation(id: string, validation: map<string, Option<bool>>, filter: string)
  {
    var valid := if id in validation then validation[id] else None;
    if filter == "valid_only" then valid.GetOr(false)
    else if filter == "invalid_only" then !valid.GetOr(true)
    else if filter == "unknown" then valid.None?
    else true
  }

  /** Each scenario passes exactly one of the three validation filters; a scenario with no status passes only "unknown". */
  lemma ValidationFiltersPartition(id: string, validation: map<string, Option<bool>>)
    ensures (MatchesValidation(id, validation, "valid_only") && !MatchesValidation(id, validation, "invalid_only")
               && !MatchesValidation(id, validation, "unknown"))
      || (!MatchesValidation(id, validation, "valid_only") && MatchesValidation(id, validation, "invalid_only")
               && !MatchesValidation(id, validation, "unknown"))
      || (!MatchesValidation(id, validation, "valid_only") && !MatchesValidation(id, validation, "invalid_only")
               && MatchesValidation(id, validation, "unknown"))
    ensures id !in validation ==> MatchesValidation(id, validation, "unknown")
  {
  }

  predicate MatchesPhase(id: string, meta: map<string, Metadata>, filter: string)
  {
    MetadataOf(meta, id).phaseType.GetOr("Unknown") == filter
  }

  predicate MatchesTemplateType(id: string, meta: map<string, Metadata>, filter: string)
  {
    filter in MetadataOf(meta, id).templateTypes
  }

  /** Whether a scenario survives every active template filter. */
  predicate PassesTemplateFilters(id: string, meta: map<string, Metadata>, validation: map<string, Option<bool>>, f: TemplateFilters)
  {
    && (f.phase == All || MatchesPhase(id, meta, f.phase))
    && (f.jurisdiction == All || MatchesJurisdiction(id, meta, f.jurisdiction))
    && (f.templateType == All || MatchesTemplateType(id, meta, f.templateType))
    && (f.validation == All || MatchesValidation(id, validation, f.validation))
  }

  /** The filters of `apply_template_filters`, numbered in the order they run. */
  const PhaseFilter: nat := 0
  const JurisdictionFilter: nat := 1
  const TemplateTypeFilter: nat := 2
  const ValidationFilter: nat := 3

  /** Whether filter `n` is switched off ("all"). */
  predicate FilterOff(f: TemplateFilters, n: nat)
  {
    (if n == PhaseFilter then f.phase
     else if n == JurisdictionFilter then f.jurisdiction
     else if n == TemplateTypeFilter then f.templateType
     else f.validation) == All
  }

  /** The test of filter `n`. */
  predicate FilterMatches(id: string, meta: map<string, Metadata>, validation: map<string, Option<bool>>, f: TemplateFilters, n: nat)
  {
    if n == PhaseFilter then MatchesPhase(id, meta, f.phase)
    else if n == JurisdictionFilter then MatchesJurisdiction(id, meta, f.jurisdiction)
    else if n == TemplateTypeFilter then MatchesTemplateType(id, meta, f.templateType)
    else MatchesValidation(id, validation, f.validation)
  }

  /** Whether a scenario survives the first `n` filters, a filter that is off letting everything through. */
  predicate PassesFirst(id: string, meta: map<string, Metadata>, validation: map<string, Option<bool>>, f: TemplateFilters, n: nat)
  {
    n == 0 || (PassesFirst(id, meta, validation, f, n - 1) && (FilterOff(f, n - 1) || FilterMatches(id, meta, validation, f, n - 1)))
  }

  lemma PassesAllFour(id: string, meta: map<string, Metadata>, validation: map<string, Option<bool>>, f: TemplateFilters)
    ensures PassesFirst(id, meta, validation, f, 4) == PassesTemplateFilters(id, meta, validation, f)
  {
    assert PassesFirst(id, meta, validation, f, 1) == (f.phase == All || MatchesPhase(id, meta, f.phase));
    assert PassesFirst(id, meta, validation, f, 2) ==
      (PassesFirst(id, meta, validation, f, 1) && (f.jurisdiction == All || MatchesJurisdiction(id, meta, f.jurisdiction)));
    assert PassesFirst(id, meta, validation, f, 3) ==
      (PassesFirst(id, meta, validation, f, 2) && (f.templateType == All || MatchesTemplateType(id, meta, f.templateType)));
  }

  /** One filter's comprehension: the scenarios of `xs` that filter `n` matches, in order. */
  function FilterStage(xs: seq<string>, meta: map<string, Metadata>, validation: map<string, Option<bool>>, f: TemplateFilters,
                       n: nat): (r: seq<string>)
    ensures forall s :: s in r <==> s in xs && FilterMatches(s, meta, validation, f, n)
  {
    if xs == [] then []
    else
      var last := xs[|xs| - 1];
      FilterStage(xs[..|xs| - 1], meta, validation, f, n) + (if FilterMatches(last, meta, validation, f, n) then [last] else [])
  }

  /** The scenarios of `xs` that survive the first `n` filters, in order. */
  function Survivors(xs: seq<string>, meta: map<string, Metadata>, validation: map<string, Option<bool>>, f: TemplateFilters,
                     n: nat): seq<string>
  {
    if xs == [] then []
    else
      var last := xs[|xs| - 1];
      Survivors(xs[..|xs| - 1], meta, validation, f, n) + (if PassesFirst(last, meta, validation, f, n) then [last] else [])
  }

  lemma {:induction false} SurvivorsOfNone(xs: seq<string>, meta: map<string, Metadata>, validation: map<string, Option<bool>>,
                                           f: TemplateFilters)
    ensures Survivors(xs, meta, validation, f, 0) == xs
  {
    if xs != [] {
      SurvivorsOfNone(xs[..|xs| - 1], meta, validation, f);
      assert xs[..|xs| - 1] + [xs[|xs| - 1]] == xs;
    }
  }

  /** Running filter `n` (when it is on) over the survivors of the filters before it leaves the survivors of the first `n + 1`. */
  lemma {:induction false} SurvivorsStep(xs: seq<string>, meta: map<string, Metadata>, validation: map<string, Option<bool>>,
                                         f: TemplateFilters, n: nat)
    ensures Survivors(xs, meta, validation, f, n + 1) ==
      if FilterOff(f, n) then Survivors(xs, meta, validation, f, n)
      else FilterStage(Survivors(xs, meta, validation, f, n), meta, validation, f, n)
  {
    if xs != [] {
      var init := xs[..|xs| - 1];
      var last := xs[|xs| - 1];
      SurvivorsStep(init, meta, validation, f, n);
      var before := Survivors(xs, meta, validation, f, n);
      if PassesFirst(last, meta, validation, f, n) {
        assert before[..|before| - 1] == Survivors(init, meta, validation, f, n);
      } else {
        assert before == Survivors(init, meta, validation, f, n);
      }
    }
  }

  /** The survivors of all four filters are the scenarios that pass the template filters. */
  lemma {:induction false} SurvivorsOfAll(xs: seq<string>, meta: map<string, Metadata>, validation: map<string, Option<bool>>,
                                          f: TemplateFilters)
    ensures Survivors(xs, meta, validation, f, 4) == Where(xs, s => PassesTemplateFilters(s, meta, validation, f))
  {
    if xs != [] {
      SurvivorsOfAll(xs[..|xs| - 1], meta, validation, f);
      PassesAllFour(xs[|xs| - 1], meta, validation, f);
    }
  }

  /** `apply_template_filters`: the phase, jurisdiction, template type and validation filters in turn, each skipped when "all". */
  method ApplyTemplateFilters(allScenarios: seq<string>, meta: map<string, Metadata>, validation: map<string, Option<bool>>,
                              f: TemplateFilters) returns (filtered: seq<string>)
    ensures filtered == Where(allScenarios, s => PassesTemplateFilters(s, meta, validation, f))
  {
    filtered := allScenarios;
    SurvivorsOfNone(allScenarios, meta, validation, f);
    SurvivorsStep(allScenarios, meta, validation, f, PhaseFilter);
    assert FilterOff(f, PhaseFilter) == (f.phase == All);
    if f.phase != All {
      filtered := FilterStage(filtered, meta, validation, f, PhaseFilter);
    }
    assert filtered == Survivors(allScenarios, meta, validation, f, 1);
    SurvivorsStep(allScenarios, meta, validation, f, JurisdictionFilter);
    assert FilterOff(f, JurisdictionFilter) == (f.jurisdiction == All);
    if f.jurisdiction != All {
      filtered := FilterStage(filtered, meta, validation, f, JurisdictionFilter);
    }
    assert filtered == Survivors(allScenarios, meta, validation, f, 2);
    SurvivorsStep(allScenarios, meta, validation, f, TemplateTypeFilter);
    assert FilterOff(f, TemplateTypeFilter) == (f.templateType == All);
    if f.templateType != All {
      filtered := FilterStage(filtered, meta, validation, f, TemplateTypeFilter);
    }
    assert filtered == Survivors(allScenarios, meta, validation, f, 3);
    SurvivorsStep(allScenarios, meta, validation, f, ValidationFilter);
    assert FilterOff(f, ValidationFilter) == (f.validation == All);
    if f.validation != All {
      filtered := FilterStage(filtered, meta, validation, f, ValidationFilter);
    }
    assert filtered == Survivors(allScenarios, meta, validation, f, 4);
    SurvivorsOfAll(allScenarios, meta, validation, f);
  }

  /** The template filters keep an order-preserving subsequence of the scenarios, and with every filter "all" they keep them all. */
  lemma TemplateFiltersKeepOrder(allScenarios: seq<string>, meta: map<string, Metadata>, validation: map<string, Option<bool>>,
                                 f: TemplateFilters)
    ensures Subsequence(Where(allScenarios, s => PassesTemplateFilters(s, meta, validation, f)), allScenarios)
    ensures f == TemplateFilters(All, All, All, All) ==>
      Where(allScenarios, s => PassesTemplateFilters(s, meta, validation, f)) == allScenarios
  {
    WhereIsSubsequence(allScenarios, s => PassesTemplateFilters(s, meta, validation, f));
    if f == TemplateFilters(All, All, All, All) {
      WhereAll(allScenarios, s => PassesTemplateFilters(s, meta, validation, f));
    }
  }

  // ------------------------------------------------------------ quick filters

  /** The quick filter flags of the session. */
  datatype QuickFilters = QuickFilters(ukOnly: bool, internationalOnly: bool, taxFreeOnly: bool, delayedRelocationOnly: bool)

  predicate IsUk(id: string) { Contains(Lower(id), "uk") }
  predicate IsInternational(id: string)
  {
    var l := Lower(id);
    Contains(l, "seattle") || Contains(l, "new_york") || Contains(l, "dubai")
  }
  predicate IsTaxFree(id: string) { Contains(Lower(id), "dubai") }
  predicate IsDelayed(id: string) { Contains(Lower(id), "year") }

  /** Whether the quick filters let a scenario id through. */
  predicate QuickAdmits(id: string, q: QuickFilters)
  {
    || q == QuickFilters(false, false, false, false)
    || (q.ukOnly && IsUk(id)) || (q.internationalOnly && IsInternational(id))
    || (q.taxFreeOnly && IsTaxFree(id)) || (q.delayedRelocationOnly && IsDelayed(id))
  }

  /** The scenario ids the quick filters admit, before duplicates are dropped: each active flag's matches, in flag order, or every scenario when no flag is set. */
  function QuickFiltered(allScenarios: seq<string>, q: QuickFilters): (r: seq<string>)
    ensures forall s :: (s in r <==> (s in allScenarios && QuickAdmits(s, q)))
  {
    if q == QuickFilters(false, false, false, false) then allScenarios
    else
      (if q.ukOnly then Where(allScenarios, IsUk) else [])
        + (if q.internationalOnly then Where(allScenarios, IsInternational) else [])
        + (if q.taxFreeOnly then Where(allScenarios, IsTaxFree) else [])
        + (if q.delayedRelocationOnly then Where(allScenarios, IsDelayed) else [])
  }

  /** The set of admitted scenario ids. */
  function Admitted(allScenarios: seq<string>, q: QuickFilters): (r: set<string>)
    ensures forall s :: s in r <==> s in allScenarios && QuickAdmits(s, q)
    ensures r == {} <==> QuickFiltered(allScenarios, q) == []
  {
    var r := set s | s in QuickFiltered(allScenarios, q);
    assert QuickFiltered(allScenarios, q) != [] ==> QuickFiltered(allScenarios, q)[0] in r;
    r
  }

  /** The scenarios of a selection that are in `admitted`, in selection order. */
  function Kept(selected: seq<string>, admitted: set<string>): (r: seq<string>)
    ensures forall s :: s in r <==> s in selected && s in admitted
    ensures Subsequence(r, selected)
    ensures forall s :: s in admitted ==> multiset(r)[s] == multiset(selected)[s]
  {
    WhereIsSubsequence(selected, s => s in admitted);
    forall s | s in admitted
      ensures multiset(Where(selected, s => s in admitted))[s] == multiset(selected)[s]
    {
      WhereKeepsCopies(selected, s => s in admitted, s);
    }
    Where(selected, s => s in admitted)
  }

  /**
   * `apply_quick_filters`: keeps the current selection's scenarios that the filters admit; when none remain it selects one
   * admitted scenario, which one depending on the iteration order of a Python set, so any admitted scenario may be chosen.
   */
  method ApplyQuickFilters(allScenarios: seq<string>, q: QuickFilters, currentSelected: seq<string>) returns (newSelected: seq<string>)
    ensures var admitted := Admitted(allScenarios, q);
      && (Kept(currentSelected, admitted) != [] ==> newSelected == Kept(currentSelected, admitted))
      && (Kept(currentSelected, admitted) == [] && admitted != {} ==> |newSelected| == 1 && newSelected[0] in admitted)
      && (admitted == {} ==> newSelected == [])
  {
    var admitted := Admitted(allScenarios, q);
    newSelected := Kept(currentSelected, admitted);
    if newSelected != [] {
      assert newSelected[0] in newSelected;
    }
    if newSelected == [] && admitted != {} {
      var first :| first in admitted;
      newSelected := [first];
    }
  }

  /** The new selection only holds admitted scenarios, and is empty only when the filters admit nothing. */
  lemma QuickSelectionAdmitted(allScenarios: seq<string>, q: QuickFilters, currentSelected: seq<string>, newSelected: seq<string>)
    requires var admitted := Admitted(allScenarios, q);
      && (Kept(currentSelected, admitted) != [] ==> newSelected == Kept(currentSelected, admitted))
      && (Kept(currentSelected, admitted) == [] && admitted != {} ==> |newSelected| == 1 && newSelected[0] in admitted)
      && (admitted == {} ==> newSelected == [])
    ensures forall s :: s in newSelected ==> s in allScenarios
    ensures newSelected == [] <==> QuickFiltered(allScenarios, q) == []
    ensures q == QuickFilters(false, false, false, false) && allScenarios != [] ==> newSelected != []
  {
    var admitted := Admitted(allScenarios, q);
    var kept := Kept(currentSelected, admitted);
    forall s | s in newSelected
      ensures s in allScenarios
    {
      if kept == [] {
        assert s == newSelected[0];
      }
    }
    if kept != [] {
      assert kept[0] in kept;
    }
  }
}

=== FILE: tax_utils.dfy ===
/** Tax by location, the tax breakdown in the unified model, and the location-independent goal costs. */
module TaxUtils {
  import opened Base
  import UkTax
  import UsTax
  import UaeTax
  import Goals
  import UkTaxLegacy
  import opened UnifiedData
  import PerfOpt

  /** Income tax, social security (National Insurance or FICA) and the total including the student loan. */
  datatype LocationTax = LocationTax(incomeTax: real, socialSecurity: real, totalTax: real)

  /** The 2025 FICA used to split the US total: no additional Medicare. */
  function FicaSplit(gross: real): real
  {
    Min(gross, 176100.0) * 0.062 + gross * 0.0145
  }

  /**
   * `calculate_tax_for_location`: the UK and US figures come from their own tax rules, Dubai has no tax,
   * and every location, known or not, adds the Plan 2 student-loan repayment to the total.
   */
  function TaxForLocation(gross: real, location: string, year: int, cfg: UkTax.UkConfig, loanBalance: real): (r: LocationTax)
    ensures location == "UK" ==>
      r.incomeTax == UkTax.TaxAndNi(gross, year, cfg).0 && r.socialSecurity == UkTax.NationalInsurance(gross, cfg)
    ensures location == "seattle" ==>
      r.socialSecurity == FicaSplit(gross) && r.incomeTax == UsTax.UsTax(gross, "us_federal_state") - FicaSplit(gross)
    ensures location == "new_york" ==>
      r.socialSecurity == FicaSplit(gross) && r.incomeTax == UsTax.UsTax(gross, "us_federal_state_city") - FicaSplit(gross)
    ensures location !in {"UK", "seattle", "new_york"} ==> r.incomeTax == 0.0 && r.socialSecurity == 0.0
    ensures r.totalTax == r.incomeTax + r.socialSecurity + UkTax.LoanRepayment(gross, cfg.studentLoan)
  {
    var repayment := UkTax.StudentLoan(gross, loanBalance, cfg.studentLoan).0;
    if location == "UK" then
      var (incomeTax, ni) := UkTax.TaxAndNi(gross, year, cfg);
      LocationTax(incomeTax, ni, incomeTax + ni + repayment)
    else if location == "seattle" || location == "new_york" then
      var taxSystem := if location == "seattle" then "us_federal_state" else "us_federal_state_city";
      var total := UsTax.UsTax(gross, taxSystem);
      var fica := FicaSplit(gross);
      LocationTax(total - fica, fica, total + repayment)
    else if location == "dubai" then
      LocationTax(0.0, 0.0, UaeTax.IncomeTax(gross) + repayment)
    else
      LocationTax(0.0, 0.0, repayment)
  }

  /**
   * Up to the additional-Medicare threshold the US split puts exactly the US tax rules' FICA in social
   * security, so the income-tax part is federal (and New York) income tax alone.
   */
  lemma UsSplitSeparatesFica(gross: real, location: string, year: int, cfg: UkTax.UkConfig, loanBalance: real)
    requires location == "seattle" || location == "new_york"
    requires gross <= 200000.0
    ensures TaxForLocation(gross, location, year, cfg, loanBalance).socialSecurity == UsTax.Fica(gross)
    ensures location == "seattle" ==>
      TaxForLocation(gross, location, year, cfg, loanBalance).incomeTax == UsTax.FederalTax(UsTax.FederalTaxable(gross))
  {
  }

  /** The student loan is owed in Dubai too: its total is the repayment alone. */
  lemma DubaiPaysOnlyTheLoan(gross: real, year: int, cfg: UkTax.UkConfig, loanBalance: real)
    ensures TaxForLocation(gross, "dubai", year, cfg, loanBalance).totalTax == UkTax.LoanRepayment(gross, cfg.studentLoan)
    ensures gross <= cfg.studentLoan.threshold ==> TaxForLocation(gross, "dubai", year, cfg, loanBalance).totalTax == 0.0
  {
  }

  /** The default exchange rate for international locations without one in the configuration. */
  const DefaultExchangeRate: real := 1.26

  /** The currency and rate the breakdown is expressed in: GBP at 1 unless the location is one of the three abroad. */
  function BreakdownCurrency(location: string, exchangeRates: map<string, real>): (r: (Currency, real))
    ensures location in {"seattle", "new_york", "dubai"} ==>
      r.0 == USD && r.1 == (if location in exchangeRates then exchangeRates[location] else DefaultExchangeRate)
    ensures location !in {"seattle", "new_york", "dubai"} ==> r == (GBP, 1.0)
  {
    if location == "UK" then (GBP, 1.0)
    else if location in {"seattle", "new_york", "dubai"} then
      (USD, if location in exchangeRates then exchangeRates[location] else DefaultExchangeRate)
    else (GBP, 1.0)
  }

  /** `optimize_currency_value_creation` without its timing and caching, which do not change its answer. */
  function ToCurrencyValue(value: real, currency: Currency, exchangeRate: real): Result<CurrencyValue, string>
  {
    PerfOpt.ConvertCurrency(PerfOpt.ConversionArgs(value, currency, GBP, exchangeRate))
  }

  /** The four tax lines in the breakdown's currency; the same conversion serves all four, so they fail together. */
  function BreakdownOf(t: LocationTax, currency: Currency, rate: real): (r: Result<TaxExpenses, string>)
    ensures r.Err? <==> currency != GBP && rate == 0.0
    ensures r.Ok? ==>
      r.value.incomeTax.value == t.incomeTax && r.value.socialSecurity.value == t.socialSecurity &&
      r.value.propertyTax.value == 0.0 && r.value.otherTaxes.value == t.totalTax - t.incomeTax - t.socialSecurity
    ensures r.Ok? && currency == USD ==> TaxExpensesGbp(r.value) * rate == t.totalTax
    ensures r.Ok? && currency == GBP ==> TaxExpensesGbp(r.value) == t.totalTax
    ensures r.Ok? && (currency == USD || (currency == GBP && rate == 1.0)) ==> TaxExpensesGbp(r.value) * rate == t.totalTax
  {
    var propertyTax := 0.0;
    var otherTaxes := t.totalTax - t.incomeTax - t.socialSecurity - propertyTax;
    var it := ToCurrencyValue(t.incomeTax, currency, rate);
    var ss := ToCurrencyValue(t.socialSecurity, currency, rate);
    var pt := ToCurrencyValue(propertyTax, currency, rate);
    var ot := ToCurrencyValue(otherTaxes, currency, rate);
    if it.Err? then Err(it.error)
    else
      var b := TaxExpenses(it.value, ss.value, pt.value, ot.value);
      assert currency == USD ==> TaxExpensesGbp(b) * rate == t.totalTax by {
        if currency == USD {
          calc {
            TaxExpensesGbp(b) * rate;
            b.incomeTax.gbpValue * rate + b.socialSecurity.gbpValue * rate + b.propertyTax.gbpValue * rate + b.otherTaxes.gbpValue * rate;
            t.totalTax;
          }
        }
      }
      Ok(b)
  }

  /**
   * `get_tax_breakdown_for_location`: the location's taxes as a `TaxExpenses`, with no property tax, so that
   * the "other taxes" line is exactly the student-loan repayment (the GBP lines then add up to the total
   * converted at the location's rate, by `BreakdownOf`). A zero rate for a location abroad raises in the conversion.
   */
  function TaxBreakdownForLocation(gross: real, location: string, year: int, cfg: UkTax.UkConfig, loanBalance: real,
                                   exchangeRates: map<string, real>): (r: Result<TaxExpenses, string>)
    ensures r.Err? <==> BreakdownCurrency(location, exchangeRates).0 == USD && BreakdownCurrency(location, exchangeRates).1 == 0.0
    ensures r.Ok? ==>
      var t := TaxForLocation(gross, location, year, cfg, loanBalance);
      r.value.incomeTax.value == t.incomeTax && r.value.socialSecurity.value == t.socialSecurity &&
      r.value.propertyTax.value == 0.0 && r.value.otherTaxes.value == UkTax.LoanRepayment(gross, cfg.studentLoan)
  {
    var cr := BreakdownCurrency(location, exchangeRates);
    var t := TaxForLocation(gross, location, year, cfg, loanBalance);
    assert t.totalTax - t.incomeTax - t.socialSecurity == UkTax.LoanRepayment(gross, cfg.studentLoan);
    BreakdownOf(t, cr.0, cr.1)
  }

  /** `get_tax_multiplier_for_location`: none in Dubai, 1.2 in the two US cities, 1 elsewhere. */
  function TaxMultiplier(location: string): (r: real)
    ensures location == "dubai" ==> r == 0.0
    ensures location in {"seattle", "new_york"} ==> r == 1.2
    ensures location !in {"dubai", "seattle", "new_york"} ==> r == 1.0
  {
    if location == "dubai" then 0.0
    else if location == "seattle" || location == "new_york" then 1.2
    else 1.0
  }

  /** The goal costs that apply wherever the plan is living. */
  datatype UniversalGoals = UniversalGoals(universityPayment: real, marriage: real, child: real, personal: real, parentalSupport: real, travel: real)

  function UniversalGoalsTotal(g: UniversalGoals): real
  {
    g.universityPayment + g.marriage + g.child + g.personal + g.parentalSupport + g.travel
  }

  /** `calculate_universal_goals`: each goal line of the year, with the same rules as the legacy UK expenses. */
  function CalculateUniversalGoals(planYear: int, cfg: Goals.GoalConfig, inf: real): (g: UniversalGoals)
    ensures g.universityPayment == Goals.UniversityPayment(planYear, cfg)
    ensures g.marriage == Goals.Marriage(planYear, cfg)
    ensures g.child == Goals.Child(planYear, cfg, inf)
    ensures g.personal == Goals.Personal(planYear, cfg, inf)
    ensures g.parentalSupport == Goals.ParentalSupport(planYear, cfg, inf)
    ensures g.travel == cfg.annualTravel * inf
  {
    UniversalGoals(
      Goals.UniversityPayment(planYear, cfg),
      Goals.Marriage(planYear, cfg),
      Goals.Child(planYear, cfg, inf),
      Goals.Personal(planYear, cfg, inf),
      Goals.ParentalSupport(planYear, cfg, inf),
      Goals.Travel(cfg, inf))
  }

  /** The legacy UK expenses are the universal goals plus rent, line for line. */
  lemma UniversalGoalsPlusRentIsUkExpenses(planYear: int, cfg: Goals.GoalConfig, inf: real)
    ensures var uk := UkTaxLegacy.Expenses(planYear, cfg, inf);
      UkTaxLegacy.UkExpensesTotal(uk) == UniversalGoalsTotal(CalculateUniversalGoals(planYear, cfg, inf)) + uk.rent
  {
  }
}

=== FILE: template_calc.dfy ===
/** The generic calculation engine: one plan year of income, expenses, housing and investments from phase templates. */
module TemplateCalc {
  import opened Base
  import opened Rates
  import opened Phases
  import opened UnifiedData
  import opened UnifiedHelpers
  import Common

  // ------------------------------------------------------------- typed templates

  /** A salary progression: an explicit list (with a growth fallback after its end) or growth from a base salary. */
  datatype Progression =
    | ExplicitArray(salaryByYear: seq<real>, fallbackGrowth: Option<real>)
    | PercentageGrowth(baseSalary: real, growthByYear: RateTable)

  /** A bonus or equity section: a share of salary by year, or any other type (which pays nothing). */
  datatype Component = PercentageOfSalary(ratesByYear: RateTable) | OtherComponent

  /** An equity event; only `ipo_multiplier` events in their own year have an effect. */
  datatype EquityEvent = EquityEvent(year: Option<int>, kind: Option<string>, multiplier: real)

  datatype SalaryTemplate = SalaryTemplate(progression: Progression, bonus: Component, equity: Component, events: seq<EquityEvent>)

  /** An expense adjustment; absent keys take the source's defaults (income share 0, lifestyle factor 1). */
  datatype Adjustment = Adjustment(incomePercentage: real, lifestyleFactor: real)

  /** An expense profile: monthly and annual amounts, and `adjustments_by_year` in file order (empty when absent). */
  datatype ExpenseTemplate = ExpenseTemplate(monthly: seq<real>, annual: seq<real>, adjustments: seq<(string, Adjustment)>)

  datatype Purchase = Purchase(
    targetYear: int, propertyPrice: real, depositPercentage: real, purchaseFeesPct: real,
    mortgageRate: real, mortgageTermYears: nat)

  /** A housing strategy: renting, or buying in a target year (renting until then). */
  datatype HousingTemplate = Rent(monthlyRent: real) | Buy(monthlyRent: real, purchase: Purchase)

  datatype CareerStage = EarlyCareer | MidCareer | LateCareer

  datatype InvestmentTemplate = InvestmentTemplate(
    percentageOfIncome: real,
    minimumMonthly: Option<real>,
    maximumMonthly: Option<real>,
    earlyRetirementPct: real, midRetirementPct: real, lateRetirementPct: real)

  /** The templates a phase hands to the calculation. */
  datatype CalcTemplates = CalcTemplates(
    salary: SalaryTemplate, expenses: ExpenseTemplate, housing: HousingTemplate,
    taxSystemId: string, investment: Option<InvestmentTemplate>)

  /** What the tax calculation reports for a year. */
  datatype TaxFigures = TaxFigures(income: real, social: real, other: real, total: real)

  datatype Income = Income(salary: real, bonus: real, equity: real, total: real)

  datatype HousingCost = HousingCost(cost: real, purchased: bool, equity: real, price: Option<real>)

  datatype Investments = Investments(total: real, retirement: real, taxable: real)

  // ------------------------------------------------------------- income

  /** The salary of a plan year under a percentage-growth progression: each later year's rate, when non-zero, compounds. */
  function GrownSalary(base: real, growth: RateTable, year: int): Result<real, string>
    requires year >= 1
    decreases year
  {
    if year == 1 then Ok(base)
    else
      var prev := GrownSalary(base, growth, year - 1);
      var rate := GetRate(year, growth, None);
      if prev.Err? then prev
      else if rate.Err? then Err(rate.error)
      else if rate.value.Some? && rate.value.value != 0.0 then Ok(Grow(prev.value, rate.value.value))
      else prev
  }

  /** One year's growth at `rate`. */
  function Grow(amount: real, rate: real): real
  {
    amount * (1.0 + rate)
  }

  /** The base salary of a plan year: the listed salary, or the last listed one grown at the fallback rate. */
  function SalaryFor(year: int, prog: Progression): (r: Result<real, string>)
    requires year >= 1
    ensures prog.ExplicitArray? && year <= |prog.salaryByYear| ==> r == Ok(prog.salaryByYear[year - 1])
    ensures prog.ExplicitArray? && prog.salaryByYear == [] ==> r.Err?
  {
    match prog
    case ExplicitArray(list, fallback) =>
      if year <= |list| then Ok(list[year - 1])
      else if list == [] || fallback.None? then Err("KeyError")
      else Ok(list[|list| - 1] * Pow(1.0 + fallback.value, year - |list|))
    case PercentageGrowth(base, growth) => GrownSalary(base, growth, year)
  }

  /** With non-negative growth rates, a grown salary never falls below its base. */
  lemma {:induction false} GrowthNeverLowersSalary(base: real, growth: RateTable, year: int)
    requires year >= 1 && base >= 0.0
    requires growth.RateList? ==> forall i :: 0 <= i < |growth.list| ==> growth.list[i] >= 0.0
    requires growth.RateDict? ==> forall i :: 0 <= i < |growth.entries| ==> growth.entries[i].1 >= 0.0
    requires GrownSalary(base, growth, year).Ok?
    ensures GrownSalary(base, growth, year).value >= base
    decreases year
  {
    if year > 1 {
      GrowthNeverLowersSalary(base, growth, year - 1);
      var prev := GrownSalary(base, growth, year - 1).value;
      var rate := GetRate(year, growth, None).value;
      if rate.Some? {
        RateIsFromTable(year, growth);
        MulLeft(1.0, 1.0 + rate.value, prev);
      }
    }
  }

  /** A rate found in a table is one of the table's rates. */
  lemma RateIsFromTable(year: int, growth: RateTable)
    requires year >= 1
    requires GetRate(year, growth, None).Ok? && GetRate(year, growth, None).value.Some?
    ensures growth.RateList? ==> GetRate(year, growth, None).value.value == growth.list[year - 1]
    ensures growth.RateDict? ==> exists i :: 0 <= i < |growth.entries| && GetRate(year, growth, None).value.value == growth.entries[i].1
  {
    if growth.RateDict? {
      FirstRateIsAnEntry(growth.entries, year);
    }
  }

  lemma {:induction false} FirstRateIsAnEntry(entries: seq<(RateKey, real)>, year: int)
    requires FirstRate(entries, year, None).Ok? && FirstRate(entries, year, None).value.Some?
    ensures exists i :: 0 <= i < |entries| && FirstRate(entries, year, None).value.value == entries[i].1
  {
    if entries != [] && KeyMatches(entries[0].0, year) == Ok(false) {
      FirstRateIsAnEntry(entries[1..], year);
      var i :| 0 <= i < |entries[1..]| && FirstRate(entries[1..], year, None).value.value == entries[1..][i].1;
      assert entries[1..][i] == entries[i + 1];
    }
  }

  /** Once a year's growth rate cannot be read, no later year's salary can be computed. */
  lemma {:induction false} GrowthErrorPersists(base: real, growth: RateTable, y: int, year: int)
    requires 1 <= y <= year && GrownSalary(base, growth, y).Err?
    ensures GrownSalary(base, growth, year).Err?
    decreases year - y
  {
    if y < year {
      assert GrownSalary(base, growth, y + 1).Err?;
      GrowthErrorPersists(base, growth, y + 1, year);
    }
  }

  /** Past the end of an explicit list the salary compounds from the last listed one. */
  lemma ExplicitFallbackCompounds(list: seq<real>, growth: real, year: int)
    requires list != [] && year > |list|
    ensures SalaryFor(year + 1, ExplicitArray(list, Some(growth))).value ==
      SalaryFor(year, ExplicitArray(list, Some(growth))).value * (1.0 + growth)
  {
    var last := list[|list| - 1];
    var n := year - |list|;
    assert Pow(1.0 + growth, n + 1) == (1.0 + growth) * Pow(1.0 + growth, n);
  }

  /** `_calc_percentage_component`: salary times the year's rate (0 when none applies) for a share of salary, else 0. */
  function PercentageComponent(salary: real, year: int, c: Component): (r: Result<real, string>)
    requires year >= 1
    ensures c.OtherComponent? ==> r == Ok(0.0)
    ensures c.PercentageOfSalary? && c.ratesByYear.RateList? && year <= |c.ratesByYear.list| ==>
      r.Ok? && r.value == salary * c.ratesByYear.list[year - 1]
    ensures c.PercentageOfSalary? && c.ratesByYear.RateList? && year > |c.ratesByYear.list| ==> r == Ok(0.0)
  {
    match c
    case OtherComponent => Ok(0.0)
    case PercentageOfSalary(rates) =>
      var rate := GetRate(year, rates, Some(0.0));
      if rate.Err? then Err(rate.error) else Ok(salary * rate.value.value)
  }

  predicate IsIpoEvent(e: EquityEvent, year: int)
  {
    e.year == Some(year) && e.kind == Some("ipo_multiplier")
  }

  /** Equity after one event: multiplied when it is an IPO event of this year. */
  function Boost(equity: real, e: EquityEvent, year: int): (r: real)
    ensures !IsIpoEvent(e, year) ==> r == equity
  {
    if IsIpoEvent(e, year) then equity * e.multiplier else equity
  }

  /** Equity after this year's events, applied in order. */
  function Boosted(equity: real, events: seq<EquityEvent>, year: int): real
  {
    if events == [] then equity
    else Boost(Boosted(equity, events[..|events| - 1], year), events[|events| - 1], year)
  }

  /** With no IPO event in the year, equity is left as it is. */
  lemma {:induction false} NoEventNoChange(equity: real, events: seq<EquityEvent>, year: int)
    requires forall i :: 0 <= i < |events| ==> !IsIpoEvent(events[i], year)
    ensures Boosted(equity, events, year) == equity
  {
    if events != [] {
      NoEventNoChange(equity, events[..|events| - 1], year);
    }
  }

  /** Multipliers of at least 1 never reduce non-negative equity. */
  lemma {:induction false} BoostsNeverReduce(equity: real, events: seq<EquityEvent>, year: int)
    requires equity >= 0.0
    requires forall i :: 0 <= i < |events| ==> events[i].multiplier >= 1.0
    ensures Boosted(equity, events, year) >= equity
  {
    if events != [] {
      BoostsNeverReduce(equity, events[..|events| - 1], year);
      var before := Boosted(equity, events[..|events| - 1], year);
      MulLeft(1.0, events[|events| - 1].multiplier, before);
    }
  }

  /** The income of a plan year: salary, bonus and equity (with this year's IPO multipliers) and their total. */
  function IncomeFor(year: int, t: SalaryTemplate): (r: Result<Income, string>)
    requires year >= 1
    ensures r.Ok? ==> r.value.total == r.value.salary + r.value.bonus + r.value.equity
    ensures r.Ok? ==> Ok(r.value.salary) == SalaryFor(year, t.progression)
    ensures r.Ok? ==> Ok(r.value.bonus) == PercentageComponent(r.value.salary, year, t.bonus)
    // equity is its percentage of salary, then multiplied by this year's IPO events
    ensures r.Ok? ==>
      && PercentageComponent(r.value.salary, year, t.equity).Ok?
      && r.value.equity == Boosted(PercentageComponent(r.value.salary, year, t.equity).value, t.events, year)
  {
    match SalaryFor(year, t.progression)
    case Err(e) => Err(e)
    case Ok(salary) =>
      match PercentageComponent(salary, year, t.bonus)
      case Err(e) => Err(e)
      case Ok(bonus) =>
        match PercentageComponent(salary, year, t.equity)
        case Err(e) => Err(e)
        case Ok(equity) =>
          var boosted := Boosted(equity, t.events, year);
          Ok(Income(salary, bonus, boosted, salary + bonus + boosted))
  }

  /** A year's income fails exactly when the salary, the bonus or the equity lookup fails. */
  lemma IncomeForFails(year: int, t: SalaryTemplate)
    requires year >= 1
    ensures IncomeFor(year, t).Err? <==>
      || SalaryFor(year, t.progression).Err?
      || PercentageComponent(SalaryFor(year, t.progression).value, year, t.bonus).Err?
      || PercentageComponent(SalaryFor(year, t.progression).value, year, t.equity).Err?
  {
  }

  /** The growth loop of `_calc_income`, computing exactly `GrownSalary`. */
  method GrowSalary(base: real, growth: RateTable, year: int) returns (r: Result<real, string>)
    requires year >= 1
    ensures r.Ok? <==> GrownSalary(base, growth, year).Ok?
    ensures r.Ok? ==> r.value == GrownSalary(base, growth, year).value
  {
    var salary := base;
    var y := 2;
    while y <= year
      invariant 2 <= y <= year + 1
      invariant GrownSalary(base, growth, y - 1).Ok? && GrownSalary(base, growth, y - 1).value == salary
    {
      var rate := GetRate(y, growth, None);
      if rate.Err? {
        GrowthErrorPersists(base, growth, y, year);
        return Err(rate.error);
      }
      if rate.value.Some? && rate.value.value != 0.0 {
        salary := Grow(salary, rate.value.value);
      }
      y := y + 1;
    }
    r := Ok(salary);
  }

  /** The event loop of `_calc_income`, computing exactly `Boosted`. */
  method ApplyEquityEvents(equity: real, events: seq<EquityEvent>, year: int) returns (boosted: real)
    ensures boosted == Boosted(equity, events, year)
  {
    boosted := equity;
    var i := 0;
    while i < |events|
      invariant 0 <= i <= |events|
      invariant boosted == Boosted(equity, events[..i], year)
    {
      assert events[..i + 1][..i] == events[..i];
      boosted := Boost(boosted, events[i], year);
      i := i + 1;
    }
    assert events[..i] == events;
  }

  /** `_calc_income`: salary from the progression, bonus and equity as shares of it, and this year's equity events. */
  method CalcIncome(year: int, t: SalaryTemplate) returns (r: Result<Income, string>)
    requires year >= 1
    ensures r.Ok? <==> IncomeFor(year, t).Ok?
    ensures r.Ok? ==> r.value == IncomeFor(year, t).value
  {
    var salary: Result<real, string>;
    match t.progression {
      case ExplicitArray(list, fallback) =>
        salary := SalaryFor(year, t.progression);
      case PercentageGrowth(base, growth) =>
        salary := GrowSalary(base, growth, year);
    }
    if salary.Err? {
      return Err(salary.error);
    }
    var bonus := PercentageComponent(salary.value, year, t.bonus);
    if bonus.Err? {
      return Err(bonus.error);
    }
    var equity := PercentageComponent(salary.value, year, t.equity);
    if equity.Err? {
      return Err(equity.error);
    }
    var boosted := ApplyEquityEvents(equity.value, t.events, year);
    r := Ok(Income(salary.value, bonus.value, boosted, salary.value + bonus.value + boosted));
  }

  // ------------------------------------------------------------- expenses

  /** The first adjustment whose year range holds the year replaces the base by the larger of its two readings. */
  function ApplyFirstAdjustment(adjustments: seq<(string, Adjustment)>, year: int, netIncome: real, base: real): Result<real, string>
  {
    if adjustments == [] then Ok(base)
    else
      var matches := InRange(year, adjustments[0].0);
      var adj := adjustments[0].1;
      if matches.Err? then Err(matches.error)
      else if matches.value then Ok(Adjusted(base, netIncome, adj))
      else ApplyFirstAdjustment(adjustments[1..], year, netIncome, base)
  }

  /** The expenses an adjustment sets: the larger of the lifestyle-scaled base and the income share. */
  function Adjusted(base: real, netIncome: real, adj: Adjustment): (r: real)
    ensures r >= base * adj.lifestyleFactor && r >= netIncome * adj.incomePercentage
    ensures r == base * adj.lifestyleFactor || r == netIncome * adj.incomePercentage
  {
    Max(base * adj.lifestyleFactor, netIncome * adj.incomePercentage)
  }

  function BaseExpenses(t: ExpenseTemplate): real
  {
    Sum(t.monthly) * 12.0 + Sum(t.annual)
  }

  /** The expenses of a plan year. */
  function ExpensesFor(year: int, t: ExpenseTemplate, netIncome: real): Result<real, string>
  {
    ApplyFirstAdjustment(t.adjustments, year, netIncome, BaseExpenses(t))
  }

  /** One turn of the adjustment loop: an unreadable range fails, a matching one decides, any other passes on. */
  lemma AdjustmentStep(adjustments: seq<(string, Adjustment)>, i: int, year: int, netIncome: real, base: real)
    requires 0 <= i < |adjustments|
    ensures InRange(year, adjustments[i].0).Err? ==> ApplyFirstAdjustment(adjustments[i..], year, netIncome, base).Err?
    ensures InRange(year, adjustments[i].0).Ok? && InRange(year, adjustments[i].0).value ==>
      ApplyFirstAdjustment(adjustments[i..], year, netIncome, base).Ok? &&
      ApplyFirstAdjustment(adjustments[i..], year, netIncome, base).value == Adjusted(base, netIncome, adjustments[i].1)
    ensures InRange(year, adjustments[i].0).Ok? && !InRange(year, adjustments[i].0).value ==>
      ApplyFirstAdjustment(adjustments[i..], year, netIncome, base) == ApplyFirstAdjustment(adjustments[i + 1..], year, netIncome, base)
  {
    assert adjustments[i..][0] == adjustments[i];
    assert adjustments[i..][1..] == adjustments[i + 1..];
  }

  /** `_calc_expenses`: the adjustment loop with its `break`, computing exactly `ExpensesFor`. */
  method CalcExpenses(year: int, t: ExpenseTemplate, netIncome: real) returns (r: Result<real, string>)
    ensures r.Ok? <==> ExpensesFor(year, t, netIncome).Ok?
    ensures r.Ok? ==> r.value == ExpensesFor(year, t, netIncome).value
  {
    var base := Sum(t.monthly) * 12.0 + Sum(t.annual);
    assert t.adjustments[0..] == t.adjustments;
    var i := 0;
    while i < |t.adjustments|
      invariant 0 <= i <= |t.adjustments|
      invariant ExpensesFor(year, t, netIncome) == ApplyFirstAdjustment(t.adjustments[i..], year, netIncome, base)
    {
      var matches := InRange(year, t.adjustments[i].0);
      AdjustmentStep(t.adjustments, i, year, netIncome, base);
      if matches.Err? {
        return Err(matches.error);
      }
      if matches.value {
        return Ok(Adjusted(base, netIncome, t.adjustments[i].1));
      }
      i := i + 1;
    }
    assert t.adjustments[i..] == [];
    r := Ok(base);
  }

  /** The first adjustment whose range holds the year decides: the larger of the scaled base and the income share. */
  lemma {:induction false} FirstMatchingAdjustmentDecides(adjustments: seq<(string, Adjustment)>, year: int, netIncome: real, base: real, i: int)
    requires 0 <= i < |adjustments|
    requires InRange(year, adjustments[i].0) == Ok(true)
    requires forall j :: 0 <= j < i ==> InRange(year, adjustments[j].0) == Ok(false)
    ensures ApplyFirstAdjustment(adjustments, year, netIncome, base).Ok?
    ensures ApplyFirstAdjustment(adjustments, year, netIncome, base).value == Adjusted(base, netIncome, adjustments[i].1)
  {
    if i > 0 {
      var rest := adjustments[1..];
      assert InRange(year, adjustments[0].0) == Ok(false);
      assert forall j :: 0 <= j < i - 1 ==> rest[j] == adjustments[j + 1];
      FirstMatchingAdjustmentDecides(rest, year, netIncome, base, i - 1);
      assert rest[i - 1] == adjustments[i];
    }
  }

  /** When no range holds the year, the expenses are the monthly amounts times 12 plus the annual ones. */
  lemma {:induction false} NoAdjustmentKeepsBase(adjustments: seq<(string, Adjustment)>, year: int, netIncome: real, base: real)
    requires forall j :: 0 <= j < |adjustments| ==> InRange(year, adjustments[j].0) == Ok(false)
    ensures ApplyFirstAdjustment(adjustments, year, netIncome, base) == Ok(base)
  {
    if adjustments != [] {
      assert InRange(year, adjustments[0].0) == Ok(false);
      assert forall j :: 0 <= j < |adjustments| - 1 ==> adjustments[1..][j] == adjustments[j + 1];
      NoAdjustmentKeepsBase(adjustments[1..], year, netIncome, base);
    }
  }

  // ------------------------------------------------------------- housing

  /**
   * `_mortgage_payment`: the monthly annuity payment, or an even split of the principal at a zero rate.
   * A zero denominator raises.
   */
  function MortgagePayment(principal: real, annualRate: real, termYears: nat): (r: Result<real, string>)
    ensures annualRate == 0.0 ==> (r.Err? <==> termYears == 0)
    ensures annualRate == 0.0 && r.Ok? ==> r.value * (termYears * 12) as real == principal
  {
    var monthlyRate := annualRate / 12.0;
    var n := termYears * 12;
    if monthlyRate == 0.0 then
      if n == 0 then Err("ZeroDivisionError") else Ok(principal / n as real)
    else
      var q := Pow(1.0 + monthlyRate, n);
      if q - 1.0 == 0.0 then Err("ZeroDivisionError") else Ok(principal * (monthlyRate * q) / (q - 1.0))
  }

  /** For a positive rate and term the engine's payment is the annuity of the shared mortgage helper, which pays off the loan. */
  lemma MortgagePaymentAgreesWithAnnuity(principal: real, annualRate: real, termYears: nat)
    requires annualRate > 0.0 && termYears > 0
    ensures MortgagePayment(principal, annualRate, termYears).Ok? && Common.MortgagePayment(principal, annualRate, termYears).Ok?
    ensures MortgagePayment(principal, annualRate, termYears).value == Common.MortgagePayment(principal, annualRate, termYears).value
  {
    var monthlyRate := annualRate / 12.0;
    var n := termYears * 12;
    PowAboveOne(1.0 + monthlyRate, n);
    var q := Pow(1.0 + monthlyRate, n);
    assert monthlyRate != 0.0 && q - 1.0 != 0.0;
    var mine := MortgagePayment(principal, annualRate, termYears).value;
    assert mine * (q - 1.0) == principal * (monthlyRate * q);
    Common.AnnuityEquation(principal, monthlyRate, n);
    var theirs := Common.MortgagePayment(principal, annualRate, termYears).value;
    assert theirs == Common.Annuity(principal, monthlyRate, n);
    CancelFactor(mine, theirs, q - 1.0);
  }

  lemma CancelFactor(a: real, b: real, c: real)
    requires c != 0.0 && a * c == b * c
    ensures a == b
  {
    assert (a - b) * c == 0.0;
  }

  /** Renting costs twelve months of rent and buys nothing. */
  function RentalCost(monthlyRent: real): (h: HousingCost)
    ensures h.cost == monthlyRent * 12.0 && !h.purchased && h.equity == 0.0 && h.price.None?
  {
    HousingCost(monthlyRent * 12.0, false, 0.0, None)
  }

  /**
   * `_calc_housing`: rent for a renting strategy; for buying, the deposit and fees in the target year when no property
   * is owned yet, the year's mortgage payments after it while a balance is owed, and rent otherwise.
   */
  function HousingFor(year: int, t: HousingTemplate, owned: bool, balance: real, equity: real): (r: Result<HousingCost, string>)
    ensures t.Rent? ==> r == Ok(RentalCost(t.monthlyRent))
    ensures t.Buy? && year == t.purchase.targetYear && !owned ==>
      r.Ok? && r.value.purchased && r.value.price == Some(t.purchase.propertyPrice) &&
      r.value.equity == t.purchase.propertyPrice * t.purchase.depositPercentage &&
      r.value.cost == r.value.equity + t.purchase.propertyPrice * t.purchase.purchaseFeesPct
    ensures t.Buy? && year > t.purchase.targetYear && owned && balance > 0.0 ==>
      r.Ok? == MortgagePayment(balance, t.purchase.mortgageRate, t.purchase.mortgageTermYears).Ok? &&
      (r.Ok? ==> !r.value.purchased && r.value.cost == 12.0 * MortgagePayment(balance, t.purchase.mortgageRate, t.purchase.mortgageTermYears).value)
    ensures t.Buy? && !(year == t.purchase.targetYear && !owned) && !(year > t.purchase.targetYear && owned && balance > 0.0) ==>
      r == Ok(RentalCost(t.monthlyRent))
    ensures r.Ok? && r.value.purchased ==> t.Buy? && year == t.purchase.targetYear
  {
    match t
    case Rent(rent) => Ok(RentalCost(rent))
    case Buy(rent, p) =>
      if year == p.targetYear && !owned then
        var deposit := p.propertyPrice * p.depositPercentage;
        var fees := p.propertyPrice * p.purchaseFeesPct;
        Ok(HousingCost(deposit + fees, true, deposit, Some(p.propertyPrice)))
      else if year > p.targetYear && owned && balance > 0.0 then
        match MortgagePayment(balance, p.mortgageRate, p.mortgageTermYears)
        case Err(e) => Err(e)
        case Ok(monthly) => Ok(HousingCost(monthly * 12.0, false, equity, None))
      else Ok(RentalCost(rent))
  }

  // ------------------------------------------------------------- investments

  /** `_career_stage`: years 1–5 early, 6–15 mid, later years late. */
  function StageOf(year: int): (s: CareerStage)
    ensures s == EarlyCareer <==> year <= 5
    ensures s == MidCareer <==> 5 < year <= 15
    ensures s == LateCareer <==> year > 15
  {
    if year <= 5 then EarlyCareer else if year <= 15 then MidCareer else LateCareer
  }

  function RetirementShare(t: InvestmentTemplate, stage: CareerStage): real
  {
    match stage
    case EarlyCareer => t.earlyRetirementPct
    case MidCareer => t.midRetirementPct
    case LateCareer => t.lateRetirementPct
  }

  /**
   * `_calc_investments`: a share of net income, clamped to twelve months of the minimum and maximum when both are
   * given, split into retirement and taxable parts by career stage. No strategy invests nothing.
   */
  function InvestmentsFor(year: int, t: Option<InvestmentTemplate>, netIncome: real): (r: Investments)
    ensures r.total == r.retirement + r.taxable
    ensures t.None? ==> r == Investments(0.0, 0.0, 0.0)
    ensures t.Some? && t.value.minimumMonthly.Some? && t.value.maximumMonthly.Some? ==>
      r.total == Max(t.value.minimumMonthly.value * 12.0, Min(netIncome * t.value.percentageOfIncome, t.value.maximumMonthly.value * 12.0))
    ensures t.Some? && (t.value.minimumMonthly.None? || t.value.maximumMonthly.None?) ==> r.total == netIncome * t.value.percentageOfIncome
    ensures t.Some? ==> r.retirement == r.total * RetirementShare(t.value, StageOf(year))
  {
    match t
    case None => Investments(0.0, 0.0, 0.0)
    case Some(inv) =>
      var target := netIncome * inv.percentageOfIncome;
      var clamped :=
        if inv.minimumMonthly.Some? && inv.maximumMonthly.Some? then
          Max(inv.minimumMonthly.value * 12.0, Min(target, inv.maximumMonthly.value * 12.0))
        else target;
      var retirement := clamped * RetirementShare(inv, StageOf(year));
      Investments(clamped, retirement, clamped - retirement)
  }

  /** With a minimum no larger than the maximum, the contribution lies between twelve months of each. */
  lemma ContributionWithinLimits(year: int, t: InvestmentTemplate, netIncome: real)
    requires t.minimumMonthly.Some? && t.maximumMonthly.Some? && t.minimumMonthly.value <= t.maximumMonthly.value
    ensures t.minimumMonthly.value * 12.0 <= InvestmentsFor(year, Some(t), netIncome).total <= t.maximumMonthly.value * 12.0
  {
  }

  // ------------------------------------------------------------- location

  /** `_determine_jurisdiction_from_location`. */
  function JurisdictionOf(market: string): (j: Jurisdiction)
    ensures j == US <==> IsPrefix("us_", market)
    ensures j == UAE <==> !IsPrefix("us_", market) && IsPrefix("uae_", market)
    ensures j == UK <==> !IsPrefix("us_", market) && !IsPrefix("uae_", market)
  {
    if IsPrefix("us_", market) then US else if IsPrefix("uae_", market) then UAE else UK
  }

  /** `_determine_currency_from_location`: dollars abroad, pounds at home. */
  function CurrencyOf(market: string): (c: Currency)
    ensures c == USD <==> IsPrefix("us_", market) || IsPrefix("uae_", market)
    ensures c != EUR
  {
    if IsPrefix("us_", market) || IsPrefix("uae_", market) then USD else GBP
  }

  predicate IsInternational(market: string)
  {
    IsPrefix("us_", market) || IsPrefix("uae_", market)
  }

  /**
   * `_determine_overall_phase_enum`: one phase is international or UK-only by its market; several phases are
   * UK-to-international when they start in "uk" and some phase is abroad, and international-only otherwise.
   */
  function OverallPhase<T>(phases: seq<Phase<T>>): (p: FinancialPhase)
    requires phases != []
    ensures |phases| == 1 ==> p != UkToInternational && (p == UkOnly <==> !IsInternational(phases[0].locationMarket))
    ensures |phases| > 1 ==> p != UkOnly
    ensures |phases| > 1 ==> (p == UkToInternational <==>
      phases[0].locationMarket == "uk" && exists k :: 0 <= k < |phases| && IsInternational(phases[k].locationMarket))
  {
    if |phases| == 1 then
      if IsInternational(phases[0].locationMarket) then InternationalOnly else UkOnly
    else if phases[0].locationMarket == "uk" && exists k :: 0 <= k < |phases| && IsInternational(phases[k].locationMarket) then
      UkToInternational
    else InternationalOnly
  }

  /** `_get_exchange_rates_for_location`: fixed rates whatever the market and year. */
  function ExchangeRatesFor(market: string, year: int): (m: map<Currency, real>)
    ensures m.Keys == {GBP, USD, EUR} && m[GBP] == 1.0 && m[USD] == 1.26 && m[EUR] == 1.15
  {
    map[GBP := 1.0, USD := 1.26, EUR := 1.15]
  }

  // ------------------------------------------------------------- projection state

  /** The projection state between years, as values. */
  datatype StateValues = StateValues(
    totalInvestments: real, propertyEquity: real, totalLiabilities: real,
    mortgageBalance: real, propertyOwned: bool, yearInLocation: int)

  /** The `initial_state` of a plan; absent keys are 0. */
  datatype InitialState = InitialState(initialInvestments: real, initialPropertyValue: real, initialMortgage: real, studentLoanBalance: real)

  /** The principal a year's housing payment removes: what is left after 5% interest on the balance, never negative. */
  function Principal(balance: real, payment: real): (p: real)
    ensures p >= 0.0 && p >= payment - balance * 0.05
  {
    Max(0.0, payment - balance * 0.05)
  }

  /** The principal is exactly the payment less interest, unless that would be negative, when it is nothing. */
  lemma PrincipalPinned(balance: real, payment: real)
    ensures Principal(balance, payment) == 0.0 || Principal(balance, payment) == payment - balance * 0.05
    ensures payment - balance * 0.05 >= 0.0 ==> Principal(balance, payment) == payment - balance * 0.05
  {
  }

  /**
   * `_update_state`: investments grow 6.5% plus the year's savings; a purchase records ownership, the deposit as equity
   * and the rest of the price as the mortgage; then, while a balance is owed, the year's payment less interest moves
   * from the balance (floored at 0) into equity.
   */
  function AfterUpdate(s: StateValues, housing: HousingCost, annualSavings: real): (r: StateValues)
    ensures r.totalInvestments == s.totalInvestments * 1.065 + annualSavings
    ensures r.totalLiabilities == s.totalLiabilities && r.yearInLocation == s.yearInLocation
    ensures r.propertyOwned == (s.propertyOwned || housing.purchased)
  {
    var owned := s.propertyOwned || housing.purchased;
    var equity := if housing.purchased then housing.equity else s.propertyEquity;
    var balance := if housing.purchased && housing.price.Some? then housing.price.value - housing.equity else s.mortgageBalance;
    var investments := s.totalInvestments * 1.065 + annualSavings;
    if owned && balance > 0.0 then
      var principal := Principal(balance, housing.cost);
      StateValues(investments, equity + principal, s.totalLiabilities, Max(0.0, balance - principal), owned, s.yearInLocation)
    else
      StateValues(investments, equity, s.totalLiabilities, balance, owned, s.yearInLocation)
  }

  /** Without a purchase the mortgage balance never grows, and a non-negative balance stays non-negative. */
  lemma BalanceNeverGrows(s: StateValues, housing: HousingCost, annualSavings: real)
    requires !housing.purchased
    ensures AfterUpdate(s, housing, annualSavings).mortgageBalance <= s.mortgageBalance
    ensures s.mortgageBalance >= 0.0 ==> AfterUpdate(s, housing, annualSavings).mortgageBalance >= 0.0
  {
  }

  /**
   * Without a purchase, equity rises by exactly the principal paid, and when that principal does not exceed the
   * balance, the balance falls by the same amount: equity plus balance is unchanged.
   */
  lemma PrincipalMovesIntoEquity(s: StateValues, housing: HousingCost, annualSavings: real)
    requires !housing.purchased && s.propertyOwned && s.mortgageBalance > 0.0
    ensures var r := AfterUpdate(s, housing, annualSavings);
      r.propertyEquity == s.propertyEquity + Principal(s.mortgageBalance, housing.cost) &&
      (Principal(s.mortgageBalance, housing.cost) <= s.mortgageBalance ==>
        r.mortgageBalance == s.mortgageBalance - Principal(s.mortgageBalance, housing.cost) &&
        r.propertyEquity + r.mortgageBalance == s.propertyEquity + s.mortgageBalance)
  {
  }

  /** A purchase without a later payment leaves equity and mortgage adding up to the price. */
  lemma PurchaseSplitsPrice(s: StateValues, housing: HousingCost, annualSavings: real)
    requires housing.purchased && housing.price.Some? && housing.price.value - housing.equity <= 0.0
    ensures var r := AfterUpdate(s, housing, annualSavings);
      r.propertyOwned && r.propertyEquity == housing.equity && r.propertyEquity + r.mortgageBalance == housing.price.value
  {
  }

  /**
   * In the purchase year the year's housing cost (deposit and fees) is also taken as that year's mortgage payment:
   * equity ends above the deposit by whatever of that cost exceeds 5% of the new balance.
   */
  lemma PurchaseYearPaysDownMortgage(s: StateValues, housing: HousingCost, annualSavings: real)
    requires housing.purchased && housing.price.Some? && housing.price.value - housing.equity > 0.0
    ensures var r := AfterUpdate(s, housing, annualSavings);
      var balance := housing.price.value - housing.equity;
      r.propertyOwned && r.propertyEquity == housing.equity + Principal(balance, housing.cost) &&
      r.mortgageBalance == Max(0.0, balance - Principal(balance, housing.cost))
  {
  }

  /** Non-negative savings on non-negative investments never shrink them. */
  lemma InvestmentsNeverShrink(s: StateValues, housing: HousingCost, annualSavings: real)
    requires s.totalInvestments >= 0.0 && annualSavings >= 0.0
    ensures AfterUpdate(s, housing, annualSavings).totalInvestments >= s.totalInvestments
  {
  }

  /** The state dictionary the engine threads through the years. */
  class ProjectionState {
    var totalInvestments: real
    var propertyEquity: real
    var totalLiabilities: real
    var mortgageBalance: real
    var propertyOwned: bool
    var yearInLocation: int

    function Values(): StateValues
      reads this
    {
      StateValues(totalInvestments, propertyEquity, totalLiabilities, mortgageBalance, propertyOwned, yearInLocation)
    }

    /** `_initialize_state`: the initial investments, property value and mortgage; liabilities add the student loan. */
    constructor (initial: InitialState)
      ensures Values() == StateValues(
        initial.initialInvestments, initial.initialPropertyValue,
        initial.initialMortgage + initial.studentLoanBalance, initial.initialMortgage, false, 1)
    {
      totalInvestments := initial.initialInvestments;
      propertyEquity := initial.initialPropertyValue;
      totalLiabilities := initial.initialMortgage + initial.studentLoanBalance;
      mortgageBalance := initial.initialMortgage;
      propertyOwned := false;
      yearInLocation := 1;
    }

    /** `_update_state`, in place. */
    method UpdateState(year: int, housing: HousingCost, annualSavings: real)
      modifies this
      ensures Values() == AfterUpdate(old(Values()), housing, annualSavings)
    {
      totalInvestments := totalInvestments * 1.065 + annualSavings;
      if housing.purchased {
        propertyOwned := true;
        propertyEquity := housing.equity;
        if housing.price.Some? {
          mortgageBalance := housing.price.value - housing.equity;
        }
      }
      if propertyOwned && mortgageBalance > 0.0 {
        var interest := mortgageBalance * 0.05;
        var principal := Max(0.0, housing.cost - interest);
        mortgageBalance := Max(0.0, mortgageBalance - principal);
        propertyEquity := propertyEquity + principal;
      }
    }
  }

  // ------------------------------------------------------------- one year

  /** The year's savings: net income less living and housing costs, never negative. */
  function AnnualSavings(netIncome: real, expenses: real, housingCost: real): (s: real)
    ensures s >= 0.0 && s >= netIncome - expenses - housingCost
  {
    Max(0.0, netIncome - expenses - housingCost)
  }

  /** The savings are exactly the surplus of net income over costs, unless there is none, when they are nothing. */
  lemma AnnualSavingsPinned(netIncome: real, expenses: real, housingCost: real)
    ensures AnnualSavings(netIncome, expenses, housingCost) == 0.0 ||
            AnnualSavings(netIncome, expenses, housingCost) == netIncome - expenses - housingCost
    ensures netIncome - expenses - housingCost >= 0.0 ==>
            AnnualSavings(netIncome, expenses, housingCost) == netIncome - expenses - housingCost
  {
  }

  /** The unified record of a plan year, from the year's figures and the state before it is updated. */
  function YearRecord<T>(
    year: int, startYear: int, startAge: int, phase: Phase<T>, phases: seq<Phase<T>>,
    income: Income, taxes: TaxFigures, expenses: real, housing: HousingCost, investments: Investments, s: StateValues)
    : (d: UnifiedFinancialData)
    requires phases != []
    ensures d.year == startYear + year - 1 && d.age == startAge + year - 1
    ensures IncomeTotalGbp(d.income) == income.salary + income.bonus + income.equity
    ensures NetWorthTotalGbp(d.netWorth) == s.totalInvestments + s.propertyEquity - s.totalLiabilities
  {
    UnifiedFinancialData(
      startYear + year - 1,
      startAge + year - 1,
      OverallPhase(phases),
      JurisdictionOf(phase.locationMarket),
      CurrencyOf(phase.locationMarket),
      CreateIncomeBreakdown(income.salary, income.bonus, income.equity, 0.0),
      CreateExpenseBreakdown(housing.cost, expenses, taxes.total, investments.total, 0.0),
      CreateTaxBreakdown(taxes.income, taxes.social, taxes.other),
      CreateInvestmentBreakdown(investments.retirement, investments.taxable, s.propertyEquity),
      CreateNetWorthBreakdown(s.totalInvestments, s.propertyEquity, s.totalLiabilities),
      ExchangeRatesFor(phase.locationMarket, year))
  }

  /**
   * One plan year as values: income, tax (from the given tax calculation), expenses, housing and investments, the
   * record built from the state as it stood, and the state moved on by the year's savings. Any failure fails the year.
   */
  function YearOutcome(
    year: int, phase: Phase<CalcTemplates>, phases: seq<Phase<CalcTemplates>>, startYear: int, startAge: int,
    s: StateValues, taxOf: (real, string, int) -> TaxFigures)
    : (r: Result<(UnifiedFinancialData, StateValues), string>)
    requires year >= 1 && phases != []
    ensures IncomeFor(year, phase.templates.salary).Err? ==> r.Err?
    ensures r.Ok? ==> IncomeFor(year, phase.templates.salary).Ok?
    ensures r.Ok? ==> IncomeTotalGbp(r.value.0.income) == IncomeFor(year, phase.templates.salary).value.total
    ensures r.Ok? ==> r.value.0.year == startYear + year - 1 && r.value.0.age == startAge + year - 1
    ensures r.Ok? ==> r.value.0.jurisdiction == JurisdictionOf(phase.locationMarket) && r.value.0.currency == CurrencyOf(phase.locationMarket)
    ensures r.Ok? ==> NetWorthTotalGbp(r.value.0.netWorth) == s.totalInvestments + s.propertyEquity - s.totalLiabilities
    ensures r.Ok? ==> r.value.1.totalInvestments >= s.totalInvestments * 1.065
    ensures r.Ok? ==> r.value.1.totalLiabilities == s.totalLiabilities && r.value.1.yearInLocation == s.yearInLocation
  {
    var t := phase.templates;
    match IncomeFor(year, t.salary)
    case Err(e) => Err(e)
    case Ok(income) =>
      var taxes := taxOf(income.total, t.taxSystemId, startYear + year - 1);
      var net := income.total - taxes.total;
      match ExpensesFor(year, t.expenses, net)
      case Err(e) => Err(e)
      case Ok(expenses) =>
        match HousingFor(year, t.housing, s.propertyOwned, s.mortgageBalance, s.propertyEquity)
        case Err(e) => Err(e)
        case Ok(housing) =>
          var investments := InvestmentsFor(year, t.investment, net);
          var record := YearRecord(year, startYear, startAge, phase, phases, income, taxes, expenses, housing, investments, s);
          Ok((record, AfterUpdate(s, housing, AnnualSavings(net, expenses, housing.cost))))
  }

  /** A year whose income, expenses and housing all compute has the record and the updated state as its outcome. */
  lemma YearOutcomeOk(
    year: int, phase: Phase<CalcTemplates>, phases: seq<Phase<CalcTemplates>>, startYear: int, startAge: int,
    s: StateValues, taxOf: (real, string, int) -> TaxFigures,
    income: Income, taxes: TaxFigures, expenses: real, housing: HousingCost)
    requires year >= 1 && phases != []
    requires IncomeFor(year, phase.templates.salary) == Ok(income)
    requires taxes == taxOf(income.total, phase.templates.taxSystemId, startYear + year - 1)
    requires ExpensesFor(year, phase.templates.expenses, income.total - taxes.total) == Ok(expenses)
    requires HousingFor(year, phase.templates.housing, s.propertyOwned, s.mortgageBalance, s.propertyEquity) == Ok(housing)
    ensures YearOutcome(year, phase, phases, startYear, startAge, s, taxOf) ==
      Ok((YearRecord(year, startYear, startAge, phase, phases, income, taxes, expenses, housing,
                     InvestmentsFor(year, phase.templates.investment, income.total - taxes.total), s),
          AfterUpdate(s, housing, AnnualSavings(income.total - taxes.total, expenses, housing.cost))))
  {
    var t := phase.templates;
    assert taxOf(income.total, t.taxSystemId, startYear + year - 1) == taxes;
    assert ExpensesFor(year, t.expenses, income.total - taxes.total) == Ok(expenses);
  }

  /** A year fails as soon as its income, its expenses or its housing cost fails to compute. */
  lemma YearOutcomeErr(
    year: int, phase: Phase<CalcTemplates>, phases: seq<Phase<CalcTemplates>>, startYear: int, startAge: int,
    s: StateValues, taxOf: (real, string, int) -> TaxFigures)
    requires year >= 1 && phases != []
    requires var t := phase.templates;
      var income := IncomeFor(year, t.salary);
      || income.Err?
      || (var net := income.value.total - taxOf(income.value.total, t.taxSystemId, startYear + year - 1).total;
          || ExpensesFor(year, t.expenses, net).Err?
          || HousingFor(year, t.housing, s.propertyOwned, s.mortgageBalance, s.propertyEquity).Err?)
    ensures YearOutcome(year, phase, phases, startYear, startAge, s, taxOf).Err?
  {
  }

  /** `_calculate_year_with_phase`: the year's record, with the state updated in place; a failed year leaves it as it was. */
  method CalculateYearWithPhase(
    year: int, phase: Phase<CalcTemplates>, phases: seq<Phase<CalcTemplates>>, startYear: int, startAge: int,
    state: ProjectionState, taxOf: (real, string, int) -> TaxFigures)
    returns (r: Result<UnifiedFinancialData, string>)
    requires year >= 1 && phases != []
    modifies state
    ensures var outcome := YearOutcome(year, phase, phases, startYear, startAge, old(state.Values()), taxOf);
      && (r.Ok? <==> outcome.Ok?)
      && (r.Ok? ==> r.value == outcome.value.0 && state.Values() == outcome.value.1)
      && (r.Err? ==> state.Values() == old(state.Values()))
  {
    ghost var s0 := state.Values();
    var t := phase.templates;
    var income := CalcIncome(year, t.salary);
    if income.Err? {
      YearOutcomeErr(year, phase, phases, startYear, startAge, s0, taxOf);
      return Err(income.error);
    }
    var taxes := taxOf(income.value.total, t.taxSystemId, startYear + year - 1);
    var net := income.value.total - taxes.total;
    var expenses := CalcExpenses(year, t.expenses, net);
    if expenses.Err? {
      YearOutcomeErr(year, phase, phases, startYear, startAge, s0, taxOf);
      return Err(expenses.error);
    }
    var housing := HousingFor(year, t.housing, state.propertyOwned, state.mortgageBalance, state.propertyEquity);
    if housing.Err? {
      YearOutcomeErr(year, phase, phases, startYear, startAge, s0, taxOf);
      return Err(housing.error);
    }
    var investments := InvestmentsFor(year, t.investment, net);
    var record := YearRecord(year, startYear, startAge, phase, phases, income.value, taxes, expenses.value, housing.value,
                             investments, state.Values());
    var savings := AnnualSavings(net, expenses.value, housing.value.cost);
    YearOutcomeOk(year, phase, phases, startYear, startAge, s0, taxOf, income.value, taxes, expenses.value, housing.value);
    state.UpdateState(year, housing.value, savings);
    r := Ok(record);
  }

  /**
   * Years 1..`years` of a projection as values: each year's phase is looked up and its outcome appended, the state
   * carried from one year to the next. The first failure ends the projection.
   */
  function Project(
    phases: seq<Phase<CalcTemplates>>, years: nat, startYear: int, startAge: int,
    s0: StateValues, taxOf: (real, string, int) -> TaxFigures)
    : (r: Result<(seq<UnifiedFinancialData>, StateValues), string>)
    requires phases != []
    ensures r.Ok? ==> |r.value.0| == years
    ensures r.Ok? ==> forall k :: 0 <= k < years ==> r.value.0[k].year == startYear + k && r.value.0[k].age == startAge + k
    ensures r.Ok? ==> r.value.1.totalLiabilities == s0.totalLiabilities
    ensures r.Ok? && s0.totalInvestments >= 0.0 ==> r.value.1.totalInvestments >= s0.totalInvestments
    decreases years
  {
    if years == 0 then Ok(([], s0))
    else
      match Project(phases, years - 1, startYear, startAge, s0, taxOf)
      case Err(e) => Err(e)
      case Ok((points, s)) =>
        match GetPhaseForYear(phases, years)
        case Err(e) => Err(e)
        case Ok(phase) =>
          match YearOutcome(years, phase, phases, startYear, startAge, s, taxOf)
          case Err(e) => Err(e)
          case Ok((record, next)) =>
            assert next.totalInvestments >= s.totalInvestments * 1.065;
            Ok((points + [record], next))
  }

  /** A projection that fails in some year fails for every longer plan. */
  lemma {:induction false} ProjectErrorPersists(
    phases: seq<Phase<CalcTemplates>>, y: nat, years: nat, startYear: int, startAge: int,
    s0: StateValues, taxOf: (real, string, int) -> TaxFigures)
    requires phases != [] && y <= years
    requires Project(phases, y, startYear, startAge, s0, taxOf).Err?
    ensures Project(phases, years, startYear, startAge, s0, taxOf).Err?
    decreases years - y
  {
    if y < years {
      ProjectErrorStep(phases, y, startYear, startAge, s0, taxOf);
      ProjectErrorPersists(phases, y + 1, years, startYear, startAge, s0, taxOf);
    }
  }

  /** One more year after a failed projection still fails. */
  lemma ProjectErrorStep(
    phases: seq<Phase<CalcTemplates>>, y: nat, startYear: int, startAge: int,
    s0: StateValues, taxOf: (real, string, int) -> TaxFigures)
    requires phases != []
    requires Project(phases, y, startYear, startAge, s0, taxOf).Err?
    ensures Project(phases, y + 1, startYear, startAge, s0, taxOf).Err?
  {
  }

  /** One turn of the projection loop: the year's phase, its outcome, and the data point appended. */
  method ProjectYear(
    phases: seq<Phase<CalcTemplates>>, year: int, startYear: int, startAge: int, s0: StateValues,
    taxOf: (real, string, int) -> TaxFigures, state: ProjectionState, scenario: UnifiedFinancialScenario)
    returns (r: Result<(), string>)
    requires phases != [] && year >= 1
    requires Project(phases, year - 1, startYear, startAge, s0, taxOf).Ok?
    requires Project(phases, year - 1, startYear, startAge, s0, taxOf).value.0 == scenario.dataPoints
    requires Project(phases, year - 1, startYear, startAge, s0, taxOf).value.1 == state.Values()
    modifies state, scenario
    ensures r.Ok? <==> Project(phases, year, startYear, startAge, s0, taxOf).Ok?
    ensures r.Ok? ==> Project(phases, year, startYear, startAge, s0, taxOf).value.0 == scenario.dataPoints
    ensures r.Ok? ==> Project(phases, year, startYear, startAge, s0, taxOf).value.1 == state.Values()
    ensures scenario.name == old(scenario.name) && scenario.description == old(scenario.description)
    ensures scenario.phase == old(scenario.phase)
  {
    var phase := GetPhaseForYear(phases, year);
    if phase.Err? {
      return Err(phase.error);
    }
    var point := CalculateYearWithPhase(year, phase.value, phases, startYear, startAge, state, taxOf);
    if point.Err? {
      return Err(point.error);
    }
    scenario.AddDataPoint(point.value);
    r := Ok(());
  }

  /** The names `_create_scenario_shell` reads from the first phase's templates. */
  datatype ShellNames = ShellNames(housingStrategy: string, salaryProgression: string, investmentStrategy: string)

  /**
   * `_calculate_phase_based_scenario`: the scenario shell, the initial state, and one data point per plan year
   * 1..`durationYears`, each from the phase holding that year.
   */
  method CalculateScenario(
    phases: seq<Phase<CalcTemplates>>, durationYears: int, startYear: int, startAge: int, initial: InitialState,
    name: string, description: string, names: ShellNames, taxOf: (real, string, int) -> TaxFigures)
    returns (r: Result<UnifiedFinancialScenario, string>)
    requires phases != []
    ensures var years := if durationYears > 0 then durationYears else 0;
      var initialValues := StateValues(
        initial.initialInvestments, initial.initialPropertyValue,
        initial.initialMortgage + initial.studentLoanBalance, initial.initialMortgage, false, 1);
      (r.Ok? <==> Project(phases, years, startYear, startAge, initialValues, taxOf).Ok?) &&
      (r.Ok? ==> r.value.dataPoints == Project(phases, years, startYear, startAge, initialValues, taxOf).value.0 &&
                 r.value.name == name && r.value.description == description && r.value.phase == OverallPhase(phases))
  {
    var years: nat := if durationYears > 0 then durationYears else 0;
    var metadata := ScenarioMetadata(
      JurisdictionOf(phases[0].locationMarket), phases[0].templates.taxSystemId, names.housingStrategy, None,
      names.salaryProgression, names.investmentStrategy, description);
    var scenario := new UnifiedFinancialScenario(name, description, OverallPhase(phases), Some(metadata));
    var state := new ProjectionState(initial);
    var s0 := state.Values();
    var year := 1;
    while year <= years
      invariant 1 <= year <= years + 1
      invariant Project(phases, year - 1, startYear, startAge, s0, taxOf).Ok?
      invariant Project(phases, year - 1, startYear, startAge, s0, taxOf).value.0 == scenario.dataPoints
      invariant Project(phases, year - 1, startYear, startAge, s0, taxOf).value.1 == state.Values()
      invariant scenario.name == name && scenario.description == description && scenario.phase == OverallPhase(phases)
    {
      var ok := ProjectYear(phases, year, startYear, startAge, s0, taxOf, state, scenario);
      if !ok.Ok? {
        ProjectErrorPersists(phases, year, years, startYear, startAge, s0, taxOf);
        return Err(ok.error);
      }
      year := year + 1;
    }
    r := Ok(scenario);
  }
}

=== FILE: template_loading.dfy ===
/** Template resolution with inheritance, composition overrides and a cache, and the phase schedule built from templates. */
module TemplateLoading {
  import opened Base
  import opened TemplateMerge
  import opened Phases
  import opened TemplateValidation

  /** A template file is addressed by its type directory and its name. */
  type TemplateKey = (string, string)

  datatype LoadError =
    | MissingTemplateField            // a mapping spec without a `template` key
    | UnnamedTemplate                 // a spec that names no template by a string
    | TemplateNotFound(templateType: string, name: string)
    | TaxSystemNotFound(name: string)
    | MissingKey(key: string)         // a required key of the scenario composition
    | NotAnInteger(key: string)       // a planning value used as a whole number of years
    | NotAString(key: string)         // a composition value used as a market name
    | MergeFailed(error: MergeError)  // a merge met an `overrides` section that is not a mapping
    | RecursionLimit                  // Python's recursion limit, reached by a chain of re-resolutions
    | ScenarioNotFound(id: string)
    | InvalidConfig(errors: seq<ValidationError>)

  /**
   * A scenario file: its `scenario` metadata, its `composition`, the entries of `composition.phases` in file
   * order when that key is present, and its `planning` and `assumptions` sections when present.
   */
  datatype ScenarioDoc = ScenarioDoc(
    metadata: Template,
    composition: Template,
    phaseList: Option<seq<PhaseInput>>,
    planning: Option<Template>,
    assumptions: Option<Template>)

  /** The planning data `load_scenario` normalises: `planning` when non-empty, else `assumptions`, else nothing. */
  function PlanningData(doc: ScenarioDoc): Template
  {
    if doc.planning.Some? && doc.planning.value != map[] then doc.planning.value
    else if doc.assumptions.Some? then doc.assumptions.value
    else map[]
  }

  /** The template a spec names: the string itself, or the string under `template` of a mapping. */
  function SpecName(spec: Value): Option<string>
  {
    match spec
    case Str(s) => Some(s)
    case Dict(m) => if "template" in m && m["template"].Str? then Some(m["template"].s) else None
    case _ => None
  }

  /** The composition overrides of a spec: every key of a mapping spec except `template`. */
  function Composition(spec: Value): Template
  {
    if spec.Dict? then spec.entries - {"template"} else map[]
  }

  /** An override whose `overrides` section, if it is a mapping, does not set `extends`. */
  predicate SectionSetsNoExtends(ov: Template)
  {
    "overrides" in ov && ov["overrides"].Dict? ==> "extends" !in ov["overrides"].entries
  }

  /** A merge that fails is reported as the load failing. */
  function Merged(base: Template, ov: Value): (r: Result<Template, LoadError>)
    requires ov.Dict?
    ensures r.Ok? <==> Merge(base, ov).Ok?
    ensures r.Ok? ==> r.value == Merge(base, ov).value
  {
    match Merge(base, ov)
    case Ok(m) => Ok(m)
    case Err(e) => Err(MergeFailed(e))
  }

  function RankOf(rank: map<TemplateKey, nat>, key: TemplateKey): nat
  {
    if key in rank then rank[key] else 0
  }

  /** The rank of the template a spec names; a spec naming none resolves without recursion. */
  function SpecRank(rank: map<TemplateKey, nat>, templateType: string, spec: Value): nat
  {
    if SpecName(spec).Some? then RankOf(rank, (templateType, SpecName(spec).value)) else 0
  }

  /**
   * The template files, with `rank` witnessing that `extends` is well founded: every template that extends
   * another has a higher rank than its parent.
   */
  predicate StoreValid(store: map<TemplateKey, Template>, rank: map<TemplateKey, nat>)
  {
    forall key :: key in store ==>
      key in rank && ("extends" in store[key] ==> SpecRank(rank, key.0, store[key]["extends"]) < rank[key])
  }

  /** No `overrides` section met while resolving a template that extends another sets `extends`. */
  predicate StoreCopiesNoExtends(store: map<TemplateKey, Template>)
  {
    forall key :: key in store && "extends" in store[key] ==>
      SectionSetsNoExtends(store[key]) && SectionSetsNoExtends(Composition(store[key]["extends"]))
  }

  /** A named template, resolved: its parent (if it extends one) resolved and then merged with it. */
  function ResolveName(store: map<TemplateKey, Template>, rank: map<TemplateKey, nat>, templateType: string, name: string)
    : Result<Template, LoadError>
    requires StoreValid(store, rank)
    decreases RankOf(rank, (templateType, name)), 0
  {
    var key := (templateType, name);
    if key !in store then Err(TemplateNotFound(templateType, name))
    else
      var doc := store[key];
      if "extends" in doc then
        match ResolveSpec(store, rank, templateType, doc["extends"])
        case Err(e) => Err(e)
        case Ok(parent) => Merged(parent, Dict(doc))
      else Ok(doc)
  }

  /**
   * `_load_template` without its cache: a mapping spec must have `template`; the named template is resolved,
   * and the spec's other keys are merged over it last.
   */
  function ResolveSpec(store: map<TemplateKey, Template>, rank: map<TemplateKey, nat>, templateType: string, spec: Value)
    : Result<Template, LoadError>
    requires StoreValid(store, rank)
    decreases SpecRank(rank, templateType, spec), 1
  {
    if spec.Dict? && "template" !in spec.entries then Err(MissingTemplateField)
    else if SpecName(spec).None? then Err(UnnamedTemplate)
    else
      match ResolveName(store, rank, templateType, SpecName(spec).value)
      case Err(e) => Err(e)
      case Ok(resolved) =>
        var composition := Composition(spec);
        if composition == map[] then Ok(resolved) else Merged(resolved, Dict(composition))
  }

  /**
   * A resolved template has no `extends` key unless an `overrides` section met on the way copies one in: merges
   * skip the override's own `extends`.
   */
  lemma {:induction false} ResolvedNameHasNoExtends(store: map<TemplateKey, Template>, rank: map<TemplateKey, nat>,
                                                    templateType: string, name: string)
    requires StoreValid(store, rank) && StoreCopiesNoExtends(store)
    requires ResolveName(store, rank, templateType, name).Ok?
    ensures "extends" !in ResolveName(store, rank, templateType, name).value
    decreases RankOf(rank, (templateType, name)), 0
  {
    var key := (templateType, name);
    var doc := store[key];
    if "extends" in doc {
      var parent := ResolveSpec(store, rank, templateType, doc["extends"]);
      ResolvedSpecHasNoExtends(store, rank, templateType, doc["extends"]);
      ExtendsNeverCopied(parent.value, Dict(doc));
      assert ResolveName(store, rank, templateType, name) == Merged(parent.value, Dict(doc));
    }
  }

  lemma {:induction false} ResolvedSpecHasNoExtends(store: map<TemplateKey, Template>, rank: map<TemplateKey, nat>,
                                                    templateType: string, spec: Value)
    requires StoreValid(store, rank) && StoreCopiesNoExtends(store) && SectionSetsNoExtends(Composition(spec))
    requires ResolveSpec(store, rank, templateType, spec).Ok?
    ensures "extends" !in ResolveSpec(store, rank, templateType, spec).value
    decreases SpecRank(rank, templateType, spec), 1
  {
    var name := SpecName(spec).value;
    ResolvedNameHasNoExtends(store, rank, templateType, name);
    var composition := Composition(spec);
    if composition != map[] {
      ExtendsNeverCopied(ResolveName(store, rank, templateType, name).value, Dict(composition));
    }
  }

  /** A missing key is reported as missing, and a mapping spec without `template` is refused before any lookup. */
  lemma ResolveErrors(store: map<TemplateKey, Template>, rank: map<TemplateKey, nat>, templateType: string, spec: Value)
    requires StoreValid(store, rank)
    ensures spec.Dict? && "template" !in spec.entries ==> ResolveSpec(store, rank, templateType, spec) == Err(MissingTemplateField)
    ensures SpecName(spec).Some? && (templateType, SpecName(spec).value) !in store ==>
      ResolveSpec(store, rank, templateType, spec) == Err(TemplateNotFound(templateType, SpecName(spec).value))
  {
  }

  /** A template that extends a parent resolves to the parent's resolution merged with the template itself. */
  lemma ExtendsResolvesToMerge(store: map<TemplateKey, Template>, rank: map<TemplateKey, nat>, templateType: string, name: string)
    requires StoreValid(store, rank)
    requires (templateType, name) in store && "extends" in store[(templateType, name)]
    requires ResolveSpec(store, rank, templateType, store[(templateType, name)]["extends"]).Ok?
    ensures ResolveName(store, rank, templateType, name) ==
      Merged(ResolveSpec(store, rank, templateType, store[(templateType, name)]["extends"]).value, Dict(store[(templateType, name)]))
  {
  }

  /** `_load_tax_system`: a missing or empty tax-system document raises. */
  function LoadTaxSystem(taxSystems: map<string, Template>, name: string): (r: Result<Template, LoadError>)
    ensures r.Ok? <==> name in taxSystems && taxSystems[name] != map[]
    ensures r.Ok? ==> r.value == taxSystems[name]
    ensures r.Err? ==> r.error == TaxSystemNotFound(name)
  {
    if name in taxSystems && taxSystems[name] != map[] then Ok(taxSystems[name]) else Err(TaxSystemNotFound(name))
  }

  /** `_load_tax_system_for_location`: US markets use the federal system, UAE markets none, everything else the UK's. */
  function TaxSystemForLocation(market: string): (name: string)
    ensures IsPrefix("us_", market) ==> name == "us_federal"
    ensures !IsPrefix("us_", market) && IsPrefix("uae_", market) ==> name == "tax_free"
    ensures !IsPrefix("us_", market) && !IsPrefix("uae_", market) ==> name == "uk_income_tax_ni"
  {
    if IsPrefix("us_", market) then "us_federal"
    else if IsPrefix("uae_", market) then "tax_free"
    else "uk_income_tax_ni"
  }

  // ------------------------------------------------------------- phases

  /** One entry of a scenario's `phases` mapping, in the mapping's order. */
  datatype PhaseInput = PhaseInput(name: string, duration: int, market: string, salaryProgression: Value, expenseProfile: Value)

  function SumDurations(inputs: seq<PhaseInput>): int
  {
    if inputs == [] then 0 else SumDurations(inputs[..|inputs| - 1]) + inputs[|inputs| - 1].duration
  }

  /** The expense profile a phase records: the `template` of a mapping spec, or the spec itself. */
  function ExpenseProfileName(spec: Value): Value
  {
    if spec.Dict? && "template" in spec.entries then spec.entries["template"] else spec
  }

  /** In a schedule laid end to end from year 1, a phase starts one year after the durations of all earlier phases. */
  lemma {:induction false} StartYearFollowsEarlierDurations(phases: seq<Phase<PhaseTemplates>>, inputs: seq<PhaseInput>, k: int)
    requires LaidEndToEnd(phases, 1) && |phases| == |inputs|
    requires forall j :: 0 <= j < |inputs| ==> phases[j].duration == inputs[j].duration
    requires 0 <= k < |phases|
    ensures phases[k].startYear == 1 + SumDurations(inputs[..k])
  {
    if k == 0 {
      assert inputs[..0] == [];
    } else {
      StartYearFollowsEarlierDurations(phases, inputs, k - 1);
      assert inputs[..k][..k - 1] == inputs[..k - 1];
    }
  }

  /** Phases with the inputs' durations add up to the inputs' total duration. */
  lemma {:induction false} TotalDurationIsSumOfInputs(phases: seq<Phase<PhaseTemplates>>, inputs: seq<PhaseInput>)
    requires |phases| == |inputs|
    requires forall j :: 0 <= j < |inputs| ==> phases[j].duration == inputs[j].duration
    ensures TotalDuration(phases) == SumDurations(inputs)
  {
    if phases != [] {
      TotalDurationIsSumOfInputs(phases[..|phases| - 1], inputs[..|inputs| - 1]);
    }
  }

  /** The housing template every phase of a multi-phase scenario gets, whatever its entry says. */
  const DefaultHousing: Value := Str("us_local_home_purchase")

  /** The investment template every phase of a multi-phase scenario gets, whatever its entry says. */
  const DefaultInvestment: Value := Str("balanced")

  /**
   * What a phase loaded from an input carries: the input's own fields, the resolution of its salary progression,
   * the tax system of its market, and the fixed housing and investment templates.
   */
  predicate LoadedFrom(store: map<TemplateKey, Template>, taxSystems: map<string, Template>, rank: map<TemplateKey, nat>,
                       p: Phase<PhaseTemplates>, input: PhaseInput, startYear: int)
  {
    StoreValid(store, rank) &&
    p.name == input.name && p.duration == input.duration && p.locationMarket == input.market &&
    p.startYear == startYear && p.endYear == startYear + input.duration - 1 &&
    ResolveSpec(store, rank, "salary_progressions", input.salaryProgression) == Ok(p.templates.salaryProgression) &&
    p.templates.expenseProfile == ExpenseProfileName(input.expenseProfile) &&
    ResolveSpec(store, rank, "housing_strategies", DefaultHousing) == Ok(p.templates.housingStrategy) &&
    LoadTaxSystem(taxSystems, TaxSystemForLocation(input.market)) == Ok(p.templates.taxSystem) &&
    p.templates.investmentStrategy.Some? &&
    ResolveSpec(store, rank, "investment_strategies", DefaultInvestment) == Ok(p.templates.investmentStrategy.value)
  }

  /** A phase entry loads exactly when its salary progression, the fixed templates and its market's tax system all load. */
  predicate PhaseLoads(store: map<TemplateKey, Template>, taxSystems: map<string, Template>, rank: map<TemplateKey, nat>,
                       input: PhaseInput)
    requires StoreValid(store, rank)
  {
    ResolveSpec(store, rank, "salary_progressions", input.salaryProgression).Ok? &&
    ResolveSpec(store, rank, "housing_strategies", DefaultHousing).Ok? &&
    LoadTaxSystem(taxSystems, TaxSystemForLocation(input.market)).Ok? &&
    ResolveSpec(store, rank, "investment_strategies", DefaultInvestment).Ok?
  }

  /**
   * Appending the phase loaded from input `i`, starting right after the phases so far, keeps the schedule laid end
   * to end and every phase matched with its input.
   */
  lemma LoadedStep(store: map<TemplateKey, Template>, taxSystems: map<string, Template>, rank: map<TemplateKey, nat>,
                   phases: seq<Phase<PhaseTemplates>>, inputs: seq<PhaseInput>, p: Phase<PhaseTemplates>, i: nat, startYear: int)
    requires i == |phases| < |inputs| && LaidEndToEnd(phases, 1)
    requires startYear == if phases == [] then 1 else phases[i - 1].endYear + 1
    requires forall k :: 0 <= k < i ==> LoadedFrom(store, taxSystems, rank, phases[k], inputs[k], phases[k].startYear)
    requires forall k :: 0 <= k < i ==> phases[k].duration == inputs[k].duration
    requires LoadedFrom(store, taxSystems, rank, p, inputs[i], startYear)
    ensures var extended := phases + [p];
      && LaidEndToEnd(extended, 1)
      && extended[i].endYear + 1 == startYear + inputs[i].duration
      && (forall k :: 0 <= k < i + 1 ==> LoadedFrom(store, taxSystems, rank, extended[k], inputs[k], extended[k].startYear))
      && (forall k :: 0 <= k < i + 1 ==> extended[k].duration == inputs[k].duration)
  {
    assert p.startYear == startYear && p.endYear == startYear + inputs[i].duration - 1;
    AppendLaidEndToEnd(phases, p, 1);
    LoadedExtend(store, taxSystems, rank, phases, inputs, p, i);
  }

  /** The phases matched with their inputs stay matched when the next loaded phase is appended. */
  lemma LoadedExtend(store: map<TemplateKey, Template>, taxSystems: map<string, Template>, rank: map<TemplateKey, nat>,
                     phases: seq<Phase<PhaseTemplates>>, inputs: seq<PhaseInput>, p: Phase<PhaseTemplates>, i: nat)
    requires i == |phases| < |inputs|
    requires forall k :: 0 <= k < i ==> LoadedFrom(store, taxSystems, rank, phases[k], inputs[k], phases[k].startYear)
    requires forall k :: 0 <= k < i ==> phases[k].duration == inputs[k].duration
    requires LoadedFrom(store, taxSystems, rank, p, inputs[i], p.startYear)
    ensures forall k :: 0 <= k < i + 1 ==> LoadedFrom(store, taxSystems, rank, (phases + [p])[k], inputs[k], (phases + [p])[k].startYear)
    ensures forall k :: 0 <= k < i + 1 ==> (phases + [p])[k].duration == inputs[k].duration
  {
    forall k | 0 <= k < i + 1
      ensures LoadedFrom(store, taxSystems, rank, (phases + [p])[k], inputs[k], (phases + [p])[k].startYear)
      ensures (phases + [p])[k].duration == inputs[k].duration
    {
      if k < i {
        assert (phases + [p])[k] == phases[k];
      } else {
        assert (phases + [p])[k] == p;
      }
    }
  }

  // ------------------------------------------------------------- the engine

  /** Every cached template is the resolution of its key. */
  ghost predicate CacheAgrees(store: map<TemplateKey, Template>, rank: map<TemplateKey, nat>, cache: map<TemplateKey, Template>)
    requires StoreValid(store, rank)
  {
    forall key :: key in cache ==>
      ResolveName(store, rank, key.0, key.1).Ok? && cache[key] == ResolveName(store, rank, key.0, key.1).value
  }

  lemma CacheAgreesExtend(store: map<TemplateKey, Template>, rank: map<TemplateKey, nat>, cache: map<TemplateKey, Template>, key: TemplateKey,
                          data: Template)
    requires StoreValid(store, rank) && CacheAgrees(store, rank, cache)
    requires ResolveName(store, rank, key.0, key.1) == Ok(data)
    ensures CacheAgrees(store, rank, cache[key := data])
  {
  }

  // ------------------------------------------------------------- the cache as written

  /** The end of a load: the named template cached as `data`, then the spec's composition overrides merged over it. */
  function CacheAndCompose(cache: map<TemplateKey, Template>, key: TemplateKey, data: Template, spec: Value)
    : (Result<Template, LoadError>, map<TemplateKey, Template>)
  {
    (if Composition(spec) == map[] then Ok(data) else Merged(data, Dict(Composition(spec))), cache[key := data])
  }

  /**
   * `_load_template` as written, returning the answer and the new cache. A cache hit is checked for `extends`
   * like a file is, so a cached template that carries an `extends` key (copied in from an `overrides` section) is
   * resolved again against that parent. Such a chain need not end; `fuel` is the recursion depth Python allows.
   */
  function LoadAsWritten(store: map<TemplateKey, Template>, cache: map<TemplateKey, Template>, templateType: string,
                         spec: Value, fuel: nat): (out: (Result<Template, LoadError>, map<TemplateKey, Template>))
    ensures out.0.Ok? ==> SpecName(spec).Some? && (templateType, SpecName(spec).value) in out.1
    ensures out.0.Ok? ==> (templateType, SpecName(spec).value) in cache || (templateType, SpecName(spec).value) in store
    decreases fuel
  {
    if fuel == 0 then (Err(RecursionLimit), cache)
    else if spec.Dict? && "template" !in spec.entries then (Err(MissingTemplateField), cache)
    else if SpecName(spec).None? then (Err(UnnamedTemplate), cache)
    else
      var key := (templateType, SpecName(spec).value);
      if key !in cache && key !in store then (Err(TemplateNotFound(templateType, key.1)), cache)
      else
        var data := if key in cache then cache[key] else store[key];
        if "extends" in data then AfterParent(LoadAsWritten(store, cache, templateType, data["extends"], fuel - 1), key, data, spec)
        else CacheAndCompose(cache, key, data, spec)
  }

  /** The rest of a load once the parent is loaded: a failure passes on, otherwise the merge is cached and composed. */
  function AfterParent(parent: (Result<Template, LoadError>, map<TemplateKey, Template>), key: TemplateKey, data: Template, spec: Value)
    : (out: (Result<Template, LoadError>, map<TemplateKey, Template>))
    ensures out.0.Ok? ==> key in out.1
  {
    if parent.0.Err? then (Err(parent.0.error), parent.1)
    else
      match Merged(parent.0.value, Dict(data))
      case Err(e) => (Err(e), parent.1)
      case Ok(d) => CacheAndCompose(parent.1, key, d, spec)
  }

  /** The source's load from `cache` gives the uncached resolution and leaves a cache that agrees with the files. */
  ghost predicate AgreesAfterLoad(store: map<TemplateKey, Template>, rank: map<TemplateKey, nat>,
                                  cache: map<TemplateKey, Template>, templateType: string, spec: Value, fuel: nat)
    requires StoreValid(store, rank)
  {
    LoadAsWritten(store, cache, templateType, spec, fuel).0 == ResolveSpec(store, rank, templateType, spec) &&
    CacheAgrees(store, rank, LoadAsWritten(store, cache, templateType, spec, fuel).1)
  }

  /**
   * Without an `overrides` section that copies in `extends`, the source's load is the uncached resolution and keeps
   * the cache agreeing with the files, given the recursion depth the `extends` chain needs.
   */
  lemma {:induction false} AsWrittenResolvesWithoutCopiedExtends(store: map<TemplateKey, Template>, rank: map<TemplateKey, nat>,
                                                                 cache: map<TemplateKey, Template>, templateType: string,
                                                                 spec: Value, fuel: nat)
    requires StoreValid(store, rank) && StoreCopiesNoExtends(store) && CacheAgrees(store, rank, cache)
    requires fuel > SpecRank(rank, templateType, spec)
    ensures AgreesAfterLoad(store, rank, cache, templateType, spec, fuel)
    decreases fuel
  {
    if (spec.Dict? && "template" !in spec.entries) || SpecName(spec).None? ||
       ((templateType, SpecName(spec).value) !in cache && (templateType, SpecName(spec).value) !in store) {
      AsWrittenFails(store, rank, cache, templateType, spec, fuel);
    } else {
      var name := SpecName(spec).value;
      var key := (templateType, name);
      if key in cache {
        ResolvedNameHasNoExtends(store, rank, templateType, name);
        AsWrittenDirect(store, rank, cache, templateType, spec, fuel);
      } else if key in store {
        if "extends" in store[key] {
          var parentSpec := store[key]["extends"];
          assert SpecRank(rank, templateType, parentSpec) < rank[key];
          AsWrittenResolvesWithoutCopiedExtends(store, rank, cache, templateType, parentSpec, fuel - 1);
          AsWrittenExtendsStep(store, rank, cache, templateType, spec, name, parentSpec, fuel);
        } else {
          AsWrittenDirect(store, rank, cache, templateType, spec, fuel);
        }
      }
    }
  }

  /** A spec naming no template, or a template neither cached nor on file, fails alike in both versions. */
  lemma AsWrittenFails(store: map<TemplateKey, Template>, rank: map<TemplateKey, nat>,
                       cache: map<TemplateKey, Template>, templateType: string, spec: Value, fuel: nat)
    requires StoreValid(store, rank) && CacheAgrees(store, rank, cache) && fuel > 0
    requires (spec.Dict? && "template" !in spec.entries) || SpecName(spec).None? ||
      ((templateType, SpecName(spec).value) !in cache && (templateType, SpecName(spec).value) !in store)
    ensures LoadAsWritten(store, cache, templateType, spec, fuel).1 == cache
    ensures AgreesAfterLoad(store, rank, cache, templateType, spec, fuel)
  {
  }

  /** A template taken as it is, from the cache or from a file without `extends`, is its uncached resolution. */
  lemma AsWrittenDirect(store: map<TemplateKey, Template>, rank: map<TemplateKey, nat>,
                        cache: map<TemplateKey, Template>, templateType: string, spec: Value, fuel: nat)
    requires StoreValid(store, rank) && CacheAgrees(store, rank, cache) && fuel > 0
    requires !(spec.Dict? && "template" !in spec.entries) && SpecName(spec).Some?
    requires var key := (templateType, SpecName(spec).value);
      if key in cache then "extends" !in cache[key] else key in store && "extends" !in store[key]
    ensures AgreesAfterLoad(store, rank, cache, templateType, spec, fuel)
  {
    var key := (templateType, SpecName(spec).value);
    var data := if key in cache then cache[key] else store[key];
    assert LoadAsWritten(store, cache, templateType, spec, fuel) == CacheAndCompose(cache, key, data, spec);
    assert ResolveName(store, rank, templateType, key.1) == Ok(data);
    ComposeAgrees(store, rank, cache, templateType, spec, data);
  }

  /** A file that extends a parent loaded as the uncached resolution is loaded as its own uncached resolution. */
  lemma AsWrittenExtendsStep(store: map<TemplateKey, Template>, rank: map<TemplateKey, nat>,
                             cache: map<TemplateKey, Template>, templateType: string, spec: Value, name: string,
                             parentSpec: Value, fuel: nat)
    requires StoreValid(store, rank) && CacheAgrees(store, rank, cache) && fuel > 0
    requires !(spec.Dict? && "template" !in spec.entries) && SpecName(spec) == Some(name)
    requires (templateType, name) !in cache && (templateType, name) in store
    requires "extends" in store[(templateType, name)] && parentSpec == store[(templateType, name)]["extends"]
    requires AgreesAfterLoad(store, rank, cache, templateType, parentSpec, fuel - 1)
    ensures AgreesAfterLoad(store, rank, cache, templateType, spec, fuel)
  {
    var key := (templateType, name);
    var data := store[key];
    var parent := LoadAsWritten(store, cache, templateType, parentSpec, fuel - 1);
    assert LoadAsWritten(store, cache, templateType, spec, fuel) == AfterParent(parent, key, data, spec);
    if parent.0.Ok? {
      var merged := Merged(parent.0.value, Dict(data));
      assert ResolveName(store, rank, templateType, key.1) == merged;
      if merged.Ok? {
        assert AfterParent(parent, key, data, spec) == CacheAndCompose(parent.1, key, merged.value, spec);
        ComposeAgrees(store, rank, parent.1, templateType, spec, merged.value);
      }
    }
  }

  /** Caching a template's resolution and composing the spec over it agrees with the uncached resolution of the spec. */
  lemma ComposeAgrees(store: map<TemplateKey, Template>, rank: map<TemplateKey, nat>, cache: map<TemplateKey, Template>,
                      templateType: string, spec: Value, data: Template)
    requires StoreValid(store, rank) && CacheAgrees(store, rank, cache)
    requires !(spec.Dict? && "template" !in spec.entries) && SpecName(spec).Some?
    requires ResolveName(store, rank, templateType, SpecName(spec).value) == Ok(data)
    ensures CacheAndCompose(cache, (templateType, SpecName(spec).value), data, spec).0 == ResolveSpec(store, rank, templateType, spec)
    ensures CacheAgrees(store, rank, CacheAndCompose(cache, (templateType, SpecName(spec).value), data, spec).1)
  {
    CacheAgreesExtend(store, rank, cache, (templateType, SpecName(spec).value), data);
  }

  /** A parent `p`, an unrelated `q`, and a child `c` of `p` whose `overrides` section sets `extends: q`. */
  const ExampleStore: map<TemplateKey, Template> :=
    map[("s", "p") := map["a" := Int(1)], ("s", "q") := map["b" := Int(2)],
        ("s", "c") := map["extends" := Str("p"), "overrides" := Dict(map["extends" := Str("q")])]]

  /** The resolution of `c`: `p`'s keys and the copied `extends`. */
  const ExampleResolved: Template := map["a" := Int(1), "extends" := Str("q")]

  lemma ExampleFirstMerge()
    ensures Merged(map["a" := Int(1)], Dict(ExampleStore[("s", "c")])) == Ok(ExampleResolved)
  {
    var c := ExampleStore[("s", "c")];
    var section := Dict(map["extends" := Str("q")]);
    assert c["overrides"] == section && section.entries.Keys == {"extends"};
    assert Combine(None, Str("q")) == Ok(Str("q"));
    assert KeysApply(map["a" := Int(1)], section, {"extends"});
    assert ApplyKeys(map["a" := Int(1)], section, {"extends"}).value == ExampleResolved;
    assert AfterOverridesSection(map["a" := Int(1)], Dict(c)) == Ok(ExampleResolved);
    assert PlainKeys(Dict(c)) == {};
    ApplyNoKeys(ExampleResolved, Dict(c));
  }

  lemma ExampleSecondMerge()
    ensures Merged(map["b" := Int(2)], Dict(ExampleResolved)) == Ok(map["a" := Int(1), "b" := Int(2)])
  {
    assert PlainKeys(Dict(ExampleResolved)) == {"a"};
    assert Combine(None, Int(1)) == Ok(Int(1));
    assert KeysApply(map["b" := Int(2)], Dict(ExampleResolved), {"a"});
    assert ApplyKeys(map["b" := Int(2)], Dict(ExampleResolved), {"a"}).value == map["a" := Int(1), "b" := Int(2)];
  }

  lemma ExampleFirstLoad()
    ensures LoadAsWritten(ExampleStore, map[], "s", Str("c"), 3) ==
      (Ok(ExampleResolved), map[("s", "p") := map["a" := Int(1)], ("s", "c") := ExampleResolved])
  {
    var p1 := LoadAsWritten(ExampleStore, map[], "s", Str("p"), 2);
    assert p1 == (Ok(map["a" := Int(1)]), map[("s", "p") := map["a" := Int(1)]]);
    ExampleFirstMerge();
  }

  lemma ExampleSecondLoad()
    ensures LoadAsWritten(ExampleStore, map[("s", "p") := map["a" := Int(1)], ("s", "c") := ExampleResolved], "s", Str("c"), 3).0 ==
      Ok(map["a" := Int(1), "b" := Int(2)])
  {
    var cache := map[("s", "p") := map["a" := Int(1)], ("s", "c") := ExampleResolved];
    var q1 := LoadAsWritten(ExampleStore, cache, "s", Str("q"), 2);
    assert q1.0 == Ok(map["b" := Int(2)]);
    ExampleSecondMerge();
  }

  const ExampleRank: map<TemplateKey, nat> := map[("s", "p") := 0, ("s", "q") := 0, ("s", "c") := 1]

  lemma ExampleStoreValid()
    ensures StoreValid(ExampleStore, ExampleRank)
  {
  }

  /** The resolution the corrected engine returns for `c` on every load is the first load's answer. */
  lemma ExampleIntended()
    ensures StoreValid(ExampleStore, ExampleRank)
    ensures ResolveSpec(ExampleStore, ExampleRank, "s", Str("c")) == Ok(ExampleResolved)
  {
    ExampleStoreValid();
    var c := ExampleStore[("s", "c")];
    assert ResolveName(ExampleStore, ExampleRank, "s", "p") == Ok(map["a" := Int(1)]);
    assert ResolveSpec(ExampleStore, ExampleRank, "s", Str("p")) == Ok(map["a" := Int(1)]);
    assert ResolveName(ExampleStore, ExampleRank, "s", "c") == Merged(map["a" := Int(1)], Dict(c));
    ExampleFirstMerge();
  }

  /**
   * A template whose `overrides` section sets `extends` loads differently the second time: the first load caches
   * its resolution with the copied `extends`, and the cache hit then resolves that against the template it names.
   */
  lemma CacheHitResolvesAgain()
    ensures var first := LoadAsWritten(ExampleStore, map[], "s", Str("c"), 3);
            var second := LoadAsWritten(ExampleStore, first.1, "s", Str("c"), 3);
            first.0 == Ok(ExampleResolved) && second.0 == Ok(map["a" := Int(1), "b" := Int(2)]) && first.0 != second.0
  {
    ExampleFirstLoad();
    ExampleSecondLoad();
    assert "extends" in ExampleResolved;
  }

  /** The template engine: the template and tax-system files, and the cache of resolved templates. */
  class TemplateEngine {
    const store: map<TemplateKey, Template>
    const taxSystems: map<string, Template>
    const scenarios: map<string, ScenarioDoc>
    var templateCache: map<TemplateKey, Template>

    constructor (store: map<TemplateKey, Template>, taxSystems: map<string, Template>, scenarios: map<string, ScenarioDoc>)
      ensures this.store == store && this.taxSystems == taxSystems && this.scenarios == scenarios && templateCache == map[]
    {
      this.store := store;
      this.taxSystems := taxSystems;
      this.scenarios := scenarios;
      templateCache := map[];
    }

    /** Every cached template is the resolution of its file. */
    ghost predicate CacheValid(rank: map<TemplateKey, nat>)
      reads this
      requires StoreValid(store, rank)
    {
      CacheAgrees(store, rank, templateCache)
    }

    /**
     * `_load_template`, with the cache hit corrected: resolves a spec, from the cache when the named template is
     * there (taking the cached resolution as it is), otherwise from its file and its parent's resolution, and caches
     * the named template before applying the spec's composition overrides. The answer is always the uncached
     * resolution. `LoadAsWritten` is the source's version, which resolves a cached template again.
     */
    method LoadTemplate(templateType: string, spec: Value, ghost rank: map<TemplateKey, nat>) returns (r: Result<Template, LoadError>)
      requires StoreValid(store, rank) && CacheValid(rank)
      modifies this
      ensures CacheValid(rank)
      ensures r == ResolveSpec(store, rank, templateType, spec)
      ensures old(templateCache).Keys <= templateCache.Keys
      decreases SpecRank(rank, templateType, spec), 1
    {
      if spec.Dict? && "template" !in spec.entries {
        return Err(MissingTemplateField);
      }
      var composition := Composition(spec);
      var nameOpt := SpecName(spec);
      if nameOpt.None? {
        return Err(UnnamedTemplate);
      }
      var name := nameOpt.value;
      var key := (templateType, name);
      var data: Template;
      if key in templateCache {
        data := templateCache[key];
      } else if key in store {
        data := store[key];
        if "extends" in data {
          var parent := LoadTemplate(templateType, data["extends"], rank);
          if parent.Err? {
            return Err(parent.error);
          }
          var merged := MergeTemplates(parent.value, Dict(data));
          if merged.Err? {
            return Err(MergeFailed(merged.error));
          }
          data := merged.value;
        }
      } else {
        return Err(TemplateNotFound(templateType, name));
      }
      assert ResolveName(store, rank, templateType, name) == Ok(data);
      CacheAgreesExtend(store, rank, templateCache, key, data);
      templateCache := templateCache[key := data];
      if composition != map[] {
        var merged := MergeTemplates(data, Dict(composition));
        if merged.Err? {
          return Err(MergeFailed(merged.error));
        }
        r := Ok(merged.value);
      } else {
        r := Ok(data);
      }
    }

    /** One iteration of `_load_phases_from_yaml`: the phase of one input, starting at `startYear`. */
    method LoadPhase(input: PhaseInput, startYear: int, ghost rank: map<TemplateKey, nat>)
      returns (r: Result<Phase<PhaseTemplates>, LoadError>)
      requires StoreValid(store, rank) && CacheValid(rank)
      modifies this
      ensures CacheValid(rank)
      ensures r.Ok? <==> PhaseLoads(store, taxSystems, rank, input)
      ensures r.Ok? ==> LoadedFrom(store, taxSystems, rank, r.value, input, startYear)
    {
      var salary := LoadTemplate("salary_progressions", input.salaryProgression, rank);
      if salary.Err? {
        return Err(salary.error);
      }
      var housing := LoadTemplate("housing_strategies", DefaultHousing, rank);
      if housing.Err? {
        return Err(housing.error);
      }
      var tax := LoadTaxSystem(taxSystems, TaxSystemForLocation(input.market));
      if tax.Err? {
        return Err(tax.error);
      }
      var investment := LoadTemplate("investment_strategies", DefaultInvestment, rank);
      if investment.Err? {
        return Err(investment.error);
      }
      var templates := PhaseTemplates(salary.value, ExpenseProfileName(input.expenseProfile), housing.value, tax.value,
                                      Some(investment.value));
      r := Ok(Phase(input.name, input.duration, startYear, startYear + input.duration - 1, input.market, templates));
    }

    /**
     * `_load_phases_from_yaml`: each phase's templates loaded in order, and phases laid end to end from plan
     * year 1, each starting after the durations of those before it.
     */
    method LoadPhasesFromYaml(inputs: seq<PhaseInput>, ghost rank: map<TemplateKey, nat>)
      returns (r: Result<seq<Phase<PhaseTemplates>>, LoadError>)
      requires StoreValid(store, rank) && CacheValid(rank)
      modifies this
      ensures CacheValid(rank)
      ensures r.Ok? <==> forall k :: 0 <= k < |inputs| ==> PhaseLoads(store, taxSystems, rank, inputs[k])
      ensures r.Ok? ==> |r.value| == |inputs| && LaidEndToEnd(r.value, 1)
      ensures r.Ok? ==> forall k :: 0 <= k < |inputs| ==> LoadedFrom(store, taxSystems, rank, r.value[k], inputs[k], r.value[k].startYear)
      ensures r.Ok? ==> TotalDuration(r.value) == SumDurations(inputs)
    {
      var phases: seq<Phase<PhaseTemplates>> := [];
      var currentYear := 1;
      var i := 0;
      while i < |inputs|
        invariant 0 <= i <= |inputs|
        invariant CacheValid(rank)
        invariant |phases| == i && LaidEndToEnd(phases, 1)
        invariant currentYear == if phases == [] then 1 else phases[i - 1].endYear + 1
        invariant forall k :: 0 <= k < i ==> LoadedFrom(store, taxSystems, rank, phases[k], inputs[k], phases[k].startYear)
        invariant forall k :: 0 <= k < i ==> phases[k].duration == inputs[k].duration
        invariant forall k :: 0 <= k < i ==> PhaseLoads(store, taxSystems, rank, inputs[k])
      {
        var phase := LoadPhase(inputs[i], currentYear, rank);
        if phase.Err? {
          return Err(phase.error);
        }
        LoadedStep(store, taxSystems, rank, phases, inputs, phase.value, i, currentYear);
        phases := phases + [phase.value];
        currentYear := currentYear + inputs[i].duration;
        i := i + 1;
      }
      TotalDurationIsSumOfInputs(phases, inputs);
      r := Ok(phases);
    }

    /**
     * `load_scenario`: the phases (from `composition.phases`, or one phase for a single-phase composition), the
     * normalised planning section, and validation. A loaded scenario is valid, its phases are laid end to end from
     * year 1, and every plan year up to `duration_years` has a phase.
     */
    method LoadScenario(id: string, ghost rank: map<TemplateKey, nat>) returns (r: Result<ResolvedConfig, LoadError>)
      requires StoreValid(store, rank) && CacheValid(rank)
      modifies this
      ensures CacheValid(rank)
      ensures id !in scenarios ==> r == Err(ScenarioNotFound(id))
      ensures r.Ok? ==> id in scenarios && r.value.metadata == scenarios[id].metadata
      ensures r.Ok? ==> r.value.planning == NormalizePlanning(PlanningData(scenarios[id]))
      ensures r.Ok? ==> ConfigValid(r.value) && LaidEndToEnd(r.value.phases, 1)
      ensures r.Ok? && scenarios[id].phaseList.Some? ==> |r.value.phases| == |scenarios[id].phaseList.value|
      ensures r.Ok? && scenarios[id].phaseList.None? ==> |r.value.phases| == 1
      ensures r.Ok? && r.value.planning["duration_years"].Int? ==>
        forall year :: 1 <= year <= r.value.planning["duration_years"].i ==> GetPhaseForYear(r.value.phases, year).Ok?
    {
      if id !in scenarios {
        return Err(ScenarioNotFound(id));
      }
      var doc := scenarios[id];
      var phases := LoadDocumentPhases(doc, rank);
      if phases.Err? {
        return Err(phases.error);
      }
      var config := ResolvedConfig(doc.metadata, NormalizePlanning(PlanningData(doc)), phases.value);
      var validation := ValidateResolvedConfig(config);
      if validation.Err? {
        return Err(InvalidConfig(validation.error));
      }
      ValidScheduleCoversWholePlan(config);
      r := Ok(config);
    }

    /** The phases of a scenario document: its `phases` list, or the one phase of a single-phase composition. */
    method LoadDocumentPhases(doc: ScenarioDoc, ghost rank: map<TemplateKey, nat>)
      returns (r: Result<seq<Phase<PhaseTemplates>>, LoadError>)
      requires StoreValid(store, rank) && CacheValid(rank)
      modifies this
      ensures CacheValid(rank)
      ensures r.Ok? ==> LaidEndToEnd(r.value, 1)
      ensures r.Ok? && doc.phaseList.Some? ==> |r.value| == |doc.phaseList.value|
      ensures r.Ok? && doc.phaseList.None? ==> |r.value| == 1
    {
      if doc.phaseList.Some? {
        r := LoadPhasesFromYaml(doc.phaseList.value, rank);
      } else {
        var planning := if doc.planning.Some? then doc.planning.value else map[];
        var single := ConvertSinglePhase(doc.composition, planning, rank);
        if single.Err? {
          return Err(single.error);
        }
        r := Ok([single.value]);
      }
    }

    /**
     * `_convert_single_phase_to_phase_config`: a single-phase scenario becomes one phase spanning the whole plan
     * (`duration_years`, 10 when absent), in the composition's market ("uk" when absent).
     */
    method ConvertSinglePhase(composition: Template, planning: Template, ghost rank: map<TemplateKey, nat>)
      returns (r: Result<Phase<PhaseTemplates>, LoadError>)
      requires StoreValid(store, rank) && CacheValid(rank)
      modifies this
      ensures CacheValid(rank)
      ensures "salary_progression" !in composition ==> r == Err(MissingKey("salary_progression"))
      ensures r.Ok? ==> r.value.name == "main_phase" && r.value.startYear == 1 && r.value.endYear == r.value.duration
      ensures r.Ok? ==> PlanningDuration(planning) == Some(r.value.duration)
      ensures r.Ok? ==> "salary_progression" in composition && "housing_strategy" in composition
      ensures r.Ok? ==> ResolveSpec(store, rank, "salary_progressions", composition["salary_progression"]) == Ok(r.value.templates.salaryProgression)
      ensures r.Ok? ==> ResolveSpec(store, rank, "housing_strategies", composition["housing_strategy"]) == Ok(r.value.templates.housingStrategy)
      ensures r.Ok? ==> Str(r.value.locationMarket) == (if "location_market" in composition then composition["location_market"] else Str("uk"))
      ensures r.Ok? ==> r.value.templates.expenseProfile == (if "expense_profile" in composition then composition["expense_profile"] else Str("graduate"))
      ensures r.Ok? ==> (r.value.templates.investmentStrategy.Some? <==>
        "investment_strategy" in composition && Truthy(composition["investment_strategy"]))
    {
      if "salary_progression" !in composition {
        return Err(MissingKey("salary_progression"));
      }
      var salary := LoadTemplate("salary_progressions", composition["salary_progression"], rank);
      if salary.Err? {
        return Err(salary.error);
      }
      if "housing_strategy" !in composition {
        return Err(MissingKey("housing_strategy"));
      }
      var housing := LoadTemplate("housing_strategies", composition["housing_strategy"], rank);
      if housing.Err? {
        return Err(housing.error);
      }
      var taxName := if "tax_system" in composition then composition["tax_system"] else Str("uk_income_tax_ni");
      if !taxName.Str? {
        return Err(TaxSystemNotFound(""));
      }
      var tax := LoadTaxSystem(taxSystems, taxName.s);
      if tax.Err? {
        return Err(tax.error);
      }
      var investment: Option<Template> := None;
      if "investment_strategy" in composition && Truthy(composition["investment_strategy"]) {
        var loaded := LoadTemplate("investment_strategies", composition["investment_strategy"], rank);
        if loaded.Err? {
          return Err(loaded.error);
        }
        investment := Some(loaded.value);
      }
      var duration := PlanningDuration(planning);
      if duration.None? {
        return Err(NotAnInteger("duration_years"));
      }
      var market := if "location_market" in composition then composition["location_market"] else Str("uk");
      if !market.Str? {
        return Err(NotAString("location_market"));
      }
      var expenseProfile := if "expense_profile" in composition then composition["expense_profile"] else Str("graduate");
      var templates := PhaseTemplates(salary.value, expenseProfile, housing.value, tax.value, investment);
      r := Ok(Phase("main_phase", duration.value, 1, duration.value, market.s, templates));
    }
  }

  /** The planned number of years: `duration_years` when it is a whole number, 10 when it is absent. */
  function PlanningDuration(planning: Template): (d: Option<int>)
    ensures "duration_years" !in planning ==> d == Some(10)
    ensures "duration_years" in planning && planning["duration_years"].Int? ==> d == Some(planning["duration_years"].i)
  {
    if "duration_years" !in planning then Some(10)
    else if planning["duration_years"].Int? then Some(planning["duration_years"].i)
    else None
  }
}

=== FILE: template_merge.dfy ===
/** YAML configuration values and the template deep-merge with its `overrides` and `extends` keys. */
module TemplateMerge {
  import opened Base

  /** A YAML value: scalars, lists and string-keyed mappings. */
  datatype Value =
    | Null
    | Bool(b: bool)
    | Int(i: int)
    | Num(r: real)
    | Str(s: string)
    | List(items: seq<Value>)
    | Dict(entries: map<string, Value>)

  /** A loaded YAML template: a mapping at the top level. */
  type Template = map<string, Value>

  /** Python truthiness of a YAML value. */
  predicate Truthy(v: Value)
  {
    match v
    case Null => false
    case Bool(b) => b
    case Int(i) => i != 0
    case Num(r) => r != 0.0
    case Str(s) => s != ""
    case List(items) => items != []
    case Dict(entries) => entries != map[]
  }

  /** The merge calls `.items()` on every `overrides` section it applies: anything but a mapping raises `AttributeError`. */
  datatype MergeError = OverridesNotMapping

  /**
   * An override in which every `overrides` entry, at any depth, is a mapping. A merge only reads the sections it
   * meets, so this is enough for a merge to succeed but not needed.
   */
  predicate WellFormed(v: Value)
    decreases v
  {
    match v
    case Dict(entries) =>
      ("overrides" in entries ==> entries["overrides"].Dict?) &&
      forall k :: k in entries ==> WellFormed(entries[k])
    case List(items) => true
    case _ => true
  }

  function Lookup(m: map<string, Value>, k: string): Option<Value>
  {
    if k in m then Some(m[k]) else None
  }

  /** One key of an override applied to its current value: two mappings merge, anything else is replaced. */
  function Combine(current: Option<Value>, v: Value): (r: Result<Value, MergeError>)
    ensures !(current.Some? && current.value.Dict? && v.Dict?) ==> r == Ok(v)
    ensures current.Some? && current.value.Dict? && v.Dict? ==>
      (r.Ok? <==> Merge(current.value.entries, v).Ok?) && (r.Ok? ==> r.value == Dict(Merge(current.value.entries, v).value))
    decreases v, 4
  {
    if current.Some? && current.value.Dict? && v.Dict? then
      match Merge(current.value.entries, v)
      case Ok(m) => Ok(Dict(m))
      case Err(e) => Err(e)
    else Ok(v)
  }

  /** Every key in `keys` of `section` can be applied to `base`. */
  predicate KeysApply(base: map<string, Value>, section: Value, keys: set<string>)
    requires section.Dict? && keys <= section.entries.Keys
    decreases section, 1
  {
    forall k :: k in keys ==> Combine(Lookup(base, k), section.entries[k]).Ok?
  }

  /** The keys `keys` of `section` applied to `base`; every other key of `base` is kept. */
  function ApplyKeys(base: map<string, Value>, section: Value, keys: set<string>): (r: Result<map<string, Value>, MergeError>)
    requires section.Dict? && keys <= section.entries.Keys
    ensures r.Ok? <==> KeysApply(base, section, keys)
    ensures r.Ok? ==> r.value.Keys == base.Keys + keys
    decreases section, 2
  {
    if KeysApply(base, section, keys) then
      Ok(map k | k in base.Keys + keys :: if k in keys then Combine(Lookup(base, k), section.entries[k]).value else base[k])
    else Err(OverridesNotMapping)
  }

  /** The keys of the override other than `overrides` and `extends`. */
  function PlainKeys(ov: Value): set<string>
    requires ov.Dict?
  {
    ov.entries.Keys - {"overrides", "extends"}
  }

  /** The keys an `overrides` section that is a mapping sets. */
  function SectionKeys(ov: Value): set<string>
    requires ov.Dict?
  {
    if "overrides" in ov.entries && ov.entries["overrides"].Dict? then ov.entries["overrides"].entries.Keys else {}
  }

  /** The result after the `overrides` section alone has been applied; a section that is not a mapping fails. */
  function AfterOverridesSection(base: map<string, Value>, ov: Value): Result<map<string, Value>, MergeError>
    requires ov.Dict?
    decreases ov, 0
  {
    if "overrides" !in ov.entries then Ok(base)
    else if !ov.entries["overrides"].Dict? then Err(OverridesNotMapping)
    else ApplyKeys(base, ov.entries["overrides"], ov.entries["overrides"].entries.Keys)
  }

  /**
   * `_merge_templates`: the override's `overrides` section is applied to the base first; then every other
   * key except `extends` is applied on top, so plain keys win over the section. Applying a key merges two
   * mappings recursively (with the same rules) and otherwise replaces the value.
   */
  function Merge(base: map<string, Value>, ov: Value): (r: Result<map<string, Value>, MergeError>)
    requires ov.Dict?
    decreases ov, 3
  {
    match AfterOverridesSection(base, ov)
    case Err(e) => Err(e)
    case Ok(r1) => ApplyKeys(r1, ov, PlainKeys(ov))
  }

  /** The override's plain keys are applied one at a time; `applied` are those done so far. */
  lemma ApplyOneMoreKey(base: map<string, Value>, section: Value, applied: set<string>, k: string)
    requires section.Dict? && applied <= section.entries.Keys
    requires k in section.entries && k !in applied
    ensures ApplyKeys(base, section, applied + {k}).Ok? <==>
      ApplyKeys(base, section, applied).Ok? && Combine(Lookup(base, k), section.entries[k]).Ok?
    ensures ApplyKeys(base, section, applied + {k}).Ok? ==>
      ApplyKeys(base, section, applied + {k}).value ==
      ApplyKeys(base, section, applied).value[k := Combine(Lookup(base, k), section.entries[k]).value]
  {
    if ApplyKeys(base, section, applied + {k}).Ok? {
      var lhs := ApplyKeys(base, section, applied + {k}).value;
      var rhs := ApplyKeys(base, section, applied).value[k := Combine(Lookup(base, k), section.entries[k]).value];
      assert lhs.Keys == rhs.Keys;
      forall j | j in lhs.Keys
        ensures lhs[j] == rhs[j]
      {
      }
    }
  }

  lemma ApplyNoKeys(base: map<string, Value>, section: Value)
    requires section.Dict?
    ensures ApplyKeys(base, section, {}) == Ok(base)
  {
    assert KeysApply(base, section, {});
    var r := ApplyKeys(base, section, {}).value;
    assert r.Keys == base.Keys;
    forall k | k in r
      ensures r[k] == base[k]
    {
    }
    assert r == base;
  }

  /** Keys outside `keys` keep the base's value. */
  lemma ApplyKeysElsewhere(base: map<string, Value>, section: Value, keys: set<string>, k: string)
    requires section.Dict? && keys <= section.entries.Keys
    requires k !in keys
    ensures ApplyKeys(base, section, keys).Ok? ==> Lookup(ApplyKeys(base, section, keys).value, k) == Lookup(base, k)
  {
  }

  /** The imperative merge: a copy of the base updated key by key, as the source's loops do. */
  method MergeTemplates(base: map<string, Value>, ov: Value) returns (result: Result<map<string, Value>, MergeError>)
    requires ov.Dict?
    ensures result == Merge(base, ov)
    decreases ov, 3
  {
    var current := base;
    if "overrides" in ov.entries {
      if !ov.entries["overrides"].Dict? {
        return Err(OverridesNotMapping);
      }
      var applied := ApplySection(current, ov.entries["overrides"], ov.entries["overrides"].entries.Keys);
      if applied.Err? {
        return applied;
      }
      current := applied.value;
    }
    result := ApplySection(current, ov, PlainKeys(ov));
  }

  /** Moving one key from the remaining to the applied ones keeps the two a partition of the keys. */
  lemma MoveKey(keys: set<string>, remaining: set<string>, applied: set<string>, k: string)
    requires remaining + applied == keys && remaining !! applied && k in remaining
    ensures (remaining - {k}) + (applied + {k}) == keys && (remaining - {k}) !! (applied + {k})
    ensures |remaining - {k}| < |remaining|
  {
  }

  /** The loop over a section's keys, merging into mappings and replacing everything else; any failed merge fails it. */
  method ApplySection(base: map<string, Value>, section: Value, keys: set<string>) returns (result: Result<map<string, Value>, MergeError>)
    requires section.Dict? && keys <= section.entries.Keys
    ensures result == ApplyKeys(base, section, keys)
    decreases section, 2
  {
    var current := base;
    var applied: set<string> := {};
    ApplyNoKeys(base, section);
    var remaining := keys;
    while remaining != {}
      invariant applied <= keys && remaining <= keys
      invariant remaining + applied == keys && remaining !! applied
      invariant ApplyKeys(base, section, applied) == Ok(current)
      decreases |remaining|
    {
      var k :| k in remaining;
      var step := ApplyKey(base, section, applied, k, current);
      if step.Err? {
        assert !KeysApply(base, section, keys);
        return Err(OverridesNotMapping);
      }
      current := step.value;
      MoveKey(keys, remaining, applied, k);
      applied := applied + {k};
      remaining := remaining - {k};
    }
    assert applied == keys;
    result := Ok(current);
  }

  /** One pass of the loop: key `k` of the section applied to the result so far. */
  method ApplyKey(base: map<string, Value>, section: Value, applied: set<string>, k: string, current: map<string, Value>)
    returns (result: Result<map<string, Value>, MergeError>)
    requires section.Dict? && applied <= section.entries.Keys
    requires k in section.entries && k !in applied
    requires ApplyKeys(base, section, applied) == Ok(current)
    ensures result.Ok? <==> Combine(Lookup(base, k), section.entries[k]).Ok?
    ensures result.Ok? ==> ApplyKeys(base, section, applied + {k}) == result
    decreases section, 1
  {
    var v := section.entries[k];
    var existing := Lookup(current, k);
    ApplyKeysElsewhere(base, section, applied, k);
    var newValue: Value;
    if existing.Some? && existing.value.Dict? && v.Dict? {
      var merged := MergeTemplates(existing.value.entries, v);
      if merged.Err? {
        return Err(merged.error);
      }
      newValue := Dict(merged.value);
    } else {
      newValue := v;
    }
    assert Combine(Lookup(base, k), v) == Ok(newValue);
    ApplyOneMoreKey(base, section, applied, k);
    result := Ok(current[k := newValue]);
  }

  // ------------------------------------------------------------- properties of the merge

  /** An `overrides` section that is not a mapping makes the merge fail, as `.items()` raises. */
  lemma ScalarSectionFails(base: map<string, Value>, ov: Value)
    requires ov.Dict? && "overrides" in ov.entries && !ov.entries["overrides"].Dict?
    ensures Merge(base, ov) == Err(OverridesNotMapping)
  {
  }

  /**
   * A section that the merge copies instead of merging is not read: a non-mapping `overrides` inside a value that
   * replaces the base's is copied unchanged.
   */
  lemma CopiedValueIsNotRead(base: map<string, Value>, k: string, inner: Value)
    requires k != "overrides" && k != "extends" && !(k in base && base[k].Dict?)
    ensures Merge(base, Dict(map[k := Dict(map["overrides" := inner])])) == Ok(base[k := Dict(map["overrides" := inner])])
  {
    var v := Dict(map["overrides" := inner]);
    var ov := Dict(map[k := v]);
    assert ov.entries.Keys == {k};
    assert PlainKeys(ov) == {k};
    assert AfterOverridesSection(base, ov) == Ok(base);
    assert Combine(Lookup(base, k), v) == Ok(v);
    assert KeysApply(base, ov, {k});
    var r := ApplyKeys(base, ov, {k}).value;
    assert r.Keys == (base[k := v]).Keys;
    assert r == base[k := v];
  }

  /** A key only the base has keeps its value. */
  lemma BaseOnlyKeyUnchanged(base: map<string, Value>, ov: Value, k: string)
    requires ov.Dict?
    requires k in base && k !in ov.entries
    requires "overrides" in ov.entries && ov.entries["overrides"].Dict? ==> k !in ov.entries["overrides"].entries
    ensures Merge(base, ov).Ok? ==> k in Merge(base, ov).value && Merge(base, ov).value[k] == base[k]
  {
    if Merge(base, ov).Ok? {
      var r1 := AfterOverridesSection(base, ov);
      if "overrides" in ov.entries {
        ApplyKeysElsewhere(base, ov.entries["overrides"], ov.entries["overrides"].entries.Keys, k);
      }
      assert Lookup(r1.value, k) == Some(base[k]);
      ApplyKeysElsewhere(r1.value, ov, PlainKeys(ov), k);
    }
  }

  /** A plain override key replaces the value it meets unless both are mappings. */
  lemma OverrideReplaces(base: map<string, Value>, ov: Value, k: string)
    requires ov.Dict?
    requires k in ov.entries && k != "overrides" && k != "extends"
    requires AfterOverridesSection(base, ov).Ok?
    requires var current := Lookup(AfterOverridesSection(base, ov).value, k);
      !(current.Some? && current.value.Dict? && ov.entries[k].Dict?)
    ensures Merge(base, ov).Ok? ==> k in Merge(base, ov).value && Merge(base, ov).value[k] == ov.entries[k]
  {
  }

  /** When both sides of a plain key are mappings, the result is their recursive merge, and it fails when that does. */
  lemma MappingsMergeRecursively(base: map<string, Value>, ov: Value, k: string)
    requires ov.Dict?
    requires k in ov.entries && k != "overrides" && k != "extends"
    requires "overrides" in ov.entries && ov.entries["overrides"].Dict? ==> k !in ov.entries["overrides"].entries
    requires k in base && base[k].Dict? && ov.entries[k].Dict?
    ensures Merge(base[k].entries, ov.entries[k]).Err? ==> Merge(base, ov).Err?
    ensures Merge(base, ov).Ok? ==>
      k in Merge(base, ov).value && Merge(base, ov).value[k] == Dict(Merge(base[k].entries, ov.entries[k]).value)
  {
    var r1 := AfterOverridesSection(base, ov);
    if r1.Ok? {
      if "overrides" in ov.entries {
        ApplyKeysElsewhere(base, ov.entries["overrides"], ov.entries["overrides"].entries.Keys, k);
      }
      assert Lookup(r1.value, k) == Some(base[k]);
      assert Merge(base, ov) == ApplyKeys(r1.value, ov, PlainKeys(ov));
      assert k in PlainKeys(ov);
      if Merge(base, ov).Ok? {
        assert Merge(base, ov).value[k] == Combine(Lookup(r1.value, k), ov.entries[k]).value;
      }
    }
  }

  /** The result has the base's keys, the `overrides` section's keys and the override's plain keys, and no others. */
  lemma MergeKeys(base: map<string, Value>, ov: Value)
    requires ov.Dict?
    ensures Merge(base, ov).Ok? ==>
      Merge(base, ov).value.Keys == base.Keys + SectionKeys(ov) + PlainKeys(ov)
  {
  }

  /** The override's own `extends` key is never copied: the result has one only if the base or the section does. */
  lemma ExtendsNeverCopied(base: map<string, Value>, ov: Value)
    requires ov.Dict?
    requires "extends" !in base
    requires "overrides" in ov.entries && ov.entries["overrides"].Dict? ==> "extends" !in ov.entries["overrides"].entries
    ensures Merge(base, ov).Ok? ==> "extends" !in Merge(base, ov).value
  {
    MergeKeys(base, ov);
  }

  /** A plain key that the `overrides` section also sets ends with the plain key's value when it is not a mapping. */
  lemma PlainKeyWinsOverSection(base: map<string, Value>, ov: Value, k: string)
    requires ov.Dict?
    requires "overrides" in ov.entries && ov.entries["overrides"].Dict? && k in ov.entries["overrides"].entries
    requires k in ov.entries && k != "overrides" && k != "extends" && !ov.entries[k].Dict?
    ensures Merge(base, ov).Ok? ==> Merge(base, ov).value[k] == ov.entries[k]
  {
  }

  /** Merging an empty override changes nothing. */
  lemma MergeWithEmptyIsIdentity(base: map<string, Value>)
    ensures Merge(base, Dict(map[])) == Ok(base)
  {
    var empty := Dict(map[]);
    assert AfterOverridesSection(base, empty) == Ok(base);
    assert PlainKeys(empty) == {};
    ApplyNoKeys(base, empty);
    assert Merge(base, empty) == ApplyKeys(base, empty, {});
  }

  /**
   * A well-formed override always merges, and merging keeps well-formedness when the base is well formed too,
   * so merged templates can be merged again.
   */
  lemma {:induction false} WellFormedMerges(base: map<string, Value>, ov: Value)
    requires ov.Dict? && WellFormed(ov)
    ensures Merge(base, ov).Ok?
    ensures WellFormed(Dict(base)) ==> WellFormed(Dict(Merge(base, ov).value))
    decreases ov, 3
  {
    if "overrides" in ov.entries {
      ApplyKeysWellFormed(base, ov.entries["overrides"], ov.entries["overrides"].entries.Keys);
    }
    var r1 := AfterOverridesSection(base, ov).value;
    ApplyKeysWellFormed(r1, ov, PlainKeys(ov));
  }

  lemma {:induction false} ApplyKeysWellFormed(base: map<string, Value>, section: Value, keys: set<string>)
    requires section.Dict? && WellFormed(section) && keys <= section.entries.Keys
    ensures ApplyKeys(base, section, keys).Ok?
    ensures WellFormed(Dict(base)) ==> WellFormed(Dict(ApplyKeys(base, section, keys).value))
    decreases section, 2
  {
    forall k | k in keys
      ensures Combine(Lookup(base, k), section.entries[k]).Ok?
      ensures WellFormed(Dict(base)) ==> WellFormed(Combine(Lookup(base, k), section.entries[k]).value)
    {
      var v := section.entries[k];
      assert WellFormed(v);
      var current := Lookup(base, k);
      if current.Some? && current.value.Dict? && v.Dict? {
        WellFormedMerges(current.value.entries, v);
        if WellFormed(Dict(base)) {
          assert WellFormed(base[k]);
        }
      }
    }
    assert KeysApply(base, section, keys);
    if WellFormed(Dict(base)) {
      var r := ApplyKeys(base, section, keys).value;
      forall k | k in r
        ensures WellFormed(r[k])
      {
        if k in keys {
          assert r[k] == Combine(Lookup(base, k), section.entries[k]).value;
        } else {
          assert r[k] == base[k];
        }
      }
      if "overrides" in r && "overrides" in keys {
        var v := section.entries["overrides"];
        var current := Lookup(base, "overrides");
        if !(current.Some? && current.value.Dict? && v.Dict?) {
          assert r["overrides"] == v;
        }
      }
    }
  }
}

=== FILE: template_validation.dfy ===
/** Validation of a resolved scenario configuration: every problem is collected, and any problem fails the load. */
module TemplateValidation {
  import opened Base
  import opened TemplateMerge
  import opened Phases

  /** A resolved scenario: its `scenario` metadata, its normalised planning section and its phases. */
  datatype ResolvedConfig = ResolvedConfig(metadata: Template, planning: Template, phases: seq<Phase<PhaseTemplates>>)
  {
    /** Recorded for information only. */
    predicate IsMultiPhase()
    {
      |phases| > 1
    }
  }

  datatype ValidationError =
    | MissingScenarioField(field: string)
    | MissingPlanningField(field: string)
    | NoPhases
    | DurationMismatch(total: int, expected: Value)
    | MissingSalaryProgression(phase: nat)
    | MissingTaxSystem(phase: nat)
    | MissingHousingStrategy(phase: nat)
    | MissingExpenseProfile(phase: nat)
    | MissingSalaryByYear(phase: nat)
    | MissingBaseSalary(phase: nat)
    | MissingGrowthByYear(phase: nat)
    | MalformedProgression(phase: nat)   // the `AttributeError` of querying a progression that is not a mapping
  {
    /** A problem found in one phase, as opposed to the scenario, the planning section or the phase list. */
    predicate IsAboutPhase()
    {
      !(MissingScenarioField? || MissingPlanningField? || NoPhases? || DurationMismatch?)
    }
  }

  /** Python's `==` between a whole number and a YAML value: numbers (and booleans) by value, anything else unequal. */
  predicate SameNumber(n: int, v: Value)
  {
    match v
    case Int(i) => i == n
    case Num(r) => r == n as real
    case Bool(b) => (if b then 1 else 0) == n
    case _ => false
  }

  /** `_validate_planning_section`: each of the three required fields that is absent, in order. */
  function ValidatePlanningSection(planning: Template): (errors: seq<ValidationError>)
    ensures errors == [] <==> "start_year" in planning && "duration_years" in planning && "start_age" in planning
    ensures forall e :: e in errors ==> e.MissingPlanningField? && e.field !in planning
  {
    (if "start_year" in planning then [] else [MissingPlanningField("start_year")]) +
    (if "duration_years" in planning then [] else [MissingPlanningField("duration_years")]) +
    (if "start_age" in planning then [] else [MissingPlanningField("start_age")])
  }

  /** What `_validate_single_phase` finds under `progression`: nothing to check, a mapping, or a value `.get` fails on. */
  datatype ProgressionShape = NoProgression | Mapping(prog: Template) | NotMapping

  /** The `progression` of a salary template: a falsy or absent value is skipped, a truthy one must be a mapping. */
  function Progression(salary: Template): (shape: ProgressionShape)
    ensures shape.NoProgression? <==> "progression" !in salary || !Truthy(salary["progression"])
    ensures shape.Mapping? <==> "progression" in salary && salary["progression"].Dict? && salary["progression"].entries != map[]
    ensures shape.Mapping? ==> shape.prog == salary["progression"].entries
  {
    if "progression" !in salary || !Truthy(salary["progression"]) then NoProgression
    else if salary["progression"].Dict? then Mapping(salary["progression"].entries)
    else NotMapping
  }

  function ProgressionType(prog: Template): Value
  {
    if "type" in prog then prog["type"] else Null
  }

  /**
   * The salary structure checks of `_validate_single_phase`: the keys each progression type needs, and a failure
   * for a truthy progression that is not a mapping.
   */
  function StructureErrors(salary: Template, index: nat): (errors: seq<ValidationError>)
    ensures errors == [] <==> StructureComplete(salary)
    ensures MalformedProgression(index) in errors <==>
      "progression" in salary && Truthy(salary["progression"]) && !salary["progression"].Dict?
    ensures forall e :: e in errors ==>
      e.MissingSalaryByYear? || e.MissingBaseSalary? || e.MissingGrowthByYear? || e.MalformedProgression?
  {
    match Progression(salary)
    case NoProgression => []
    case NotMapping => [MalformedProgression(index)]
    case Mapping(prog) =>
      if ProgressionType(prog) == Str("explicit_array") then
        (if "salary_by_year" in prog then [] else [MissingSalaryByYear(index)])
      else if ProgressionType(prog) == Str("percentage_growth") then
        (if "base_salary" in prog then [] else [MissingBaseSalary(index)]) +
        (if "growth_by_year" in prog then [] else [MissingGrowthByYear(index)])
      else []
  }

  /** A salary progression with the keys its type needs. */
  predicate StructureComplete(salary: Template)
  {
    !Progression(salary).NotMapping? &&
    (Progression(salary).Mapping? ==>
      var prog := Progression(salary).prog;
      (ProgressionType(prog) == Str("explicit_array") ==> "salary_by_year" in prog) &&
      (ProgressionType(prog) == Str("percentage_growth") ==> "base_salary" in prog && "growth_by_year" in prog))
  }

  /** `_validate_single_phase`: the problems of one phase, in the order they are checked. */
  function ValidateSinglePhase(phase: Phase<PhaseTemplates>, index: nat): (errors: seq<ValidationError>)
    ensures errors == [] <==> PhaseComplete(phase)
    ensures forall e :: e in errors ==> e.IsAboutPhase()
    ensures MalformedProgression(index) in errors <==>
      var s := phase.templates.salaryProgression;
      s != map[] && "progression" in s && Truthy(s["progression"]) && !s["progression"].Dict?
  {
    var t := phase.templates;
    PresenceErrors(t, index) + (if t.salaryProgression == map[] then [] else StructureErrors(t.salaryProgression, index))
  }

  /** The presence checks of `_validate_single_phase`, one problem per missing template. */
  function PresenceErrors(t: PhaseTemplates, index: nat): (errors: seq<ValidationError>)
    ensures errors == [] <==>
      t.salaryProgression != map[] && "tax_system_id" in t.taxSystem && t.housingStrategy != map[] && Truthy(t.expenseProfile)
    ensures MissingSalaryProgression(index) in errors <==> t.salaryProgression == map[]
    ensures MissingTaxSystem(index) in errors <==> "tax_system_id" !in t.taxSystem
    ensures MissingHousingStrategy(index) in errors <==> t.housingStrategy == map[]
    ensures MissingExpenseProfile(index) in errors <==> !Truthy(t.expenseProfile)
    ensures forall e :: e in errors ==>
      e.IsAboutPhase() && !e.MissingSalaryByYear? && !e.MissingBaseSalary? && !e.MissingGrowthByYear? && !e.MalformedProgression?
  {
    var a := if t.salaryProgression == map[] then [MissingSalaryProgression(index)] else [];
    var b := if t.taxSystem == map[] || "tax_system_id" !in t.taxSystem then [MissingTaxSystem(index)] else [];
    var c := if t.housingStrategy == map[] then [MissingHousingStrategy(index)] else [];
    var d := if !Truthy(t.expenseProfile) then [MissingExpenseProfile(index)] else [];
    var errors := (a + b) + (c + d);
    assert forall e :: e in errors <==> e in a || e in b || e in c || e in d;
    errors
  }

  /** A phase with nothing to report, stated field by field. */
  predicate PhaseComplete(phase: Phase<PhaseTemplates>)
  {
    var t := phase.templates;
    t.salaryProgression != map[] && "tax_system_id" in t.taxSystem && t.housingStrategy != map[] && Truthy(t.expenseProfile) &&
    StructureComplete(t.salaryProgression)
  }

  /** The problems of phases `from`, `from + 1`, … numbered by their position in the whole list. */
  function PhaseErrors(phases: seq<Phase<PhaseTemplates>>, from: nat): (errors: seq<ValidationError>)
    ensures errors == [] <==> forall k :: 0 <= k < |phases| ==> PhaseComplete(phases[k])
    ensures forall e :: e in errors ==> e.IsAboutPhase()
    decreases |phases|
  {
    if phases == [] then []
    else
      var rest := PhaseErrors(phases[1..], from + 1);
      assert forall k :: 1 <= k < |phases| ==> phases[k] == phases[1..][k - 1];
      ValidateSinglePhase(phases[0], from) + rest
  }

  /** The planned duration the phases must add up to: `duration_years`, 10 when absent. */
  function ExpectedDuration(planning: Template): Value
  {
    if "duration_years" in planning then planning["duration_years"] else Int(10)
  }

  /** `_validate_phases`: no phases is the only problem reported for an empty list; otherwise the duration check and each phase's problems. */
  function ValidatePhases(phases: seq<Phase<PhaseTemplates>>, planning: Template): (errors: seq<ValidationError>)
    ensures phases == [] ==> errors == [NoPhases]
    ensures phases != [] ==>
      (DurationMismatch(TotalDuration(phases), ExpectedDuration(planning)) in errors <==>
       !SameNumber(TotalDuration(phases), ExpectedDuration(planning)))
    ensures errors == [] <==>
      phases != [] && SameNumber(TotalDuration(phases), ExpectedDuration(planning)) &&
      forall k :: 0 <= k < |phases| ==> PhaseComplete(phases[k])
  {
    if phases == [] then [NoPhases]
    else
      var total := TotalDuration(phases);
      var expected := ExpectedDuration(planning);
      var rest := PhaseErrors(phases, 0);
      (if SameNumber(total, expected) then [] else [DurationMismatch(total, expected)]) + rest
  }

  /** All the problems `_validate_resolved_config` reports, in order. */
  function ConfigErrors(config: ResolvedConfig): seq<ValidationError>
  {
    (if "name" in config.metadata then [] else [MissingScenarioField("name")]) +
    ValidatePlanningSection(config.planning) +
    ValidatePhases(config.phases, config.planning)
  }

  /** `_validate_resolved_config`: fails, listing every problem, when there is any. */
  function ValidateResolvedConfig(config: ResolvedConfig): (r: Result<(), seq<ValidationError>>)
    ensures r.Err? ==> r.error == ConfigErrors(config) && r.error != []
    ensures r.Ok? <==> ConfigValid(config)
  {
    var errors := ConfigErrors(config);
    if errors == [] then Ok(()) else Err(errors)
  }

  /** A configuration with nothing to report, stated requirement by requirement. */
  predicate ConfigValid(config: ResolvedConfig)
  {
    "name" in config.metadata &&
    "start_year" in config.planning && "duration_years" in config.planning && "start_age" in config.planning &&
    config.phases != [] &&
    SameNumber(TotalDuration(config.phases), config.planning["duration_years"]) &&
    forall k :: 0 <= k < |config.phases| ==> PhaseComplete(config.phases[k])
  }

  /**
   * The planning section `load_scenario` builds: `start_year`, `duration_years` (falling back to
   * `plan_duration_years` when falsy) and `start_age`, null when absent, then every other key as given.
   */
  function NormalizePlanning(data: Template): (p: Template)
    ensures "start_year" in p && "duration_years" in p && "start_age" in p
    ensures p.Keys == data.Keys + {"start_year", "duration_years", "start_age"}
    ensures forall k :: k in data && k !in {"start_year", "duration_years", "start_age"} ==> p[k] == data[k]
    ensures p["duration_years"] ==
      if "duration_years" in data && Truthy(data["duration_years"]) then data["duration_years"]
      else if "plan_duration_years" in data then data["plan_duration_years"]
      else Null
  {
    var duration :=
      if "duration_years" in data && Truthy(data["duration_years"]) then data["duration_years"]
      else if "plan_duration_years" in data then data["plan_duration_years"]
      else Null;
    map k | k in data.Keys + {"start_year", "duration_years", "start_age"} ::
      if k == "start_year" then (if "start_year" in data then data["start_year"] else Null)
      else if k == "duration_years" then duration
      else if k == "start_age" then (if "start_age" in data then data["start_age"] else Null)
      else data[k]
  }

  /** After normalisation the planning check has nothing to report: the three keys are always there, null or not. */
  lemma NormalizedPlanningAlwaysPasses(data: Template)
    ensures ValidatePlanningSection(NormalizePlanning(data)) == []
  {
  }

  /**
   * In a valid configuration whose phases are laid end to end from year 1, every plan year
   * 1..duration_years finds its phase.
   */
  /** `ValidScheduleCoversPlan` for every year of the plan at once. */
  lemma ValidScheduleCoversWholePlan(config: ResolvedConfig)
    requires ConfigValid(config) && LaidEndToEnd(config.phases, 1)
    ensures config.planning["duration_years"].Int? ==>
      forall year :: 1 <= year <= config.planning["duration_years"].i ==> GetPhaseForYear(config.phases, year).Ok?
  {
    forall year | config.planning["duration_years"].Int? && 1 <= year <= config.planning["duration_years"].i
      ensures GetPhaseForYear(config.phases, year).Ok?
    {
      ValidScheduleCoversPlan(config, year);
    }
  }

  lemma ValidScheduleCoversPlan(config: ResolvedConfig, year: int)
    requires ConfigValid(config) && LaidEndToEnd(config.phases, 1)
    requires config.planning["duration_years"].Int? && 1 <= year <= config.planning["duration_years"].i
    ensures GetPhaseForYear(config.phases, year).Ok?
  {
    EveryYearHasAPhase(config.phases, 1, year);
  }
}

=== FILE: uae_tax.dfy ===
/** The UAE has no personal income tax. */
module UaeTax {

  /** `calculate_uae_tax`: zero for every income. */
  function IncomeTax(gross: real): (r: real)
    ensures r == 0.0
  {
    0.0
  }
}

=== FILE: uk_tax.dfy ===
/** UK income tax with the personal-allowance taper, National Insurance, the Plan 2 student loan and the ISA/LISA/SIPP/GIA allocation. */
module UkTax {
  import opened Base

  datatype TaxBands = TaxBands(
    personalAllowance: real,
    basicRateLimit: real,
    higherRateLimit: real,
    paTaperThreshold: real,
    thresholdFreezeUntil: int)

  datatype TaxRates = TaxRates(basic: real, higher: real, additional: real)

  datatype NiBands = NiBands(primaryThreshold: real, upperEarningsLimit: real)

  datatype NiRates = NiRates(main: real, upper: real)

  datatype StudentLoanPlan2 = StudentLoanPlan2(
    threshold: real,
    repaymentRate: real,
    interestLowerIncomeThreshold: real,
    interestUpperIncomeThreshold: real,
    interestRateRpi: real,
    interestRateMaxPremium: real)

  /** The UK part of the legacy configuration. */
  datatype UkConfig = UkConfig(
    taxBands: TaxBands,
    taxRates: TaxRates,
    niBands: NiBands,
    niRates: NiRates,
    inflationRate: real,
    studentLoan: StudentLoanPlan2,
    lisaAllowance: real,
    isaAllowance: real,
    sippAllowance: real,
    lisaBonusRate: real)

  /** The four thresholds in force in a year. */
  datatype Thresholds = Thresholds(pa: real, brLimit: real, hrLimit: real, taperThreshold: real)

  /** The thresholds for `year`: frozen until `thresholdFreezeUntil`, then grown by `(1 + inflation)` per year since. */
  function ThresholdsFor(year: int, cfg: UkConfig): Thresholds
  {
    var b := cfg.taxBands;
    if year >= b.thresholdFreezeUntil then Grown(b, Pow(1.0 + cfg.inflationRate, year - b.thresholdFreezeUntil))
    else Thresholds(b.personalAllowance, b.basicRateLimit, b.higherRateLimit, b.paTaperThreshold)
  }

  /** Every configured threshold scaled by the multiplier `m`. */
  function Grown(b: TaxBands, m: real): Thresholds
  {
    Thresholds(b.personalAllowance * m, b.basicRateLimit * m, b.higherRateLimit * m, b.paTaperThreshold * m)
  }

  /** The personal allowance after the taper: one pound less for every two above the threshold, never below zero. */
  function TaperedAllowance(gross: real, pa: real, taperThreshold: real): (r: real)
    ensures gross <= taperThreshold ==> r == pa
    ensures gross > taperThreshold ==> r >= 0.0 && r >= pa - (gross - taperThreshold) / 2.0
    ensures gross > taperThreshold ==> r == 0.0 || r == pa - (gross - taperThreshold) / 2.0
    ensures pa >= 0.0 ==> 0.0 <= r <= pa
  {
    if gross > taperThreshold then Max(0.0, pa - (gross - taperThreshold) / 2.0) else pa
  }

  /** Income tax as the source computes it: the slice above each limit is charged at its rate, top band first. */
  function IncomeTax(gross: real, year: int, cfg: UkConfig): real
  {
    IncomeTaxWith(gross, ThresholdsFor(year, cfg), cfg.taxRates)
  }

  /** Income tax once the thresholds in force are known. */
  function IncomeTaxWith(gross: real, t: Thresholds, rates: TaxRates): real
  {
    TaxAbove(gross, TaperedAllowance(gross, t.pa, t.taperThreshold), t.brLimit, t.hrLimit, rates)
  }

  /** The tax on the income above the allowance `pa`, with the basic-rate limit `br` and the higher-rate limit `hr`. */
  function TaxAbove(gross: real, pa: real, br: real, hr: real, rates: TaxRates): real
  {
    var taxable := Max(0.0, gross - pa);
    if taxable > 0.0 then Cascade(taxable, br - pa, hr - pa, rates) else 0.0
  }

  /** The top-down charge on `taxable` with the higher band starting at `b` and the additional band at `h`. */
  function Cascade(taxable: real, b: real, h: real, rates: TaxRates): real
  {
    var additional := if taxable > h then (taxable - h) * rates.additional else 0.0;
    var capped := if taxable > h then h else taxable;
    var higher := if capped > b then (capped - b) * rates.higher else 0.0;
    var rest := if capped > b then b else capped;
    additional + higher + rest * rates.basic
  }

  /** With `0 <= b <= h`, the cascade is the sum of the basic, higher and additional band slices. */
  lemma CascadeIsSlices(taxable: real, b: real, h: real, rates: TaxRates)
    requires 0.0 <= b <= h && taxable >= 0.0
    ensures Cascade(taxable, b, h, rates) == BandTax(taxable, b, h, rates)
  {
    if taxable > h {
      assert Slice(taxable, 0.0, b) == b && Slice(taxable, b, h) == h - b;
    } else if taxable > b {
      assert Slice(taxable, 0.0, b) == b && Slice(taxable, b, h) == taxable - b;
    } else {
      assert Slice(taxable, 0.0, b) == taxable && Slice(taxable, b, h) == 0.0;
    }
  }

  /**
   * The tax on `taxable` as the sum of its three band slices: basic on `[0, b]`, higher on `[b, h]`, additional
   * above `h`.
   */
  function BandTax(taxable: real, b: real, h: real, rates: TaxRates): real
  {
    Slice(taxable, 0.0, b) * rates.basic + Slice(taxable, b, h) * rates.higher + Max(0.0, taxable - h) * rates.additional
  }

  /** The part of `x` that falls in the band `[lo, hi]`. */
  function Slice(x: real, lo: real, hi: real): real
  {
    Max(0.0, Min(x, hi) - lo)
  }

  /** The allowance in force for `gross` in `year`. */
  function EffectiveAllowance(gross: real, year: int, cfg: UkConfig): real
  {
    var t := ThresholdsFor(year, cfg);
    TaperedAllowance(gross, t.pa, t.taperThreshold)
  }

  /** Bands ordered `0 <= pa <= basic limit <= higher limit` and a non-negative inflation rate. */
  predicate OrderedBands(cfg: UkConfig)
  {
    0.0 <= cfg.taxBands.personalAllowance <= cfg.taxBands.basicRateLimit <= cfg.taxBands.higherRateLimit
    && cfg.inflationRate >= 0.0
  }

  lemma ScaledOrder(a: real, b: real, c: real, m: real)
    requires 0.0 <= a <= b <= c && m >= 1.0
    ensures 0.0 <= a * m <= b * m <= c * m
  {
    MulLeft(0.0, a, m);
    MulLeft(a, b, m);
    MulLeft(b, c, m);
  }

  /**
   * With ordered bands and non-negative inflation the thresholds of every year are ordered.
   */
  lemma ThresholdsOrdered(year: int, cfg: UkConfig)
    requires OrderedBands(cfg)
    ensures var t := ThresholdsFor(year, cfg); 0.0 <= t.pa <= t.brLimit <= t.hrLimit
  {
    var b := cfg.taxBands;
    if year >= b.thresholdFreezeUntil {
      PowAtLeastOne(1.0 + cfg.inflationRate, year - b.thresholdFreezeUntil);
      ScaledOrder(b.personalAllowance, b.basicRateLimit, b.higherRateLimit,
        Pow(1.0 + cfg.inflationRate, year - b.thresholdFreezeUntil));
    }
  }

  /**
   * With ordered bands, the top-down cascade equals the sum of the three band slices of taxable income:
   * basic on `[0, br − pa]`, higher on `[br − pa, hr − pa]`, additional above `hr − pa`.
   */
  lemma IncomeTaxIsSumOfBands(gross: real, year: int, cfg: UkConfig)
    requires OrderedBands(cfg)
    ensures var t := ThresholdsFor(year, cfg);
      var pa := EffectiveAllowance(gross, year, cfg);
      IncomeTax(gross, year, cfg) == BandTax(Max(0.0, gross - pa), t.brLimit - pa, t.hrLimit - pa, cfg.taxRates)
  {
    var t := ThresholdsFor(year, cfg);
    assert IncomeTax(gross, year, cfg) == IncomeTaxWith(gross, t, cfg.taxRates);
    assert EffectiveAllowance(gross, year, cfg) == TaperedAllowance(gross, t.pa, t.taperThreshold);
    ThresholdsOrdered(year, cfg);
    SumOfBandsWith(gross, t, cfg.taxRates);
  }

  /** `IncomeTaxIsSumOfBands` for any ordered thresholds. */
  lemma SumOfBandsWith(gross: real, t: Thresholds, rates: TaxRates)
    requires 0.0 <= t.pa <= t.brLimit <= t.hrLimit
    ensures var pa := TaperedAllowance(gross, t.pa, t.taperThreshold);
      IncomeTaxWith(gross, t, rates) == BandTax(Max(0.0, gross - pa), t.brLimit - pa, t.hrLimit - pa, rates)
  {
    var pa := TaperedAllowance(gross, t.pa, t.taperThreshold);
    assert IncomeTaxWith(gross, t, rates) == TaxAbove(gross, pa, t.brLimit, t.hrLimit, rates);
    TaxedSlices(gross, pa, t.brLimit, t.hrLimit, rates);
  }

  /** The band arithmetic of `IncomeTaxIsSumOfBands`, once the allowance and the two limits are fixed. */
  lemma TaxedSlices(gross: real, pa: real, br: real, hr: real, rates: TaxRates)
    requires 0.0 <= pa <= br <= hr
    ensures TaxAbove(gross, pa, br, hr, rates) == BandTax(Max(0.0, gross - pa), br - pa, hr - pa, rates)
  {
    var taxable := Max(0.0, gross - pa);
    CascadeIsSlices(taxable, br - pa, hr - pa, rates);
    if taxable <= 0.0 {
      assert Slice(taxable, 0.0, br - pa) == 0.0 && Slice(taxable, br - pa, hr - pa) == 0.0;
    }
  }

  /** No income tax while income is within the allowance. */
  lemma NoIncomeTaxWithinAllowance(gross: real, year: int, cfg: UkConfig)
    requires gross <= EffectiveAllowance(gross, year, cfg)
    ensures IncomeTax(gross, year, cfg) == 0.0
  {
  }

  /** Between the allowance and the basic-rate limit, tax is the basic rate on the excess over the allowance. */
  lemma BasicRateBand(gross: real, year: int, cfg: UkConfig)
    requires OrderedBands(cfg)
    requires EffectiveAllowance(gross, year, cfg) < gross <= ThresholdsFor(year, cfg).brLimit
    ensures IncomeTax(gross, year, cfg) == cfg.taxRates.basic * (gross - EffectiveAllowance(gross, year, cfg))
  {
    ThresholdsOrdered(year, cfg);
    BasicBandWith(gross, ThresholdsFor(year, cfg), cfg.taxRates);
  }

  lemma BasicBandWith(gross: real, t: Thresholds, rates: TaxRates)
    requires 0.0 <= t.pa <= t.brLimit <= t.hrLimit
    requires TaperedAllowance(gross, t.pa, t.taperThreshold) < gross <= t.brLimit
    ensures IncomeTaxWith(gross, t, rates) == rates.basic * (gross - TaperedAllowance(gross, t.pa, t.taperThreshold))
  {
    var pa := TaperedAllowance(gross, t.pa, t.taperThreshold);
    SumOfBandsWith(gross, t, rates);
    var taxable := gross - pa;
    assert Max(0.0, gross - pa) == taxable;
    assert IncomeTaxWith(gross, t, rates) == BandTax(taxable, t.brLimit - pa, t.hrLimit - pa, rates);
    assert Slice(taxable, 0.0, t.brLimit - pa) == taxable;
    assert Slice(taxable, t.brLimit - pa, t.hrLimit - pa) == 0.0;
    assert Max(0.0, taxable - (t.hrLimit - pa)) == 0.0;
  }

  /** National Insurance: the main rate between the primary threshold and the upper earnings limit, the upper rate above. */
  function NationalInsurance(gross: real, cfg: UkConfig): (ni: real)
    ensures cfg.niBands.primaryThreshold <= cfg.niBands.upperEarningsLimit ==>
      ni == (if gross <= cfg.niBands.primaryThreshold then 0.0
             else cfg.niRates.main * (Min(gross, cfg.niBands.upperEarningsLimit) - cfg.niBands.primaryThreshold)
                  + cfg.niRates.upper * Max(0.0, gross - cfg.niBands.upperEarningsLimit))
    ensures cfg.niRates.main >= 0.0 && cfg.niRates.upper >= 0.0 ==> ni >= 0.0
  {
    var b := cfg.niBands;
    var main := if gross > b.primaryThreshold then Max(0.0, Min(gross, b.upperEarningsLimit) - b.primaryThreshold) * cfg.niRates.main else 0.0;
    var upper := if gross > b.upperEarningsLimit then (gross - b.upperEarningsLimit) * cfg.niRates.upper else 0.0;
    assert b.primaryThreshold <= b.upperEarningsLimit && gross > b.primaryThreshold ==>
      main == cfg.niRates.main * (Min(gross, b.upperEarningsLimit) - b.primaryThreshold);
    assert upper == cfg.niRates.upper * Max(0.0, gross - b.upperEarningsLimit);
    main + upper
  }

  /** `calculate_uk_tax_ni`: the pair (income tax, National Insurance). */
  function TaxAndNi(gross: real, year: int, cfg: UkConfig): (r: (real, real))
    ensures gross <= EffectiveAllowance(gross, year, cfg) ==> r.0 == 0.0
    ensures r.1 == NationalInsurance(gross, cfg)
  {
    (IncomeTax(gross, year, cfg), NationalInsurance(gross, cfg))
  }

  /** The worked example: 45000 before the freeze ends, allowance 12570, basic limit 50270, basic rate 20%. */
  lemma WorkedExample()
    ensures var cfg := UkConfig(
        TaxBands(12570.0, 50270.0, 125140.0, 100000.0, 2028), TaxRates(0.20, 0.40, 0.45),
        NiBands(12570.0, 50270.0), NiRates(0.08, 0.02), 0.02,
        StudentLoanPlan2(27295.0, 0.09, 28470.0, 51245.0, 0.043, 0.03), 4000.0, 20000.0, 60000.0, 0.25);
      IncomeTax(45000.0, 2025, cfg) == 6486.0
  {
  }

  // ------------------------------------------------------------ student loan

  /** Plan 2 repayment: the repayment rate on income above the threshold. */
  function LoanRepayment(gross: real, p2: StudentLoanPlan2): (r: real)
    ensures gross <= p2.threshold ==> r == 0.0
    ensures gross > p2.threshold ==> r == (gross - p2.threshold) * p2.repaymentRate
    ensures p2.repaymentRate >= 0.0 ==> r >= 0.0
  {
    if gross > p2.threshold then (gross - p2.threshold) * p2.repaymentRate else 0.0
  }

  /** Plan 2 interest: RPI at or below the lower threshold, RPI plus the full premium at or above the upper one, linear in between. */
  function LoanInterestRate(gross: real, p2: StudentLoanPlan2): (rate: real)
    ensures gross <= p2.interestLowerIncomeThreshold ==> rate == p2.interestRateRpi
    ensures gross > p2.interestLowerIncomeThreshold && gross >= p2.interestUpperIncomeThreshold ==>
      rate == p2.interestRateRpi + p2.interestRateMaxPremium
    ensures p2.interestRateMaxPremium >= 0.0 ==>
      p2.interestRateRpi <= rate <= p2.interestRateRpi + p2.interestRateMaxPremium
    // between the thresholds the premium grows linearly with income
    ensures p2.interestLowerIncomeThreshold < gross < p2.interestUpperIncomeThreshold ==>
      (rate - p2.interestRateRpi) * (p2.interestUpperIncomeThreshold - p2.interestLowerIncomeThreshold)
        == (gross - p2.interestLowerIncomeThreshold) * p2.interestRateMaxPremium
  {
    var lo := p2.interestLowerIncomeThreshold;
    var hi := p2.interestUpperIncomeThreshold;
    if gross <= lo then p2.interestRateRpi
    else if gross >= hi then p2.interestRateRpi + p2.interestRateMaxPremium
    else
      var fraction := (gross - lo) / (hi - lo);
      DivBelowOne(gross - lo, hi - lo);
      assert p2.interestRateMaxPremium >= 0.0 ==> 0.0 <= fraction * p2.interestRateMaxPremium <= p2.interestRateMaxPremium by {
        if p2.interestRateMaxPremium >= 0.0 {
          MulLeft(fraction, 1.0, p2.interestRateMaxPremium);
          MulLeft(0.0, fraction, p2.interestRateMaxPremium);
        }
      }
      p2.interestRateRpi + fraction * p2.interestRateMaxPremium
  }

  /** More income never lowers the interest rate when the premium is non-negative. */
  lemma LoanInterestRateMonotone(g1: real, g2: real, p2: StudentLoanPlan2)
    requires g1 <= g2 && p2.interestRateMaxPremium >= 0.0
    ensures LoanInterestRate(g1, p2) <= LoanInterestRate(g2, p2)
  {
    var lo := p2.interestLowerIncomeThreshold;
    var hi := p2.interestUpperIncomeThreshold;
    if lo < g1 && g2 < hi {
      InterpolationMonotone(g1, g2, p2);
    } else if g1 <= lo {
      assert LoanInterestRate(g1, p2) == p2.interestRateRpi;
    } else {
      assert g2 >= hi && g2 > lo;
      assert LoanInterestRate(g2, p2) == p2.interestRateRpi + p2.interestRateMaxPremium;
    }
  }

  /** Between the thresholds the interpolated rate grows with income. */
  lemma InterpolationMonotone(g1: real, g2: real, p2: StudentLoanPlan2)
    requires g1 <= g2 && p2.interestRateMaxPremium >= 0.0
    requires p2.interestLowerIncomeThreshold < g1 && g2 < p2.interestUpperIncomeThreshold
    ensures LoanInterestRate(g1, p2) <= LoanInterestRate(g2, p2)
  {
    var lo := p2.interestLowerIncomeThreshold;
    var rpi := p2.interestRateRpi;
    ProportionalOrder(LoanInterestRate(g1, p2) - rpi, LoanInterestRate(g2, p2) - rpi, g1 - lo, g2 - lo,
                p2.interestUpperIncomeThreshold - lo, p2.interestRateMaxPremium);
  }

  /** Two shares of a positive whole in proportion to ordered amounts are ordered alike. */
  lemma ProportionalOrder(x1: real, x2: real, y1: real, y2: real, d: real, p: real)
    requires d > 0.0 && p >= 0.0 && y1 <= y2
    requires x1 * d == y1 * p && x2 * d == y2 * p
    ensures x1 <= x2
  {
    MulLeft(y1, y2, p);
  }

  /** `calculate_uk_student_loan`: the repayment and the balance after a year's interest less the repayment (not floored at zero). */
  function StudentLoan(gross: real, balance: real, p2: StudentLoanPlan2): (r: (real, real))
    ensures r.0 == LoanRepayment(gross, p2)
    ensures r.1 - balance == balance * LoanInterestRate(gross, p2) - r.0
  {
    var repayment := LoanRepayment(gross, p2);
    (repayment, balance + balance * LoanInterestRate(gross, p2) - repayment)
  }

  // ------------------------------------------------------------- allocation

  /** How one year's savings are split across tax wrappers. */
  datatype Allocation = Allocation(lisa: real, isa: real, sipp: real, gia: real, lisaBonus: real)

  function AllocationTotal(a: Allocation): real
  {
    a.lisa + a.isa + a.sipp + a.gia
  }

  /** `calculate_uk_investment_allocation`: LISA, then ISA (a separate allowance), then SIPP, the rest to the GIA. */
  function InvestmentAllocation(savings: real, cfg: UkConfig): (a: Allocation)
    ensures cfg.lisaAllowance >= 0.0 && cfg.isaAllowance >= 0.0 && cfg.sippAllowance >= 0.0 ==>
      AllocationTotal(a) == Max(0.0, savings)
      && 0.0 <= a.lisa <= cfg.lisaAllowance && 0.0 <= a.isa <= cfg.isaAllowance
      && 0.0 <= a.sipp <= cfg.sippAllowance && a.gia >= 0.0
    ensures a.isa > 0.0 && cfg.lisaAllowance >= 0.0 ==> a.lisa == cfg.lisaAllowance
    ensures a.sipp > 0.0 && cfg.lisaAllowance >= 0.0 ==> a.isa == cfg.isaAllowance
    ensures a.gia > 0.0 && cfg.lisaAllowance >= 0.0 ==> a.sipp == cfg.sippAllowance
    ensures a.lisaBonus == a.lisa * cfg.lisaBonusRate
  {
    var lisa := Min(Max(0.0, savings), cfg.lisaAllowance);
    var rem0 := Max(0.0, savings - lisa);
    var isa := Min(rem0, cfg.isaAllowance);
    var rem1 := rem0 - isa;
    var sipp := Min(rem1, cfg.sippAllowance);
    var gia := rem1 - sipp;
    Allocation(lisa, isa, sipp, gia, lisa * cfg.lisaBonusRate)
  }

  // --------------------------------------------------------------- expenses

  /** Monthly living costs of a location. */
  datatype LocationCosts = LocationCosts(rentMonthly: real, healthcareMonthly: real, generalExpensesMonthly: real)

  /** Annual location expenses; `retirement` is always zero for these locations. */
  datatype LocationExpenses = LocationExpenses(rent: real, healthcare: real, retirement: real, generalExpenses: real)

  function LocationExpensesTotal(e: LocationExpenses): real
  {
    e.rent + e.healthcare + e.retirement + e.generalExpenses
  }

  /** `calculate_uk_expenses(loc_config, inf)`: each monthly cost times twelve times the inflation factor. */
  function Expenses(loc: LocationCosts, inf: real): (e: LocationExpenses)
    ensures e.retirement == 0.0
    ensures LocationExpensesTotal(e) == (loc.rentMonthly + loc.healthcareMonthly + loc.generalExpensesMonthly) * 12.0 * inf
    ensures inf >= 0.0 && loc.rentMonthly >= 0.0 && loc.healthcareMonthly >= 0.0 && loc.generalExpensesMonthly >= 0.0 ==>
      e.rent >= 0.0 && e.healthcare >= 0.0 && e.generalExpenses >= 0.0
  {
    LocationExpenses(loc.rentMonthly * 12.0 * inf, loc.healthcareMonthly * 12.0 * inf, 0.0, loc.generalExpensesMonthly * 12.0 * inf)
  }
}

=== FILE: uk_tax_legacy.dfy ===
/**
 * The older UK helpers the legacy projector imports. Income tax, National Insurance and the
 * student loan are the same definitions as in `UkTax`; the allocation here shares one ISA
 * allowance between the LISA and the ISA, and the expenses are the goal-based ones.
 */
module UkTaxLegacy {
  import opened Base
  import UkTax
  import Goals

  /** `calculate_uk_investment_allocation` (older form): the ISA gets what the LISA left of the shared allowance. */
  function InvestmentAllocation(savings: real, cfg: UkTax.UkConfig): (a: UkTax.Allocation)
    ensures cfg.lisaAllowance >= 0.0 ==> UkTax.AllocationTotal(a) == Max(0.0, savings)
    ensures cfg.lisaAllowance >= 0.0 ==> 0.0 <= a.lisa <= cfg.lisaAllowance
    ensures a.lisa + a.isa <= cfg.isaAllowance || a.isa == Max(0.0, savings - a.lisa)
    ensures a.isa <= cfg.isaAllowance - a.lisa
    ensures cfg.sippAllowance >= 0.0 && cfg.isaAllowance >= cfg.lisaAllowance >= 0.0 ==>
      0.0 <= a.isa && 0.0 <= a.sipp <= cfg.sippAllowance && a.gia >= 0.0
    ensures a.lisaBonus == a.lisa * cfg.lisaBonusRate
  {
    var lisa := Min(Max(0.0, savings), cfg.lisaAllowance);
    var rem0 := Max(0.0, savings - lisa);
    var isa := Min(rem0, cfg.isaAllowance - lisa);
    var rem1 := rem0 - isa;
    var sipp := Min(rem1, cfg.sippAllowance);
    var gia := rem1 - sipp;
    UkTax.Allocation(lisa, isa, sipp, gia, lisa * cfg.lisaBonusRate)
  }

  /** The shared allowance never gives the ISA more than the separate one does, and the LISA part is identical. */
  lemma SharedCapNeverExceedsSeparate(savings: real, cfg: UkTax.UkConfig)
    requires cfg.lisaAllowance >= 0.0
    ensures InvestmentAllocation(savings, cfg).lisa == UkTax.InvestmentAllocation(savings, cfg).lisa
    ensures InvestmentAllocation(savings, cfg).isa <= UkTax.InvestmentAllocation(savings, cfg).isa
  {
  }

  /** The seven goal-based expense lines of one plan year. */
  datatype UkExpenses = UkExpenses(
    personal: real,
    parentalSupport: real,
    travel: real,
    rent: real,
    universityPayment: real,
    marriage: real,
    child: real)

  function UkExpensesTotal(e: UkExpenses): real
  {
    e.personal + e.parentalSupport + e.travel + e.rent + e.universityPayment + e.marriage + e.child
  }

  /** `calculate_uk_expenses(plan_year, year, config, inf)`; rent is charged from its start year on. */
  function Expenses(planYear: int, cfg: Goals.GoalConfig, inf: real): (e: UkExpenses)
    ensures e.rent == (if planYear >= cfg.rentStartYear then cfg.rentAmount * inf else 0.0)
    ensures e.personal == Goals.Personal(planYear, cfg, inf)
    ensures e.parentalSupport == Goals.ParentalSupport(planYear, cfg, inf)
    ensures e.travel == cfg.annualTravel * inf
    ensures e.universityPayment == Goals.UniversityPayment(planYear, cfg)
    ensures e.marriage == Goals.Marriage(planYear, cfg)
    ensures e.child == Goals.Child(planYear, cfg, inf)
  {
    UkExpenses(
      Goals.Personal(planYear, cfg, inf),
      Goals.ParentalSupport(planYear, cfg, inf),
      Goals.Travel(cfg, inf),
      if planYear >= cfg.rentStartYear then cfg.rentAmount * inf else 0.0,
      Goals.UniversityPayment(planYear, cfg),
      Goals.Marriage(planYear, cfg),
      Goals.Child(planYear, cfg, inf))
  }
}

=== FILE: unified_data.dfy ===
/** The currency-agnostic data model: values with their GBP equivalent, grouped breakdowns, yearly points and scenarios. */
module UnifiedData {
  import opened Base

  datatype Currency = GBP | USD | EUR

  datatype Jurisdiction = UK | US | UAE | EU

  datatype FinancialPhase = UkOnly | InternationalOnly | UkToInternational

  /** An amount in its own currency together with its GBP equivalent and the rate used. */
  datatype CurrencyValue = CurrencyValue(value: real, currency: Currency, gbpValue: real, exchangeRate: real)

  /** `CurrencyValue.from_gbp`: a GBP amount is its own GBP equivalent at rate 1. */
  function FromGbp(value: real): (c: CurrencyValue)
    ensures c.currency == GBP && c.value == value && c.gbpValue == value && c.exchangeRate == 1.0
  {
    CurrencyValue(value, GBP, value, 1.0)
  }

  /** `CurrencyValue.from_usd`: the GBP equivalent times the rate gives back the dollar amount. */
  function FromUsd(value: real, exchangeRate: real): (c: CurrencyValue)
    requires exchangeRate != 0.0
    ensures c.currency == USD && c.value == value && c.exchangeRate == exchangeRate
    ensures c.gbpValue * exchangeRate == value
  {
    CurrencyValue(value, USD, value / exchangeRate, exchangeRate)
  }

  /** `CurrencyValue.from_eur`: as for dollars. */
  function FromEur(value: real, exchangeRate: real): (c: CurrencyValue)
    requires exchangeRate != 0.0
    ensures c.currency == EUR && c.value == value && c.exchangeRate == exchangeRate
    ensures c.gbpValue * exchangeRate == value
  {
    CurrencyValue(value, EUR, value / exchangeRate, exchangeRate)
  }

  const Zero: CurrencyValue := CurrencyValue(0.0, GBP, 0.0, 1.0)

  // ------------------------------------------------------------ expense groups

  datatype HousingExpenses = HousingExpenses(rent: CurrencyValue, mortgage: CurrencyValue, utilities: CurrencyValue, maintenance: CurrencyValue, propertyTax: CurrencyValue)

  datatype LivingExpenses = LivingExpenses(food: CurrencyValue, transport: CurrencyValue, healthcare: CurrencyValue, entertainment: CurrencyValue, clothing: CurrencyValue, personalCare: CurrencyValue)

  datatype TaxExpenses = TaxExpenses(incomeTax: CurrencyValue, socialSecurity: CurrencyValue, propertyTax: CurrencyValue, otherTaxes: CurrencyValue)

  datatype InvestmentExpenses = InvestmentExpenses(retirementContributions: CurrencyValue, investmentFees: CurrencyValue, insurance: CurrencyValue)

  datatype OtherExpenses = OtherExpenses(education: CurrencyValue, travel: CurrencyValue, gifts: CurrencyValue, miscellaneous: CurrencyValue)

  function HousingGbp(h: HousingExpenses): real
  {
    h.rent.gbpValue + h.mortgage.gbpValue + h.utilities.gbpValue + h.maintenance.gbpValue + h.propertyTax.gbpValue
  }

  function LivingGbp(l: LivingExpenses): real
  {
    l.food.gbpValue + l.transport.gbpValue + l.healthcare.gbpValue + l.entertainment.gbpValue + l.clothing.gbpValue + l.personalCare.gbpValue
  }

  function TaxExpensesGbp(t: TaxExpenses): real
  {
    t.incomeTax.gbpValue + t.socialSecurity.gbpValue + t.propertyTax.gbpValue + t.otherTaxes.gbpValue
  }

  function InvestmentExpensesGbp(i: InvestmentExpenses): real
  {
    i.retirementContributions.gbpValue + i.investmentFees.gbpValue + i.insurance.gbpValue
  }

  function OtherGbp(o: OtherExpenses): real
  {
    o.education.gbpValue + o.travel.gbpValue + o.gifts.gbpValue + o.miscellaneous.gbpValue
  }

  // ------------------------------------------------------------- breakdowns

  datatype IncomeBreakdown = IncomeBreakdown(salary: CurrencyValue, bonus: CurrencyValue, rsuVested: CurrencyValue, otherIncome: CurrencyValue)

  datatype ExpenseBreakdown = ExpenseBreakdown(housing: HousingExpenses, living: LivingExpenses, taxes: TaxExpenses, investments: InvestmentExpenses, other: OtherExpenses)

  datatype TaxBreakdown = TaxBreakdown(incomeTax: CurrencyValue, socialSecurity: CurrencyValue, otherTaxes: CurrencyValue)

  datatype RetirementInvestments = RetirementInvestments(pension: CurrencyValue, lisa: CurrencyValue, sipp: CurrencyValue, ira: CurrencyValue, employerMatch: CurrencyValue)

  datatype TaxableInvestments = TaxableInvestments(isa: CurrencyValue, gia: CurrencyValue, brokerage: CurrencyValue, crypto: CurrencyValue)

  datatype HousingInvestments = HousingInvestments(houseEquity: CurrencyValue, rentalProperty: CurrencyValue)

  datatype InvestmentBreakdown = InvestmentBreakdown(retirement: RetirementInvestments, taxable: TaxableInvestments, housing: HousingInvestments)

  datatype NetWorthBreakdown = NetWorthBreakdown(liquidAssets: CurrencyValue, illiquidAssets: CurrencyValue, liabilities: CurrencyValue)

  /** `IncomeBreakdown.total_gbp`; `net_gbp` is the same figure. */
  function IncomeTotalGbp(b: IncomeBreakdown): real
  {
    b.salary.gbpValue + b.bonus.gbpValue + b.rsuVested.gbpValue + b.otherIncome.gbpValue
  }

  function IncomeNetGbp(b: IncomeBreakdown): (r: real)
    ensures r == b.salary.gbpValue + b.bonus.gbpValue + b.rsuVested.gbpValue + b.otherIncome.gbpValue
  {
    IncomeTotalGbp(b)
  }

  function ExpenseTotalGbp(e: ExpenseBreakdown): real
  {
    HousingGbp(e.housing) + LivingGbp(e.living) + TaxExpensesGbp(e.taxes) + InvestmentExpensesGbp(e.investments) + OtherGbp(e.other)
  }

  function TaxTotalGbp(t: TaxBreakdown): real
  {
    t.incomeTax.gbpValue + t.socialSecurity.gbpValue + t.otherTaxes.gbpValue
  }

  function RetirementGbp(r: RetirementInvestments): real
  {
    r.pension.gbpValue + r.lisa.gbpValue + r.sipp.gbpValue + r.ira.gbpValue + r.employerMatch.gbpValue
  }

  function TaxableGbp(t: TaxableInvestments): real
  {
    t.isa.gbpValue + t.gia.gbpValue + t.brokerage.gbpValue + t.crypto.gbpValue
  }

  function HousingInvestmentsGbp(h: HousingInvestments): real
  {
    h.houseEquity.gbpValue + h.rentalProperty.gbpValue
  }

  function InvestmentTotalGbp(i: InvestmentBreakdown): real
  {
    RetirementGbp(i.retirement) + TaxableGbp(i.taxable) + HousingInvestmentsGbp(i.housing)
  }

  /** Net worth is assets less liabilities. */
  function NetWorthTotalGbp(n: NetWorthBreakdown): (r: real)
    ensures r + n.liabilities.gbpValue == n.liquidAssets.gbpValue + n.illiquidAssets.gbpValue
  {
    n.liquidAssets.gbpValue + n.illiquidAssets.gbpValue - n.liabilities.gbpValue
  }

  // ------------------------------------------------------------ data points

  /** One plan year in the unified model. */
  datatype UnifiedFinancialData = UnifiedFinancialData(
    year: int,
    age: int,
    phase: FinancialPhase,
    jurisdiction: Jurisdiction,
    currency: Currency,
    income: IncomeBreakdown,
    expenses: ExpenseBreakdown,
    tax: TaxBreakdown,
    investments: InvestmentBreakdown,
    netWorth: NetWorthBreakdown,
    exchangeRates: map<Currency, real>)

  function NetWorthGbp(p: UnifiedFinancialData): real
  {
    NetWorthTotalGbp(p.netWorth)
  }

  /** Savings are income less expenses, both in GBP. */
  function AnnualSavingsGbp(p: UnifiedFinancialData): (r: real)
    ensures r + ExpenseTotalGbp(p.expenses) == IncomeTotalGbp(p.income)
  {
    IncomeTotalGbp(p.income) - ExpenseTotalGbp(p.expenses)
  }

  function GrossIncomeGbp(p: UnifiedFinancialData): real
  {
    IncomeTotalGbp(p.income)
  }

  function TotalExpensesGbp(p: UnifiedFinancialData): real
  {
    ExpenseTotalGbp(p.expenses)
  }

  function TotalTaxGbp(p: UnifiedFinancialData): real
  {
    TaxTotalGbp(p.tax)
  }

  // -------------------------------------------------------------- scenarios

  datatype ScenarioMetadata = ScenarioMetadata(
    jurisdiction: Jurisdiction,
    taxSystem: string,
    housingStrategy: string,
    relocationTiming: Option<int>,
    salaryProgression: string,
    investmentStrategy: string,
    description: string)

  /** A scenario whose list of yearly points grows as the projection runs. */
  class UnifiedFinancialScenario {
    var name: string
    var description: string
    var phase: FinancialPhase
    var dataPoints: seq<UnifiedFinancialData>
    var metadata: Option<ScenarioMetadata>

    constructor (name: string, description: string, phase: FinancialPhase, metadata: Option<ScenarioMetadata>)
      ensures this.name == name && this.description == description && this.phase == phase
      ensures this.metadata == metadata && dataPoints == []
    {
      this.name := name;
      this.description := description;
      this.phase := phase;
      this.metadata := metadata;
      dataPoints := [];
    }

    /** `add_data_point`: appends at the end, leaving the earlier points and every other field as they were. */
    method AddDataPoint(p: UnifiedFinancialData)
      modifies this
      ensures dataPoints == old(dataPoints) + [p]
      ensures name == old(name) && description == old(description) && phase == old(phase) && metadata == old(metadata)
    {
      dataPoints := dataPoints + [p];
    }
  }

  /** `get_final_net_worth_gbp` on a scenario's points: the last point's net worth, or 0 with no points. */
  function FinalNetWorthGbp(points: seq<UnifiedFinancialData>): (r: real)
    ensures points == [] ==> r == 0.0
    ensures points != [] ==> r == NetWorthGbp(points[|points| - 1])
  {
    if points == [] then 0.0 else NetWorthGbp(points[|points| - 1])
  }

  /** The savings of every point, in order. */
  function SavingsSeries(points: seq<UnifiedFinancialData>): (s: seq<real>)
    ensures |s| == |points| && forall i :: 0 <= i < |points| ==> s[i] == AnnualSavingsGbp(points[i])
  {
    seq(|points|, i requires 0 <= i < |points| => AnnualSavingsGbp(points[i]))
  }

  /** `get_average_annual_savings_gbp`: the mean of the yearly savings, or 0 with no points. */
  function AverageAnnualSavingsGbp(points: seq<UnifiedFinancialData>): (r: real)
    ensures points == [] ==> r == 0.0
    ensures points != [] ==> r * |points| as real == Sum(SavingsSeries(points))
  {
    if points == [] then 0.0 else Sum(SavingsSeries(points)) / |points| as real
  }

  function TaxSeries(points: seq<UnifiedFinancialData>): (s: seq<real>)
    ensures |s| == |points| && forall i :: 0 <= i < |points| ==> s[i] == TotalTaxGbp(points[i])
  {
    seq(|points|, i requires 0 <= i < |points| => TotalTaxGbp(points[i]))
  }

  /** `get_total_tax_burden_gbp`: the sum of the yearly tax totals, never negative when no year's tax is. */
  function TotalTaxBurdenGbp(points: seq<UnifiedFinancialData>): (r: real)
    ensures points == [] ==> r == 0.0
    ensures (forall i :: 0 <= i < |points| ==> TotalTaxGbp(points[i]) >= 0.0) ==> r >= 0.0
    ensures points != [] ==> r == Sum(TaxSeries(points))
  {
    assert (forall i :: 0 <= i < |points| ==> TotalTaxGbp(points[i]) >= 0.0) ==> Sum(TaxSeries(points)) >= 0.0 by {
      if forall i :: 0 <= i < |points| ==> TotalTaxGbp(points[i]) >= 0.0 {
        SumNonNegative(TaxSeries(points));
      }
    }
    if points == [] then 0.0 else Sum(TaxSeries(points))
  }

  /** Each further year adds exactly its own tax total to the burden. */
  lemma {:induction false} TotalTaxBurdenAppend(points: seq<UnifiedFinancialData>, p: UnifiedFinancialData)
    ensures TotalTaxBurdenGbp(points + [p]) == TotalTaxBurdenGbp(points) + TotalTaxGbp(p)
  {
    assert TaxSeries(points + [p]) == TaxSeries(points) + [TotalTaxGbp(p)];
    SumAppend(TaxSeries(points), TotalTaxGbp(p));
  }

  /** `get_final_annual_savings_gbp`. */
  function FinalAnnualSavingsGbp(points: seq<UnifiedFinancialData>): (r: real)
    ensures points == [] ==> r == 0.0
    ensures points != [] ==> r == AnnualSavingsGbp(points[|points| - 1])
  {
    if points == [] then 0.0 else AnnualSavingsGbp(points[|points| - 1])
  }

  /** `get_final_liquid_savings_gbp`. */
  function FinalLiquidSavingsGbp(points: seq<UnifiedFinancialData>): (r: real)
    ensures points == [] ==> r == 0.0
    ensures points != [] ==> r == points[|points| - 1].netWorth.liquidAssets.gbpValue
  {
    if points == [] then 0.0 else points[|points| - 1].netWorth.liquidAssets.gbpValue
  }

  /** `get_net_worth_growth_rate`: percentage change from the first to the last point. */
  function NetWorthGrowthRate(points: seq<UnifiedFinancialData>): (r: real)
    ensures |points| < 2 ==> r == 0.0
    ensures |points| >= 2 && NetWorthGbp(points[0]) == 0.0 ==> r == 0.0
    ensures |points| >= 2 && NetWorthGbp(points[0]) != 0.0 ==>
      r * NetWorthGbp(points[0]) == (NetWorthGbp(points[|points| - 1]) - NetWorthGbp(points[0])) * 100.0
  {
    if |points| < 2 then 0.0
    else
      var initial := NetWorthGbp(points[0]);
      var final := NetWorthGbp(points[|points| - 1]);
      if initial == 0.0 then 0.0 else ((final - initial) / initial) * 100.0
  }
}

=== FILE: unified_helpers.dfy ===
/** Builders for the unified model: breakdown creators with fixed splits, name-based metadata and the legacy conversion. */
module UnifiedHelpers {
  import opened Base
  import opened UnifiedData
  import FinancialData

  // ------------------------------------------------------------- currency values

  /** `create_unified_currency_value`: GBP, USD and EUR by their codes; any other code is taken as GBP, ignoring the rate. */
  function CreateUnifiedCurrencyValue(value: real, currency: string, exchangeRate: real): (r: Result<CurrencyValue, string>)
    ensures r.Err? <==> (currency == "USD" || currency == "EUR") && exchangeRate == 0.0
    ensures currency != "USD" && currency != "EUR" ==> r == Ok(FromGbp(value))
    ensures r.Ok? && currency == "USD" ==> r.value.currency == USD && r.value.gbpValue * exchangeRate == value
    ensures r.Ok? && currency == "EUR" ==> r.value.currency == EUR && r.value.gbpValue * exchangeRate == value
  {
    if currency == "GBP" then Ok(FromGbp(value))
    else if currency == "USD" then
      if exchangeRate == 0.0 then Err("ZeroDivisionError") else Ok(FromUsd(value, exchangeRate))
    else if currency == "EUR" then
      if exchangeRate == 0.0 then Err("ZeroDivisionError") else Ok(FromEur(value, exchangeRate))
    else Ok(FromGbp(value))
  }

  // ------------------------------------------------------------- breakdown creators

  /** `create_unified_income_breakdown`: the four amounts stored unchanged as GBP values. */
  function CreateIncomeBreakdown(salary: real, bonus: real, rsu: real, otherIncome: real): (b: IncomeBreakdown)
    ensures b.salary == FromGbp(salary) && b.bonus == FromGbp(bonus)
    ensures b.rsuVested == FromGbp(rsu) && b.otherIncome == FromGbp(otherIncome)
    ensures IncomeTotalGbp(b) == salary + bonus + rsu + otherIncome
  {
    IncomeBreakdown(FromGbp(salary), FromGbp(bonus), FromGbp(rsu), FromGbp(otherIncome))
  }

  /**
   * `create_unified_expense_breakdown`: each group total is split over its lines with fixed fractions
   * (housing 60/40, living 30/20/10/20/10/10, taxes 70/30, investments 80/10/10, other 40/30/20/10).
   */
  function CreateExpenseBreakdown(housing: real, living: real, taxes: real, investments: real, other: real): (e: ExpenseBreakdown)
    ensures e.housing.rent == FromGbp(housing * 0.6) && e.housing.mortgage == FromGbp(housing * 0.4)
    ensures e.housing.utilities == Zero && e.housing.maintenance == Zero && e.housing.propertyTax == Zero
    ensures e.taxes.incomeTax == FromGbp(taxes * 0.7) && e.taxes.socialSecurity == FromGbp(taxes * 0.3)
    ensures e.taxes.propertyTax == Zero && e.taxes.otherTaxes == Zero
  {
    ExpenseBreakdown(
      HousingExpenses(FromGbp(housing * 0.6), FromGbp(housing * 0.4), FromGbp(0.0), FromGbp(0.0), FromGbp(0.0)),
      LivingExpenses(FromGbp(living * 0.3), FromGbp(living * 0.2), FromGbp(living * 0.1),
                     FromGbp(living * 0.2), FromGbp(living * 0.1), FromGbp(living * 0.1)),
      TaxExpenses(FromGbp(taxes * 0.7), FromGbp(taxes * 0.3), FromGbp(0.0), FromGbp(0.0)),
      InvestmentExpenses(FromGbp(investments * 0.8), FromGbp(investments * 0.1), FromGbp(investments * 0.1)),
      OtherExpenses(FromGbp(other * 0.4), FromGbp(other * 0.3), FromGbp(other * 0.2), FromGbp(other * 0.1)))
  }

  /** The split fractions of every expense group add up to one, so each group and the whole keep their inputs. */
  lemma ExpenseSplitPreservesTotals(housing: real, living: real, taxes: real, investments: real, other: real)
    ensures var e := CreateExpenseBreakdown(housing, living, taxes, investments, other);
      HousingGbp(e.housing) == housing && LivingGbp(e.living) == living && TaxExpensesGbp(e.taxes) == taxes &&
      InvestmentExpensesGbp(e.investments) == investments && OtherGbp(e.other) == other &&
      ExpenseTotalGbp(e) == housing + living + taxes + investments + other
  {
  }

  /** `create_unified_tax_breakdown`: the three amounts stored unchanged as GBP values. */
  function CreateTaxBreakdown(incomeTax: real, socialSecurity: real, otherTaxes: real): (t: TaxBreakdown)
    ensures t.incomeTax == FromGbp(incomeTax) && t.socialSecurity == FromGbp(socialSecurity) && t.otherTaxes == FromGbp(otherTaxes)
    ensures TaxTotalGbp(t) == incomeTax + socialSecurity + otherTaxes
  {
    TaxBreakdown(FromGbp(incomeTax), FromGbp(socialSecurity), FromGbp(otherTaxes))
  }

  /**
   * `create_unified_investment_breakdown`: retirement split 40/20/20/10/10, taxable 40/30/20/10 and
   * housing 80/20 over their lines.
   */
  function CreateInvestmentBreakdown(retirement: real, taxable: real, housing: real): (i: InvestmentBreakdown)
    ensures i.retirement.lisa == FromGbp(retirement * 0.2) && i.taxable.isa == FromGbp(taxable * 0.4)
    ensures i.housing.houseEquity == FromGbp(housing * 0.8) && i.housing.rentalProperty == FromGbp(housing * 0.2)
  {
    InvestmentBreakdown(
      RetirementInvestments(FromGbp(retirement * 0.4), FromGbp(retirement * 0.2), FromGbp(retirement * 0.2),
                            FromGbp(retirement * 0.1), FromGbp(retirement * 0.1)),
      TaxableInvestments(FromGbp(taxable * 0.4), FromGbp(taxable * 0.3), FromGbp(taxable * 0.2), FromGbp(taxable * 0.1)),
      HousingInvestments(FromGbp(housing * 0.8), FromGbp(housing * 0.2)))
  }

  /** The investment split keeps each group's input as its total and their sum as the whole. */
  lemma InvestmentSplitPreservesTotals(retirement: real, taxable: real, housing: real)
    ensures var i := CreateInvestmentBreakdown(retirement, taxable, housing);
      RetirementGbp(i.retirement) == retirement && TaxableGbp(i.taxable) == taxable &&
      HousingInvestmentsGbp(i.housing) == housing && InvestmentTotalGbp(i) == retirement + taxable + housing
  {
  }

  /** `create_unified_net_worth_breakdown`: the three amounts stored unchanged as GBP values. */
  function CreateNetWorthBreakdown(liquid: real, illiquid: real, liabilities: real): (n: NetWorthBreakdown)
    ensures n.liquidAssets == FromGbp(liquid) && n.illiquidAssets == FromGbp(illiquid) && n.liabilities == FromGbp(liabilities)
    ensures NetWorthTotalGbp(n) == liquid + illiquid - liabilities
  {
    NetWorthBreakdown(FromGbp(liquid), FromGbp(illiquid), FromGbp(liabilities))
  }

  // ------------------------------------------------------------- metadata from a scenario name

  /** The jurisdiction named by the first of the four markers the name contains; UK when none. */
  function JurisdictionFromName(name: string): (j: Jurisdiction)
    ensures Contains(name, "UK_Scenario") ==> j == UK
    ensures !Contains(name, "UK_Scenario") && (Contains(name, "Seattle") || Contains(name, "New_York")) ==> j == US
    ensures !Contains(name, "UK_Scenario") && !Contains(name, "Seattle") && !Contains(name, "New_York") && Contains(name, "Dubai") ==> j == UAE
    ensures j != EU
  {
    if Contains(name, "UK_Scenario") then UK
    else if Contains(name, "Seattle") || Contains(name, "New_York") then US
    else if Contains(name, "Dubai") then UAE
    else UK
  }

  /** The relocation year marked in the name: 4 for "Year4", else 5 for "Year5", else none. */
  function RelocationTimingFromName(name: string): (t: Option<int>)
    ensures Contains(name, "Year4") ==> t == Some(4)
    ensures !Contains(name, "Year4") && Contains(name, "Year5") ==> t == Some(5)
    ensures !Contains(name, "Year4") && !Contains(name, "Year5") ==> t == None
  {
    if Contains(name, "Year4") then Some(4) else if Contains(name, "Year5") then Some(5) else None
  }

  /** `create_scenario_metadata_from_name`: classifies a scenario by substrings of its name. */
  function MetadataFromName(name: string): (m: ScenarioMetadata)
    ensures m.jurisdiction == JurisdictionFromName(name)
    ensures m.relocationTiming == RelocationTimingFromName(name)
    ensures m.taxSystem == (if m.jurisdiction == UAE then "Tax-Free" else if m.jurisdiction == US then "US Tax System" else "UK Tax System")
    ensures m.housingStrategy ==
      (if Contains(name, "UK_Home") then "UK Home" else if Contains(name, "Local_Home") then "Local Home" else "Renting")
    ensures m.description == "Scenario: " + name
  {
    var uk := Contains(name, "UK_Scenario");
    var seattle := Contains(name, "Seattle");
    var newYork := Contains(name, "New_York");
    var dubai := Contains(name, "Dubai");
    var jurisdiction := JurisdictionFromName(name);
    var taxSystem :=
      if jurisdiction == UAE then "Tax-Free" else if jurisdiction == US then "US Tax System" else "UK Tax System";
    var salaryProgression :=
      if uk then (if Contains(name, "A") then "UK Internal" else "UK External")
      else if seattle then "US Tech"
      else if newYork then "US Finance"
      else if dubai then "UAE Tech"
      else "Standard";
    var housingStrategy :=
      if Contains(name, "UK_Home") then "UK Home" else if Contains(name, "Local_Home") then "Local Home" else "Renting";
    var investmentStrategy :=
      if jurisdiction == UK then "UK-focused (ISA, LISA, SIPP)"
      else if jurisdiction == US then "US-focused (401k, IRA, Brokerage)"
      else "International (Brokerage, Real Estate)";
    ScenarioMetadata(jurisdiction, taxSystem, housingStrategy, RelocationTimingFromName(name),
                     salaryProgression, investmentStrategy, "Scenario: " + name)
  }

  // ------------------------------------------------------------- legacy conversion

  /**
   * `convert_old_to_unified_data_point`: the legacy amounts moved into the unified groups as GBP values.
   * The legacy travel amount fills both the living "transport" line and the other-expenses "travel" line.
   */
  function ConvertOldDataPoint(p: FinancialData.FinancialDataPoint): (u: UnifiedFinancialData)
    ensures u.year == p.year && u.age == p.age && u.currency == GBP
    ensures u.phase == UkOnly <==> p.phase == FinancialData.UK
    ensures u.phase == (if p.phase == FinancialData.UK then UkOnly else InternationalOnly)
    ensures u.jurisdiction == (if p.phase == FinancialData.UK then UK else US)
    ensures u.netWorth == NetWorthBreakdown(FromGbp(p.cumulativePortfolioGbp), FromGbp(p.houseEquityGbp), Zero)
    ensures u.exchangeRates == map[GBP := 1.0]
  {
    var isUk := p.phase == FinancialData.UK;
    var income := IncomeBreakdown(FromGbp(p.grossSalaryGbpEquiv), FromGbp(p.grossBonusGbpEquiv), FromGbp(p.vestedRsuGbpEquiv), FromGbp(0.0));
    var housing := HousingExpenses(FromGbp(p.rentGbp), FromGbp(p.mortgagePaymentGbp), FromGbp(0.0), FromGbp(0.0), FromGbp(0.0));
    var living := LivingExpenses(FromGbp(p.personalExpensesGbp), FromGbp(p.travelExpensesGbp),
                                 FromGbp(0.0), FromGbp(0.0), FromGbp(0.0), FromGbp(0.0));
    var taxes := TaxExpenses(FromGbp(p.incomeTaxGbp), FromGbp(p.nationalInsuranceGbp), FromGbp(0.0), FromGbp(0.0));
    var investments := InvestmentExpenses(FromGbp(0.0), FromGbp(0.0), FromGbp(0.0));
    var other := OtherExpenses(FromGbp(p.universityRepaymentGbp), FromGbp(p.travelExpensesGbp), FromGbp(0.0), FromGbp(0.0));
    var tax := TaxBreakdown(FromGbp(p.incomeTaxGbp), FromGbp(p.nationalInsuranceGbp), FromGbp(0.0));
    var retirement := RetirementInvestments(FromGbp(0.0), FromGbp(p.lisaContributionGbp), FromGbp(p.sippContributionGbp),
                                            FromGbp(0.0), FromGbp(0.0));
    var taxable := TaxableInvestments(FromGbp(p.isaContributionGbp), FromGbp(p.giaContributionGbp), FromGbp(0.0), FromGbp(0.0));
    var housingInvestments := HousingInvestments(FromGbp(p.houseEquityGbp), FromGbp(0.0));
    UnifiedFinancialData(
      p.year, p.age,
      if isUk then UkOnly else InternationalOnly,
      if isUk then UK else US,
      GBP,
      income,
      ExpenseBreakdown(housing, living, taxes, investments, other),
      tax,
      InvestmentBreakdown(retirement, taxable, housingInvestments),
      NetWorthBreakdown(FromGbp(p.cumulativePortfolioGbp), FromGbp(p.houseEquityGbp), FromGbp(0.0)),
      map[GBP := 1.0])
  }

  /**
   * The converted totals in terms of the legacy fields: net worth is portfolio plus house equity, income is the
   * three GBP-equivalent pay lines, tax is income tax plus National Insurance, and the expense total counts the
   * legacy travel amount twice.
   */
  lemma ConvertedTotals(p: FinancialData.FinancialDataPoint)
    ensures var u := ConvertOldDataPoint(p);
      NetWorthGbp(u) == p.cumulativePortfolioGbp + p.houseEquityGbp &&
      IncomeTotalGbp(u.income) == p.grossSalaryGbpEquiv + p.grossBonusGbpEquiv + p.vestedRsuGbpEquiv &&
      TaxTotalGbp(u.tax) == p.incomeTaxGbp + p.nationalInsuranceGbp &&
      ExpenseTotalGbp(u.expenses) == p.rentGbp + p.mortgagePaymentGbp + p.personalExpensesGbp + 2.0 * p.travelExpensesGbp
        + p.incomeTaxGbp + p.nationalInsuranceGbp + p.universityRepaymentGbp &&
      InvestmentTotalGbp(u.investments) == p.lisaContributionGbp + p.sippContributionGbp + p.isaContributionGbp
        + p.giaContributionGbp + p.houseEquityGbp
  {
  }

  /** The converted scenario's phase: relocating when the name marks a relocation year, UK-only otherwise. */
  function ConvertedPhase(m: ScenarioMetadata): FinancialPhase
  {
    if m.relocationTiming.Some? && m.relocationTiming.value != 0 then UkToInternational else UkOnly
  }

  /** `convert_old_to_unified_scenario`: the same name and, point by point in order, the converted points. */
  method ConvertOldScenario(legacy: FinancialData.FinancialScenario) returns (s: UnifiedFinancialScenario)
    ensures fresh(s)
    ensures s.name == legacy.name && s.description == "Converted from old model: " + legacy.name
    ensures s.metadata == Some(MetadataFromName(legacy.name))
    ensures s.phase == (if RelocationTimingFromName(legacy.name).Some? then UkToInternational else UkOnly)
    ensures |s.dataPoints| == |legacy.dataPoints|
    ensures forall i :: 0 <= i < |legacy.dataPoints| ==> s.dataPoints[i] == ConvertOldDataPoint(legacy.dataPoints[i])
  {
    var metadata := MetadataFromName(legacy.name);
    s := new UnifiedFinancialScenario(legacy.name, "Converted from old model: " + legacy.name, ConvertedPhase(metadata), Some(metadata));
    var i := 0;
    while i < |legacy.dataPoints|
      invariant 0 <= i <= |legacy.dataPoints|
      invariant s.name == legacy.name && s.description == "Converted from old model: " + legacy.name
      invariant s.metadata == Some(metadata) && s.phase == ConvertedPhase(metadata)
      invariant |s.dataPoints| == i
      invariant forall k :: 0 <= k < i ==> s.dataPoints[k] == ConvertOldDataPoint(legacy.dataPoints[k])
    {
      s.AddDataPoint(ConvertOldDataPoint(legacy.dataPoints[i]));
      i := i + 1;
    }
  }
}

=== FILE: us_tax.dfy ===
/** US federal income tax (2025 single filer), FICA, and the New York State and New York City tables. */
module UsTax {
  import opened Base

  /** One federal bracket: taxable income up to `limit` (no limit for the top bracket) pays `base` plus `rate` on the excess over the previous limit. */
  datatype Bracket = Bracket(limit: Option<real>, rate: real, base: real)

  const StandardDeduction: real := 15000.0

  /** The bracket table exactly as written, including its bases. */
  const FederalBrackets: seq<Bracket> := [
    Bracket(Some(11925.0), 0.10, 0.0),
    Bracket(Some(48475.0), 0.12, 1192.50),
    Bracket(Some(96950.0), 0.22, 5595.50),
    Bracket(Some(206700.0), 0.24, 17843.50),
    Bracket(Some(394600.0), 0.32, 46253.50),
    Bracket(Some(626350.0), 0.35, 104755.50),
    Bracket(None, 0.37, 186601.50)
  ]

  predicate Fits(taxable: real, b: Bracket)
  {
    b.limit.None? || taxable <= b.limit.value
  }

  /** The limit of the bracket before bracket `i`, or 0 for the first. */
  function PreviousLimit(i: nat): real
    requires i < |FederalBrackets|
  {
    if i == 0 then 0.0 else FederalBrackets[i - 1].limit.value
  }

  /** The tax charged by bracket `i` on `taxable`. */
  function BracketTax(taxable: real, i: nat): real
    requires i < |FederalBrackets|
  {
    FederalBrackets[i].base + (taxable - PreviousLimit(i)) * FederalBrackets[i].rate
  }

  /** The first bracket from `i` on that fits decides the tax; none fitting leaves it at 0. */
  function TaxFrom(taxable: real, i: nat): real
    requires i <= |FederalBrackets|
    decreases |FederalBrackets| - i
  {
    if i == |FederalBrackets| then 0.0
    else if Fits(taxable, FederalBrackets[i]) then BracketTax(taxable, i)
    else TaxFrom(taxable, i + 1)
  }

  function FederalTaxable(gross: real): (t: real)
    ensures t >= 0.0 && t >= gross - StandardDeduction
    ensures t == 0.0 || t == gross - StandardDeduction
  {
    Max(0.0, gross - StandardDeduction)
  }

  function FederalTax(taxable: real): real
  {
    TaxFrom(taxable, 0)
  }

  /** The bracket scan of the source: stop at the first bracket whose limit is not below the taxable income. */
  method FederalTaxByScan(taxable: real) returns (tax: real)
    ensures tax == FederalTax(taxable)
  {
    tax := 0.0;
    var i := 0;
    while i < |FederalBrackets|
      invariant 0 <= i <= |FederalBrackets|
      invariant TaxFrom(taxable, i) == FederalTax(taxable)
      invariant tax == 0.0
    {
      if Fits(taxable, FederalBrackets[i]) {
        tax := BracketTax(taxable, i);
        return;
      }
      i := i + 1;
    }
  }

  /** Income strictly above the previous limit and within bracket `i`'s limit is taxed by bracket `i`. */
  lemma FederalTaxInBracket(taxable: real, i: nat)
    requires i < |FederalBrackets|
    requires i == 0 || taxable > PreviousLimit(i)
    requires Fits(taxable, FederalBrackets[i])
    ensures FederalTax(taxable) == BracketTax(taxable, i)
  {
    var j := 0;
    while j < i
      invariant 0 <= j <= i
      invariant TaxFrom(taxable, j) == FederalTax(taxable)
    {
      assert !Fits(taxable, FederalBrackets[j]);
      j := j + 1;
    }
  }

  /** Federal tax is never negative for a non-negative taxable income. */
  lemma FederalTaxNonNegative(taxable: real)
    requires taxable >= 0.0
    ensures FederalTax(taxable) >= 0.0
  {
    var i := 0;
    while !Fits(taxable, FederalBrackets[i])
      invariant 0 <= i < |FederalBrackets|
      invariant i == 0 || taxable > PreviousLimit(i)
      decreases |FederalBrackets| - i
    {
      i := i + 1;
    }
    FederalTaxInBracket(taxable, i);
  }

  /**
   * The bases are not the running totals of the lower brackets: just below and just above
   * 394600 the tax falls by 1626 although income rises.
   */
  lemma FederalTaxDropsAt394600()
    ensures FederalTax(394600.0) == 106381.50
    ensures FederalTax(394601.0) == 104755.85
  {
    FederalTaxInBracket(394600.0, 4);
    FederalTaxInBracket(394601.0, 5);
  }

  // ------------------------------------------------------------------ FICA

  const SocialSecurityWageBase: real := 176100.0

  /** Social security on wages up to the wage base, Medicare on all wages, additional Medicare above 200000. */
  function Fica(gross: real): (r: real)
    ensures gross >= 0.0 ==> r >= 0.0
    ensures gross <= 200000.0 ==> r == 0.062 * Min(gross, SocialSecurityWageBase) + 0.0145 * gross
    ensures gross > 200000.0 ==> r == 0.062 * SocialSecurityWageBase + 0.0145 * gross + 0.009 * (gross - 200000.0)
  {
    Min(gross, SocialSecurityWageBase) * 0.062 + gross * 0.0145 + Max(0.0, gross - 200000.0) * 0.009
  }

  // ---------------------------------------------------------- New York tables

  /** New York State tax on `ti`, as the seven-band table is written. */
  function NewYorkStateTax(ti: real): real
  {
    if ti <= 8500.0 then ti * 0.04
    else if ti <= 11700.0 then 8500.0 * 0.04 + (ti - 8500.0) * 0.045
    else if ti <= 13900.0 then 8500.0 * 0.04 + (11700.0 - 8500.0) * 0.045 + (ti - 11700.0) * 0.0525
    else if ti <= 80650.0 then 8500.0 * 0.04 + (11700.0 - 8500.0) * 0.045 + (13900.0 - 11700.0) * 0.0525 + (ti - 13900.0) * 0.055
    else if ti <= 215400.0 then 4271.0 + (ti - 80650.0) * 0.06
    else if ti <= 1077550.0 then 4271.0 + (215400.0 - 80650.0) * 0.06 + (ti - 215400.0) * 0.0685
    else 4271.0 + (215400.0 - 80650.0) * 0.06 + (1077550.0 - 215400.0) * 0.0685 + (ti - 1077550.0) * 0.0965
  }

  /** Each band's rate on the slice of income that falls in it. */
  function NewYorkStateBands(ti: real): real
  {
    0.04 * Slice(ti, 0.0, 8500.0) + 0.045 * Slice(ti, 8500.0, 11700.0) + 0.0525 * Slice(ti, 11700.0, 13900.0)
    + 0.055 * Slice(ti, 13900.0, 80650.0) + 0.06 * Slice(ti, 80650.0, 215400.0)
    + 0.0685 * Slice(ti, 215400.0, 1077550.0) + 0.0965 * Max(0.0, ti - 1077550.0)
  }

  function Slice(x: real, lo: real, hi: real): real
  {
    Max(0.0, Min(x, hi) - lo)
  }

  /**
   * The state table is the band-by-band sum up to 80650; above it, the table's rounded
   * 4271 starting point adds 0.25 to the band sum.
   */
  lemma NewYorkStateTaxIsBandSum(ti: real)
    requires ti >= 0.0
    ensures ti <= 80650.0 ==> NewYorkStateTax(ti) == NewYorkStateBands(ti)
    ensures ti > 80650.0 ==> NewYorkStateTax(ti) == NewYorkStateBands(ti) + 0.25
  {
  }

  /** New York City tax on `ci`, written cumulatively over four bands. */
  function NewYorkCityTax(ci: real): real
  {
    if ci <= 12000.0 then ci * 0.03078
    else if ci <= 25000.0 then 12000.0 * 0.03078 + (ci - 12000.0) * 0.03762
    else if ci <= 50000.0 then 12000.0 * 0.03078 + (25000.0 - 12000.0) * 0.03762 + (ci - 25000.0) * 0.03819
    else 12000.0 * 0.03078 + (25000.0 - 12000.0) * 0.03762 + (50000.0 - 25000.0) * 0.03819 + (ci - 50000.0) * 0.03876
  }

  /** The city table equals the band-by-band sum, so it has no jump at 12000, 25000 or 50000. */
  lemma NewYorkCityTaxIsBandSum(ci: real)
    requires ci >= 0.0
    ensures NewYorkCityTax(ci) ==
      0.03078 * Slice(ci, 0.0, 12000.0) + 0.03762 * Slice(ci, 12000.0, 25000.0)
      + 0.03819 * Slice(ci, 25000.0, 50000.0) + 0.03876 * Max(0.0, ci - 50000.0)
  {
  }

  // ------------------------------------------------------------------ total

  /**
   * `calculate_us_tax`: federal tax plus FICA, plus the state and city tables for
   * "us_federal_state_city" only. The `year` argument of the source is never read, so it is not a parameter.
   */
  function UsTax(gross: real, taxSystem: string): (r: real)
    ensures taxSystem != "us_federal_state_city" ==> r == FederalTax(FederalTaxable(gross)) + Fica(gross)
    ensures taxSystem == "us_federal_state_city" ==>
      r == FederalTax(FederalTaxable(gross)) + Fica(gross) + NewYorkStateTax(gross) + NewYorkCityTax(gross)
  {
    var total := FederalTax(FederalTaxable(gross)) + Fica(gross);
    if taxSystem == "us_federal_state_city" then total + NewYorkStateTax(gross) + NewYorkCityTax(gross)
    else total
  }

  /** The total is never negative for non-negative income. */
  lemma UsTaxNonNegative(gross: real, taxSystem: string)
    requires gross >= 0.0
    ensures UsTax(gross, taxSystem) >= 0.0
  {
    FederalTaxNonNegative(FederalTaxable(gross));
    NewYorkStateTaxIsBandSum(gross);
    NewYorkCityTaxIsBandSum(gross);
  }

  /** `calculate_us_retirement_contribution`: the 401(k) contribution is the salary times the location's rate. */
  function RetirementContribution(salary: real, contributionRate: real): (r: real)
    ensures salary >= 0.0 && contributionRate >= 0.0 ==> r >= 0.0
    ensures contributionRate <= 1.0 && salary >= 0.0 ==> r <= salary
    ensures r == salary * contributionRate
  {
    assert salary >= 0.0 ==>
      (contributionRate <= 1.0 ==> salary * contributionRate <= salary) && (contributionRate >= 0.0 ==> salary * contributionRate >= 0.0) by {
      if salary >= 0.0 && contributionRate <= 1.0 { MulLeft(contributionRate, 1.0, salary); }
      if salary >= 0.0 && contributionRate >= 0.0 { MulLeft(0.0, contributionRate, salary); }
    }
    salary * contributionRate
  }

  /** The US allocation has one bucket. */
  datatype SimpleAllocation = SimpleAllocation(totalInvestment: real)

  /** `calculate_us_investment_allocation`: all savings go to one investment bucket. */
  function InvestmentAllocation(savings: real): (a: SimpleAllocation)
    ensures a.totalInvestment == savings
  {
    SimpleAllocation(savings)
  }
}

=== FILE: validation.dfy ===
/** Input and value checks of the dashboard, and the numbered summary of validation errors. */
module Validation {
  import opened Base

  /** `safe_divide`: the default for a zero denominator, the quotient otherwise. */
  function SafeDivide(numerator: real, denominator: real, default: real): (r: real)
    ensures denominator == 0.0 ==> r == default
    ensures denominator != 0.0 ==> r * denominator == numerator
  {
    if denominator == 0.0 then default else numerator / denominator
  }

  /** A value handed to `validate_numeric_value`: one that `float()` accepts, or one it rejects. */
  datatype Input = Numeric(value: real) | NotNumeric

  /** `validate_numeric_value`: numeric and within whichever inclusive bounds are given. */
  predicate ValidNumericValue(v: Input, minValue: Option<real>, maxValue: Option<real>)
  {
    && v.Numeric?
    && !(minValue.Some? && v.value < minValue.value)
    && !(maxValue.Some? && v.value > maxValue.value)
  }

  /** Without bounds every number passes; with both bounds the check is membership of the closed interval. */
  lemma NumericBounds(v: Input, lo: real, hi: real)
    ensures ValidNumericValue(v, None, None) <==> v.Numeric?
    ensures ValidNumericValue(v, Some(lo), Some(hi)) <==> v.Numeric? && lo <= v.value <= hi
  {
  }

  /** The first complaint of `validate_user_inputs`, in the order it checks. */
  datatype InputIssue = NoScenarioSelected | RangeNotTwoValues | StartNotPositive | EndBeforeStart

  function UserInputIssue(selectedScenarios: seq<string>, yearRange: seq<int>): (r: Option<InputIssue>)
    ensures r == Some(NoScenarioSelected) <==> selectedScenarios == []
    ensures r == Some(RangeNotTwoValues) <==> selectedScenarios != [] && |yearRange| != 2
  {
    if selectedScenarios == [] then Some(NoScenarioSelected)
    else if |yearRange| != 2 then Some(RangeNotTwoValues)
    else if !ValidNumericValue(Numeric(yearRange[0] as real), Some(1.0), None) then Some(StartNotPositive)
    else if !ValidNumericValue(Numeric(yearRange[1] as real), Some(yearRange[0] as real), None) then Some(EndBeforeStart)
    else None
  }

  /** `validate_user_inputs`. */
  predicate ValidUserInputs(selectedScenarios: seq<string>, yearRange: seq<int>)
  {
    UserInputIssue(selectedScenarios, yearRange).None?
  }

  /** The inputs are accepted iff some scenario is selected and the range is two years `start <= end` with `start >= 1`. */
  lemma ValidUserInputsMeaning(selectedScenarios: seq<string>, yearRange: seq<int>)
    ensures ValidUserInputs(selectedScenarios, yearRange) <==>
      selectedScenarios != [] && |yearRange| == 2 && 1 <= yearRange[0] <= yearRange[1]
  {
  }

  const ErrorHeader: string := "Validation Errors:\n"

  /** One numbered line of the summary. */
  function ErrorLine(i: nat, error: string): string
  {
    NatToString(i) + ". " + error + "\n"
  }

  /** The numbered lines for `errors`, counting from 1. */
  function ErrorLines(errors: seq<string>): string
  {
    if errors == [] then ""
    else ErrorLines(errors[..|errors| - 1]) + ErrorLine(|errors|, errors[|errors| - 1])
  }

  function ErrorSummary(errors: seq<string>): string
  {
    if errors == [] then "No validation errors found." else ErrorHeader + ErrorLines(errors)
  }

  /** The lines for a prefix of the errors are a prefix of the lines for all of them. */
  lemma {:induction false} ErrorLinesGrow(errors: seq<string>, k: nat)
    requires k <= |errors|
    ensures IsPrefix(ErrorLines(errors[..k]), ErrorLines(errors))
    decreases |errors| - k
  {
    if k < |errors| {
      ErrorLinesGrow(errors, k + 1);
      assert errors[..k + 1][..k] == errors[..k];
      assert ErrorLines(errors[..k + 1]) == ErrorLines(errors[..k]) + ErrorLine(k + 1, errors[k]);
    } else {
      assert errors[..k] == errors;
    }
  }

  /** In the summary the header comes first, and the i-th error's line "i. error" follows the lines of the errors before it. */
  lemma ErrorSummaryLines(errors: seq<string>, i: nat)
    requires i < |errors|
    ensures IsPrefix(ErrorHeader + ErrorLines(errors[..i]) + ErrorLine(i + 1, errors[i]), ErrorSummary(errors))
  {
    ErrorLinesGrow(errors, i + 1);
    assert errors[..i + 1][..i] == errors[..i];
    var p := ErrorLines(errors[..i + 1]);
    assert p == ErrorLines(errors[..i]) + ErrorLine(i + 1, errors[i]);
    PrefixBehindHeader(ErrorHeader, p, ErrorLines(errors));
    assert ErrorHeader + ErrorLines(errors[..i]) + ErrorLine(i + 1, errors[i]) == ErrorHeader + p;
  }

  /** A common header keeps a prefix a prefix. */
  lemma PrefixBehindHeader(h: string, p: string, s: string)
    requires IsPrefix(p, s)
    ensures IsPrefix(h + p, h + s)
  {
    assert (h + s)[..|h + p|] == h + s[..|p|];
  }

  /** `create_error_summary`: the fixed message for no errors, else the header and one numbered line per error. */
  method CreateErrorSummary(errors: seq<string>) returns (summary: string)
    ensures summary == ErrorSummary(errors)
  {
    if errors == [] {
      return "No validation errors found.";
    }
    summary := ErrorHeader;
    var i := 0;
    while i < |errors|
      invariant 0 <= i <= |errors|
      invariant summary == ErrorHeader + ErrorLines(errors[..i])
    {
      assert errors[..i + 1][..i] == errors[..i];
      summary := summary + ErrorLine(i + 1, errors[i]);
      i := i + 1;
    }
    assert errors[..i] == errors;
  }
}

=== FILE: yaml_loader.dfy ===
/** The simple YAML loader: legacy scenario names to YAML ids, locations to tax systems, and the fallback to the legacy configuration. */
module YamlLoader {
  import opened Base
  import opened TemplateMerge

  /** The legacy scenario names that have a YAML scenario file, with the file's id. */
  const NameMapping: map<string, string> := map[
    "UK_Scenario_A" := "uk_scenario_a",
    "UK_Scenario_B" := "uk_scenario_b",
    "seattle_tech_graduate" := "seattle_tech_graduate",
    "seattle_uk_home" := "seattle_uk_home",
    "seattle_local_home" := "seattle_local_home",
    "new_york_uk_home" := "new_york_uk_home",
    "dubai_tech_graduate" := "dubai_tech_graduate",
    "dubai_uk_home" := "dubai_uk_home",
    "dubai_local_home" := "dubai_local_home",
    "seattle_year4_uk_home" := "seattle_year4_uk_home",
    "seattle_year4_local_home" := "seattle_year4_local_home",
    "seattle_year5_uk_home" := "seattle_year5_uk_home",
    "seattle_year5_local_home" := "seattle_year5_local_home"
  ]

  /** `map_scenario_name_to_yaml_id`. */
  function MapScenarioNameToYamlId(name: string): (id: Option<string>)
    ensures id.Some? <==> name in NameMapping
    ensures id.Some? ==> id.value == NameMapping[name]
  {
    if name in NameMapping then Some(NameMapping[name]) else None
  }

  /** Every YAML id is its legacy name in lower case: the two UK names are lower-cased, the others are already lower case. */
  lemma YamlIdIsLowerCasedName(name: string)
    requires MapScenarioNameToYamlId(name).Some?
    ensures name !in {"UK_Scenario_A", "UK_Scenario_B"} ==> MapScenarioNameToYamlId(name).value == name
    ensures name in {"UK_Scenario_A", "UK_Scenario_B"} ==> MapScenarioNameToYamlId(name).value == Lower(name)
  {
    if name == "UK_Scenario_A" {
      LowerSpelledOut(name, "uk_scenario_a");
    } else if name == "UK_Scenario_B" {
      LowerSpelledOut(name, "uk_scenario_b");
    }
  }

  /** `t` is the lower-case spelling of `s` when it lowers `s` character by character. */
  lemma LowerSpelledOut(s: string, t: string)
    requires |s| == |t| && forall i :: 0 <= i < |s| ==> LowerChar(s[i]) == t[i]
    ensures Lower(s) == t
  {
  }

  /** The tax system of each known location, keyed in lower case. */
  const LocationMapping: map<string, string> := map[
    "uk" := "uk_income_tax_ni",
    "seattle" := "us_washington",
    "new_york" := "us_new_york",
    "dubai" := "tax_free",
    "california" := "us_california",
    "texas" := "us_texas"
  ]

  const DefaultTaxSystem: string := "uk_income_tax_ni"

  /** `get_tax_system_for_location`: the mapped system of the lower-cased location, the UK system for unknown ones. */
  function TaxSystemForLocation(location: string): (system: string)
    ensures Lower(location) in LocationMapping ==> system == LocationMapping[Lower(location)]
    ensures Lower(location) !in LocationMapping ==> system == DefaultTaxSystem
  {
    if Lower(location) in LocationMapping then LocationMapping[Lower(location)] else DefaultTaxSystem
  }

  lemma LowerIdempotent(s: string)
    ensures Lower(Lower(s)) == Lower(s)
  {
    assert forall i :: 0 <= i < |s| ==> Lower(Lower(s))[i] == Lower(s)[i];
  }

  /** The lookup ignores case: any spelling of a location gives the system of its lower-case spelling. */
  lemma TaxSystemIgnoresCase(location: string)
    ensures TaxSystemForLocation(location) == TaxSystemForLocation(Lower(location))
    ensures TaxSystemForLocation("UK") == DefaultTaxSystem && TaxSystemForLocation("Dubai") == "tax_free"
  {
    LowerIdempotent(location);
    assert Lower("UK") == "uk";
    assert Lower("Dubai") == "dubai";
  }

  /** The legacy sections `_extract_legacy_tax_config` copies for the UK. */
  const LegacyTaxKeys: seq<string> := ["tax_bands", "tax_rates", "ni_bands", "ni_rates", "student_loan_plan2"]

  /** Copies the given sections of the legacy configuration; `Err(key)` names the first one missing, as the KeyError would. */
  function CopySections(legacy: Template, keys: seq<string>): (r: Result<Template, string>)
    ensures r.Ok? <==> forall k :: k in keys ==> k in legacy
    ensures r.Ok? ==> r.value.Keys == (set k | k in keys) && (forall j :: j in r.value ==> r.value[j] == legacy[j])
    ensures r.Err? ==> r.error in keys && r.error !in legacy
  {
    if keys == [] then Ok(map[])
    else if keys[0] !in legacy then Err(keys[0])
    else
      match CopySections(legacy, keys[1..])
      case Err(e) => Err(e)
      case Ok(m) => Ok(m[keys[0] := legacy[keys[0]]])
  }

  /** `_extract_legacy_tax_config`: for "uk" in any case the five legacy UK tax sections, otherwise a simplified marker. */
  function ExtractLegacyTaxConfig(legacy: Template, location: string): (r: Result<Template, string>)
    ensures Lower(location) != "uk" ==> r == Ok(map["tax_system" := Str("simplified"), "location" := Str(location)])
    ensures Lower(location) == "uk" && (forall k :: k in LegacyTaxKeys ==> k in legacy) ==>
      r.Ok? && r.value.Keys == (set k | k in LegacyTaxKeys) && (forall k :: k in r.value ==> r.value[k] == legacy[k])
    ensures Lower(location) == "uk" && (exists k :: k in LegacyTaxKeys && k !in legacy) ==> r.Err?
  {
    if Lower(location) == "uk" then CopySections(legacy, LegacyTaxKeys)
    else Ok(map["tax_system" := Str("simplified"), "location" := Str(location)])
  }

  /**
   * `SimpleConfigFallback.get_scenario_config`: the YAML scenario document when the name maps to an id whose file
   * loads to something truthy, else the whole legacy configuration. `scenarioFiles` stands for the scenario directory:
   * the parsed document of each id whose file exists and parses.
   */
  function GetScenarioConfig(legacy: Template, scenarioFiles: map<string, Value>, name: string): (config: Value)
    ensures (name in NameMapping && NameMapping[name] in scenarioFiles && Truthy(scenarioFiles[NameMapping[name]])) ==>
      config == scenarioFiles[NameMapping[name]]
    ensures !(name in NameMapping && NameMapping[name] in scenarioFiles && Truthy(scenarioFiles[NameMapping[name]])) ==>
      config == Dict(legacy)
  {
    match MapScenarioNameToYamlId(name)
    case Some(id) =>
      if id in scenarioFiles && Truthy(scenarioFiles[id]) then scenarioFiles[id] else Dict(legacy)
    case None => Dict(legacy)
  }

  /** Names without a YAML file, such as the legacy international names, always get the legacy configuration. */
  lemma UnmappedNamesUseLegacy(legacy: Template, scenarioFiles: map<string, Value>, name: string)
    requires name !in NameMapping || NameMapping[name] !in scenarioFiles
    ensures GetScenarioConfig(legacy, scenarioFiles, name) == Dict(legacy)
    ensures GetScenarioConfig(legacy, scenarioFiles, "Seattle_UK_Home") == Dict(legacy)
  {
    assert "Seattle_UK_Home" !in NameMapping;
  }

  /**
   * `SimpleConfigFallback.get_tax_config`: the YAML tax system of the location when it loads to something truthy, else the
   * legacy extraction. `taxFiles` stands for the tax system directories, keyed by tax system id.
   */
  function GetTaxConfig(legacy: Template, taxFiles: map<string, Value>, location: string): (r: Result<Value, string>)
    ensures var system := TaxSystemForLocation(location);
      system in taxFiles && Truthy(taxFiles[system]) ==> r == Ok(taxFiles[system])
    ensures var system := TaxSystemForLocation(location);
      !(system in taxFiles && Truthy(taxFiles[system])) ==>
        (r.Ok? <==> ExtractLegacyTaxConfig(legacy, location).Ok?)
        && (r.Ok? ==> r.value == Dict(ExtractLegacyTaxConfig(legacy, location).value))
  {
    var system := TaxSystemForLocation(location);
    if system in taxFiles && Truthy(taxFiles[system]) then Ok(taxFiles[system])
    else
      match ExtractLegacyTaxConfig(legacy, location)
      case Ok(m) => Ok(Dict(m))
      case Err(e) => Err(e)
  }
}
